=== FILE: README.md ===
# ctorm core in Dafny

ctorm is a small HTTP/1.x web framework written in C. An application
registers routes (a method and a path pattern, possibly with `*` wildcards
and `:name` parameters) and middleware. A thread pool serves each
accepted connection. For each connection, the request line and headers
are parsed into a request object, and the matching handlers fill in a
response. That response (status, headers, body) is then written back.

This project models that core, one Dafny module per C source file:

| module | source file | form |
|---|---|---|
| `Http` | `src/http.c`, `inc/http.h` | methods, versions, status codes and their descriptions (functions) |
| `Error`, `Errors` | `src/error.c`, `src/errors.c` | error numbers and their messages (functions) |
| `Util` / `PathMatchProps` | `src/util.c` | string helpers, digit counting, path joining, route matching (`path_matches`) |
| `Percent`, `Query`, `Url` | `src/enc/percent.c`, `src/enc/query.c`, `src/encoding/url.c` | percent decoding and `a=1&b=2` query parsing; `Url.GrowBuf` is the growing buffer |
| `Uri` | `src/uri.c` | the URI parser state machine, a `Uri` class over the parsed parts |
| `Table`, `Headers` | `src/table.c`, `src/headers.c` | the chained hash table (class `Table` over `Entry` nodes) and the header-specific wrappers |
| `Pair` | `src/pair.c` | the key/value linked list |
| `Pool` | `src/pool.c` | the work queue of the thread pool |
| `Config`, `App` | `src/config.c`, `src/app.c` | application configuration, route registration and route dispatch |
| `Req` | `src/req.c` | the request object: reading the request line from a connection, the headers, the body, the accessors |
| `ParseRequest` | `src/parse.c` (`parse_request`) | the byte-by-byte request state machine |
| `Parse` | `src/parse.c` (`parse_form`) | parsing an urlencoded form body |
| `Res` | `src/res.c` | the response object: headers with defaults, body, size, serialisation, redirects, sendfile |

C strings are modelled as `seq<char>`. A string is the content before its
first NUL. Mutable objects (`struct ctorm_req`, `struct ctorm_res`,
`ctorm_table_t`, pools, lists) are classes whose methods modify their
fields; fixed buffers are arrays. A connection is a `Req.Connection`
object holding the bytes the peer will send. A failing `malloc` is an
`allocOk` parameter where the source handles that failure. Each method is
proved against a specification function, and the lemmas state the
properties of those functions: round trips (query and form serialisation
against parsing, header set then get), the state a method leaves, and the
errors it reports.

## Model

| member | source | states |
|---|---|---|
| Util.StartsWith | src/util.c:13-22 | false when either pointer is NULL; otherwise true exactly when `pre` is a prefix of `str` |
| Util.EndsWith | src/util.c:24-35 | false when either pointer is NULL; otherwise true exactly when `suf` is a suffix of `str` |
| Util.Digits | src/util.c:61-67 | at least one digit; the magnitude (INT_MIN read as INT_MAX) is below 10^r and, for r > 1, at least 10^(r-1) |
| Util.Join | src/util.c:69-73 | the joined path is p1, one '/', then p2, with no byte lost or added |
| Util.StoLower | src/util.c:75-80 | dst holds the lower-cased copy of src followed by a NUL, and no upper-case letter |
| Util.Contains | src/util.c:82-87 | true exactly when the character occurs in the C string |
| Util.Validate | src/util.c:97-117 | true exactly when every character is a valid one, the last one also being allowed to equal `end` when `end` is not NUL |
| Util.ScanHexField | src/util.c:128 | what `sscanf("%02hhx")` stores: two hex digits give their byte value, the byte is below 256, and an empty string stores nothing |
| Util.ScanHexOneDigit | src/util.c:128 | one hex digit followed by a non-hex character is read alone |
| Util.ScanHexSkipsSpace | src/util.c:128 | leading white space is skipped before the field |
| Util.ScanHexSigned | src/util.c:128 | a sign takes one of the two field characters; after '-' the digit is negated modulo 256 |
| Util.ScanHexNoDigit | src/util.c:128 | a character that is neither white space, a hex digit nor a sign followed by one stores nothing |
| Util.ScanHex | src/util.c:128 | a complete hex pair gives its byte value; when `sscanf` stores nothing, `value` keeps the previous byte |
| Util.ScanHexAt | src/util.c:128 | the scan over the characters after the '%' in the buffer, up to its NUL, gives what `ScanHex` says |
| Util.UrlDecode | src/util.c:119-138 | the buffer afterwards holds the decoded string followed by a NUL, each '%' escape read as `sscanf` reads it and a failed scan repeating the previous byte |
| Util.DecodeAt | src/util.c:124-134 | one loop step consumes one, or for '%' three, characters and writes the decoded character in front of the rest |
| Util.Tokens | src/util.c:199-211 | the `strtok_r` tokens are the non-empty runs without the delimiter |
| Util.FirstFailing | src/util.c:213-225 | the first segment index whose comparison fails, every earlier one passing |
| Util.PathMatches | src/util.c:140-228 | the wildcard-and-slash counting loop and the comparison loop, over the `Count` and `Tokens` functions, compute `PathMatchSpec`, including the NULL-dereference outcome |
| PathMatchProps.SlashPathTokens | src/util.c:199-211 | splitting a path built from segments at '/' gives back the segments |
| PathMatchProps.PathMatchBySegments | src/util.c:140-228 | on wildcard routes: a match exactly when the segment counts agree and every route segment is a '*' segment or equals the path segment, trailing slashes ignored |
| PathMatchProps.SegmentsSpec | src/util.c:189-227 | the same decision in terms of the segment lists |
| PathMatchProps.PathMatchEmptySegmentCrash | src/util.c:203-220 | a wildcard route and a path each followed by "//" make the comparison loop dereference a missing token |
| PathMatchProps.PathMatchesFixed | src/util.c:213-227 | without the NULL dereference, the result agrees with the specification whenever the specification does not crash |
| PathMatchProps.PathMatchesFixedEmptySegment | src/util.c:213-227 | the corrected loop reports a match on the input that crashes the original |
| Error.Lookup | src/error.c:57-62 | the walk finds a text exactly when some entry has the code, and the text it finds belongs to an entry with that code |
| Error.ErrorFrom | src/error.c:56-64 | the table text for a listed code (None, meaning strerror, exactly when no entry has that code) |
| Error.LookupAt | src/error.c:59-61 | the first entry with the code is the one returned |
| Error.ErrorFromAllocFail | src/error.c:42 | CTORM_ERR_ALLOC_FAIL maps to "memory allocation failed" |
| Error.DescCodesInRange | src/error.c:11-54 | every described code lies in the ctorm_error_t range |
| Error.ErrorFromLibc | src/error.c:56-64 | codes below that range fall through to strerror |
| Errors.GetErrorCode | src/errors.c:33-39 | the description of a listed code, None (strerror) exactly when unlisted |
| Errors.GetError | src/errors.c:41-43 | the description of the current errno |
| Errors.GetErrorBadPort | src/errors.c:8-31 | the table has 22 entries and BadPort maps to its fixed text |
| Errors.DescCodesInRange | src/errors.c:8-31 | the table covers only the codes up to BadMaxConnCount |
| Errors.GetErrorUnlisted | src/errors.c:33-39 | later codes fall through to strerror |
| Config.New | src/config.c:4-15 | a NULL config is untouched; otherwise every field takes its default (1000, false, true, true, true, 10, 30) |
| Pair.Add | src/pair.c:9-27 | EINVAL for a NULL head or key, CTORM_ERR_ALLOC_FAIL when allocation fails, the list unchanged on error; otherwise the new pair becomes the head |
| Pair.Find | src/pair.c:29-42 | EINVAL for an empty list or a NULL key; otherwise the first node with an equal key, or EFAULT when none |
| Pair.Lookup | src/pair.c:35-38 | None exactly when no node has the key; otherwise the value of the first such node |
| Pair.FindAfterAdd | src/pair.c:9-42 | after an add, finding the same key returns the new head: the newest pair wins |
| Pair.LookupAfterAddOther | src/pair.c:9-42 | an add does not change what another key finds |
| Pair.Free | src/pair.c:44-51 | every node is freed once, in list order |
| Pool.Work.constructor | src/pool.c:7-15 | a new node holds func and arg and links to nothing |
| Pool.Pool.constructor | src/pool.c:67-92 | the queue starts empty and not stopped |
| Pool.Pool.Get | src/pool.c:21-31 | NULL on an empty queue; otherwise the head is unlinked and returned, `last` cleared when it was the only work |
| Pool.Pool.Add | src/pool.c:94-115 | the work is appended at the tail of the queue |
| Pool.Pool.Stop | src/pool.c:117-135 | every queued work is freed once, in order, and `stop` is set |
| Pool.TakeFront | src/pool.c:21-31 | taking n works returns the first n of the queue, in order |
| Pool.PutAll | src/pool.c:94-115 | adding works appends them |
| Pool.Fifo | src/pool.c:21-115 | works come out of the queue in the order they were added |
| Pool.Step | src/pool.c:7-31 | one Put (`pool_work` then `pool_add`) or Take (`pool_get`) on the pool changes its queue and returns what the value-level queue does |
| Pool.Apply | src/pool.c:7-115 | a sequence of Puts and Takes on the pool object returns exactly what `Run` gives on the queue it held |
| Pool.FifoOnPool | src/pool.c:7-115 | on the pool object, works added to an empty pool are got back in the order they went in |
| Pool.AddTwiceGetTwice | src/pool.c:21-115 | on the pool object, two works added to an empty queue are got back in order |
| Http.Number | inc/http.h:15-150 | every method's enum value lies between 1 and the number of methods |
| Http.FromNumber | inc/http.h:15-150 | a value names a method exactly when it is in that range, and names the method whose value it is |
| Http.Descriptor | inc/http.h:213-223 | the descriptor macros read row `method - 1` of the method table |
| Http.NameFits | inc/http.h:185 | every method name is non-empty and at most CTORM_HTTP_METHOD_MAX long, reaching it only for CONNECT and OPTIONS |
| Http.NamesDistinct | inc/http.h:213 | different methods have different names |
| Http.BodyRules | inc/http.h:25-147 | the request and response body rules documented for each method, a required body always being allowed |
| Http.VersionText | inc/http.h:184 | every version's text is CTORM_HTTP_VERSION_LEN long and starts with "HTTP/" |
| Http.ErrorIsValid | inc/http.h:186-201 | an error code is a valid code, and the valid non-error codes are exactly 100 to 399 |
| Http.MapCodesAreIndices | src/http.c:7-15 | the method map has six entries and each entry's code is its index |
| Http.MapBodyFlags | src/http.c:9-14 | the body flag is set exactly for POST, PUT and DELETE |
| Http.MethodIdFromSpec | src/http.c:18-21 | the loop from entry i finds the first later entry with the name, or -1 |
| Http.MethodIdSpec | src/http.c:17-22 | -1 exactly for a name no entry has; otherwise the code of an entry with that name |
| Http.MethodIdKnown | src/http.c:17-22 | "POST" and "OPTIONS" are found with their codes |
| Http.MethodIdUnknown | src/http.c:17-22 | the comparison is exact: "get" and "TRACE" are unknown |
| Http.MethodNamesPlain | src/http.c:9-14 | no method name holds a space or a NUL |
| Http.HasBody | src/http.c:9-14 | the body flag of the entry with the given code, false outside the map |
| Http.VersionGet | src/parse.c:163-199 | a version name is accepted exactly when it is one of the supported versions, and is returned unchanged |
| Http.GenerationsAgree | src/http.c:8-15 | the two method numberings agree on names but differ from OPTIONS on |
| Percent.PercentDecoded | src/enc/percent.c:19-34 | the decoded text is never longer than its input |
| Percent.DecodeStep | src/enc/percent.c:20-33 | one step reads at least one character and never past the end; a '%' with two more characters is read as `sscanf("%02hhx")` reads it |
| Percent.PercentDecode | src/enc/percent.c:8-38 | NULL gives 0; otherwise the buffer holds the decoding of its string followed by a NUL, and the decoded length is returned |
| Percent.DecodeInPlace | src/enc/percent.c:15-37 | the in-place loop writes the decoding and terminates it |
| Percent.DecodeLoop | src/enc/percent.c:19-34 | the loop over the string writes its decoding in front of the unread part |
| Percent.DecodeOne | src/enc/percent.c:19-34 | one iteration keeps the loop invariant: written prefix plus decoding of the rest is the whole decoding |
| Percent.DecodedSuffix | src/enc/percent.c:19-34 | decoding from index i is decoding the suffix from i |
| Percent.PlainDecodesToItself | src/enc/percent.c:33 | a string without '%' and '+' decodes to itself |
| Percent.UrlDecodeAgrees | src/util.c:119-138 | the two generations' decoders agree on strings both handle |
| Percent.DecodeEncode | src/enc/percent.c:19-34 | decoding undoes form encoding |
| Percent.DecodeEncodedChar | src/enc/percent.c:20-31 | an encoded character is read back in one step |
| Query.Parse | src/enc/query.c:16-115 | NULL gives NULL; otherwise the loop over the first `size` bytes (all of them when 0) yields the outcome of `ParseSpec`: the pair list, the key or value too-large error, or the empty-query error |
| Query.Run | src/enc/query.c:30-102 | a run never removes a pair already built |
| Query.Get | src/enc/query.c:117-121 | NULL for a NULL name or an empty query; otherwise the value of the first pair whose key equals the name |
| Query.LookupFirst | src/enc/query.c:117-121 | the first pair with the key is the one whose value is returned |
| Query.RunAppend | src/enc/query.c:30-102 | running over a + b is running over a, then over b from where it stopped |
| Query.KeyChars | src/enc/query.c:64-67 | in key mode, characters without '=' are appended to the key buffer |
| Query.ValueChars | src/enc/query.c:64-67 | in value mode, characters without '&' are appended to the value buffer |
| Query.EncodeClean | src/enc/query.c:54-101 | form encoding writes no '=', '&' or NUL and keeps non-empty strings non-empty |
| Query.StoredEncode | src/enc/query.c:56 | a stored encoded string reads back as the original |
| Query.KeyThenEquals | src/enc/query.c:54-62 | a key then '=' adds a head pair with the decoded key and a NULL value |
| Query.ValueThenAmp | src/enc/query.c:90-101 | a value then '&' stores the decoded value in the head pair and returns to key mode |
| Query.LastValueChar | src/enc/query.c:78-101 | the last input character is appended and closes the value |
| Query.ValueToEnd | src/enc/query.c:64-101 | a value running to the end of the input is stored whole |
| Query.LastField | src/enc/query.c:30-102 | one final field adds exactly its pair |
| Query.InnerField | src/enc/query.c:30-102 | a field followed by '&' adds its pair and continues in key mode |
| Query.RunSerialized | src/enc/query.c:30-102 | the loop adds one pair per field, newest first |
| Query.ParseSerialized | src/enc/query.c:16-115 | round trip: a query written from fields with non-empty keys and values parses back to exactly those pairs, newest first |
| Query.LongKeyFails | src/enc/query.c:32-35 | more than 256 characters before any '=' fail with the key-too-large error |
| Query.NoEqualsNoQuery | src/enc/query.c:106-107 | input without '=' never yields a pair: the key error or the empty-query error |
| Url.GrowBuf.Grow | src/encoding/url.c:60-61 | `realloc` to twice the size keeps every byte of the old block |
| Url.GrowBuf.Put | src/encoding/url.c:59-71 | one stored byte, a NUL included: the buffer doubles when full, then the byte and a NUL are written at the index, and the buffer reads as the C string of the bytes written |
| Url.GrowBuf.Decode | src/encoding/url.c:80-81 | `urldecode` replaces the buffer's C string, which ends at the first stored NUL, by its decoding |
| Url.Parse | src/encoding/url.c:22-87 | NULL gives NULL; a failed malloc gives AllocFailed; otherwise one node per pair, every node pointing at the two shared buffers; the `len` bytes may hold NULs, which are stored like other bytes, and a `len` of 0 reads up to the first NUL |
| Url.AsWritten | src/encoding/url.c:76-86 | after parsing every node shows the C strings of the final key and value buffers |
| Url.StoredNulCutsKey | src/encoding/url.c:62-63 | a NUL among the `len` bytes is stored in the key buffer, and the node's key ends before it: "a", NUL, "b=1" gives the pair ("a", "1") |
| Url.RunNulKey | src/encoding/url.c:49-84 | the loop over "a", NUL, "b=1" stores the three key bytes, switches at '=' and closes one pair with key "a" and value "1" |
| Url.Loop | src/encoding/url.c:49-84 | the loop keeps the buffers equal to the abstract run and links one node per closed pair |
| Url.Turn | src/encoding/url.c:49-84 | one turn of the loop preserves that invariant |
| Url.Feed | src/encoding/url.c:50-83 | one loop body: the abstract step, a node linked exactly when a pair closes |
| Url.Advance | src/encoding/url.c:50-74 | the mode switch on '=' or the store of the character |
| Url.Store | src/encoding/url.c:59-71 | the character goes into the buffer of the current mode only |
| Url.CloseBuffers | src/encoding/url.c:80-81 | both buffers are decoded in place |
| Url.Get | src/encoding/url.c:89-97 | NULL exactly when no node's key equals the key; otherwise the value of such a node |
| Url.Free | src/encoding/url.c:99-109 | each node's value then key buffer is freed, node by node |
| Url.FreeTwice | src/encoding/url.c:99-109 | with two nodes the same value buffer is freed twice |
| Url.Fixed | src/encoding/url.c:76-83 | with a copy per node, one pair per closed field |
| Url.SharedBuffersLoseKeys | src/encoding/url.c:76-83 | "a=1&b=2": both nodes read the second pair, so the first key is not found; the copying parser finds both |
| Url.FixedSerialized | src/encoding/url.c:22-87 | round trip of the copying parser: a form written from fields parses back to those fields, newest first |
| Url.AsWrittenSerialized | src/encoding/url.c:22-87 | as written, one node per field, all showing the last field |
| Url.DecodedEncode | src/util.c:119-138 | a buffer holding an encoded string decodes back to it |
| Query.Free | src/enc/query.c:123-133 | the key and then the value of every pair are freed, in list order, and then every node of the list |
| Table.BasicHasher | src/table.c:12-19 | the loop computes the byte sum wrapped to 64 bits |
| Table.BasicHashSwap | src/table.c:12-19 | the default hash ignores order: swapping two parts of a key keeps its bucket |
| Table.Strcmp | src/table.c:23 | the default comparer gives 0 exactly for equal strings |
| Table.FirstMatch | src/table.c:61-64 | the first node of a chain the comparer finds equal to the key; None exactly when there is none |
| Table.Entry.constructor | src/table.c:69-92 | the zeroed cursor |
| Table.Table.Bucket | src/table.c:27-28 | a key's bucket index lies within the table |
| Table.Table.constructor | src/table.c:21-25 | every bucket empty; a NULL comparer becomes strcmp and a NULL hasher the basic hasher |
| Table.Table.Add | src/table.c:31-55 | a failed malloc leaves the table as it was; otherwise the node goes to the tail of its key's bucket and no other bucket changes |
| Table.Table.Get | src/table.c:57-67 | the position of the first node of the key's bucket the comparer finds equal |
| Table.Table.Next | src/table.c:69-92 | false for a NULL cursor; otherwise the cursor moves to the next node in enumeration order, or false once every bucket is done, leaving the cursor's key and value as they were |
| Table.Table.Locate | src/table.c:73-86 | the walk finds the next node of the chain, else the head of the next non-empty bucket |
| Table.Table.Entries | src/table.c:69-92 | a `table_next` loop yields every node once, buckets in order, each chain from its head |
| Table.Table.Del | src/table.c:119-140 | nothing for an empty bucket; otherwise the first equal node is unlinked, the rest of the chain keeping its order |
| Table.Table.Free | src/table.c:114-117 | every node is freed, and the key and value of each owning node |
| Table.FreeChain | src/table.c:94-112 | one chain's nodes are freed from its head, with the strings they own |
| Table.OwnedBorrowed | src/table.c:94-101 | nodes that own nothing release no string |
| Table.FirstMatchAt | src/table.c:61-64 | a walk stopping at the first equal node returns `FirstMatch` |
| Table.AddThenGet | src/table.c:31-67 | after a successful add, the key is found |
| Table.AppendedMatch | src/table.c:44-52 | a node appended to a chain without an equal node is the first match of its key |
| Table.AppendedOther | src/table.c:44-52 | an appended node the comparer tells apart leaves the key's first match unchanged |
| Table.AddOtherBucket | src/table.c:31-67 | adding to one bucket leaves lookups in every other bucket unchanged |
| Table.Unlinked | src/table.c:134-137 | unlinking node i keeps earlier nodes in place and moves later ones down by one |
| Table.DelWalk | src/table.c:126-132 | the walk stops at the first equal node, or past the last one |
| Table.DelWalkMiss | src/table.c:126-137 | the walk dereferences NULL exactly when the bucket is non-empty and holds no equal key |
| Table.DelCollidingAbsentKey | src/table.c:119-140 | "ab" and "ba" share a bucket under the default hasher; deleting "ba" from a table holding only "ab" dereferences NULL |
| Table.DelThenGetNext | src/table.c:119-140 | after deleting the first equal node, the next equal node is found one place earlier |
| Table.DelThenGetNone | src/table.c:119-140 | after deleting the only equal node, the key is no longer found |
| Headers.Fold | src/headers.c:6 | the folded byte has bit 5 set and is the byte or the byte plus 32 |
| Headers.HeadersCmp | src/headers.c:8-17 | only 0 or -1, and 0 exactly when both names have the same length and fold equal byte by byte |
| Headers.CompareNames | src/headers.c:8-17 | the C loop computes `HeadersCmp` |
| Headers.HashName | src/headers.c:19-26 | the loop computes the folded byte sum wrapped to 64 bits |
| Headers.SameBucket | src/headers.c:8-26 | names the comparer finds equal hash to the same bucket |
| Headers.FoldIgnoresCase | src/headers.c:8-17 | "Host" equals "hOST"; a prefix is not equal |
| Headers.FoldIsNotCaseFolding | src/headers.c:6 | OR-ing with 32 also equates "@" with "`" and "[" with "{" |
| Headers.Init | include/headers.h:11 | a table with every bucket empty, using the header comparer and hasher |
| Headers.SetChain | src/headers.c:35-48 | a new node at the tail exactly when no node matched; otherwise the chain keeps its length |
| Headers.Set | src/headers.c:28-49 | a failed allocation changes nothing; otherwise only the name's bucket changes, to `SetChain` |
| Headers.Get | src/headers.c:51-58 | the value of the first matching node in the name's bucket, or NULL |
| Headers.SetThenGet | src/headers.c:28-58 | after a set, every name equal to it (any case variant) reads the new value |
| Headers.SetThenGetOther | src/headers.c:28-58 | a set leaves every other name's value unchanged |
| Headers.SetTwice | src/headers.c:35-48 | setting a name twice adds one node, and the second value wins |
| Uri.Scan | src/uri.c:77-92 | a component loop stops at the first stop character or the end, every character before it accepted and the buffer within its limit; otherwise the character error or the length error |
| Uri.HostScan | src/uri.c:181-209 | the host loop stops at the end, a '/' or a ':' outside brackets, every character before it a host character and the host within 255 characters |
| Uri.DigitRun | src/uri.c:233 | the number of leading decimal digits `atoi` reads |
| Uri.HostStep | src/uri.c:172-245 | on success the text left is a suffix of the text given |
| Uri.AuthStep | src/uri.c:121-170 | on success the text left is a suffix of the authority given |
| Uri.UnreservedAccepted | src/uri.c:23-48 | letters, digits and "-._~" are accepted by every component check |
| Uri.ScanTo | src/uri.c:77-92 | a loop reads exactly to its first stop character when everything before it is accepted and fits |
| Uri.ScanLong | src/uri.c:85-88 | too many accepted characters before any stop fail with the length error |
| Uri.HostScanPlain | src/uri.c:181-209 | a plain host is read up to the end, a '/' or a ':' |
| Uri.DecodedPlain | src/uri.c:212 | an unreserved component is stored as written |
| Uri.AtoiDec | src/uri.c:233 | `atoi` reads back the decimal form of a number |
| Uri.HostAndPort | src/uri.c:172-239 | "host:port" with a port in 1..65535: both stored, the rest of the text returned |
| Uri.PortOutOfRange | src/uri.c:233-244 | a port outside 1..65535 fails with CTORM_ERR_BAD_PORT and clears the host and the port |
| Uri.PortTooLong | src/uri.c:224-228 | more than five port characters fail with CTORM_ERR_PORT_TOO_LARGE |
| Uri.PathPlain | src/uri.c:247-284 | a plain path without '?' or '#' is stored and nothing is left |
| Uri.AuthorityPlain | src/uri.c:121-170 | an authority without '@' is read by the host step alone |
| Uri.HierAuthority | src/uri.c:105-112 | after "//", a host, a port and a plain path fill exactly those parts |
| Uri.ParseAuthority | src/uri.c:63-119 | round trip: "scheme://host:port/path" with unreserved parts parses into exactly those parts |
| Uri.UserinfoBreaksHost | src/uri.c:137-163 | as written, any authority with userinfo fails: the host loop starts on the '@' |
| Uri.UserinfoExample | src/uri.c:137-163 | "user@host" fails with CTORM_ERR_BAD_HOST |
| Uri.UserinfoFixed | src/uri.c:137-163 | with the '@' skipped, "user@host" stores both parts |
| Uri.FragmentRejected | src/uri.c:308-326 | as written, the fragment loop starts on the '#': a path that parses holds no '#' |
| Uri.FragmentExample | src/uri.c:308-326 | "/a#top" fails |
| Uri.FragmentStored | src/uri.c:311-330 | with the '#' skipped, the fragment after it is stored |
| Uri.FragmentFixed | src/uri.c:247-331 | with the fix, "/path#frag" stores the path and the fragment |
| Uri.PathThenFragment | src/uri.c:283-311 | with the fix, a path ended by '#' goes straight to the fragment, with no query |
| Uri.ReadComponent | src/uri.c:77-92 | the imperative component loop computes `Scan` |
| Uri.ReadHost | src/uri.c:181-209 | the imperative host loop computes `HostScan` |
| Uri.FindUserinfo | src/uri.c:129-132 | the first loop finds whether an '@' comes before the first '/' |
| Uri.Uri.Free | src/uri.c:50-61 | every component is released and the structure zeroed |
| Uri.Uri.ParseHost | src/uri.c:172-245 | the structure and the result follow `HostStep` |
| Uri.Uri.ParseAuth | src/uri.c:121-170 | the structure and the result follow `AuthStep` |
| Uri.Uri.ParsePath | src/uri.c:247-341 | the structure and the result follow `PathStep` |
| Uri.Uri.ParseQuery | src/uri.c:286-306 | the query loop follows `QueryStep` |
| Uri.Uri.ParseFragment | src/uri.c:308-331 | the fragment loop follows `FragmentStep` |
| Uri.Uri.ParseHier | src/uri.c:105-113 | the hier-part follows `HierStep` |
| Uri.Uri.Parse | src/uri.c:63-119 | a non-letter first character fails at once; otherwise the structure and result follow `ParseStep`, a failure zeroing the structure |
| App.NewError | src/app.c:59-110 | the errno of the first failing check in order: negative TCP timeout, non-positive connection count, non-positive pool size, pool failure, mutex failure; None when all pass |
| App.DefaultsAccepted | src/app.c:65-101 | the configuration defaults pass every check |
| App.App.constructor | src/app.c:59-73 | no routes, no static directory, the default handler as catch-all |
| App.Static | src/app.c:188-202 | a NULL app or a path not starting with '/' is refused and changes nothing; otherwise path and directory are stored |
| App.All | src/app.c:240-242 | the catch-all route becomes the handler and nothing else changes |
| App.Add | src/app.c:204-238 | a NULL app, a bad path or a failed malloc are refused and change nothing; otherwise the route is appended to the middleware or route list, the other list unchanged |
| App.PathCountNames | src/app.c:244-252 | the loop counts the names: one plus the slashes followed by a character |
| App.NextName | src/app.c:254-259 | the index of the first '/' from i, or the end |
| App.NameHasNoSlash | src/app.c:254-259 | a name holds no '/' |
| App.PathNextName | src/app.c:254-259 | the loop computes `NextName` |
| App.NamesShape | src/app.c:244-289 | a path splits into exactly as many names as it counts, none holding a '/' |
| App.RouteMatch | src/app.c:263-323 | a match requires an equal method unless the route is an "all" route, and equal name counts unless both stripped paths are empty |
| App.MatchAllocFailure | src/app.c:289-320 | a failed capture allocation only turns a name match into a mismatch that sets AllocFailed and leaves no parameters; AllocFailed is the only errno the names set, and none is set while allocation succeeds |
| App.RouteAllocFailure | src/app.c:263-323 | the same for a whole route: a route that matches only while allocation succeeds fails with AllocFailed and no parameters; a match despite failing allocation is the match with allocation succeeding |
| App.MatchKeepsParams | src/app.c:289-320 | matching only adds captures in front of the given parameters; a mismatch or a failed capture allocation leaves none |
| App.RouteMatchKeepsParams | src/app.c:263-323 | a route match keeps the given parameters behind its captures; a failed match leaves them or, once names were compared, none |
| App.RouteMatchIgnoresParams | src/app.c:263-323 | whether a route matches does not depend on the parameters gathered before |
| App.RouteMatchesOwnPath | src/app.c:263-323 | a route matches a request with its own method and its own path while allocation succeeds |
| App.MatchLiteral | src/app.c:309-311 | names without wildcard or capture match exactly equal names and capture nothing |
| App.MatchWildcards | src/app.c:291-292 | a lone "*" name matches any name |
| App.StarMatchesOneName | src/app.c:263-323 | the route "/*" matches any one-name path |
| App.CaptureParam | src/app.c:295-320 | "/a/:key" matches "/a/v" and puts the pair (key, v) in front of the parameters; when the capture's allocation fails the match fails, leaves no parameters and sets AllocFailed |
| App.TwoNames | src/app.c:244-259 | "a/b" has the two names a and b |
| App.NameTests | src/app.c:291-295 | the tests on a name's first characters tell a lone "*" and a ":key" capture |
| App.RouteMatches | src/app.c:263-323 | the result, the new parameter list and the errno are those of `RouteMatch` and `RouteErrno`; method, path and cancel flag unchanged |
| App.MatchLoop | src/app.c:289-312 | the name loop computes `MatchNames` on the two name lists and sets the errno `MatchErrno` gives |
| App.MatchTurn | src/app.c:289-312 | one turn of the name loop keeps its invariant |
| App.MatchName | src/app.c:290-311 | one name comparison gives the outcome `NameResult` gives; a failed `strdup` of a capture fails the name, clears the parameters and sets AllocFailed |
| App.MiddlewaresShape | src/app.c:329-331 | each middleware runs at most once, in order; the loop stops at the first cancel |
| App.FirstRoute | src/app.c:337-339 | the first route that matches, or None when no route matches |
| App.StaticPrefix | src/app.c:353-357 | the static path ends with '/' |
| App.StaticStep | src/app.c:342-394 | only GET under the static path plus '/', with a non-empty name not ending in '/' and no '\' or ".." in the joined path, reaches the file; a file that cannot be sent gives 404 and the catch-all |
| App.DispatchRunsOneRoute | src/app.c:325-394 | a cancelled request runs no route; otherwise at most one handler runs after the middlewares, and a route that runs is the first one that matches |
| App.StaticRejectsTraversal | src/app.c:372-375 | "/static/../etc/passwd" falls back to the catch-all route |
| App.StaticServes | src/app.c:371-385 | a GET for a plain file under the static path is sent from the static directory |
| App.RouteRequest | src/app.c:325-394 | the handlers run, the cancel flag, the parameters and the response code are those of `Dispatch` |
| App.RunMiddlewares | src/app.c:329-331 | the middleware loop follows `Middlewares` |
| App.FindRoute | src/app.c:337-339 | the route loop finds `FirstRoute` |
| Req.ScanStops | src/req.c:37-62 | the receive loop stops at the first byte that reaches a non-zero limit, is the delimiter or fails the predicate, or at the end of the input; every byte before it passes, and the outcome names which of the four it was |
| Req.Recv | src/req.c:24-74 | the bytes taken before the stop hold no delimiter, all pass the predicate and stay within a non-zero limit; the input ended exactly when all of it was taken, and the limit was hit exactly when it was non-zero and reached |
| Req.RecvToken | src/req.c:47-56 | a token followed by the delimiter is received up to that delimiter exactly when it is free of the delimiter, passes the predicate and is shorter than a non-zero limit |
| Req.RecvTooLong | src/req.c:38-39 | a token at least as long as a non-zero limit is cut off at the limit |
| Req.GrownSize | src/req.c:32-42 | the allocated buffer is always a non-zero multiple of RECV_BUF_SIZE (20), large enough for the bytes stored, and never a whole RECV_BUF_SIZE larger than needed |
| Req.GrownStep | src/req.c:41-42 | storing the byte at index i grows the buffer by RECV_BUF_SIZE exactly when i has reached its size |
| Req.Grow | src/req.c:42 | `realloc` yields a fresh block of the new size holding the old bytes, and the old block is no longer live |
| Req.Store | src/req.c:41-45 | after storing s[indx] the buffer holds s up to indx; a caller's buffer stays the same, and an allocated one is the old one or a fresh one sized GrownSize(indx + 1) |
| Req.RecvTurn | src/req.c:38-61 | one pass of the loop keeps the buffer's shape, frees only a block it replaced, and either stops or advances by one with the scan's outcome unchanged |
| Req.RecvLoop | src/req.c:37-62 | the loop consumes exactly the bytes the scan uses, ends at the scan's stop index, and leaves the buffer holding what was written |
| Req.RecvUntil | src/req.c:24-74 | NULL request: false, nothing changed. Otherwise: true exactly when the scan found the delimiter; `*size` becomes its index plus one on success and 0 on failure; the bytes before it are stored with a NUL over the delimiter; a buffer the call allocated is fresh, and stays live only on success |
| Req.PathChar | src/req.c:82-84 | '\r' is a path byte; any other byte is one exactly when the path-character set holds it |
| Req.HeaderChar | src/req.c:78-80 | '\r' is a header byte; any other byte is one exactly when the header-character set holds it |
| Req.Request.constructor | src/req.c:86-98 | an empty header table, headers not received, no queries, body size -1, not cancelled, NULL version, encoded path and path |
| Req.Request.Free | src/req.c:100-113 | afterwards exactly the encoded path and the path are no longer live, an aliased path freed once |
| Req.FreeBlock | src/req.c:105-110 | `free` removes exactly the given block from the live ones, and NULL removes nothing |
| Req.Request.ReadMethod | src/req.c:120-131 | the method is read up to ' ' with method_max + 1 as the limit; the method code is set from the name read; the step succeeds exactly when the read did and the name is known |
| Req.Request.ReadPathAsWritten | src/req.c:133-139 | as written: on a failed read the path buffer has been freed and `encpath` still points to it |
| Req.Request.ReadPath | src/req.c:133-139 | the path is read up to ' ' with path_max + 1 as the limit and only path bytes; on success `encpath` is a fresh block holding the path read |
| Req.Request.ReadVersion | src/req.c:141-154 | the version is read up to '\n' with version_len + 2 as the limit, a trailing '\r' cut off, and looked up; the step succeeds exactly when the read did and the version is known |
| Req.TruncateBuf | src/req.c:149 | the NUL-terminated text left in the buffer is the token without a trailing '\r' |
| Req.Dup | src/req.c:164 | `strdup` yields a fresh block holding the text up to its first NUL, one byte longer than the text |
| Req.Request.SplitQuery | src/req.c:156-181 | a path without '?' is aliased; otherwise the path becomes a fresh copy of the first '?'-token (the alias stays when there is none) and the second token, when there is one, is kept in `queries` as the text handed to `enc_url_parse`, whose parsing is `Url.Parse`; nothing else is left live |
| Req.Request.StartVersion | src/req.c:141-181 | succeeds exactly when VersionStage reaches Started, using its bytes and setting its version; on success the split has been applied |
| Req.Request.StartPath | src/req.c:133-181 | succeeds exactly when PathStage reaches Started, using its bytes; `encpath` is set exactly when the path was read |
| Req.Request.Start | src/req.c:115-182 | the result, the bytes used, the method, the encoded path and the version are those StartSpec gives for the bytes the connection had; on success the path and queries are the split of the encoded path |
| Req.PathStage | src/req.c:133-139 | what follows the method keeps the method code found |
| Req.VersionStage | src/req.c:141-154 | what follows the path keeps the method code found |
| Req.VersionAccepted | src/req.c:141-154 | a known version followed by CR LF reaches Started with that version, using its bytes and the CR LF |
| Req.PathAccepted | src/req.c:133-139 | a path of path bytes shorter than the limit and followed by ' ' becomes the encoded path, and reading goes on after the ' ' |
| Req.MethodAccepted | src/req.c:120-131 | a known method name shorter than the limit and followed by ' ' is taken with its code, and reading goes on after the ' ' |
| Req.MethodRejected | src/req.c:128-131 | an unknown method name followed by ' ' stops the request with UnknownMethod after the ' ' |
| Req.PathTooLong | src/req.c:134-139 | a path longer than path_max fails at the limit |
| Req.LineAccepted | src/req.c:115-154 | a known method, a path and a known version separated by single spaces and ended by CR LF start the request with exactly those three, using exactly the line's bytes |
| Req.TokensPlain | src/req.c:166-171 | a character absent from a string is absent from each of its `strtok_r` tokens |
| Req.SplitPlain | src/req.c:159-162 | a path without '?' is aliased and has no query |
| Req.SplitTokens | src/req.c:164-177 | on a NUL-free string holding '?', the split takes the first two '?'-tokens as path and query |
| Req.TwoTokens | src/req.c:166-171 | for a path, '?', a query and then nothing or another '?', the first two tokens are the path and the query |
| Req.SplitQueryBack | src/req.c:156-181 | a path and a query joined by '?' split back into the same path and query |
| Req.SplitDropsSecondQuery | src/req.c:171-177 | a second '?' and what follows it are dropped from the query |
| Req.SplitLeadingMark | src/req.c:166-174 | an encoded path starting with '?' has its query taken as the path, and no query |
| Req.Atol | src/req.c:352 | the value always fits in a signed 64-bit integer |
| Req.ContentSizeDecimal | src/req.c:336-356 | a POST, PUT or DELETE whose content-length is the decimal text of n has a body of n bytes |
| Req.ContentSizeNegative | src/req.c:352-353 | a negative content-length counts as a body of 0 bytes |
| Req.Request.BodySize | src/req.c:336-356 | a known size (not negative) is kept; otherwise the size becomes and is returned as 0 without a body rule or a content-length, else the content-length clamped at 0 |
| Req.Asked | src/req.c:362-363 | a call asks for its size, but never more than the body left, and asks for one of the two |
| Req.Requests | src/req.c:358-370 | successive calls produce one amount per call |
| Req.RequestsTotal | src/req.c:358-370 | whatever sizes the caller asks for, the calls together receive the smaller of the body size and the total asked, so no call reads past the body |
| Req.Request.Body | src/req.c:358-370 | the amount asked is the size capped at the body left; the body left shrinks by it; that many bytes (or what the connection still has) are received into the buffer and the rest of the buffer is unchanged |
| Req.ReceiveAll | src/req.c:369 | `recv` with MSG_WAITALL receives the requested bytes or what the connection still has, into the start of the buffer, leaving the rest alone |
| Req.DanglingPath | src/req.c:100-139 | for "GET /" followed by the end of input, the source as written leaves `encpath` pointing at a freed block, so `req_free` would free it twice |
| Parse.FormSpec | src/parse.c:21-76 | the result is false exactly for NULL or empty data, and then no pair is added |
| Parse.FormSpecSerialized | src/parse.c:21-76 | round trip: form data written from percent-encoded fields with non-empty keys and values gives true and exactly those fields, decoded, in the order written |
| Parse.FormKeyOnly | src/parse.c:66-67 | data without '=' is a key that never gets a value: the result is true and no pair is added |
| Parse.FormRunSerialized | src/parse.c:35-64 | over written fields the loop ends in value mode on the last field, and closing that pair yields every field's pair in order after those already there |
| Parse.FormRunStep | src/parse.c:35-64 | running the loop from index i is one step on s[i], then the loop from i + 1 |
| Parse.FormKeyChars | src/parse.c:55-63 | in key mode every character other than '=' is appended to the key and advances the index |
| Parse.FormValueChars | src/parse.c:55-63 | in value mode every character other than '&' is appended to the value and advances the index |
| Parse.FormKey | src/parse.c:36-40 | a key followed by '=' leaves the key buffer holding the key, in value mode at index 0 |
| Parse.FormValue | src/parse.c:55-63 | a value written from index 0 leaves the value buffer holding exactly that value |
| Parse.FormCloseField | src/parse.c:42-53 | closing the buffers of an encoded field decodes both and appends exactly the field's key and value |
| Parse.FormAmp | src/parse.c:42-53 | '&' in value mode closes the pair and the loop goes on from key mode |
| Parse.FormFieldText | src/parse.c:35-64 | an encoded field read from key mode leaves the encoded key and value in the buffers, in value mode |
| Parse.FormLastField | src/parse.c:66-75 | one field at the end of the data is closed after the loop into exactly its pair |
| Parse.FormInnerField | src/parse.c:42-53 | one field followed by '&' is closed into its pair and the loop returns to key mode |
| Parse.FormFieldsTail | src/parse.c:35-64 | the loop over several fields is the first field's pair, then the loop over the others |
| Parse.FormSpecValue | src/parse.c:66-75 | data that ends in value mode gives true and the pairs that closing the last pair leaves |
| Parse.SerializedPlain | src/parse.c:25 | form data written from fields holds no NUL, so `strlen` sees all of it |
| Parse.Dup | src/parse.c:49-50 | `strdup` copies the C string the buffer holds |
| Parse.DecodeBuffer | src/parse.c:46-47 | after `urldecode` the buffer holds the decoded text, without NUL |
| Parse.PutChar | src/parse.c:55-61 | writing a character and a NUL at the index leaves the buffer holding the written C string |
| Parse.CloseBuffers | src/parse.c:69-73 | the last pair is decoded from the buffers and appended to the table, exactly as FormClose says |
| Parse.FormChar | src/parse.c:35-64 | one iteration does what FormStep says to the mode, the index and the buffers, and appends to the table exactly the pair it closes |
| Parse.FormTurn | src/parse.c:35-64 | one turn keeps the buffers in step with the loop state and the table equal to the pairs so far |
| Parse.FormLoop | src/parse.c:35-64 | after the loop the buffers mirror FormRun of the data, and the table received exactly the pairs it closed |
| Parse.ParseForm | src/parse.c:21-76 | false on a NULL table; when `urldecode` would step over a buffer's NUL, no outcome and the table untouched; otherwise the result is FormSpec's and the table receives exactly FormSpec's pairs |
| ParseRequest.WithValue | src/parse.c:323 | the value is set on the header added last, and every other header is unchanged |
| ParseRequest.StepSane | src/parse.c:90-426 | every step keeps the machine consistent, and a step that ends with RET_OK has already stored the encoded path |
| ParseRequest.RunSane | src/parse.c:88-449 | from a consistent machine, RET_OK and a body read both come with an encoded path |
| ParseRequest.OkHasPath | src/parse.c:451-481 | a request parsed with RET_OK always has the encoded path the split reads |
| ParseRequest.RunGo | src/parse.c:428-445 | a byte that leaves the machine running: the loop goes on from the next state |
| ParseRequest.RunStop | src/parse.c:451-453 | a byte that ends the machine: the loop stops with its result |
| ParseRequest.RunBody | src/parse.c:385-420 | in the body state one byte is taken and the rest goes to the body read |
| ParseRequest.StepAppends | src/parse.c:428-435 | a plain character within the limit is appended to the buffer and nothing else changes |
| ParseRequest.RunToken | src/parse.c:88-449 | a run of plain characters within the limit is stored as it stands |
| ParseRequest.MethodRead | src/parse.c:91-125 | a known method name and a space move on to the path, with the method's code stored |
| ParseRequest.PathRead | src/parse.c:127-161 | a path of path characters and a space move on to the version, with the path stored as the encoded path |
| ParseRequest.VersionRead | src/parse.c:163-250 | a supported version and CR LF move on to the first header line, with the version stored |
| ParseRequest.LineRead | src/parse.c:91-250 | a well-formed request line stores its method, path and version and leaves the machine at the start of a header line |
| ParseRequest.NameRead | src/parse.c:252-292 | a header name, ':' and a space add the header, still without a value, and move on to the value |
| ParseRequest.NameEnds | src/parse.c:280-287 | the space after `name:` adds the header named by the text before the ':' |
| ParseRequest.ValueRead | src/parse.c:294-383 | a value ended by CR LF becomes the value of the last header and the machine returns to the start of a header line |
| ParseRequest.HeaderRead | src/parse.c:252-383 | a header line `name: value` ended by CR LF adds that header with that value |
| ParseRequest.HeadersEnd | src/parse.c:255-261 | an empty line ends the headers with RET_OK, and the body read gets the bytes after it |
| ParseRequest.RequestRead | src/parse.c:78-487 | a well-formed request with one header and a method without a body parses with RET_OK into exactly its method, encoded path, version and header |
| ParseRequest.MethodTooLong | src/parse.c:94-95 | a method name longer than method_max is a bad request |
| ParseRequest.UnknownMethod | src/parse.c:113-119 | a well-formed method name that names no method is a bad request, with the method stored as -1 |
| ParseRequest.HeaderTooLong | src/parse.c:265-268 | a header name longer than header_max is RET_TOOLARGE whatever byte follows |
| ParseRequest.EmptyValue | src/parse.c:315-316 | a header with an empty value is a bad request, after the name was added |
| ParseRequest.LineFeedsAfterValue | src/parse.c:371-372 | LF LF after a value only reaches the body state: with the input ending there the result is RET_CONFAIL, otherwise the next byte is dropped and the rest goes to the body |
| ParseRequest.ValueBreak | src/parse.c:294-383 | a value followed by LF LF reaches the body state with the value stored |
| ParseRequest.LineFeedsAfterLine | src/parse.c:236-239 | LF LF after the request line ends the request with RET_OK at once and no body read |
| ParseRequest.BodyCases | src/parse.c:385-420 | with a positive size test: RET_TOOLARGE exactly above body_max, RET_CONFAIL exactly when no byte follows, and otherwise up to content-length bytes of what follows become the body |
| ParseRequest.ZeroLengthBody | src/parse.c:397-400 | a content-length of 0: as written RET_CONFAIL with size 0; with the size test on the body size RET_OK and no body |
| ParseRequest.NegativeLengthBody | src/parse.c:397-406 | a negative content-length: as written the size converted to `size_t` exceeds body_max and the result is RET_TOOLARGE; the corrected body state gives RET_OK with no body read |
| ParseRequest.BodyAgrees | src/parse.c:385-420 | the source and the corrected body state agree on every size above zero and when there is no body rule or content-length |
| ParseRequest.PathCopyAsWritten | src/parse.c:151-156 | as written the encoded path block is `index` bytes long and holds no NUL, so reading it as a C string runs past its end |
| ParseRequest.PathCopy | src/parse.c:151-156 | with room for the terminator the block reads back as exactly the path |
| ParseRequest.MethodByte | src/parse.c:91-125 | the method state does to the request and the buffer what MethodStep says |
| ParseRequest.PathByte | src/parse.c:127-161 | the path state does what PathStep says, the encoded path a terminated copy |
| ParseRequest.VersionByte | src/parse.c:163-199 | the version state does what VersionStep says, keeping the line end in the buffer |
| ParseRequest.Newline3Byte | src/parse.c:201-250 | the first newline state does what Newline3Step says |
| ParseRequest.NameByte | src/parse.c:252-292 | the header-name state does what NameStep says |
| ParseRequest.ValueByte | src/parse.c:294-330 | the header-value state does what ValueStep says |
| ParseRequest.Newline6Byte | src/parse.c:332-383 | the second newline state does what Newline6Step says |
| ParseRequest.Feed | src/parse.c:90-426 | the switch on the state does, for every state before the body, what Step says |
| ParseRequest.Double | src/parse.c:432-435 | `realloc` to twice the size gives a fresh block that starts with the old contents |
| ParseRequest.Zero | src/parse.c:444 | `bzero` clears every byte of the buffer |
| ParseRequest.Advance | src/parse.c:428-445 | the end of a turn keeps the buffer text as the step says, doubling a full buffer, so the index always stays inside it |
| ParseRequest.RunAt | src/parse.c:88-449 | the loop unfolds once at index i |
| ParseRequest.ReadHead | src/parse.c:88-449 | the byte loop ends as Run says on the bytes received, with the fields it leaves; when the body state took a byte, the body starts at the index returned; RET_OK comes with an encoded path |
| ParseRequest.Received | src/parse.c:410 | `recv` with MSG_WAITALL gets all the bytes asked for, or what was sent before the connection closed |
| ParseRequest.ReadBody | src/parse.c:385-420 | the body state with the size test on the body size leaves the result, body size and body BodyStep gives |
| ParseRequest.SplitQuery | src/parse.c:451-481 | the path becomes the split of the encoded path; the query table receives the pairs `parse_form` makes of its query when that query decodes, and is left as it was otherwise |
| ParseRequest.ParseRequest | src/parse.c:78-487 | result and fields are those of Parsing for the bytes received; on RET_OK the path is split from the encoded path and the query table receives `parse_form`'s pairs when the query decodes, or stays as it was when it does not; on any other result neither is touched |
| Res.AppendDistinct | src/table.c:44-52 | appending a node whose name the chain does not hold keeps every name in the chain held once |
| Res.AppendValue | src/table.c:44-52 | after appending such a node, names equal to it read the new value and every other name reads what it read before |
| Res.SetDistinct | src/headers.c:28-49 | `headers_set` keeps every name in a chain held once |
| Res.Without | src/table.c:134-137 | unlinking node i leaves one node fewer: those before i in place, those after it shifted down by one |
| Res.RemoveDistinct | src/table.c:119-140 | unlinking a node keeps every name held once |
| Res.RemoveEqual | src/table.c:119-140 | in a chain holding each name once, unlinking the first match of a key leaves no name equal to it |
| Res.WithoutMiss | src/table.c:126-137 | unlinking a node of a chain with no match leaves no match |
| Res.WithoutMatch | src/table.c:126-137 | unlinking a node other than the first match keeps that match, one place earlier when it came after the gap |
| Res.RemoveOther | src/table.c:119-140 | unlinking the first match of a key leaves every name the comparer tells apart from it reading what it read |
| Res.Slot | src/table.c:27-28 | the bucket a name hashes to lies within the table |
| Res.UniqueUpdate | src/table.c:44-52 | replacing one bucket with a chain that holds each name once keeps every bucket so |
| Res.LookupAppend | src/table.c:31-67 | after appending a new name to its bucket, names equal to it read its value and every other name what it read |
| Res.LookupSet | src/headers.c:28-58 | after `headers_set`, names equal to it read the value set and every other name what it read |
| Res.LookupRemove | src/table.c:119-140 | after `table_del` of a held name, names equal to it read nothing and every other name what it read |
| Res.LookupEmpty | src/table.c:119-124 | a name whose bucket is empty reads nothing |
| Res.ToInt | src/util.c:61 | a `uint64_t` passed as an int keeps a value that fits, and always lands in the int range |
| Res.LengthTextAsWritten | src/res.c:60-66 | as written the Content-Length text is a non-empty prefix of the size's decimal text |
| Res.LengthText | src/res.c:60-66 | the Content-Length text with room for every digit reads back as the size |
| Res.DigitsDec | src/util.c:61-67 | `digits` of a non-negative int is the length of its decimal text |
| Res.LengthTextAgrees | src/res.c:60-66 | sizes that fit an int get their full decimal text as written |
| Res.LengthTextTruncated | src/res.c:60-66 | a body of 2^32 bytes gets a one-digit Content-Length as written, which differs from its size |
| Res.Fixed | src/res.c:159-161 | the code sent always lies in 100..999, a code already there is kept, and any other becomes 200 |
| Res.ThreeDigits | src/res.c:139 | a code in 100..999 takes three characters |
| Res.LinesLength | src/res.c:143-146 | the header lines take exactly the length the `res_size` loop adds |
| Res.WireSize | src/res.c:134-177 | `res_size` counts exactly the bytes `res_tostr` writes, for a version of version_len characters |
| Res.StatusCode | src/res.c:160-166 | the status line holds the version, a space, the fixed code in three digits and CR LF |
| Res.ContentTypeOf | src/res.c:119-128 | a path ending in a known extension gets that extension's type; no earlier test catches it |
| Res.ContentTypePlain | src/res.c:119-128 | text/plain exactly when the path ends in none of the known extensions |
| Res.InitialValues | src/res.c:23-36 | after `res_init` Server reads ctorm, Connection close, Content-Length 0 and Date the clock's text; other names read nothing |
| Res.LinesStep | src/res.c:170-171 | one more pair adds exactly its own line to the text |
| Res.WriteLines | src/res.c:168-171 | the header loop of `res_tostr` writes one "name: value" line per pair, in table order |
| Res.CountLines | src/res.c:141-146 | the header loop of `res_size` adds strlen + 2 for each name and each value |
| Res.Response.constructor | src/res.c:15-37 | no version, code 200, no body, size 0, and every name reads what `res_init` adds |
| Res.Response.Defaults | src/res.c:23-36 | from an empty table, each of the four names added reads its value and every other name reads nothing |
| Res.Response.Fill | src/res.c:23-36 | the four adds one at a time: the last name added that equals a name decides its value |
| Res.Response.Apart | src/headers.c:8-17 | two names of different lengths never both equal a third |
| Res.Response.AddNew | src/res.c:23-25 | `headers_add` of a name not held yet makes it read its value and leaves every other name as it was |
| Res.Response.Set | src/res.c:44-49 | a NULL name or value sets BadHeaderPointer and changes no header; otherwise names equal to it read the value and every other name is unchanged |
| Res.Response.Del | src/res.c:51-58 | a NULL name sets BadHeaderPointer and changes nothing; otherwise names equal to it read nothing and every other name is unchanged |
| Res.Response.UpdateSize | src/res.c:60-66 | Content-Length becomes the body size in decimal and every other name is unchanged |
| Res.Response.Clear | src/res.c:68-72 | no body, size 0 |
| Res.Response.SendAsWritten | src/res.c:74-87 | as written only a size of 0 gives a body (the C string of the data); any other size gives an empty body |
| Res.Response.Send | src/res.c:74-87 | NULL data sets BadDataPointer and changes nothing; otherwise the body is the first `size` bytes, or the C string when size is 0, and Content-Length announces its length |
| Res.Response.SendFile | src/res.c:89-132 | a NULL path sets BadPathPointer, a missing file FileNotExists and an unreadable one BadReadPerm, each giving false and changing nothing; a present file becomes the body; a failed read then gives false with CantRead and the headers untouched; a good read sets Content-Type from the path's ending and Content-Length from the size, other headers unchanged |
| Res.Response.Describe | src/res.c:119-130 | Content-Type becomes the type of the path's ending, Content-Length the body size, and every other name is unchanged |
| Res.Response.Size | src/res.c:134-153 | the size is the layout count of the version line, every header line, the blank line and the body |
| Res.Response.ToStr | src/res.c:155-177 | the code is fixed first, then the text is the status line, a line per header in table order, a blank line and the body |
| Res.Response.Redirect | src/res.c:260-268 | a NULL url sets BadUrlPointer and changes nothing else; otherwise the code is 301 and Location reads the url |

## Left out

- `res_fmt`, `res_add`, `res_json` (src/res.c) and `req_json` (src/req.c): they are variadic `printf` formatting and cJSON calls.
- `req_get` and `req_end` (src/req.c): `req_get` is the header reader that peeks at the socket with MSG_PEEK, and `req_end` only drains the socket.
- `req_query`, `req_form` and `req_method` (src/req.c): they call into the URL-encoded list and the method table, which are modelled on their own (`Url.Get`, `Url.Parse`, `Http`). `req_query` returns `enc_url_get` on the parsed queries, and `req_form` hands the body to `enc_url_parse` with its size.
- `req_form` (src/req.c:210-236) returns three errors of its own before it parses, and these are not modelled: InvalidContentType when the Content-Type is not `application/x-www-form-urlencoded`, EmptyBody when the body size is 0, and BodyRecvFail when fewer bytes than the body size arrive.
- `Req.Request.SplitQuery` keeps the query text instead of the list `enc_url_parse(rest, 0)` builds from it (src/req.c:176). That list is `Url.Parse` on the text, which is NULL when no pair is closed, as for "x?=".
- `req_ip` (src/req.c): `inet_ntop` on the peer address.
- `res_init`: the `Date` header comes from the clock (`time`/`gmtime`), so it is a parameter of `Res.Response.constructor`.
- `res_sendfile`: the file is read through `file_read`/`file_size`. Its size and contents are a parameter of `Res.Response.SendFile`. The branch at src/res.c:105-110 is not modelled because it can never be taken: it tests `res->bodysize < 0`, and `bodysize` is a `uint64_t` (include/res.h:15, inc/res.h:29).
- `res_free` (src/res.c) and `ctorm_app_free`: they release memory only.
- `res_size` adds sizes in `uint64_t`: the model uses unbounded integers, and a 2^64-byte response does not arise.
- The connection file descriptor and `bodyfd` fields of the request and response are left out. The connection is the byte sequence the peer sends (`Req.Connection`).
- Allocation failure is a parameter (`allocOk`) where the source checks for it, including the two `strdup` calls of a route capture (src/app.c:297-300). Where the source does not check (the `strdup` calls in src/parse.c and src/req.c, `malloc` in `res_send`, `cu_str_add`), allocation always succeeds.
- App.RouteMatch: one `allocOk` flag stands for every capture allocation made while matching a request, so a failure of one capture and success of a later one in the same request is not modelled. A failed `strdup` of the key is not told apart from a failed `strdup` of the value; the key leaked in the second case is not modelled.
- App.RouteRequest: the AllocFailed errno that `App.RouteMatches` returns is not carried past the middleware and route loops, because `ctorm_app_route` does not read it.
- Route handlers are user code: a handler is a number, and whether it cancels the request is a parameter (`cancels`).
- `ctorm_app_run`, signals, sockets, `pool_worker`, `pool_init` threads, mutexes and condition variables are concurrency and I/O. The pool is the FIFO queue only.
- `file_read`, `file_canread` and `file_size` (src/util.c) read the filesystem. The static-file branch of `App.RouteRequest` takes whether sending the file succeeds as a parameter (`sendOk`).
- `urldecode` declares `value` without initialising it, so a first escape that `sscanf` stores nothing for writes an indeterminate byte. `Util.UrlDecode` starts `value` at NUL.
- `sscanf("%02hhx")` on "0x" followed by a non-hex character: `Util.ScanHexField` stores 0, as glibc does, where ISO C (section 7.21.6.2 of C11) calls it a matching failure that stores nothing.
- Util.UrlDecode: requires `CompleteFrom`, that no '%' sits in the last two characters of the string. On such input the C loop steps over the NUL and goes on reading stale bytes, or bytes past the end of the buffer, and that is not modelled.
- Parse.ParseForm: gives no outcome (None), with the table untouched, on data where `urldecode` would step over a key or value buffer's NUL. For "a=%" the source reads the zeroed rest of the buffer; for "=%" or "a%=" it reads past the buffer's end. Those runs are not modelled.
- ParseRequest.ParseRequest: when the query of the encoded path is one `parse_form` is not modelled on (see `Parse.ParseForm`), the query table is left as it was. The source would run `urldecode` past a buffer's NUL there.
- ParseRequest.SplitQuery: the same limit as `ParseRequest.ParseRequest` for a query that does not decode.
- Res.Response.Del: requires `!DelDerefsNull`, the precondition of `Table.Table.Del`. A header name absent from a non-empty bucket makes the walk in `headers_del` dereference NULL, and such a call is excluded rather than modelled.
- Url.GrowBuf.constructor: `malloc` leaves the new bytes uninitialised, and the model fills them with NUL. A key or value buffer that is read before anything was written to it ("=x" reads the key buffer, "a=&" the value buffer) is read as the empty string, where C reads indeterminate bytes.
- These helpers are called but not defined in the sources; each is modelled from its declaration and its use, as the comments in the Dafny say:
  - `cu_str_t` and `cu_str_add`;
  - `cu_strcmp_until`;
  - `ctorm_routemap_is_all`;
  - `http_method_id`, `http_version_get` and `truncate_buf`;
  - `http_method_has_body` (`Http.HasBody`) and the method table `ctorm_http_methods` (`Http.Methods`);
  - the `http_is_valid_*_char` predicates.
- Entries of `_ctorm_err_descs` (src/error.c) whose names do not appear in the error enum of inc/error.h are left out of `Error`.
- `Errors` uses the numbering of inc/errors.h. include/errors.h numbers the same names differently and is not part of this model.
- `Url.GrowBuf.Grow` models `realloc` as growing the same buffer in place. A `realloc` that moves the block is not modelled.
- Url.Parse: requires that `urldecode` does not read past the end of a buffer (`Run(...).Some?`). A `%` in the last two bytes of a key or value makes the source read beyond the buffer.
- Table.Table.Del: requires the key to be present when its bucket is non-empty, as the source's walk at src/table.c:126-139 dereferences NULL otherwise. `Table.DelCollidingAbsentKey` shows such a key ("ab" stored, "ba" deleted).
- `parse_form` (src/parse.c:49-50) calls a three-argument `table_add` and a `table_set` that src/table.c does not define. `Parse.FormTable` keeps every pair it is given, in insertion order, and leaves duplicate-key handling to the table.
- `parse_request` writes into the older `req_t` record. `ParseRequest.Request` is that record, separate from `Req.Request`.
- `headers_set` with `dup` false still marks the node `alloced`, so `table_free` frees strings the table does not own. `Headers.Set` models the flag as written. The double free that follows is not modelled.

## Findings

| source | as written | input that shows it | evidently intended | confidence | as-written member | corrected member |
|---|---|---|---|---|---|---|
| src/req.c:63-67 | `__rrecv_until` frees `*buf` on failure but leaves the pointer set, so `req_start` keeps `encpath` pointing to freed memory and `req_free` frees it again | the request bytes "GET /" followed by the end of the connection | clear the pointer after freeing it | not executed | Req.DanglingPath | Req.Request.ReadPath |
| src/uri.c:308-326 | the fragment loop starts on the `#` itself, which is not a fragment character, so every URI with a fragment fails | "/a#top" | skip the `#` before checking the fragment characters | not executed | Uri.FragmentExample | Uri.FragmentFixed |
| src/uri.c:137-163 | after the userinfo loop, `auth` still points to the `@`, and the host parser rejects it | "u@h" as the authority | step past the `@` before reading the host | not executed | Uri.UserinfoExample | Uri.UserinfoFixed |
| src/encoding/url.c:76-83 | every list node points into the same `key_buf`/`val_buf`, so all nodes show the last key and value | "a=1&b=2", then get "a" | copy the key and value into each node | not executed | Url.SharedBuffersLoseKeys | Url.FixedSerialized |
| src/util.c:203-220 | the slash counts decide the segment count, but `strtok_r` skips empty segments, so the comparison reads a NULL token | route "/*//" and path "/x//" | compare only the tokens that exist | not executed | PathMatchProps.PathMatchEmptySegmentCrash | PathMatchProps.PathMatchesFixedEmptySegment |
| src/parse.c:397-400 | the zero test looks at the buffer size, not at the body size, so a Content-Length of 0 asks `recv` for nothing and fails (a negative one is, through the `size_t` comparison, RET_TOOLARGE: `ParseRequest.NegativeLengthBody`) | a POST with "Content-Length: 0" | test `req->bodysize <= 0` | not executed | ParseRequest.ZeroLengthBody | ParseRequest.ReadBody |
| src/parse.c:151-156 | the encoded path is copied into `index` bytes with no room for the NUL that later string reads need | any request path, "/" for one | allocate and clear `index + 1` bytes | not executed | ParseRequest.PathCopyAsWritten | ParseRequest.PathCopy |
| src/res.c:79-82 | `res_clear` zeroes `bodysize` before it is used, so an explicit size gives an empty body | `res_send(res, "abc", 3)` | take `size` as the body size when it is not 0 | not executed | Res.Response.SendAsWritten | Res.Response.Send |
| src/res.c:60-66 | the digit count comes from `digits`, which takes an `int`, so the `%lu` text is cut to that many characters; a body of 2^32 bytes gets a one-digit length | a body size of 4294967296 | print the size as an unsigned 64-bit number | not executed | Res.LengthTextTruncated | Res.LengthText |

In the uri.c, url.c and util.c rows, the imperative members model the source as written: `Uri.Uri.Parse`, `Url.Parse` and `Util.PathMatches`. The corrected definitions and their proved properties sit beside them: `Uri.FragmentFixed`, `Uri.UserinfoFixed`, `Url.Fixed`/`Url.FixedSerialized` and `PathMatchProps.PathMatchesFixed`. `Req`, `ParseRequest` and `Res` are built on their corrected members.

=== FILE: app.dfy ===
// src/app.c: the checks of `ctorm_app_new`, the route lists, the matching
// of a route against a request path, and the dispatch of a request to the
// middlewares, the routes, the static directory and the catch-all route.
// Handlers are foreign functions: each is stood for by a number, and what
// running one does to the request is reduced to whether it cancels it.

module App {
  import opened Wrappers
  import opened Util
  import Errors
  import Http
  import Config
  import Pair

  // ctorm_app_new

  /**
   * The errno `ctorm_app_new` fails with, or None when it returns the app.
   * A NULL config is replaced by the defaults; `poolOk` and `mutexOk` stand
   * for the outcome of `pool_init` and `pthread_mutex_init`.
   */
  function NewError(config: Option<Config.Values>, poolOk: bool, mutexOk: bool): (r: Option<int>)
    ensures var c := if config.Some? then config.value else Config.Defaults;
            (r == Some(Errors.BadTcpTimeout) <==> c.tcpTimeout < 0)
            && (r == Some(Errors.BadMaxConnCount) <==> c.tcpTimeout >= 0 && c.maxConnections <= 0)
            && (r == Some(Errors.BadPoolSize) <==> c.tcpTimeout >= 0 && c.maxConnections > 0 && c.poolSize == 0)
            && (r == Some(Errors.PoolFailed) <==> c.tcpTimeout >= 0 && c.maxConnections > 0 && c.poolSize > 0 && !poolOk)
            && (r == Some(Errors.MutexFail) <==> c.tcpTimeout >= 0 && c.maxConnections > 0 && c.poolSize > 0 && poolOk
                                                 && c.lockRequest && !mutexOk)
            && (r.None? <==> c.tcpTimeout >= 0 && c.maxConnections > 0 && c.poolSize > 0
                             && poolOk && (mutexOk || !c.lockRequest))
  {
    var c := if config.Some? then config.value else Config.Defaults;
    if c.tcpTimeout < 0 then Some(Errors.BadTcpTimeout)
    else if c.maxConnections <= 0 then Some(Errors.BadMaxConnCount)
    else if c.poolSize <= 0 then Some(Errors.BadPoolSize)
    else if !poolOk then Some(Errors.PoolFailed)
    else if c.lockRequest && !mutexOk then Some(Errors.MutexFail)
    else None
  }

  /** The defaults of `app_config_new` pass every check of `ctorm_app_new`. */
  lemma DefaultsAccepted(c: Config.AppConfig)
    requires c.Value() == Config.Defaults
    ensures NewError(None, true, true) == None
    ensures NewError(Some(c.Value()), true, true) == None
  {
  }

  // Routes

  /** `ctorm_routemap_t`; `handler` stands for the handler function. */
  datatype Route = Route(verb: int, isMiddleware: bool, isAll: bool, path: string, handler: nat)

  /** What the dispatch reads of `ctorm_app_t`. */
  datatype AppValue = AppValue(middlewares: seq<Route>, routes: seq<Route>,
                               staticPath: Option<string>, staticDir: Option<string>, allRoute: nat)

  /** `ctorm_app_t`: the two route lists, the static directory and the catch-all handler. */
  class App {
    var middlewares: seq<Route>
    var routes: seq<Route>
    var staticPath: Option<string>
    var staticDir: Option<string>
    var allRoute: nat

    function Value(): AppValue
      reads this
    {
      AppValue(middlewares, routes, staticPath, staticDir, allRoute)
    }

    /** A static path, once set, is never empty. */
    predicate Valid()
      reads this
    {
      staticPath.Some? ==> staticPath.value != []
    }

    /** The app as `ctorm_app_new` leaves it: no routes, no static directory, the default handler as catch-all. */
    constructor (defaultHandler: nat)
      ensures Valid() && Value() == AppValue([], [], None, None, defaultHandler)
    {
      middlewares := [];
      routes := [];
      staticPath := None;
      staticDir := None;
      allRoute := defaultHandler;
    }
  }

  /** `ctorm_app_static`: a path that does not start with '/' is refused; otherwise path and directory are stored. */
  method Static(app: App?, path: string, dir: Option<string>) returns (r: Result<(), int>)
    requires app != null ==> app.Valid()
    modifies app
    ensures app == null ==> r == Err(Errors.InvalidAppPointer)
    ensures app != null ==> app.Valid()
    ensures app != null && (path == [] || path[0] != '/') ==> r == Err(Errors.BadPath) && app.Value() == old(app.Value())
    ensures app != null && path != [] && path[0] == '/' ==>
              r == Ok(()) && app.Value() == old(app.Value()).(staticPath := Some(path), staticDir := dir)
  {
    if app == null {
      return Err(Errors.InvalidAppPointer);
    }
    if path == [] || path[0] != '/' {
      return Err(Errors.BadPath);
    }
    app.staticPath := Some(path);
    app.staticDir := dir;
    return Ok(());
  }

  /** `ctorm_app_all`: the handler becomes the catch-all route; nothing else changes. */
  method All(app: App, handler: nat)
    modifies app
    ensures app.Value() == old(app.Value()).(allRoute := handler)
    ensures app.Valid() == old(app.Valid())
  {
    app.allRoute := handler;
  }

  /**
   * `ctorm_app_add`: a NULL app, a path not starting with '/' and a failed
   * malloc (`allocOk` false) are refused and change nothing; otherwise the
   * route is appended to the middleware or the route list and the other
   * list is untouched. `isAll` is the value of the `is_all` field, which
   * the function leaves unset.
   */
  method Add(app: App?, verb: string, isMiddleware: bool, path: string, handler: nat, isAll: bool, allocOk: bool)
    returns (r: Result<Route, int>)
    modifies app
    ensures app == null ==> r == Err(Errors.InvalidAppPointer)
    ensures app != null && (path == [] || path[0] != '/') ==> r == Err(Errors.BadPath)
    ensures app != null && path != [] && path[0] == '/' && !allocOk ==> r == Err(Errors.AllocFailed)
    ensures app != null && r.Err? ==> app.Value() == old(app.Value())
    ensures app != null && path != [] && path[0] == '/' && allocOk ==>
              r == Ok(Route(Http.MethodId(verb), isMiddleware, isAll, path, handler))
              && app.Value() == if isMiddleware then old(app.Value()).(middlewares := old(app.middlewares) + [r.value])
                                else old(app.Value()).(routes := old(app.routes) + [r.value])
  {
    if app == null {
      return Err(Errors.InvalidAppPointer);
    }
    if path == [] || path[0] != '/' {
      return Err(Errors.BadPath);
    }
    if !allocOk {
      return Err(Errors.AllocFailed);
    }
    var route := Route(Http.MethodId(verb), isMiddleware, isAll, path, handler);
    if isMiddleware {
      app.middlewares := app.middlewares + [route];
    } else {
      app.routes := app.routes + [route];
    }
    return Ok(route);
  }

  // Path names

  /** The loop of `__ctorm_path_count_names` from index i: the '/' characters that are not last. */
  function SlashesFrom(s: string, i: nat): nat
    requires i <= |s|
    decreases |s| - i
  {
    if i == |s| then 0
    else (if s[i] == '/' && i + 1 < |s| then 1 else 0) + SlashesFrom(s, i + 1)
  }

  /** `__ctorm_path_count_names`: one name more than there are '/' not at the end. */
  function CountNames(s: string): nat {
    SlashesFrom(s, 0) + 1
  }

  method PathCountNames(s: string) returns (count: nat)
    ensures count == CountNames(s)
  {
    count := 0;
    var i := 0;
    while i < |s|
      invariant i <= |s|
      invariant count + SlashesFrom(s, i) == SlashesFrom(s, 0)
    {
      if s[i] == '/' && i + 1 < |s| {
        count := count + 1;
      }
      i := i + 1;
    }
    count := count + 1;
  }

  /** `__ctorm_path_next_name`: the index of the first '/' from i, or the end. */
  function NextName(s: string, i: nat): (j: nat)
    requires i <= |s|
    ensures i <= j <= |s| && (j == |s| || s[j] == '/')
    decreases |s| - i
  {
    if i == |s| || s[i] == '/' then i else NextName(s, i + 1)
  }

  /** A name holds no '/'. */
  lemma {:induction false} NameHasNoSlash(s: string, i: nat)
    requires i <= |s|
    ensures '/' !in s[i..NextName(s, i)]
    decreases |s| - i
  {
    if i < |s| && s[i] != '/' {
      NameHasNoSlash(s, i + 1);
      assert s[i..NextName(s, i)] == [s[i]] + s[i + 1..NextName(s, i)];
    }
  }

  method PathNextName(s: string, i: nat) returns (j: nat)
    requires i <= |s|
    ensures j == NextName(s, i)
  {
    j := i;
    while j < |s| && s[j] != '/'
      invariant i <= j <= |s|
      invariant NextName(s, j) == NextName(s, i)
    {
      j := j + 1;
    }
  }

  /** The name that starts at index pos. */
  function NameAt(s: string, pos: nat): string
    requires pos <= |s|
  {
    s[pos..NextName(s, pos)]
  }

  /** The names the matching loop visits: `count` of them from index pos, each running to the next '/'. */
  function NamesFrom(s: string, pos: nat, count: nat): seq<string>
    decreases count
  {
    if count == 0 || pos > |s| then []
    else
      [NameAt(s, pos)] + NamesFrom(s, NextName(s, pos) + 1, count - 1)
  }

  function Names(s: string): seq<string> {
    NamesFrom(s, 0, CountNames(s))
  }

  /** No '/' is counted inside a name. */
  lemma {:induction false} SkipName(s: string, pos: nat)
    requires pos <= |s|
    ensures SlashesFrom(s, pos) == SlashesFrom(s, NextName(s, pos))
    decreases |s| - pos
  {
    if pos < |s| && s[pos] != '/' {
      SkipName(s, pos + 1);
    }
  }

  /** The walk over the names never goes past the end of the string before the count runs out. */
  lemma WalkStep(s: string, pos: nat, count: nat)
    requires pos <= |s| && 1 <= count <= SlashesFrom(s, pos) + 1
    ensures count > 1 ==> NextName(s, pos) + 1 <= |s| && count - 1 <= SlashesFrom(s, NextName(s, pos) + 1) + 1
  {
    SkipName(s, pos);
  }

  /** The walk visits exactly CountNames(s) names, none of them holding a '/'. */
  lemma {:induction false} NamesFromShape(s: string, pos: nat, count: nat)
    requires pos <= |s| && count <= SlashesFrom(s, pos) + 1
    ensures |NamesFrom(s, pos, count)| == count
    ensures forall i :: 0 <= i < count ==> '/' !in NamesFrom(s, pos, count)[i]
    decreases count
  {
    if count > 0 {
      var j := NextName(s, pos);
      WalkStep(s, pos, count);
      if count > 1 {
        NamesFromShape(s, j + 1, count - 1);
      }
      NameHasNoSlash(s, pos);
    }
  }

  lemma NamesShape(s: string)
    ensures |Names(s)| == CountNames(s)
    ensures forall i :: 0 <= i < |Names(s)| ==> '/' !in Names(s)[i]
  {
    NamesFromShape(s, 0, CountNames(s));
  }

  // Route matching

  /** One leading '/' removed, as the matcher does on both sides. */
  function Strip(s: string): string {
    if |s| > 0 && s[0] == '/' then s[1..] else s
  }

  /** A ":key" name: a ':' followed by at least one character. */
  predicate Capture(r: string) {
    |r| > 1 && r[0] == ':'
  }

  /**
   * One name of `__ctorm_app_route_matches`: a lone "*" matches any name,
   * ":key" captures the request's name as a pair prepended to the
   * parameters, any other name must be equal; a mismatch frees every
   * parameter, leaving none. `allocOk` stands for whether the two `strdup`
   * calls of a capture succeed; when one fails the match fails the same way.
   */
  function NameResult(r: string, q: string, params: seq<Pair.Pair>, allocOk: bool): (bool, seq<Pair.Pair>) {
    if r == "*" then (true, params)
    else if Capture(r) then (if allocOk then (true, [Pair.Pair(r[1..], Some(q))] + params) else (false, []))
    else if r == q then (true, params)
    else (false, [])
  }

  /** The errno one name sets: AllocFailed when a capture's `strdup` fails. */
  function NameErrno(r: string, allocOk: bool): Option<int> {
    if Capture(r) && !allocOk then Some(Errors.AllocFailed) else None
  }

  /** The per-name loop of `__ctorm_app_route_matches`, stopping at the first mismatch. */
  function MatchNames(rs: seq<string>, qs: seq<string>, params: seq<Pair.Pair>, allocOk: bool): (bool, seq<Pair.Pair>)
    decreases |rs|
  {
    if rs == [] || qs == [] then (true, params)
    else
      var n := NameResult(rs[0], qs[0], params, allocOk);
      if n.0 then MatchNames(rs[1..], qs[1..], n.1, allocOk) else (false, [])
  }

  /** The errno the per-name loop sets: that of the name it stops at. */
  function MatchErrno(rs: seq<string>, qs: seq<string>, allocOk: bool): Option<int>
    decreases |rs|
  {
    if rs == [] || qs == [] then None
    else if NameResult(rs[0], qs[0], [], allocOk).0 then MatchErrno(rs[1..], qs[1..], allocOk)
    else NameErrno(rs[0], allocOk)
  }

  /**
   * `__ctorm_app_route_matches`: the method must be equal unless the route
   * is an "all" route; after one leading '/' is stripped two empty paths
   * match; paths with different name counts do not match and keep the
   * parameters; otherwise the names are matched one by one.
   */
  function RouteMatch(route: Route, verb: int, path: string, params: seq<Pair.Pair>, allocOk: bool): (o: (bool, seq<Pair.Pair>))
    ensures o.0 ==> (route.isAll || route.verb == verb)
    ensures o.0 && !(Strip(route.path) == [] && Strip(path) == []) ==> CountNames(Strip(route.path)) == CountNames(Strip(path))
  {
    if !route.isAll && route.verb != verb then (false, params)
    else
      var rp := Strip(route.path);
      var qp := Strip(path);
      if rp == [] && qp == [] then (true, params)
      else if CountNames(rp) != CountNames(qp) then (false, params)
      else MatchNames(Names(rp), Names(qp), params, allocOk)
  }

  /** The errno `__ctorm_app_route_matches` sets: only the name loop sets one. */
  function RouteErrno(route: Route, verb: int, path: string, allocOk: bool): Option<int> {
    var rp := Strip(route.path);
    var qp := Strip(path);
    if (!route.isAll && route.verb != verb) || (rp == [] && qp == []) || CountNames(rp) != CountNames(qp) then None
    else MatchErrno(Names(rp), Names(qp), allocOk)
  }

  /** `after` ends with `before`: only pairs were put in front of it. */
  predicate Extends(after: seq<Pair.Pair>, before: seq<Pair.Pair>) {
    |before| <= |after| && after[|after| - |before|..] == before
  }

  lemma ExtendsSelf(ps: seq<Pair.Pair>)
    ensures Extends(ps, ps)
  {
    assert ps[|ps| - |ps|..] == ps;
  }

  lemma ExtendsTail(after: seq<Pair.Pair>, p: Pair.Pair, before: seq<Pair.Pair>)
    requires Extends(after, [p] + before)
    ensures Extends(after, before)
  {
    assert after[|after| - |before|..] == after[|after| - |[p] + before|..][1..];
  }

  /** Matching only adds captures in front of the parameters it was given, and a mismatch of names leaves none. */
  lemma {:induction false} MatchKeepsParams(rs: seq<string>, qs: seq<string>, params: seq<Pair.Pair>, allocOk: bool)
    ensures var o := MatchNames(rs, qs, params, allocOk);
            (!o.0 ==> o.1 == []) && (o.0 ==> Extends(o.1, params))
    decreases |rs|
  {
    if rs == [] || qs == [] {
      ExtendsSelf(params);
    } else if rs[0] != "*" && Capture(rs[0]) {
      if allocOk {
        var p := Pair.Pair(rs[0][1..], Some(qs[0]));
        MatchKeepsParams(rs[1..], qs[1..], [p] + params, allocOk);
        var o := MatchNames(rs[1..], qs[1..], [p] + params, allocOk);
        if o.0 {
          ExtendsTail(o.1, p, params);
        }
      }
    } else {
      MatchKeepsParams(rs[1..], qs[1..], params, allocOk);
    }
  }

  /**
   * A route match keeps the parameters it was given behind its captures;
   * a failed match leaves them as they were or, once names were compared,
   * none at all.
   */
  lemma RouteMatchKeepsParams(route: Route, verb: int, path: string, params: seq<Pair.Pair>, allocOk: bool)
    ensures var o := RouteMatch(route, verb, path, params, allocOk);
            (o.0 ==> Extends(o.1, params)) && (!o.0 ==> o.1 == params || o.1 == [])
  {
    var rp := Strip(route.path);
    var qp := Strip(path);
    if !route.isAll && route.verb != verb {
    } else if rp == [] && qp == [] {
      ExtendsSelf(params);
    } else if CountNames(rp) != CountNames(qp) {
    } else {
      MatchKeepsParams(Names(rp), Names(qp), params, allocOk);
    }
  }

  predicate Matches(route: Route, verb: int, path: string, allocOk: bool) {
    RouteMatch(route, verb, path, [], allocOk).0
  }

  /** Whether names match does not depend on the parameters gathered before. */
  lemma {:induction false} MatchIgnoresParams(rs: seq<string>, qs: seq<string>, params: seq<Pair.Pair>, allocOk: bool)
    ensures MatchNames(rs, qs, params, allocOk).0 == MatchNames(rs, qs, [], allocOk).0
    decreases |rs|
  {
    if rs != [] && qs != [] {
      var n := NameResult(rs[0], qs[0], params, allocOk);
      var n0 := NameResult(rs[0], qs[0], [], allocOk);
      if n.0 {
        MatchIgnoresParams(rs[1..], qs[1..], n.1, allocOk);
        MatchIgnoresParams(rs[1..], qs[1..], n0.1, allocOk);
      }
    }
  }

  lemma RouteMatchIgnoresParams(route: Route, verb: int, path: string, params: seq<Pair.Pair>, allocOk: bool)
    ensures RouteMatch(route, verb, path, params, allocOk).0 == Matches(route, verb, path, allocOk)
  {
    var rp := Strip(route.path);
    var qp := Strip(path);
    if (route.isAll || route.verb == verb) && !(rp == [] && qp == []) && CountNames(rp) == CountNames(qp) {
      MatchIgnoresParams(Names(rp), Names(qp), params, allocOk);
    }
  }

  /**
   * A failed allocation only ever turns a match into a mismatch: a match
   * with allocOk false is the same match with allocOk true; names that
   * match only while allocation succeeds fail with AllocFailed, and that
   * failure leaves no parameters; the only errno the names set is
   * AllocFailed, and none while allocation succeeds.
   */
  lemma {:induction false} MatchAllocFailure(rs: seq<string>, qs: seq<string>, params: seq<Pair.Pair>)
    ensures MatchNames(rs, qs, params, false).0 ==> MatchNames(rs, qs, params, false) == MatchNames(rs, qs, params, true)
    ensures MatchNames(rs, qs, params, true).0 && !MatchNames(rs, qs, params, false).0
            ==> MatchErrno(rs, qs, false) == Some(Errors.AllocFailed)
    ensures MatchErrno(rs, qs, false).Some?
            ==> MatchErrno(rs, qs, false) == Some(Errors.AllocFailed) && MatchNames(rs, qs, params, false) == (false, [])
    ensures MatchErrno(rs, qs, true).None?
    decreases |rs|
  {
    if rs != [] && qs != [] {
      var n := NameResult(rs[0], qs[0], params, false);
      var t := NameResult(rs[0], qs[0], params, true);
      if n.0 {
        MatchAllocFailure(rs[1..], qs[1..], n.1);
      } else if t.0 {
        MatchAllocFailure(rs[1..], qs[1..], t.1);
      }
    }
  }

  /** Every name list matches itself. */
  lemma {:induction false} MatchSelf(rs: seq<string>, params: seq<Pair.Pair>)
    ensures MatchNames(rs, rs, params, true).0
    decreases |rs|
  {
    if rs != [] {
      MatchSelf(rs[1..], NameResult(rs[0], rs[0], params, true).1);
    }
  }

  /** A route always matches a request for its own method and its own path text while allocation succeeds. */
  lemma RouteMatchesOwnPath(route: Route)
    ensures Matches(route, route.verb, route.path, true)
  {
    MatchSelf(Names(Strip(route.path)), []);
  }

  /**
   * A capture's failed allocation only turns a route match into a
   * mismatch, which sets AllocFailed and leaves no parameters; the only
   * errno matching sets is AllocFailed, and none while allocation succeeds.
   */
  lemma RouteAllocFailure(route: Route, verb: int, path: string, params: seq<Pair.Pair>)
    ensures RouteErrno(route, verb, path, true).None?
    ensures RouteMatch(route, verb, path, params, true).0 && !RouteMatch(route, verb, path, params, false).0
            ==> RouteErrno(route, verb, path, false) == Some(Errors.AllocFailed)
    ensures RouteErrno(route, verb, path, false).Some?
            ==> RouteErrno(route, verb, path, false) == Some(Errors.AllocFailed) && RouteMatch(route, verb, path, params, false) == (false, [])
    ensures RouteMatch(route, verb, path, params, false).0 ==> RouteMatch(route, verb, path, params, false) == RouteMatch(route, verb, path, params, true)
  {
    var rp := Strip(route.path);
    var qp := Strip(path);
    if (route.isAll || route.verb == verb) && !(rp == [] && qp == []) && CountNames(rp) == CountNames(qp) {
      MatchAllocFailure(Names(rp), Names(qp), params);
    }
  }

  /** A name that is neither a lone "*" nor a ":key" capture. */
  predicate Literal(r: string) {
    r != "*" && !Capture(r)
  }

  /** Names with no wildcard and no capture match exactly the equal names, and capture nothing. */
  lemma {:induction false} MatchLiteral(rs: seq<string>, qs: seq<string>, params: seq<Pair.Pair>, allocOk: bool)
    requires |rs| == |qs| && forall i :: 0 <= i < |rs| ==> Literal(rs[i])
    ensures MatchNames(rs, qs, params, allocOk).0 <==> rs == qs
    ensures rs == qs ==> MatchNames(rs, qs, params, allocOk).1 == params
    decreases |rs|
  {
    if rs != [] {
      assert Literal(rs[0]);
      if rs[0] == qs[0] {
        MatchLiteral(rs[1..], qs[1..], params, allocOk);
        assert rs == qs <==> rs[1..] == qs[1..] by {
          assert rs == [rs[0]] + rs[1..] && qs == [qs[0]] + qs[1..];
        }
      } else {
        assert rs != qs by {
          assert rs[0] != qs[0];
        }
      }
    }
  }

  /** A lone "*" name matches any name, whatever it holds. */
  lemma {:induction false} MatchWildcards(rs: seq<string>, qs: seq<string>, params: seq<Pair.Pair>, allocOk: bool)
    requires |rs| == |qs| && forall i :: 0 <= i < |rs| ==> rs[i] == "*"
    ensures MatchNames(rs, qs, params, allocOk) == (true, params)
    decreases |rs|
  {
    if rs != [] {
      MatchWildcards(rs[1..], qs[1..], params, allocOk);
    }
  }

  /** A route made of one wildcard name matches any request path of one name. */
  lemma StarMatchesOneName(verb: int, name: string, handler: nat, allocOk: bool)
    requires '/' !in name
    ensures Matches(Route(verb, false, false, "/*", handler), verb, "/" + name, allocOk)
  {
    var route := Route(verb, false, false, "/*", handler);
    assert Strip(route.path) == "*";
    assert Strip("/" + name) == name;
    assert SlashesFrom("*", 0) == 0;
    NoSlashCount(name, 0);
    NamesShape("*");
    NamesShape(name);
    MatchWildcards(Names("*"), Names(name), [], allocOk);
  }

  lemma {:induction false} NoSlashCount(s: string, i: nat)
    requires i <= |s| && '/' !in s
    ensures SlashesFrom(s, i) == 0
    decreases |s| - i
  {
    if i < |s| {
      NoSlashCount(s, i + 1);
    }
  }

  /**
   * A ":key" name captures the request's name under that key: the route
   * "/a/:key" matches "/a/v" and puts the pair (key, v) in front of the
   * parameters; when the capture's allocation fails, the match fails,
   * leaves no parameters and sets AllocFailed.
   */
  lemma CaptureParam(verb: int, handler: nat, params: seq<Pair.Pair>, a: string, key: string, v: string, allocOk: bool)
    requires a != [] && '/' !in a && a[0] != ':'
    requires key != [] && '/' !in key && v != [] && '/' !in v
    ensures RouteMatch(Route(verb, false, false, "/" + a + "/:" + key, handler), verb, "/" + a + "/" + v, params, allocOk)
         == if allocOk then (true, [Pair.Pair(key, Some(v))] + params) else (false, [])
    ensures RouteErrno(Route(verb, false, false, "/" + a + "/:" + key, handler), verb, "/" + a + "/" + v, allocOk)
         == if allocOk then None else Some(Errors.AllocFailed)
  {
    var rp, qp := a + "/" + (":" + key), a + "/" + v;
    assert Strip("/" + a + "/:" + key) == rp && Strip("/" + a + "/" + v) == qp;
    TwoNames(a, ":" + key);
    TwoNames(a, v);
    var r := ":" + key;
    assert r != "*" && Capture(r) && r[1..] == key;
    assert NameResult(a, a, params, allocOk) == (true, params);
    assert NameResult(a, a, [], allocOk).0;
    var ps := [Pair.Pair(key, Some(v))] + params;
    assert NameResult(r, v, params, allocOk) == if allocOk then (true, ps) else (false, []);
    assert MatchNames([r], [v], params, allocOk) == if allocOk then (true, ps) else (false, []) by {
      assert MatchNames([r][1..], [v][1..], ps, allocOk) == (true, ps);
    }
    assert MatchErrno([r], [v], allocOk) == if allocOk then None else Some(Errors.AllocFailed) by {
      assert MatchErrno([r][1..], [v][1..], allocOk) == None;
    }
    assert [a, r][1..] == [r] && [a, v][1..] == [v];
  }

  /** A path of two names separated by one '/' has those two names. */
  lemma TwoNames(a: string, b: string)
    requires a != [] && '/' !in a && b != [] && '/' !in b
    ensures CountNames(a + "/" + b) == 2 && Names(a + "/" + b) == [a, b]
  {
    var s := a + "/" + b;
    var n := |a|;
    NextNameAt(s, 0, n);
    NextNameAt(s, n + 1, |s|);
    SkipName(s, 0);
    SkipName(s, n + 1);
    assert SlashesFrom(s, 0) == 1;
    assert s[0..n] == a && s[n + 1..|s|] == b;
    assert NamesFrom(s, |s| + 1, 0) == [];
    assert NamesFrom(s, n + 1, 1) == [b];
  }

  /** The next name from i ends at j when no '/' lies between and j is the end or a '/'. */
  lemma {:induction false} NextNameAt(s: string, i: nat, j: nat)
    requires i <= j <= |s| && (j == |s| || s[j] == '/')
    requires forall k :: i <= k < j ==> s[k] != '/'
    ensures NextName(s, i) == j
    decreases j - i
  {
    if i < j {
      NextNameAt(s, i + 1, j);
    }
  }

  // The request and response fields routing uses

  /** What routing reads and writes of `ctorm_req_t`. */
  class Request {
    var verb: int
    var path: string
    var cancel: bool
    var params: seq<Pair.Pair>

    constructor (verb: int, path: string)
      ensures this.verb == verb && this.path == path && !cancel && params == []
    {
      this.verb := verb;
      this.path := path;
      cancel := false;
      params := [];
    }
  }

  /** What routing writes of `ctorm_res_t`: the status code. */
  class Response {
    var code: int

    constructor ()
      ensures code == 200
    {
      code := 200;
    }
  }

  /** The C tests on the first characters of a name tell a lone "*" and a ":key" capture. */
  lemma NameTests(s: string, pos: nat)
    requires pos <= |s|
    ensures var name := NameAt(s, pos);
            (name == "*" <==> pos < |s| && s[pos] == '*' && (pos + 1 == |s| || s[pos + 1] == '/'))
            && (|name| > 1 && name[0] == ':' <==> pos < |s| && s[pos] == ':' && !(pos + 1 == |s| || s[pos + 1] == '/'))
            && (|name| > 1 ==> name[1..] == s[pos + 1..NextName(s, pos)])
  {
    var j := NextName(s, pos);
    if pos < |s| && s[pos] != '/' {
      assert j == NextName(s, pos + 1);
      if pos + 1 < |s| && s[pos + 1] != '/' {
        assert j >= pos + 2;
      }
    }
  }

  /** One step of the name matching. */
  lemma MatchStep(r: string, q: string, rs: seq<string>, qs: seq<string>, params: seq<Pair.Pair>, allocOk: bool)
    ensures var n := NameResult(r, q, params, allocOk);
            MatchNames([r] + rs, [q] + qs, params, allocOk) == if n.0 then MatchNames(rs, qs, n.1, allocOk) else (false, [])
    ensures var n := NameResult(r, q, params, allocOk);
            MatchErrno([r] + rs, [q] + qs, allocOk) == if n.0 then MatchErrno(rs, qs, allocOk) else NameErrno(r, allocOk)
  {
    assert ([r] + rs)[1..] == rs && ([q] + qs)[1..] == qs;
  }

  /**
   * `__ctorm_app_route_matches` on a request: the result, the new
   * parameter list and the errno set are those of RouteMatch and
   * RouteErrno; nothing else changes.
   */
  method RouteMatches(route: Route, req: Request, allocOk: bool) returns (ok: bool, errno: Option<int>)
    modifies req
    ensures (ok, req.params) == RouteMatch(route, old(req.verb), old(req.path), old(req.params), allocOk)
    ensures errno == RouteErrno(route, old(req.verb), old(req.path), allocOk)
    ensures req.verb == old(req.verb) && req.path == old(req.path) && req.cancel == old(req.cancel)
  {
    errno := None;
    if !route.isAll && route.verb != req.verb {
      return false, errno;
    }
    var rp := Strip(route.path);
    var qp := Strip(req.path);
    if rp == [] && qp == [] {
      return true, errno;
    }
    var rcount := PathCountNames(rp);
    var count := PathCountNames(qp);
    if rcount != count {
      return false, errno;
    }
    ok, errno := MatchLoop(rp, qp, count, req, allocOk);
  }

  /** The walk has n names left to visit from pos, and pos is inside the string while any are. */
  predicate InWalk(s: string, pos: nat, n: nat) {
    n > 0 ==> pos <= |s| && n <= SlashesFrom(s, pos) + 1
  }

  /** The first of the names left, and the walk on from the '/' after it. */
  lemma NamesStep(s: string, pos: nat, n: nat)
    requires n > 0 && InWalk(s, pos, n)
    ensures NamesFrom(s, pos, n) == [NameAt(s, pos)] + NamesFrom(s, NextName(s, pos) + 1, n - 1)
    ensures InWalk(s, NextName(s, pos) + 1, n - 1)
  {
    WalkStep(s, pos, n);
  }

  /** The outcome of matching the n names left from rpos and qpos. */
  function WalkResult(rp: string, qp: string, rpos: nat, qpos: nat, n: nat, params: seq<Pair.Pair>, allocOk: bool): (bool, seq<Pair.Pair>) {
    MatchNames(NamesFrom(rp, rpos, n), NamesFrom(qp, qpos, n), params, allocOk)
  }

  /** The errno set while matching the n names left from rpos and qpos. */
  function WalkErrno(rp: string, qp: string, rpos: nat, qpos: nat, n: nat, allocOk: bool): Option<int> {
    MatchErrno(NamesFrom(rp, rpos, n), NamesFrom(qp, qpos, n), allocOk)
  }

  /**
   * One turn of the name loop, on values: when the first names give ok and
   * the new parameters, the walk goes on from the next names, or stops there
   * with the errno of those names.
   */
  lemma LoopStep(rp: string, qp: string, rpos: nat, qpos: nat, n: nat, params: seq<Pair.Pair>, allocOk: bool,
                 ok: bool, params': seq<Pair.Pair>)
    requires n > 0 && InWalk(rp, rpos, n) && InWalk(qp, qpos, n)
    requires (ok, params') == NameResult(NameAt(rp, rpos), NameAt(qp, qpos), params, allocOk)
    ensures InWalk(rp, NextName(rp, rpos) + 1, n - 1) && InWalk(qp, NextName(qp, qpos) + 1, n - 1)
    ensures ok ==> WalkResult(rp, qp, rpos, qpos, n, params, allocOk)
                   == WalkResult(rp, qp, NextName(rp, rpos) + 1, NextName(qp, qpos) + 1, n - 1, params', allocOk)
    ensures ok ==> WalkErrno(rp, qp, rpos, qpos, n, allocOk)
                   == WalkErrno(rp, qp, NextName(rp, rpos) + 1, NextName(qp, qpos) + 1, n - 1, allocOk)
    ensures !ok ==> WalkResult(rp, qp, rpos, qpos, n, params, allocOk) == (false, params')
    ensures !ok ==> WalkErrno(rp, qp, rpos, qpos, n, allocOk) == NameErrno(NameAt(rp, rpos), allocOk)
  {
    NamesStep(rp, rpos, n);
    NamesStep(qp, qpos, n);
    MatchStep(NameAt(rp, rpos), NameAt(qp, qpos), NamesFrom(rp, NextName(rp, rpos) + 1, n - 1),
              NamesFrom(qp, NextName(qp, qpos) + 1, n - 1), params, allocOk);
  }

  /** The loop over the names of `__ctorm_app_route_matches`. */
  method MatchLoop(rp: string, qp: string, count: nat, req: Request, allocOk: bool) returns (ok: bool, errno: Option<int>)
    requires count == CountNames(rp) == CountNames(qp)
    modifies req
    ensures (ok, req.params) == MatchNames(Names(rp), Names(qp), old(req.params), allocOk)
    ensures errno == MatchErrno(Names(rp), Names(qp), allocOk)
    ensures req.verb == old(req.verb) && req.path == old(req.path) && req.cancel == old(req.cancel)
  {
    ghost var target := WalkResult(rp, qp, 0, 0, count, req.params, allocOk);
    ghost var targetErrno := WalkErrno(rp, qp, 0, 0, count, allocOk);
    var rpos: nat, qpos: nat, n: nat := 0, 0, count;
    ok, errno := true, None;
    while n > 0 && ok
      invariant ok ==> InWalk(rp, rpos, n) && InWalk(qp, qpos, n) && WalkResult(rp, qp, rpos, qpos, n, req.params, allocOk) == target
      invariant ok ==> errno.None? && WalkErrno(rp, qp, rpos, qpos, n, allocOk) == targetErrno
      invariant !ok ==> (false, req.params) == target && errno == targetErrno
      invariant req.verb == old(req.verb) && req.path == old(req.path) && req.cancel == old(req.cancel)
    {
      rpos, qpos, n, ok, errno := MatchTurn(rp, qp, rpos, qpos, n, req, allocOk, target, targetErrno);
    }
    if ok {
      assert NamesFrom(rp, rpos, 0) == [] && NamesFrom(qp, qpos, 0) == [];
    }
  }

  /** One turn of the name loop, keeping its invariant: the walk from the next names still gives target. */
  method MatchTurn(rp: string, qp: string, rpos: nat, qpos: nat, n: nat, req: Request, allocOk: bool,
                   ghost target: (bool, seq<Pair.Pair>), ghost targetErrno: Option<int>)
    returns (rpos': nat, qpos': nat, n': nat, ok: bool, errno: Option<int>)
    requires n > 0 && InWalk(rp, rpos, n) && InWalk(qp, qpos, n) && WalkResult(rp, qp, rpos, qpos, n, req.params, allocOk) == target
    requires WalkErrno(rp, qp, rpos, qpos, n, allocOk) == targetErrno
    modifies req
    ensures n' == n - 1
    ensures ok ==> InWalk(rp, rpos', n') && InWalk(qp, qpos', n') && WalkResult(rp, qp, rpos', qpos', n', req.params, allocOk) == target
    ensures ok ==> errno.None? && WalkErrno(rp, qp, rpos', qpos', n', allocOk) == targetErrno
    ensures !ok ==> (false, req.params) == target && errno == targetErrno
    ensures req.verb == old(req.verb) && req.path == old(req.path) && req.cancel == old(req.cancel)
  {
    ghost var before := req.params;
    var rend, qend;
    rend, qend, ok, errno := MatchName(rp, qp, rpos, qpos, req, allocOk);
    LoopStep(rp, qp, rpos, qpos, n, before, allocOk, ok, req.params);
    rpos', qpos', n' := rend + 1, qend + 1, n - 1;
  }

  /**
   * One turn of that loop: the C tests on the first characters of the
   * route's name pick the outcome NameResult gives for the two names, and
   * a failed `strdup` of a capture sets AllocFailed.
   */
  method MatchName(rp: string, qp: string, rpos: nat, qpos: nat, req: Request, allocOk: bool)
    returns (rend: nat, qend: nat, ok: bool, errno: Option<int>)
    requires rpos <= |rp| && qpos <= |qp|
    modifies req
    ensures rend == NextName(rp, rpos) && qend == NextName(qp, qpos)
    ensures (ok, req.params) == NameResult(NameAt(rp, rpos), NameAt(qp, qpos), old(req.params), allocOk)
    ensures errno == NameErrno(NameAt(rp, rpos), allocOk)
    ensures req.verb == old(req.verb) && req.path == old(req.path) && req.cancel == old(req.cancel)
  {
    rend := PathNextName(rp, rpos);
    qend := PathNextName(qp, qpos);
    NameTests(rp, rpos);
    ok, errno := true, None;
    if rpos < |rp| && rp[rpos] == '*' && (rpos + 1 == |rp| || rp[rpos + 1] == '/') {
    } else if rpos < |rp| && rp[rpos] == ':' && !(rpos + 1 == |rp| || rp[rpos + 1] == '/') {
      if !allocOk {
        errno := Some(Errors.AllocFailed);
        req.params := [];
        ok := false;
      } else {
        req.params := [Pair.Pair(rp[rpos + 1..rend], Some(qp[qpos..qend]))] + req.params;
      }
    } else if rp[rpos..rend] != qp[qpos..qend] {
      req.params := [];
      ok := false;
    }
  }

  // Dispatch

  /** The handlers run so far, in order, and the request's cancel flag and parameters. */
  datatype State = State(ran: seq<nat>, cancel: bool, params: seq<Pair.Pair>)

  /** Running a handler; `cancels(h)` says whether handler h sets `req->cancel`. */
  function Call(s: State, h: nat, cancels: nat -> bool): State {
    s.(ran := s.ran + [h], cancel := s.cancel || cancels(h))
  }

  /**
   * The middleware loop of `ctorm_app_route`: in list order, each matching
   * middleware runs, until one cancels the request. Every handler it runs
   * but the last leaves the request uncancelled, and the loop ends
   * cancelled only right after a handler that cancels.
   */
  function Middlewares(ms: seq<Route>, verb: int, path: string, allocOk: bool, s: State, cancels: nat -> bool): State
    decreases |ms|
  {
    if s.cancel || ms == [] then s
    else Middlewares(ms[1..], verb, path, allocOk, MiddlewareStep(ms[0], verb, path, allocOk, s, cancels), cancels)
  }

  /** One middleware: matching updates the parameters, and the handler runs when it matches. */
  function MiddlewareStep(m: Route, verb: int, path: string, allocOk: bool, s: State, cancels: nat -> bool): (t: State)
    ensures (t.ran == s.ran && t.cancel == s.cancel)
            || (t.ran == s.ran + [m.handler] && t.cancel == (s.cancel || cancels(m.handler)))
  {
    var o := RouteMatch(m, verb, path, s.params, allocOk);
    if o.0 then Call(s.(params := o.1), m.handler, cancels) else s.(params := o.1)
  }

  /**
   * The middlewares run at most once each, after what ran before;
   * every one but the last leaves the request uncancelled, and the loop
   * ends cancelled only when it started so or its last handler cancelled.
   */
  lemma {:induction false} MiddlewaresShape(ms: seq<Route>, verb: int, path: string, allocOk: bool, s: State, cancels: nat -> bool)
    ensures var r := Middlewares(ms, verb, path, allocOk, s, cancels);
            |s.ran| <= |r.ran| <= |s.ran| + |ms| && r.ran[..|s.ran|] == s.ran
            && (forall k :: |s.ran| <= k < |r.ran| - 1 ==> !cancels(r.ran[k]))
            && (r.cancel <==> s.cancel || (|r.ran| > |s.ran| && cancels(r.ran[|r.ran| - 1])))
    decreases |ms|
  {
    if !s.cancel && ms != [] {
      var t := MiddlewareStep(ms[0], verb, path, allocOk, s, cancels);
      MiddlewaresShape(ms[1..], verb, path, allocOk, t, cancels);
      var r := Middlewares(ms[1..], verb, path, allocOk, t, cancels);
      assert r == Middlewares(ms, verb, path, allocOk, s, cancels);
      ShapeStep(s, t, r, ms[0].handler, |ms| - 1, cancels);
    }
  }

  /** The step of MiddlewaresShape: one middleware from s to t, then the rest from t to r. */
  lemma ShapeStep(s: State, t: State, r: State, h: nat, n: nat, cancels: nat -> bool)
    requires !s.cancel
    requires (t.ran == s.ran && t.cancel == s.cancel) || (t.ran == s.ran + [h] && t.cancel == cancels(h))
    requires t.cancel ==> r == t
    requires |t.ran| <= |r.ran| <= |t.ran| + n && r.ran[..|t.ran|] == t.ran
             && (forall k :: |t.ran| <= k < |r.ran| - 1 ==> !cancels(r.ran[k]))
             && (r.cancel <==> t.cancel || (|r.ran| > |t.ran| && cancels(r.ran[|r.ran| - 1])))
    ensures |s.ran| <= |r.ran| <= |s.ran| + n + 1 && r.ran[..|s.ran|] == s.ran
            && (forall k :: |s.ran| <= k < |r.ran| - 1 ==> !cancels(r.ran[k]))
            && (r.cancel <==> s.cancel || (|r.ran| > |s.ran| && cancels(r.ran[|r.ran| - 1])))
  {
    if |t.ran| > |s.ran| {
      assert r.ran[..|s.ran|] == r.ran[..|t.ran|][..|s.ran|];
      assert r.ran[|s.ran|] == t.ran[|s.ran|] == h;
    }
  }

  /**
   * The route loop of `ctorm_app_route` from index i: the first route that
   * matches, with the parameters as matching left them.
   */
  function FirstRoute(rs: seq<Route>, i: nat, verb: int, path: string, allocOk: bool, params: seq<Pair.Pair>): (r: (Option<nat>, seq<Pair.Pair>))
    requires i <= |rs|
    ensures r.0.Some? ==> i <= r.0.value < |rs| && Matches(rs[r.0.value], verb, path, allocOk)
                          && forall j :: i <= j < r.0.value ==> !Matches(rs[j], verb, path, allocOk)
    ensures r.0.None? ==> forall j :: i <= j < |rs| ==> !Matches(rs[j], verb, path, allocOk)
    decreases |rs| - i
  {
    if i == |rs| then (None, params)
    else
      var m := RouteMatch(rs[i], verb, path, params, allocOk);
      RouteMatchIgnoresParams(rs[i], verb, path, params, allocOk);
      if m.0 then (Some(i), m.1) else FirstRoute(rs, i + 1, verb, path, allocOk, m.1)
  }

  const MethodGet: int := 0

  /** Where the static fallback ends. */
  datatype StaticOutcome = Fallback | Served(file: string) | Missing(file: string)

  /** The static path with a '/' put at its end when missing. */
  function StaticPrefix(sp: string): (pre: string)
    requires sp != []
    ensures |pre| > 0 && pre[|pre| - 1] == '/'
  {
    if sp[|sp| - 1] != '/' then sp + "/" else sp
  }

  predicate HasDotDot(s: string) {
    exists k :: 0 <= k < |s| - 1 && s[k] == '.' && s[k + 1] == '.'
  }

  /** The name under the static prefix that the fallback would serve. */
  function StaticRest(sp: string, path: string): string
    requires sp != []
  {
    var pre := StaticPrefix(sp);
    if |pre| <= |path| then path[|pre|..] else []
  }

  /**
   * The static fallback of `ctorm_app_route`: only GET requests, with a
   * static path and directory set, under the static path plus '/'; an empty
   * name, a name ending in '/', and a joined file path holding '\' or ".."
   * fall back to the catch-all route; otherwise the file is sent, and
   * `sendOk` stands for whether `ctorm_res_sendfile` succeeds.
   */
  function StaticStep(staticPath: Option<string>, staticDir: Option<string>, verb: int, path: string,
                      sendOk: string -> bool): (r: StaticOutcome)
    requires staticPath.Some? ==> staticPath.value != []
    ensures !r.Fallback? ==>
              staticPath.Some? && staticDir.Some? && verb == MethodGet
              && StartsWith(Some(path), Some(StaticPrefix(staticPath.value)))
              && var rest := StaticRest(staticPath.value, path);
                 rest != [] && rest[|rest| - 1] != '/'
                 && r.file == Join(staticDir.value, rest)
                 && !Contains(r.file, '\\') && !HasDotDot(r.file)
    ensures r.Served? ==> sendOk(r.file)
    ensures r.Missing? ==> !sendOk(r.file)
  {
    if staticPath.None? || staticDir.None? || verb != MethodGet then Fallback
    else
      var pre := StaticPrefix(staticPath.value);
      if !StartsWith(Some(path), Some(pre)) then Fallback
      else
        var rest := path[|pre|..];
        if |rest| < 1 then Fallback
        else if rest[|rest| - 1] == '/' then Fallback
        else
          var fp := Join(staticDir.value, rest);
          if Contains(fp, '\\') || HasDotDot(fp) then Fallback
          else if !sendOk(fp) then Missing(fp)
          else Served(fp)
  }

  /**
   * `ctorm_app_route`: the middlewares, then, unless the request was
   * cancelled, the first matching route, or else the static fallback and
   * the catch-all route. The result is the final state and status code.
   * `allocOk` stands for whether the `strdup` calls of every capture made
   * while matching this request succeed.
   */
  function Dispatch(a: AppValue, verb: int, path: string, allocOk: bool, s: State, code: int,
                    cancels: nat -> bool, sendOk: string -> bool): (r: (State, int))
    requires a.staticPath.Some? ==> a.staticPath.value != []
  {
    var m := Middlewares(a.middlewares, verb, path, allocOk, s, cancels);
    if m.cancel then (m, code)
    else
      var f := FirstRoute(a.routes, 0, verb, path, allocOk, m.params);
      var m1 := m.(params := f.1);
      if f.0.Some? then (Call(m1, a.routes[f.0.value].handler, cancels), code)
      else match StaticStep(a.staticPath, a.staticDir, verb, path, sendOk)
        case Served(_) => (m1, 200)
        case Missing(_) => (Call(m1, a.allRoute, cancels), 404)
        case Fallback => (Call(m1, a.allRoute, cancels), code)
  }

  /**
   * A cancelled request runs no route and no catch-all; otherwise at most
   * one handler runs after the middlewares, and when a route runs it is the
   * first one that matches.
   */
  lemma DispatchRunsOneRoute(a: AppValue, verb: int, path: string, allocOk: bool, s: State, code: int,
                             cancels: nat -> bool, sendOk: string -> bool)
    requires a.staticPath.Some? ==> a.staticPath.value != []
    ensures var m := Middlewares(a.middlewares, verb, path, allocOk, s, cancels);
            var r := Dispatch(a, verb, path, allocOk, s, code, cancels, sendOk);
            (m.cancel ==> r.0.ran == m.ran && r.1 == code)
            && |m.ran| <= |r.0.ran| <= |m.ran| + 1 && r.0.ran[..|m.ran|] == m.ran
            && (|r.0.ran| > |m.ran| && r.0.ran[|m.ran|] != a.allRoute ==>
                  exists i :: 0 <= i < |a.routes| && a.routes[i].handler == r.0.ran[|m.ran|]
                              && Matches(a.routes[i], verb, path, allocOk)
                              && forall j :: 0 <= j < i ==> !Matches(a.routes[j], verb, path, allocOk))
  {
    var m := Middlewares(a.middlewares, verb, path, allocOk, s, cancels);
    var r := Dispatch(a, verb, path, allocOk, s, code, cancels, sendOk);
    if !m.cancel {
      var f := FirstRoute(a.routes, 0, verb, path, allocOk, m.params);
      assert (m.ran + [a.allRoute])[..|m.ran|] == m.ran;
      if f.0.Some? {
        var h := a.routes[f.0.value].handler;
        assert (m.ran + [h])[..|m.ran|] == m.ran;
        assert r.0.ran[|m.ran|] == h;
      }
    }
  }

  /** The static fallback never serves a file with ".." or '\' in its path. */
  lemma StaticRejectsTraversal(dir: string, sendOk: string -> bool)
    ensures StaticStep(Some("/static"), Some(dir), MethodGet, "/static/../etc/passwd", sendOk) == Fallback
  {
    var fp := Join(dir, "../etc/passwd");
    assert "/static/../etc/passwd"[..8] == "/static/";
    assert "/static/../etc/passwd"[8..] == "../etc/passwd";
    assert fp[|dir| + 1] == '.' && fp[|dir| + 2] == '.';
  }

  /** A GET request for a plain file under the static path is sent from the static directory. */
  lemma StaticServes(dir: string, name: string, sendOk: string -> bool)
    requires name != [] && name[|name| - 1] != '/' && '\\' !in dir + name
    requires !HasDotDot(dir + "/" + name) && sendOk(dir + "/" + name)
    ensures StaticStep(Some("/static"), Some(dir), MethodGet, "/static/" + name, sendOk) == Served(dir + "/" + name)
  {
    var path := "/static/" + name;
    assert path[..8] == "/static/" && path[8..] == name;
    var fp := Join(dir, name);
    assert fp == dir + "/" + name;
    assert forall k :: 0 <= k < |fp| ==> fp[k] != '\\' by {
      forall k | 0 <= k < |fp| ensures fp[k] != '\\' {
        if k < |dir| {
          assert fp[k] == (dir + name)[k];
        } else if k > |dir| {
          assert fp[k] == (dir + name)[k - 1];
        }
      }
    }
  }

  /**
   * `ctorm_app_route` on the request and response: the handlers it runs,
   * the request's cancel flag and parameters and the response code are
   * those Dispatch gives.
   */
  method RouteRequest(app: App, req: Request, res: Response, allocOk: bool, cancels: nat -> bool, sendOk: string -> bool)
    returns (ran: seq<nat>)
    requires app.Valid()
    modifies req, res
    ensures (State(ran, req.cancel, req.params), res.code)
         == Dispatch(app.Value(), old(req.verb), old(req.path), allocOk, State([], old(req.cancel), old(req.params)),
                     old(res.code), cancels, sendOk)
  {
    ghost var s0 := State([], req.cancel, req.params);
    ran := RunMiddlewares(app.middlewares, req, allocOk, cancels);
    if req.cancel {
      return;
    }
    var found := FindRoute(app.routes, req, allocOk);
    if found.Some? {
      var h := app.routes[found.value].handler;
      ran := ran + [h];
      req.cancel := req.cancel || cancels(h);
      return;
    }
    var st := StaticStep(app.staticPath, app.staticDir, req.verb, req.path, sendOk);
    if st.Served? {
      res.code := 200;
      return;
    }
    if st.Missing? {
      res.code := 404;
    }
    ran := ran + [app.allRoute];
    req.cancel := req.cancel || cancels(app.allRoute);
  }

  /** The middleware loop on the request. */
  method RunMiddlewares(ms: seq<Route>, req: Request, allocOk: bool, cancels: nat -> bool) returns (ran: seq<nat>)
    modifies req
    ensures State(ran, req.cancel, req.params)
         == Middlewares(ms, old(req.verb), old(req.path), allocOk, State([], old(req.cancel), old(req.params)), cancels)
    ensures req.verb == old(req.verb) && req.path == old(req.path)
  {
    ran := [];
    var i := 0;
    while !req.cancel && i < |ms|
      invariant i <= |ms|
      invariant Middlewares(ms[i..], req.verb, req.path, allocOk, State(ran, req.cancel, req.params), cancels)
             == Middlewares(ms, old(req.verb), old(req.path), allocOk, State([], old(req.cancel), old(req.params)), cancels)
      invariant req.verb == old(req.verb) && req.path == old(req.path)
    {
      assert ms[i..][1..] == ms[i + 1..];
      var hit, _ := RouteMatches(ms[i], req, allocOk);
      if hit {
        ran := ran + [ms[i].handler];
        req.cancel := req.cancel || cancels(ms[i].handler);
      }
      i := i + 1;
    }
  }

  /** The route loop on the request: the index of the first matching route. */
  method FindRoute(rs: seq<Route>, req: Request, allocOk: bool) returns (found: Option<nat>)
    modifies req
    ensures (found, req.params) == FirstRoute(rs, 0, old(req.verb), old(req.path), allocOk, old(req.params))
    ensures req.verb == old(req.verb) && req.path == old(req.path) && req.cancel == old(req.cancel)
  {
    var i := 0;
    while i < |rs|
      invariant i <= |rs|
      invariant FirstRoute(rs, i, req.verb, req.path, allocOk, req.params) == FirstRoute(rs, 0, old(req.verb), old(req.path), allocOk, old(req.params))
      invariant req.verb == old(req.verb) && req.path == old(req.path) && req.cancel == old(req.cancel)
    {
      var hit, _ := RouteMatches(rs[i], req, allocOk);
      if hit {
        return Some(i);
      }
      i := i + 1;
    }
    return None;
  }
}

=== FILE: config.dfy ===
// src/config.c: the default application configuration.

module Config {

  /** The fields of `app_config_t` (and of `ctorm_config_t`, which has the same layout). */
  datatype Values = Values(
    maxConnections: int,
    disableLogging: bool,
    handleSignal: bool,
    serverHeader: bool,
    lockRequest: bool,
    tcpTimeout: int,
    poolSize: nat)

  /** The values `app_config_new` writes. */
  const Defaults := Values(1000, false, true, true, true, 10, 30)

  /** `app_config_t`, whose fields `app_config_new` assigns one by one. */
  class AppConfig {
    var maxConnections: int
    var disableLogging: bool
    var handleSignal: bool
    var serverHeader: bool
    var lockRequest: bool
    var tcpTimeout: int
    var poolSize: nat

    function Value(): Values
      reads this
    {
      Values(maxConnections, disableLogging, handleSignal, serverHeader, lockRequest, tcpTimeout, poolSize)
    }

    /** An unset configuration, as the caller's struct may hold anything. */
    constructor (v: Values)
      ensures Value() == v
    {
      maxConnections := v.maxConnections;
      disableLogging := v.disableLogging;
      handleSignal := v.handleSignal;
      serverHeader := v.serverHeader;
      lockRequest := v.lockRequest;
      tcpTimeout := v.tcpTimeout;
      poolSize := v.poolSize;
    }
  }

  /**
   * `app_config_new`: a NULL config is left alone; otherwise every field
   * is set to its default: 1000 connections, logging on, the signal
   * handler, the server header and request locking on, a 10 second TCP
   * timeout and 30 pool threads.
   */
  method New(config: AppConfig?)
    modifies config
    ensures config != null ==> config.Value() == Defaults
  {
    if config == null {
      return;
    }
    config.maxConnections := 1000;
    config.disableLogging := false;
    config.handleSignal := true;
    config.serverHeader := true;
    config.lockRequest := true;
    config.tcpTimeout := 10;
    config.poolSize := 30;
  }
}

=== FILE: errors.dfy ===
/**
 * The two error vocabularies of ctorm: the `ctorm_`-generation error numbers
 * of inc/error.h with the description table of src/error.c, and the older
 * application errors of inc/errors.h with the table of src/errors.c.
 * Both lookups fall back to libc `strerror`, which is outside the model:
 * `None` stands for "the text strerror gives".
 */
module Error {
  import opened Wrappers

  // inc/error.h: ctorm_error_t, numbered from 9900 in declaration order.
  const BadTcpTimeout: int := 9900
  const BadPoolSize: int := 9901
  const BadMaxConnCount: int := 9902
  const BadResponseCode: int := 9903
  const BadContentType: int := 9904
  const BadBuffer: int := 9905
  const BadUriFormat: int := 9906
  const BadScheme: int := 9907
  const BadAuthority: int := 9908
  const BadUserinfo: int := 9909
  const BadHost: int := 9910
  const BadPort: int := 9911
  const BadPath: int := 9912
  const BadQuery: int := 9913
  const BadAppPtr: int := 9914
  const BadAddrPtr: int := 9915
  const BadJsonPtr: int := 9916
  const BadFmtPtr: int := 9917
  const BadDataPtr: int := 9918
  const BadHeaderPtr: int := 9919
  const BadLocalPtr: int := 9920
  const BadQueryPtr: int := 9921
  const BadParamPtr: int := 9922
  const BadConfigPtr: int := 9923
  const BadUriPtr: int := 9924
  const BadAuthorityPtr: int := 9925
  const BadHostPtr: int := 9926
  const BadPathPtr: int := 9927
  const SchemeTooLarge: int := 9928
  const UserinfoTooLarge: int := 9929
  const PortTooLarge: int := 9930
  const HostTooLarge: int := 9931
  const PathTooLarge: int := 9932
  const QueryTooLarge: int := 9933
  const QueryKeyTooLarge: int := 9934
  const QueryValueTooLarge: int := 9935
  const PoolFail: int := 9936
  const ListenFail: int := 9937
  const SocketOptFail: int := 9938
  const FcntlFail: int := 9939
  const AllocFail: int := 9940
  const ReadFail: int := 9941
  const MutexFail: int := 9942
  const SeekFail: int := 9943
  const JsonFail: int := 9944
  const ResolveFail: int := 9945
  const SocketFail: int := 9946
  const BindFail: int := 9947
  const AcceptFail: int := 9948
  const NotExists: int := 9949
  const NoReadPerm: int := 9950
  const NoJsonSupport: int := 9951
  const EmptyBody: int := 9952
  const EmptyQuery: int := 9953
  const Unknown: int := 9954

  // libc errno values (Linux) the ctorm_ generation sets.
  const EFAULT: int := 14
  const EINVAL: int := 22

  datatype Desc = Desc(code: int, text: string)

  /**
   * `_ctorm_err_descs`, the entries before its `{0, NULL}` sentinel. The two
   * entries naming CTORM_ERR_BAD_HOSTNAME and CTORM_ERR_HOSTNAME_TOO_LARGE
   * use names inc/error.h does not declare and are not part of this model.
   */
  const Descs: seq<Desc> := [
    Desc(BadTcpTimeout, "invalid TCP timeout"),
    Desc(BadPoolSize, "invalid pool size"),
    Desc(BadPort, "bad port number"),
    Desc(BadPath, "invalid HTTP path (should start with /)"),
    Desc(BadMaxConnCount, "invalid max connection count"),
    Desc(BadResponseCode, "specified response code is invalid"),
    Desc(BadContentType, "body is not using the requested content type"),
    Desc(BadBuffer, "invalid buffer pointer or size"),
    Desc(BadAppPtr, "invalid app pointer"),
    Desc(BadUriPtr, "invalid URI pointer"),
    Desc(BadJsonPtr, "invalid cJSON pointer"),
    Desc(BadFmtPtr, "invalid string format pointer"),
    Desc(BadPathPtr, "invalid path pointer"),
    Desc(BadDataPtr, "invalid data pointer"),
    Desc(BadLocalPtr, "invalid local name pointer"),
    Desc(BadParamPtr, "invalid URL parameter name pointer"),
    Desc(BadQueryPtr, "invalid URL query name pointer"),
    Desc(BadHeaderPtr, "invalid header name/value pointer"),
    Desc(BadHostPtr, "invalid host address pointer"),
    Desc(PortTooLarge, "host port number is too large"),
    Desc(PoolFail, "failed to create thread pool"),
    Desc(ListenFail, "failed to listen on the interface"),
    Desc(SocketOptFail, "failed to set socket options"),
    Desc(FcntlFail, "failed to modify socket with fcntl"),
    Desc(AllocFail, "memory allocation failed"),
    Desc(SeekFail, "file seek failed"),
    Desc(ReadFail, "failed to read the file"),
    Desc(MutexFail, "failed to initialize thread mutex"),
    Desc(NotExists, "file does not exist"),
    Desc(NoReadPerm, "missing read permission"),
    Desc(NoJsonSupport, "library not compiled with JSON support"),
    Desc(EmptyBody, "body is empty"),
    Desc(Unknown, "unknown error")
  ]

  /** The text of the first entry of `table` with the given code; None when there is none. */
  function Lookup(table: seq<Desc>, code: int): (r: Option<string>)
    ensures r.None? <==> forall i :: 0 <= i < |table| ==> table[i].code != code
    ensures r.Some? ==> exists i :: 0 <= i < |table| && table[i] == Desc(code, r.value)
                                    && forall j :: 0 <= j < i ==> table[j].code != code
  {
    if |table| == 0 then None
    else if table[0].code == code then Some(table[0].text)
    else
      var r := Lookup(table[1..], code);
      if r.Some? then
        var i :| 0 <= i < |table[1..]| && table[1..][i] == Desc(code, r.value)
                 && forall j :: 0 <= j < i ==> table[1..][j].code != code;
        assert table[i + 1] == Desc(code, r.value);
        r
      else r
  }

  /** `ctorm_error_from`: the table text for a listed code, otherwise strerror's. */
  function ErrorFrom(code: int): (r: Option<string>)
    ensures r.None? <==> forall i :: 0 <= i < |Descs| ==> Descs[i].code != code
    ensures r.Some? ==> exists i :: 0 <= i < |Descs| && Descs[i] == Desc(code, r.value)
                                    && forall j :: 0 <= j < i ==> Descs[j].code != code
  {
    Lookup(Descs, code)
  }

  /** The entry at index i is the one found when no earlier entry has its code. */
  lemma {:induction false} LookupAt(table: seq<Desc>, i: nat, code: int)
    requires i < |table| && table[i].code == code
    requires forall j :: 0 <= j < i ==> table[j].code != code
    ensures Lookup(table, code) == Some(table[i].text)
  {
    if i > 0 {
      LookupAt(table[1..], i - 1, code);
    }
  }

  /** A listed code maps to its fixed text. */
  lemma ErrorFromAllocFail()
    ensures ErrorFrom(AllocFail) == Some("memory allocation failed")
  {
    LookupAt(Descs, 24, AllocFail);
  }

  /** Every described code is one of the ctorm_error_t numbers. */
  lemma DescCodesInRange()
    ensures forall i :: 0 <= i < |Descs| ==> BadTcpTimeout <= Descs[i].code <= Unknown
  {
  }

  /**
   * Codes below the ctorm_error_t range, such as the sentinel's 0 or a libc
   * errno, are never matched and fall through to strerror.
   */
  lemma ErrorFromLibc(code: int)
    requires code < BadTcpTimeout
    ensures ErrorFrom(code).None?
  {
    DescCodesInRange();
  }
}

/** The older application errors: inc/errors.h and src/errors.c. */
module Errors {
  import opened Wrappers
  import Error

  const BadTcpTimeout: int := 9908
  const BadPoolSize: int := 9909
  const PoolFailed: int := 9910
  const ListenFailed: int := 9911
  const BadAddress: int := 9912
  const BadPort: int := 9913
  const OptFailed: int := 9914
  const AllocFailed: int := 9915
  const UnknownErr: int := 9916
  const CantRead: int := 9917
  const SizeFail: int := 9918
  const BadReadPerm: int := 9919
  const FileNotExists: int := 9920
  const BadPath: int := 9921
  const InvalidAppPointer: int := 9922
  const BadUrlPointer: int := 9923
  const BadJsonPointer: int := 9924
  const BadFmtPointer: int := 9925
  const BadPathPointer: int := 9926
  const BadDataPointer: int := 9927
  const BadHeaderPointer: int := 9928
  const BadMaxConnCount: int := 9929
  const NoJSONSupport: int := 9930
  const MutexFail: int := 9931
  const BadResponseCode: int := 9932
  const ResponseAlreadySent: int := 9933
  const InvalidContentType: int := 9934
  const EmptyBody: int := 9935
  const BodyRecvFail: int := 9936

  /** `descs`: 22 entries, searched front to back. */
  const Descs: seq<Error.Desc> := [
    Error.Desc(BadTcpTimeout, "invalid TCP timeout"),
    Error.Desc(BadPoolSize, "invalid pool size"),
    Error.Desc(PoolFailed, "failed to create threadpool"),
    Error.Desc(ListenFailed, "failed to listen on the interface"),
    Error.Desc(BadAddress, "bad address for the interface"),
    Error.Desc(BadPort, "bad port number for the interface"),
    Error.Desc(OptFailed, "failed to set socket options"),
    Error.Desc(AllocFailed, "memory allocation failed"),
    Error.Desc(UnknownErr, "unknown error"),
    Error.Desc(BadReadPerm, "permissions do not allow reading"),
    Error.Desc(SizeFail, "failed to get the size of the file"),
    Error.Desc(CantRead, "failed to read the file"),
    Error.Desc(FileNotExists, "file does not exist"),
    Error.Desc(BadPath, "invalid HTTP path (should start with /)"),
    Error.Desc(InvalidAppPointer, "invalid app pointer"),
    Error.Desc(BadUrlPointer, "invalid URL pointer"),
    Error.Desc(BadJsonPointer, "invalid cJSON pointer"),
    Error.Desc(BadFmtPointer, "invalid string format pointer"),
    Error.Desc(BadPathPointer, "invalid path pointer"),
    Error.Desc(BadDataPointer, "invalid data pointer"),
    Error.Desc(BadHeaderPointer, "invalid header name/value pointer"),
    Error.Desc(BadMaxConnCount, "invalid max connection count")
  ]

  /** `app_geterror_code`: the description of a listed code, otherwise strerror's. */
  function GetErrorCode(code: int): (r: Option<string>)
    ensures r.None? <==> forall i :: 0 <= i < |Descs| ==> Descs[i].code != code
    ensures r.Some? ==> exists i :: 0 <= i < |Descs| && Descs[i] == Error.Desc(code, r.value)
  {
    Error.Lookup(Descs, code)
  }

  /** `app_geterror`: the description of the current errno, passed in here. */
  function GetError(errno: int): (r: Option<string>)
    ensures r == GetErrorCode(errno)
  {
    GetErrorCode(errno)
  }

  /** A listed code maps to its fixed text. */
  lemma GetErrorBadPort()
    ensures |Descs| == 22
    ensures GetErrorCode(BadPort) == Some("bad port number for the interface")
  {
    Error.LookupAt(Descs, 5, BadPort);
  }

  /** The table describes only the codes up to BadMaxConnCount. */
  lemma DescCodesInRange()
    ensures forall i :: 0 <= i < |Descs| ==> BadTcpTimeout <= Descs[i].code <= BadMaxConnCount
  {
  }

  /** The later codes, from NoJSONSupport on, fall back to strerror. */
  lemma GetErrorUnlisted(code: int)
    requires code > BadMaxConnCount
    ensures GetErrorCode(code).None?
  {
    DescCodesInRange();
  }
}

=== FILE: headers.dfy ===
/**
 * src/headers.c with include/headers.h: the header table is a `Table` whose
 * comparer and hasher fold ASCII case by OR-ing each byte with 32.
 */
module Headers {
  import opened Wrappers
  import opened Table

  /** The `tolower` macro: the byte with bit 5 set. */
  function Fold(c: char): (r: nat)
    ensures r < 256 && r % 64 >= 32
    ensures r == Byte(c) || r == Byte(c) + 32
  {
    var b := Byte(c);
    if (b / 32) % 2 == 1 then b else b + 32
  }

  /** Same length and equal bytes after folding. */
  predicate FoldEq(a: string, b: string) {
    |a| == |b| && forall i :: 0 <= i < |a| ==> Fold(a[i]) == Fold(b[i])
  }

  /**
   * `headers_cmp` as the function the table holds: the walk over both names
   * stops with -1 at the first folded difference and gives 0 only when both
   * names end together.
   */
  function HeadersCmp(a: string, b: string): (r: int)
    ensures r == 0 || r == -1
    ensures r == 0 <==> FoldEq(a, b)
  {
    if |a| == 0 || |b| == 0 then (if |a| == 0 && |b| == 0 then 0 else -1)
    else if Fold(a[0]) != Fold(b[0]) then -1
    else
      var r := HeadersCmp(a[1..], b[1..]);
      assert FoldEq(a, b) <==> FoldEq(a[1..], b[1..]) by {
        if FoldEq(a[1..], b[1..]) {
          forall i | 0 <= i < |a| ensures Fold(a[i]) == Fold(b[i]) {
            if i > 0 {
              assert a[1..][i - 1] == a[i] && b[1..][i - 1] == b[i];
            }
          }
        }
      }
      r
  }

  /** `headers_cmp`: the C loop over both names. */
  method CompareNames(s1: string, s2: string) returns (r: int)
    ensures r == HeadersCmp(s1, s2)
  {
    var i := 0;
    while i < |s1| && i < |s2|
      invariant 0 <= i <= |s1| && i <= |s2|
      invariant forall j :: 0 <= j < i ==> Fold(s1[j]) == Fold(s2[j])
    {
      if Fold(s1[i]) != Fold(s2[i]) {
        assert !FoldEq(s1, s2);
        return -1;
      }
      i := i + 1;
    }
    if i == |s1| && i == |s2| {
      assert FoldEq(s1, s2);
      return 0;
    }
    assert !FoldEq(s1, s2);
    return -1;
  }

  /** The unbounded sum `headers_hasher` adds up: each folded byte read as a signed `char`. */
  function FoldSum(s: string): int {
    if |s| == 0 then 0 else FoldSum(s[..|s| - 1]) + Signed(Fold(s[|s| - 1]))
  }

  /** `headers_hasher` as the function the table holds: the folded sum wrapped to 64 bits. */
  function HeadersHash(s: string): (r: nat)
    ensures r < U64
  {
    FoldSum(s) % U64
  }

  /** `headers_hasher`: the loop adding each folded byte into a `uint64_t`. */
  method HashName(data: string) returns (sum: nat)
    ensures sum == HeadersHash(data)
  {
    sum := 0;
    var i := 0;
    while i < |data|
      invariant 0 <= i <= |data|
      invariant sum == FoldSum(data[..i]) % U64
    {
      ModAdd(FoldSum(data[..i]), Signed(Fold(data[i])));
      assert data[..i + 1][..i] == data[..i];
      sum := (sum + Signed(Fold(data[i]))) % U64;
      i := i + 1;
    }
    assert data[..i] == data;
  }

  /** Names the comparer finds equal have equal folded sums. */
  lemma {:induction false} FoldSumEq(a: string, b: string)
    requires FoldEq(a, b)
    ensures FoldSum(a) == FoldSum(b)
    decreases |a|
  {
    if |a| > 0 {
      var n := |a| - 1;
      assert FoldEq(a[..n], b[..n]) by {
        forall i | 0 <= i < n ensures Fold(a[..n][i]) == Fold(b[..n][i]) {
          assert a[..n][i] == a[i] && b[..n][i] == b[i];
        }
      }
      FoldSumEq(a[..n], b[..n]);
      assert Fold(a[n]) == Fold(b[n]);
    }
  }

  /** Names `headers_cmp` finds equal land in the same bucket. */
  lemma SameBucket(a: string, b: string)
    requires HeadersCmp(a, b) == 0
    ensures HeadersHash(a) % TableSize == HeadersHash(b) % TableSize
  {
    FoldSumEq(a, b);
  }

  /** Names differing only in ASCII letter case compare equal; a prefix does not. */
  lemma FoldIgnoresCase()
    ensures HeadersCmp("Host", "hOST") == 0 && HeadersCmp("Host", "Hos") == -1
  {
    assert Fold('H') == 104 && Fold('h') == 104;
    assert Fold('o') == 111 && Fold('O') == 111;
    assert Fold('s') == 115 && Fold('S') == 115;
    assert Fold('t') == 116 && Fold('T') == 116;
    assert FoldEq("Host", "hOST");
  }

  /**
   * The fold is OR-ing with 32, not ASCII case folding: "@" and "`" differ
   * only in bit 5 and compare equal, as do "[" and "{".
   */
  lemma FoldIsNotCaseFolding()
    ensures HeadersCmp("@", "`") == 0 && HeadersCmp("[", "{") == 0
  {
    assert Fold('@') == 96 && Fold('`') == 96;
    assert Fold('[') == 123 && Fold('{') == 123;
    assert FoldEq("@", "`") && FoldEq("[", "{");
  }

  /** A header table as `headers_init` leaves it wired. */
  ghost predicate IsHeaders(h: Table)
    reads h.lists
  {
    h.Valid() && h.comparer == HeadersCmp && h.hasher == HeadersHash
  }

  /** `headers_init`: a table with every bucket empty, comparing and hashing by folded bytes. */
  method Init() returns (h: Table)
    ensures fresh(h) && fresh(h.lists) && IsHeaders(h)
    ensures forall i :: 0 <= i < h.lists.Length ==> h.lists[i] == []
    ensures h.Nodes() == []
  {
    h := new Table(Some(HeadersCmp), Some(HeadersHash));
    EmptyBuckets(h.lists[..]);
  }

  lemma {:induction false} EmptyBuckets(ls: seq<seq<Node>>)
    requires forall i :: 0 <= i < |ls| ==> ls[i] == []
    ensures Flat(ls) == []
  {
    if |ls| > 0 {
      EmptyBuckets(ls[..|ls| - 1]);
    }
  }

  /**
   * The chain `headers_set` leaves behind: a new `alloced` node at the tail
   * when no node matches; otherwise the first matching node gets the new
   * value and becomes `alloced`, keeping its key when it already was and
   * taking the new key when it was not.
   */
  function SetChain(chain: seq<Node>, key: string, value: string): (r: seq<Node>)
    ensures FirstMatch(chain, key, HeadersCmp).None? ==> |r| == |chain| + 1
    ensures FirstMatch(chain, key, HeadersCmp).Some? ==> |r| == |chain|
  {
    match FirstMatch(chain, key, HeadersCmp)
    case None => chain + [Node(key, value, true)]
    case Some(i) => chain[i := Node(if chain[i].alloced then chain[i].key else key, value, true)]
  }

  /** The value `headers_set` frees: the old value of a matching `alloced` node. */
  function SetFrees(chain: seq<Node>, key: string): Option<string> {
    match FirstMatch(chain, key, HeadersCmp)
    case None => None
    case Some(i) => if chain[i].alloced then Some(chain[i].value) else None
  }

  /**
   * `headers_set`: the copies `dup` asks for have the same contents, so
   * `dup` changes no value here. A failed node allocation (`allocOk` false)
   * fails the call and changes nothing; it only matters for an absent name.
   */
  method Set(h: Table, key: string, value: string, dup: bool, allocOk: bool) returns (ok: bool, freed: Option<string>)
    requires IsHeaders(h)
    modifies h.lists
    ensures IsHeaders(h)
    ensures var b := h.Bucket(key);
            var chain := old(h.lists[b]);
            if FirstMatch(chain, key, HeadersCmp).None? && !allocOk then
              !ok && freed.None? && h.lists[..] == old(h.lists[..])
            else
              ok && freed == SetFrees(chain, key) && h.lists[..] == old(h.lists[..])[b := SetChain(chain, key, value)]
  {
    var valdp := value;
    var b := h.Bucket(key);
    var node := h.Get(key);
    if node.None? {
      ok := h.Add(key, valdp, true, allocOk);
      freed := None;
      return;
    }
    var chain := h.lists[b];
    var i := node.value;
    if chain[i].alloced {
      freed := Some(chain[i].value);
      h.lists[b] := chain[i := Node(chain[i].key, valdp, true)];
      return true, freed;
    }
    h.lists[b] := chain[i := Node(key, valdp, true)];
    return true, None;
  }

  /** `headers_get`: the value of the first matching node in the name's bucket, or NULL. */
  method Get(h: Table, key: string) returns (r: Option<string>)
    requires IsHeaders(h)
    ensures r == Value(h.lists[h.Bucket(key)], key)
  {
    var node := h.Get(key);
    if node.None? {
      return None;
    }
    return Some(h.lists[h.Bucket(key)][node.value].value);
  }

  /** The value the table holds for a name in its chain: that of the first node the comparer finds equal. */
  function Value(chain: seq<Node>, key: string): Option<string> {
    match FirstMatch(chain, key, HeadersCmp)
    case None => None
    case Some(i) => Some(chain[i].value)
  }

  /** A name with no match in a chain has no match in any chain position either. */
  lemma MissFoldEq(chain: seq<Node>, key: string, key2: string)
    requires FoldEq(key, key2)
    ensures FirstMatch(chain, key, HeadersCmp) == FirstMatch(chain, key2, HeadersCmp)
  {
    forall j | 0 <= j < |chain| ensures HeadersCmp(key, chain[j].key) == 0 <==> HeadersCmp(key2, chain[j].key) == 0 {
    }
    var m := FirstMatch(chain, key, HeadersCmp);
    if m.Some? {
      FirstMatchAt(chain, key2, HeadersCmp, m.value);
    }
  }

  /** After setting a name, any name the comparer finds equal to it (any case variant) gets the new value. */
  lemma SetThenGet(chain: seq<Node>, key: string, key2: string, value: string)
    requires HeadersCmp(key, key2) == 0
    ensures Value(SetChain(chain, key, value), key2) == Some(value)
  {
    MissFoldEq(chain, key, key2);
    match FirstMatch(chain, key, HeadersCmp)
    case None =>
      AppendedMatch(chain, Node(key, value, true), key2, HeadersCmp);
    case Some(i) =>
      var n := Node(if chain[i].alloced then chain[i].key else key, value, true);
      assert HeadersCmp(key2, n.key) == 0;
      UpdatedMatch(chain, i, n, key2, HeadersCmp);
  }

  /** Setting a name leaves the value of every name the comparer tells apart from it as it was. */
  lemma SetThenGetOther(chain: seq<Node>, key: string, key2: string, value: string)
    requires HeadersCmp(key, key2) != 0
    ensures Value(SetChain(chain, key, value), key2) == Value(chain, key2)
  {
    var r := SetChain(chain, key, value);
    var m := FirstMatch(chain, key2, HeadersCmp);
    match FirstMatch(chain, key, HeadersCmp)
    case None =>
      AppendedOther(chain, Node(key, value, true), key2, HeadersCmp);
      if m.Some? {
        assert r[m.value] == chain[m.value];
      }
    case Some(i) =>
      var n := Node(if chain[i].alloced then chain[i].key else key, value, true);
      assert HeadersCmp(key2, n.key) != 0 && HeadersCmp(key2, chain[i].key) != 0;
      UpdatedOther(chain, i, n, key2, HeadersCmp);
      if m.Some? {
        assert m.value != i;
      }
  }

  /** `headers_set` adds a node exactly when no node matched, so setting a name twice adds one node. */
  lemma SetTwice(chain: seq<Node>, key: string, v1: string, v2: string)
    ensures |SetChain(SetChain(chain, key, v1), key, v2)| == |SetChain(chain, key, v1)|
    ensures Value(SetChain(SetChain(chain, key, v1), key, v2), key) == Some(v2)
  {
    SetThenGet(chain, key, key, v1);
    SetThenGet(SetChain(chain, key, v1), key, key, v2);
  }
}

=== FILE: http.dfy ===
// HTTP methods, versions and response codes: the constants and macros of
// inc/http.h (the newer API) and the method table of src/http.c (the older
// API, whose numbering starts at 0).

module Http {
  import opened Wrappers

  // inc/http.h

  /** The request methods of section 4.3 of RFC 7231, numbered from 1 as the enum is. */
  datatype Method = GET | HEAD | POST | PUT | DELETE | CONNECT | OPTIONS | TRACE

  const MethodCount: nat := 8

  /** The enum value of a method. */
  function Number(m: Method): (n: int)
    ensures 1 <= n <= MethodCount
  {
    match m
    case GET => 1
    case HEAD => 2
    case POST => 3
    case PUT => 4
    case DELETE => 5
    case CONNECT => 6
    case OPTIONS => 7
    case TRACE => 8
  }

  /** The method an enum value stands for, if any. */
  function FromNumber(n: int): (m: Option<Method>)
    ensures m.Some? <==> 1 <= n <= MethodCount
    ensures m.Some? ==> Number(m.value) == n
  {
    if n == 1 then Some(GET)
    else if n == 2 then Some(HEAD)
    else if n == 3 then Some(POST)
    else if n == 4 then Some(PUT)
    else if n == 5 then Some(DELETE)
    else if n == 6 then Some(CONNECT)
    else if n == 7 then Some(OPTIONS)
    else if n == 8 then Some(TRACE)
    else None
  }

  /** `struct ctorm_http_method_desc`. */
  datatype Desc = Desc(name: string, allowsReqBody: bool, allowsResBody: bool, requiresReqBody: bool, requiresResBody: bool)

  /**
   * `ctorm_http_methods`, indexed by method - 1. Its definition is not part
   * of this model; the rows follow the doc comment of each enum constant.
   */
  const Methods: seq<Desc> := [
    Desc("GET", false, true, false, false),
    Desc("HEAD", false, false, false, false),
    Desc("POST", true, true, true, false),
    Desc("PUT", true, true, true, false),
    Desc("DELETE", true, true, false, false),
    Desc("CONNECT", false, false, false, false),
    Desc("OPTIONS", true, true, false, false),
    Desc("TRACE", false, true, false, true)
  ]

  const VersionLen: nat := 8
  const MethodMax: nat := 7
  const CodeMin: int := 100
  const CodeMax: int := 599

  /** `ctorm_http_methods[(method) - 1]`, the row every descriptor macro reads. */
  function Descriptor(m: Method): (d: Desc)
    ensures d == Methods[Number(m) - 1]
  {
    Methods[Number(m) - 1]
  }

  function Name(m: Method): string {
    Descriptor(m).name
  }

  /** Every method name fits the longest one, and it is the method's own upper-case name. */
  lemma NameFits(m: Method)
    ensures 0 < |Name(m)| <= MethodMax
    ensures |Name(m)| == MethodMax <==> m == CONNECT || m == OPTIONS
  {
  }

  /** The name macro tells the methods apart. */
  lemma NamesDistinct(m1: Method, m2: Method)
    requires Name(m1) == Name(m2)
    ensures m1 == m2
  {
    assert Name(m1)[0] == Name(m2)[0];
    if |Name(m1)| >= 2 {
      assert Name(m1)[1] == Name(m2)[1];
    }
  }

  /**
   * The body rules of section 4.3 of RFC 7231 as the doc comments give them:
   * GET, HEAD, CONNECT and TRACE take no request body, POST and PUT need
   * one, DELETE and OPTIONS may have one; a required body is always allowed.
   */
  lemma BodyRules(m: Method)
    ensures Descriptor(m).allowsReqBody <==> m in {POST, PUT, DELETE, OPTIONS}
    ensures Descriptor(m).requiresReqBody <==> m in {POST, PUT}
    ensures Descriptor(m).requiresReqBody ==> Descriptor(m).allowsReqBody
    ensures Descriptor(m).requiresResBody ==> Descriptor(m).allowsResBody
    ensures !Descriptor(m).allowsResBody <==> m in {HEAD, CONNECT}
  {
  }

  /** `ctorm_http_version_t`. */
  datatype Version = Http10 | Http11

  function VersionNumber(v: Version): (n: int)
    ensures n == (if v == Http10 then 1 else 2)
  {
    match v
    case Http10 => 1
    case Http11 => 2
  }

  /** The text of a version, "HTTP/x.x", which is VersionLen characters long. */
  function VersionText(v: Version): (s: string)
    ensures |s| == VersionLen && s[..5] == "HTTP/"
  {
    match v
    case Http10 => "HTTP/1.0"
    case Http11 => "HTTP/1.1"
  }

  /** `ctorm_http_code_is_valid`. */
  predicate CodeIsValid(code: int) {
    code >= CodeMin && code <= CodeMax
  }

  /** `ctorm_http_code_is_error`. */
  predicate CodeIsError(code: int) {
    code >= 400 && CodeMax >= code
  }

  /** Every error code is a valid code, and the valid codes below 400 are not errors. */
  lemma ErrorIsValid(code: int)
    ensures CodeIsError(code) ==> CodeIsValid(code)
    ensures CodeIsValid(code) && !CodeIsError(code) <==> 100 <= code < 400
  {
  }

  // src/http.c

  /** `method_map_t`. */
  datatype MapEntry = MapEntry(code: int, name: string, body: bool)

  /** `http_method_map`, with the `method_t` codes of include/http.h. */
  const MethodMap: seq<MapEntry> := [
    MapEntry(0, "GET", false),
    MapEntry(1, "HEAD", false),
    MapEntry(2, "POST", true),
    MapEntry(3, "PUT", true),
    MapEntry(4, "DELETE", true),
    MapEntry(5, "OPTIONS", false)
  ]

  const MethodMapSize: nat := 6

  /** The table has MethodMapSize entries and each entry's code is its index. */
  lemma MapCodesAreIndices()
    ensures |MethodMap| == MethodMapSize
    ensures forall i :: 0 <= i < |MethodMap| ==> MethodMap[i].code == i
  {
  }

  /** The old table's body flag is set exactly for POST, PUT and DELETE. */
  lemma MapBodyFlags(i: nat)
    requires i < |MethodMap|
    ensures MethodMap[i].body <==> MethodMap[i].name in {"POST", "PUT", "DELETE"}
  {
  }

  /** The loop of `http_methodid` from entry i on. */
  function MethodIdFrom(name: string, i: nat): int
    requires i <= |MethodMap|
    decreases |MethodMap| - i
  {
    if i == |MethodMap| then -1
    else if MethodMap[i].name == name then MethodMap[i].code
    else MethodIdFrom(name, i + 1)
  }

  /** The loop from entry i finds the first entry from i on with the name, or gives -1 when none has it. */
  lemma {:induction false} MethodIdFromSpec(name: string, i: nat)
    requires i <= |MethodMap|
    ensures var r := MethodIdFrom(name, i);
      && (r == -1 <==> forall j :: i <= j < |MethodMap| ==> MethodMap[j].name != name)
      && (r != -1 ==> i <= r < |MethodMap| && MethodMap[r].name == name
                      && forall j :: i <= j < r ==> MethodMap[j].name != name)
    decreases |MethodMap| - i
  {
    if i < |MethodMap| && MethodMap[i].name != name {
      MethodIdFromSpec(name, i + 1);
    }
  }

  /**
   * `http_methodid`: the code of the entry whose name is exactly, with case,
   * the given one, or -1 when there is none.
   */
  function MethodId(name: string): int {
    MethodIdFrom(name, 0)
  }

  /** The lookup gives -1 exactly for a name no entry has, and otherwise the code of an entry with that name. */
  lemma MethodIdSpec(name: string)
    ensures MethodId(name) == -1 <==> forall j :: 0 <= j < |MethodMap| ==> MethodMap[j].name != name
    ensures MethodId(name) != -1 ==> 0 <= MethodId(name) < |MethodMap| && MethodMap[MethodId(name)].name == name
  {
    MethodIdFromSpec(name, 0);
  }

  /**
   * `http_method_has_body` (declared in include/http.h; its definition is
   * not part of this model): the body flag of the map entry whose code is
   * the argument, false for a code outside the map.
   */
  function HasBody(code: int): (r: bool)
    ensures r <==> code == 2 || code == 3 || code == 4
  {
    0 <= code < |MethodMap| && MethodMap[code].body
  }

  /**
   * `http_version_get` (declared in include/http.h; neither it nor the
   * `http_versions` array is part of this model): the static version
   * string equal to the name, or NULL. The supported versions are a
   * parameter.
   */
  function VersionGet(versions: seq<string>, name: string): (r: Option<string>)
    ensures r.Some? <==> name in versions
    ensures r.Some? ==> r.value == name
  {
    if name in versions then Some(name) else None
  }

  /**
   * `http_static_t`: the sizes `http_static_load` computes once (that
   * function is not part of this model, so they are parameters).
   */
  datatype Static = Static(methodMax: nat, versionLen: nat, headerMax: nat, pathMax: nat, bodyMax: nat)

  /** No method name holds a space or a NUL. */
  lemma MethodNamesPlain(i: int)
    requires 0 <= i < |MethodMap|
    ensures ' ' !in MethodMap[i].name && '\0' !in MethodMap[i].name
  {
  }

  /** POST and OPTIONS are found with their `method_t` codes. */
  lemma MethodIdKnown()
    ensures MethodId("POST") == 2 && MethodId("OPTIONS") == 5
  {
    assert MethodMap[2].name == "POST";
  }

  /** The lookup is exact: a lower-case name is unknown, and so is a method the table lacks. */
  lemma MethodIdUnknown()
    ensures MethodId("get") == -1 && MethodId("TRACE") == -1
  {
    assert forall j :: 0 <= j < |MethodMap| ==> MethodMap[j].name != "get" by {
      forall j | 0 <= j < |MethodMap| ensures MethodMap[j].name != "get" {
        assert MethodMap[j].name[0] != 'g';
      }
    }
    assert forall j :: 0 <= j < |MethodMap| ==> MethodMap[j].name != "TRACE" by {
      forall j | 0 <= j < |MethodMap| ensures MethodMap[j].name != "TRACE" {
        assert MethodMap[j].name[0] != 'T';
      }
    }
  }

  /**
   * The two generations agree on the names of the six old methods, but the
   * old numbering is not the new one minus 1 from OPTIONS on, because the
   * new enum puts CONNECT before it.
   */
  lemma GenerationsAgree(i: nat)
    requires i < |MethodMap|
    ensures var m := FromNumber(if i < 5 then i + 1 else 7).value;
            Name(m) == MethodMap[i].name
    ensures MethodMap[5].code + 1 != Number(OPTIONS)
  {
  }
}

=== FILE: pair.dfy ===
/**
 * src/pair.c: the singly linked key/value list of inc/pair.h. A list is
 * modelled by the sequence of its nodes from the head on; `PairList` is the
 * `ctorm_pair_t *` variable that `ctorm_pair_add` overwrites.
 */
module Pair {
  import opened Wrappers
  import Error

  /** One node: a key and a value that may be NULL. */
  datatype Pair = Pair(key: string, value: Option<string>)

  /** The head variable a caller passes to `ctorm_pair_add` by address. */
  class PairList {
    var nodes: seq<Pair>

    constructor ()
      ensures nodes == []
    {
      nodes := [];
    }

    /** Overwrites the value of the head node, as the query parser does. */
    method SetHeadValue(value: Option<string>)
      requires |nodes| > 0
      modifies this
      ensures nodes == [Pair(old(nodes)[0].key, value)] + old(nodes)[1..]
    {
      nodes := [Pair(nodes[0].key, value)] + nodes[1..];
    }
  }

  /**
   * `ctorm_pair_add`: a NULL head pointer or key gives EINVAL, a failed
   * calloc (`allocOk` false) gives CTORM_ERR_ALLOC_FAIL, both leaving the list
   * as it was; otherwise the new node becomes the head.
   */
  method Add(head: PairList?, key: Option<string>, value: Option<string>, allocOk: bool)
    returns (r: Result<Pair, int>)
    modifies head
    ensures head == null || key.None? ==> r == Err(Error.EINVAL)
    ensures head != null && key.Some? && !allocOk ==> r == Err(Error.AllocFail)
    ensures r.Err? && head != null ==> head.nodes == old(head.nodes)
    ensures head != null && key.Some? && allocOk ==>
              r == Ok(Pair(key.value, value)) && head.nodes == [r.value] + old(head.nodes)
  {
    if head == null || key.None? {
      return Err(Error.EINVAL);
    }
    if !allocOk {
      return Err(Error.AllocFail);
    }
    var node := Pair(key.value, value);
    head.nodes := [node] + head.nodes;
    return Ok(node);
  }

  /** The first node from the head whose key equals the given one. */
  predicate FirstWithKey(nodes: seq<Pair>, key: string, i: int) {
    0 <= i < |nodes| && nodes[i].key == key
    && forall j :: 0 <= j < i ==> nodes[j].key != key
  }

  /**
   * `ctorm_pair_find`: an empty list (a NULL head) or a NULL key gives
   * EINVAL; otherwise the index of the first node with an equal key, or
   * EFAULT when there is none.
   */
  method Find(nodes: seq<Pair>, key: Option<string>) returns (r: Result<nat, int>)
    ensures |nodes| == 0 || key.None? <==> r == Err(Error.EINVAL)
    ensures r.Ok? ==> key.Some? && FirstWithKey(nodes, key.value, r.value)
    ensures |nodes| > 0 && key.Some? ==>
              (r == Err(Error.EFAULT) <==> forall j :: 0 <= j < |nodes| ==> nodes[j].key != key.value)
    ensures r.Err? ==> r.error == Error.EINVAL || r.error == Error.EFAULT
  {
    if |nodes| == 0 || key.None? {
      return Err(Error.EINVAL);
    }
    var i := 0;
    while i < |nodes|
      invariant 0 <= i <= |nodes|
      invariant forall j :: 0 <= j < i ==> nodes[j].key != key.value
    {
      if nodes[i].key == key.value {
        return Ok(i);
      }
      i := i + 1;
    }
    return Err(Error.EFAULT);
  }

  /** The key looked up in a list: the value of the first node with that key. */
  function Lookup(nodes: seq<Pair>, key: string): (r: Option<Option<string>>)
    ensures r.None? <==> forall j :: 0 <= j < |nodes| ==> nodes[j].key != key
    ensures r.Some? ==> exists i :: FirstWithKey(nodes, key, i) && r.value == nodes[i].value
  {
    if |nodes| == 0 then None
    else if nodes[0].key == key then Some(nodes[0].value)
    else
      var r := Lookup(nodes[1..], key);
      if r.Some? then
        var i :| FirstWithKey(nodes[1..], key, i) && r.value == nodes[1..][i].value;
        assert FirstWithKey(nodes, key, i + 1);
        r
      else r
  }

  /** After a successful add, finding the same key returns the new head: the newest pair wins. */
  lemma FindAfterAdd(old_nodes: seq<Pair>, key: string, value: Option<string>)
    ensures FirstWithKey([Pair(key, value)] + old_nodes, key, 0)
    ensures Lookup([Pair(key, value)] + old_nodes, key) == Some(value)
  {
  }

  /** Adding a pair does not change what any other key finds. */
  lemma {:induction false} LookupAfterAddOther(old_nodes: seq<Pair>, key: string, value: Option<string>, other: string)
    requires other != key
    ensures Lookup([Pair(key, value)] + old_nodes, other) == Lookup(old_nodes, other)
  {
    assert ([Pair(key, value)] + old_nodes)[1..] == old_nodes;
  }

  /**
   * `ctorm_pair_free`: follows `next` from the head and frees every node;
   * the result lists the nodes freed, in the order they are freed.
   */
  method Free(nodes: seq<Pair>) returns (freed: seq<Pair>)
    ensures freed == nodes
  {
    freed := [];
    var rest := nodes;
    while |rest| > 0
      invariant freed + rest == nodes
    {
      freed := freed + [rest[0]];
      rest := rest[1..];
    }
  }
}

=== FILE: parse.dfy ===
/**
 * src/parse.c: `parse_form`, which splits an application/x-www-form-urlencoded
 * string into decoded key/value pairs. `parse_request`, from the same file,
 * is modelled in module ParseRequest.
 */
module Parse {
  import opened Wrappers
  import opened Util
  import Http
  import Headers
  import Percent
  import Query
  import Url

  // parse_form

  /**
   * The table `parse_form` fills. The calls at src/parse.c:49-50 and 72-73
   * (a three-argument `table_add` and a `table_set`) match no table function,
   * so the table is modelled as the list of (key, value) pairs it receives,
   * in insertion order.
   */
  class FormTable {
    var pairs: seq<(string, string)>

    constructor ()
      ensures pairs == []
    {
      pairs := [];
    }
  }

  /**
   * The loop state: the mode, the write index, the C strings the key and
   * value buffers hold, and the pairs inserted so far. The buffers are not
   * cleared between pairs: a write at index 0 starts a new string, but a
   * part with no character keeps what the buffer held.
   */
  datatype Form = Form(isKey: bool, index: nat, key: string, value: string, pairs: seq<(string, string)>)

  const FormStart := Form(true, 0, [], [], [])

  /** Ending a pair: both buffers are urldecoded in place and copied into the table. None when a '%' sits too close to the end of a buffer, where `urldecode` would read past it. */
  function FormClose(f: Form): Option<Form> {
    if CompleteFrom(f.key, 0) && CompleteFrom(f.value, 0) then
      var k := Url.Decoded(f.key);
      var v := Url.Decoded(f.value);
      Some(Form(true, 0, k, v, f.pairs + [(k, v)]))
    else None
  }

  /** One iteration of the loop at src/parse.c:35-64 on character c. */
  function FormStep(f: Form, c: char): Option<Form> {
    if c == '=' && f.isKey then Some(f.(isKey := false, index := 0))
    else if !f.isKey && c == '&' then FormClose(f)
    else if f.isKey then Some(f.(key := Url.Write(f.key, f.index, c), index := f.index + 1))
    else Some(f.(value := Url.Write(f.value, f.index, c), index := f.index + 1))
  }

  function FormRun(s: string, f: Form): Option<Form>
    decreases |s|
  {
    if s == [] then Some(f)
    else match FormStep(f, s[0])
      case None => None
      case Some(g) => FormRun(s[1..], g)
  }

  /** The result of `parse_form` and the pairs it inserted. */
  datatype FormOut = FormOut(ok: bool, pairs: seq<(string, string)>)

  /**
   * `parse_form(table, data)` on a non-NULL table: false for NULL or empty
   * data; otherwise true, with the pairs of the loop plus the last pair
   * when the data ends in value mode. A trailing key with no '=' is
   * dropped. None when `urldecode` would read past a buffer.
   */
  function FormSpec(data: Option<string>): (r: Option<FormOut>)
    ensures r.Some? && !r.value.ok <==> data.None? || CStr(data.value) == []
    ensures r.Some? && !r.value.ok ==> r.value.pairs == []
  {
    if data.None? || CStr(data.value) == [] then Some(FormOut(false, []))
    else match FormRun(CStr(data.value), FormStart)
      case None => None
      case Some(f) =>
        if f.isKey then Some(FormOut(true, f.pairs))
        else match FormClose(f)
          case None => None
          case Some(g) => Some(FormOut(true, g.pairs))
  }

  /** The buffer a holds the C string s. */
  ghost predicate Holds(a: array<char>, s: string)
    reads a
  {
    |s| < a.Length && a[..|s|] == s && a[|s|] == '\0'
  }

  /** A buffer and the loop state agree. */
  ghost predicate Mirrors(key: array<char>, value: array<char>, isKey: bool, index: nat, f: Form)
    reads key, value
  {
    Holds(key, f.key) && Holds(value, f.value) && '\0' !in f.key && '\0' !in f.value
    && isKey == f.isKey && index == f.index
    && (index == 0 || index == if isKey then |f.key| else |f.value|)
  }

  /** `strdup` of the C string a holds. */
  method Dup(a: array<char>, ghost s: string) returns (r: string)
    requires Holds(a, s) && '\0' !in s
    ensures r == s
  {
    var n := StrLen(a, |s|);
    r := a[..n];
  }

  /** `urldecode` on a buffer: it then holds the decoded C string. */
  method DecodeBuffer(a: array<char>, ghost s: string) returns (ghost d: string)
    requires Holds(a, s) && '\0' !in s && CompleteFrom(s, 0)
    modifies a
    ensures Holds(a, d) && d == Url.Decoded(s) && '\0' !in d
  {
    var n := StrLen(a, |s|);
    UrlDecode(a, n);
    ghost var u := UrlDecoded(s, 0, '\0');
    d := CStr(u);
    assert a[..|d|] == d by {
      assert a[..|d|] == a[..|u|][..|d|];
    }
    if |d| < |u| {
      assert a[|d|] == a[..|u|][|d|];
    }
  }

  /** The pair-ending block at src/parse.c:42-53 (and 69-73): decode, copy, insert. */
  method CloseBuffers(table: FormTable, key: array<char>, value: array<char>, ghost f: Form)
    requires key != value && Mirrors(key, value, f.isKey, f.index, f) && FormClose(f).Some?
    modifies table, key, value
    ensures Mirrors(key, value, true, 0, FormClose(f).value)
    ensures table.pairs == old(table.pairs) + [(FormClose(f).value.key, FormClose(f).value.value)]
  {
    ghost var k := DecodeBuffer(key, f.key);
    ghost var v := DecodeBuffer(value, f.value);
    var ks := Dup(key, k);
    var vs := Dup(value, v);
    table.pairs := table.pairs + [(ks, vs)];
  }

  /** Writing c at index into a buffer that holds the C string s. */
  method PutChar(a: array<char>, index: nat, c: char, ghost s: string)
    requires Holds(a, s) && '\0' !in s && c != '\0'
    requires index == 0 || index == |s|
    requires index + 1 < a.Length
    modifies a
    ensures Holds(a, Url.Write(s, index, c)) && '\0' !in Url.Write(s, index, c)
  {
    a[index] := c;
    a[index + 1] := '\0';
    assert a[..index + 1] == (if index == 0 then [] else s) + [c];
  }

  /**
   * One iteration of the loop at src/parse.c:35-64: '=' in key mode
   * switches to the value, '&' in value mode ends the pair, any other
   * character is written to the current buffer.
   */
  method FormChar(table: FormTable, key: array<char>, value: array<char>, isKey: bool, index: nat, c: char, ghost f: Form)
    returns (isKey': bool, index': nat, ghost f': Form, ghost added: seq<(string, string)>)
    requires key != value && Mirrors(key, value, isKey, index, f) && c != '\0'
    requires index < key.Length - 1 && index < value.Length - 1
    requires FormStep(f, c).Some?
    modifies table, key, value
    ensures Mirrors(key, value, isKey', index', f') && FormStep(f, c) == Some(f')
    ensures index' <= index + 1
    ensures f'.pairs == f.pairs + added && table.pairs == old(table.pairs) + added
  {
    added := [];
    if c == '=' && isKey {
      isKey', index' := false, 0;
      f' := f.(isKey := false, index := 0);
    } else if !isKey && c == '&' {
      CloseBuffers(table, key, value, f);
      isKey', index' := true, 0;
      f' := FormClose(f).value;
      added := [(f'.key, f'.value)];
    } else if isKey {
      PutChar(key, index, c, f.key);
      isKey', index' := isKey, index + 1;
      f' := f.(key := Url.Write(f.key, f.index, c), index := f.index + 1);
    } else {
      PutChar(value, index, c, f.value);
      isKey', index' := isKey, index + 1;
      f' := f.(value := Url.Write(f.value, f.index, c), index := f.index + 1);
    }
  }

  /** Running the loop from index i is one step, then the loop from i + 1. */
  lemma FormRunStep(s: string, i: nat, f: Form)
    requires i < |s|
    ensures FormRun(s[i..], f).Some? ==> FormStep(f, s[i]).Some?
    ensures FormStep(f, s[i]).Some? ==> FormRun(s[i..], f) == FormRun(s[i + 1..], FormStep(f, s[i]).value)
  {
    assert s[i..][0] == s[i] && s[i..][1..] == s[i + 1..];
  }

  /** The loop at src/parse.c:35-64 over the characters of s, with buffers of |s| + 1 characters. */
  method FormLoop(table: FormTable, s: string, key: array<char>, value: array<char>)
    returns (isKey: bool, index: nat, ghost f: Form)
    requires key != value && key.Length == |s| + 1 && value.Length == |s| + 1
    requires Mirrors(key, value, true, 0, FormStart) && '\0' !in s && FormRun(s, FormStart).Some?
    modifies table, key, value
    ensures Mirrors(key, value, isKey, index, f) && FormRun(s, FormStart) == Some(f)
    ensures table.pairs == old(table.pairs) + f.pairs
  {
    isKey, index, f := true, 0, FormStart;
    ghost var target := FormRun(s, FormStart);
    var i := 0;
    while i < |s|
      invariant i <= |s| && index <= i
      invariant Mirrors(key, value, isKey, index, f)
      invariant table.pairs == old(table.pairs) + f.pairs
      invariant FormRun(s[i..], f) == target
    {
      isKey, index, f := FormTurn(table, s, i, key, value, isKey, index, f, old(table.pairs));
      i := i + 1;
    }
    assert s[|s|..] == [];
  }

  /** One turn of the loop at index i, keeping its invariant. */
  method FormTurn(table: FormTable, s: string, i: nat, key: array<char>, value: array<char>,
                  isKey: bool, index: nat, ghost f: Form, ghost base: seq<(string, string)>)
    returns (isKey': bool, index': nat, ghost f': Form)
    requires key != value && key.Length == |s| + 1 && value.Length == |s| + 1
    requires i < |s| && index <= i && '\0' !in s && FormRun(s[i..], f).Some?
    requires Mirrors(key, value, isKey, index, f) && table.pairs == base + f.pairs
    modifies table, key, value
    ensures index' <= i + 1 && Mirrors(key, value, isKey', index', f')
    ensures table.pairs == base + f'.pairs && FormRun(s[i + 1..], f') == FormRun(s[i..], f)
  {
    FormRunStep(s, i, f);
    assert s[i] in s;
    ghost var added;
    isKey', index', f', added := FormChar(table, key, value, isKey, index, s[i], f);
    AppendAssoc(base, f.pairs, added);
  }

  /**
   * `parse_form(table, data)`: false on a NULL table or data and on empty
   * data; otherwise the pairs of FormSpec are appended to the table and
   * the result is true. The key and value buffers are `size + 1`
   * characters long and zeroed. When a '%' sits within two characters of
   * the end of a key or value, `urldecode` steps over the buffer's NUL into
   * what lies behind it; the model does not follow it there and gives None
   * before the loop, changing nothing.
   */
  method ParseForm(table: FormTable?, data: Option<string>) returns (r: Option<bool>)
    modifies table
    ensures table == null ==> r == Some(false)
    ensures table != null && FormSpec(data).None? ==> r.None? && table.pairs == old(table.pairs)
    ensures table != null && FormSpec(data).Some? ==>
              r == Some(FormSpec(data).value.ok) && table.pairs == old(table.pairs) + FormSpec(data).value.pairs
  {
    if table != null && FormSpec(data).None? {
      return None;
    }
    if data.None? || table == null {
      return Some(false);
    }
    var s := CStr(data.value);
    var size := |s|;
    if size <= 0 {
      return Some(false);
    }
    var key := new char[size + 1](_ => '\0');
    var value := new char[size + 1](_ => '\0');
    ghost var f;
    var isKey, index;
    isKey, index, f := FormLoop(table, s, key, value);
    if isKey {
      return Some(true);
    }
    CloseBuffers(table, key, value, f);
    return Some(true);
  }

  // What parse_form makes of well-formed data

  /** In key mode, with the index at the end of the key, characters other than '=' extend it. */
  lemma {:induction false} FormKeyChars(k: string, rest: string, f: Form)
    requires f.isKey && f.index == |f.key| && '=' !in k
    ensures FormRun(k + rest, f) == FormRun(rest, f.(key := f.key + k, index := f.index + |k|))
  {
    if |k| > 0 {
      assert '=' !in k[1..] by { assert forall x :: x in k[1..] ==> x in k; }
      var f1 := f.(key := f.key + [k[0]], index := f.index + 1);
      assert k[0] in k;
      assert FormStep(f, k[0]) == Some(f1);
      assert (k + rest)[0] == k[0] && (k + rest)[1..] == k[1..] + rest;
      FormKeyChars(k[1..], rest, f1);
      assert f.key + [k[0]] + k[1..] == f.key + k;
    } else {
      assert k + rest == rest && f.key + k == f.key;
    }
  }

  /** In value mode, with the index at the end of the value, characters other than '&' extend it. */
  lemma {:induction false} FormValueChars(v: string, rest: string, f: Form)
    requires !f.isKey && f.index == |f.value| && '&' !in v
    ensures FormRun(v + rest, f) == FormRun(rest, f.(value := f.value + v, index := f.index + |v|))
  {
    if |v| > 0 {
      assert '&' !in v[1..] by { assert forall x :: x in v[1..] ==> x in v; }
      var f1 := f.(value := f.value + [v[0]], index := f.index + 1);
      assert v[0] in v;
      assert FormStep(f, v[0]) == Some(f1);
      assert (v + rest)[0] == v[0] && (v + rest)[1..] == v[1..] + rest;
      FormValueChars(v[1..], rest, f1);
      assert f.value + [v[0]] + v[1..] == f.value + v;
    } else {
      assert v + rest == rest && f.value + v == f.value;
    }
  }

  /** A key from the start of the key buffer, then '=': the buffer holds the key and value mode starts. */
  lemma FormKey(ek: string, rest: string, f: Form)
    requires f.isKey && f.index == 0 && |ek| > 0 && '=' !in ek
    ensures FormRun(ek + "=" + rest, f) == FormRun(rest, f.(isKey := false, index := 0, key := ek))
  {
    var f1 := f.(key := [ek[0]], index := 1);
    assert ek[0] in ek && Url.Write(f.key, 0, ek[0]) == [ek[0]];
    assert FormStep(f, ek[0]) == Some(f1);
    assert '=' !in ek[1..] by { assert forall x :: x in ek[1..] ==> x in ek; }
    assert (ek + "=" + rest)[0] == ek[0] && (ek + "=" + rest)[1..] == ek[1..] + ("=" + rest);
    FormKeyChars(ek[1..], "=" + rest, f1);
    assert [ek[0]] + ek[1..] == ek;
    assert ("=" + rest)[0] == '=' && ("=" + rest)[1..] == rest;
  }

  /** A value from the start of the value buffer: the buffer holds the value. */
  lemma FormValue(ev: string, rest: string, f: Form)
    requires !f.isKey && f.index == 0 && |ev| > 0 && '&' !in ev
    ensures FormRun(ev + rest, f) == FormRun(rest, f.(value := ev, index := |ev|))
  {
    var f1 := f.(value := [ev[0]], index := 1);
    assert ev[0] in ev && Url.Write(f.value, 0, ev[0]) == [ev[0]];
    assert FormStep(f, ev[0]) == Some(f1);
    assert '&' !in ev[1..] by { assert forall x :: x in ev[1..] ==> x in ev; }
    assert (ev + rest)[0] == ev[0] && (ev + rest)[1..] == ev[1..] + rest;
    FormValueChars(ev[1..], rest, f1);
    assert [ev[0]] + ev[1..] == ev;
  }

  /** The pairs a list of fields stands for, in the order they are written. */
  function FieldPairs(fs: seq<Query.Field>): seq<(string, string)> {
    if |fs| == 0 then [] else [(fs[0].key, fs[0].value)] + FieldPairs(fs[1..])
  }

  /** Closing the pair read from an encoded field records exactly that field. */
  lemma FormCloseField(x: Query.Field, g: Form)
    requires Query.Writable(x) && g.key == Percent.Encode(x.key) && g.value == Percent.Encode(x.value)
    ensures FormClose(g) == Some(Form(true, 0, x.key, x.value, g.pairs + [(x.key, x.value)]))
  {
    Url.DecodedEncode(x.key);
    Url.DecodedEncode(x.value);
  }

  /** '&' in value mode closes the pair and the loop goes on from there. */
  lemma FormAmp(rest: string, g: Form)
    requires !g.isKey && FormClose(g).Some?
    ensures FormRun("&" + rest, g) == FormRun(rest, FormClose(g).value)
  {
    assert ("&" + rest)[0] == '&' && ("&" + rest)[1..] == rest;
  }

  /** An encoded field read from the start of key mode, up to what follows its value. */
  lemma FormFieldText(x: Query.Field, rest: string, f: Form)
    requires Query.Writable(x) && f.isKey && f.index == 0
    ensures FormRun(Query.Item(x) + rest, f)
            == FormRun(rest, f.(isKey := false, key := Percent.Encode(x.key), value := Percent.Encode(x.value), index := |Percent.Encode(x.value)|))
  {
    var ek, ev := Percent.Encode(x.key), Percent.Encode(x.value);
    Query.EncodeClean(x.key);
    Query.EncodeClean(x.value);
    assert Query.Item(x) + rest == ek + "=" + (ev + rest);
    FormKey(ek, ev + rest, f);
    FormValue(ev, rest, f.(isKey := false, index := 0, key := ek));
  }

  /** One field that ends the input: the loop stops in value mode, and closing gives the field's pair. */
  lemma FormLastField(x: Query.Field, f: Form)
    requires Query.Writable(x) && f.isKey && f.index == 0
    ensures var g := FormRun(Query.Item(x), f);
      && g.Some? && !g.value.isKey
      && FormClose(g.value) == Some(Form(true, 0, x.key, x.value, f.pairs + [(x.key, x.value)]))
  {
    var ev := Percent.Encode(x.value);
    var g := f.(isKey := false, key := Percent.Encode(x.key), value := ev, index := |ev|);
    FormFieldText(x, [], f);
    assert Query.Item(x) + [] == Query.Item(x);
    FormCloseField(x, g);
  }

  /** One field followed by '&': the pair is recorded and the loop goes on in key mode. */
  lemma FormInnerField(x: Query.Field, rest: string, f: Form)
    requires Query.Writable(x) && f.isKey && f.index == 0
    ensures FormRun(Query.Item(x) + "&" + rest, f) == FormRun(rest, Form(true, 0, x.key, x.value, f.pairs + [(x.key, x.value)]))
  {
    var ev := Percent.Encode(x.value);
    var g := f.(isKey := false, key := Percent.Encode(x.key), value := ev, index := |ev|);
    assert Query.Item(x) + "&" + rest == Query.Item(x) + ("&" + rest);
    FormFieldText(x, "&" + rest, f);
    FormCloseField(x, g);
    FormAmp(rest, g);
  }

  /**
   * The loop over the form written from fields: it ends in value mode on
   * the last field, and closing that pair yields every field's decoded
   * pair, in order, after the pairs already there.
   */
  lemma {:induction false} FormRunSerialized(fs: seq<Query.Field>, f: Form)
    requires |fs| > 0 && forall i :: 0 <= i < |fs| ==> Query.Writable(fs[i])
    requires f.isKey && f.index == 0
    ensures var g := FormRun(Query.Serialize(fs), f);
      && g.Some? && !g.value.isKey
      && FormClose(g.value) == Some(Form(true, 0, fs[|fs| - 1].key, fs[|fs| - 1].value, f.pairs + FieldPairs(fs)))
  {
    if |fs| == 1 {
      FormLastField(fs[0], f);
      assert Query.Serialize(fs) == Query.Item(fs[0]);
      assert FieldPairs(fs) == [(fs[0].key, fs[0].value)];
    } else {
      Query.WritableTail(fs);
      var p := (fs[0].key, fs[0].value);
      var rest := Query.Serialize(fs[1..]);
      var f1 := Form(true, 0, fs[0].key, fs[0].value, f.pairs + [p]);
      FormRunSerialized(fs[1..], f1);
      FormFieldsTail(fs, f, f1);
      FieldPairsCons(fs, f.pairs);
      assert fs[1..][|fs[1..]| - 1] == fs[|fs| - 1];
    }
  }

  /** The pairs of the fields are the first field's, then the others'. */
  lemma FieldPairsCons(fs: seq<Query.Field>, pre: seq<(string, string)>)
    requires |fs| > 0
    ensures pre + [(fs[0].key, fs[0].value)] + FieldPairs(fs[1..]) == pre + FieldPairs(fs)
  {
  }

  /** The step of FormRunSerialized: the first field, then the loop over the others. */
  lemma FormFieldsTail(fs: seq<Query.Field>, f: Form, f1: Form)
    requires |fs| > 1 && forall i :: 0 <= i < |fs| ==> Query.Writable(fs[i])
    requires f.isKey && f.index == 0
    requires f1 == Form(true, 0, fs[0].key, fs[0].value, f.pairs + [(fs[0].key, fs[0].value)])
    ensures FormRun(Query.Serialize(fs), f) == FormRun(Query.Serialize(fs[1..]), f1)
  {
    Query.WritableTail(fs);
    var whole, rest := Query.Serialize(fs), Query.Serialize(fs[1..]);
    SerializeCons(fs);
    FormInnerField(fs[0], rest, f);
    FormRunOn(whole, Query.Item(fs[0]) + "&" + rest, f);
  }

  /** Serializing more than one field: the first, '&', then the others. */
  lemma SerializeCons(fs: seq<Query.Field>)
    requires |fs| > 1 && forall i :: 0 <= i < |fs| ==> Query.Writable(fs[i])
    ensures forall i :: 0 <= i < |fs[1..]| ==> Query.Writable(fs[1..][i])
    ensures Query.Serialize(fs) == Query.Item(fs[0]) + "&" + Query.Serialize(fs[1..])
  {
    Query.WritableTail(fs);
  }

  lemma FormRunOn(a: string, b: string, f: Form)
    requires a == b
    ensures FormRun(a, f) == FormRun(b, f)
  {
  }

  /** A string written from fields holds no NUL. */
  lemma {:induction false} SerializedPlain(fs: seq<Query.Field>)
    requires |fs| > 0 && forall i :: 0 <= i < |fs| ==> Query.Writable(fs[i])
    ensures '\0' !in Query.Serialize(fs)
  {
    Query.EncodeClean(fs[0].key);
    Query.EncodeClean(fs[0].value);
    if |fs| > 1 {
      Query.WritableTail(fs);
      SerializedPlain(fs[1..]);
    }
  }

  /**
   * Round trip of `parse_form`: form data written from fields with
   * non-empty keys and values gives true and exactly those fields, in the
   * order they were written.
   */
  lemma FormSpecSerialized(fs: seq<Query.Field>)
    requires |fs| > 0 && forall i :: 0 <= i < |fs| ==> Query.Writable(fs[i])
    ensures FormSpec(Some(Query.Serialize(fs))) == Some(FormOut(true, FieldPairs(fs)))
  {
    var s := Query.Serialize(fs);
    SerializedPlain(fs);
    FormRunSerialized(fs, FormStart);
    FormSpecValue(s);
    assert [] + FieldPairs(fs) == FieldPairs(fs);
  }

  /** Data without NUL whose loop ends in value mode gives true and the pairs closing it leaves. */
  lemma FormSpecValue(s: string)
    requires '\0' !in s && FormRun(s, FormStart).Some? && !FormRun(s, FormStart).value.isKey
    requires FormClose(FormRun(s, FormStart).value).Some?
    ensures FormSpec(Some(s)) == Some(FormOut(true, FormClose(FormRun(s, FormStart).value).value.pairs))
  {
    CStrPlain(s);
    assert s != [];
  }

  /** Data without '=' is a key that never gets a value: true, and no pair is added. */
  lemma FormKeyOnly(k: string)
    requires |k| > 0 && '=' !in k && '\0' !in k
    ensures FormSpec(Some(k)) == Some(FormOut(true, []))
  {
    CStrPlain(k);
    FormKeyChars(k, [], FormStart);
    assert k + [] == k;
  }
}

=== FILE: parse_request.dfy ===
/**
 * src/parse.c: `parse_request`, the state machine that reads a request
 * one byte at a time: the method, the encoded path and the version of the
 * request line, then header names and values, then (for a method that
 * carries one) a body of `content-length` bytes, and finally the split of
 * the encoded path into the path and the query.
 *
 * This file works on the request record of the generation `parse.c`
 * belongs to (a method code, an encoded path, a version, a header list, a
 * body and a query table), which is not the record `req.c` fills.
 */
module ParseRequest {
  import opened Wrappers
  import opened Util
  import Http
  import Req
  import Uri
  import Headers
  import Parse

  /** `valid_header` (src/parse.c:18), as the set of characters it holds. */
  const ValidHeader: set<char> := {'_', ' ', ':', ';', '.', ',', '\\', '/', '"', '\'', '?', '!', '(', ')', '{', '}',
                                   '[', ']', '@', '<', '>', '=', '-', '+', '*', '#', '$', '&', '`', '|', '~', '^', '%'}

  /** `valid_path` (src/parse.c:19), as the set of characters it holds. */
  const ValidPath: set<char> := {'-', '.', '_', '~', ':', '/', '?', '#', '[', ']', '@', '!', '$', '&', '\'', '(', ')',
                                 '*', '+', ',', ';', '%', '='}

  /** The first size of the receive buffer; it doubles when full. */
  const BufStart: nat := 200

  /** `parse_ret_t`. */
  datatype Ret = RetOk | RetBadReq | RetTooLarge | RetConFail

  /** The states of the machine, in the order `state++` walks them. */
  datatype Phase = MethodPhase | PathPhase | VersionPhase | Newline3 | NamePhase | ValuePhase | Newline6 | BodyPhase

  /** One entry of the request's header list: a name and, once read, its value. */
  datatype Header = Header(name: string, value: Option<string>)

  /** The request fields the machine writes before the body. */
  datatype Fields = Fields(methodId: int, encpath: Option<string>, version: Option<string>, headers: seq<Header>)

  /** The machine between two bytes: its state, the text in the buffer and the fields so far. */
  datatype Machine = Machine(phase: Phase, text: string, fields: Fields)

  /** One byte either leaves the machine running or ends it with a result. */
  datatype Next = Go(m: Machine) | Stop(fields: Fields, ret: Ret)

  predicate MethodChar(c: char) {
    IsLetter(c) || IsDigit(c)
  }

  predicate PathChar(c: char) {
    c in ValidPath || IsLetter(c) || IsDigit(c)
  }

  predicate VersionChar(c: char) {
    IsLetter(c) || IsDigit(c) || c == '/' || c == '.'
  }

  predicate HeaderChar(c: char) {
    c in ValidHeader || IsDigit(c) || IsLetter(c)
  }

  predicate EndOfLine(c: char) {
    c == '\r' || c == '\n'
  }

  /** The last character of the buffer text; the newline states always have one. */
  function Last(t: string): char {
    if t == [] then '\0' else t[|t| - 1]
  }

  /** `req_add_header_value`: the value goes to the header added last. */
  function WithValue(hs: seq<Header>, v: string): (r: seq<Header>)
    ensures |r| == |hs|
    ensures hs != [] ==> r[..|r| - 1] == hs[..|hs| - 1] && r[|r| - 1] == Header(hs[|hs| - 1].name, Some(v))
  {
    if hs == [] then hs else hs[..|hs| - 1] + [hs[|hs| - 1].(value := Some(v))]
  }

  /**
   * STATE_METHOD_0: letters and digits up to the first space, at most
   * `method_max` of them; the space looks the method up, and an unknown
   * name is stored as -1 and rejected.
   */
  function MethodStep(m: Machine, c: char, st: Http.Static): Next {
    if |m.text| > st.methodMax || !(MethodChar(c) || c == ' ') then Stop(m.fields, RetBadReq)
    else if c != ' ' then Go(m.(text := m.text + [c]))
    else if m.text == [] then Stop(m.fields, RetBadReq)
    else
      var id := Http.MethodId(m.text);
      if id == -1 then Stop(m.fields.(methodId := -1), RetBadReq)
      else Go(Machine(PathPhase, [], m.fields.(methodId := id)))
  }

  /** STATE_PATH_1: path characters up to the next space, at most `path_max` of them, become the encoded path. */
  function PathStep(m: Machine, c: char, st: Http.Static): Next {
    if |m.text| > st.pathMax || !(PathChar(c) || c == ' ') then Stop(m.fields, RetBadReq)
    else if c != ' ' then Go(m.(text := m.text + [c]))
    else if m.text == [] then Stop(m.fields, RetBadReq)
    else Go(Machine(VersionPhase, [], m.fields.(encpath := Some(m.text))))
  }

  /**
   * STATE_VERSION_2: letters, digits, '/' and '.' up to a CR or LF, at most
   * `version_len` of them; an unsupported version is stored as NULL and
   * rejected. The line end stays in the buffer for the next state.
   */
  function VersionStep(m: Machine, c: char, st: Http.Static, versions: seq<string>): Next {
    if |m.text| > st.versionLen || !(VersionChar(c) || EndOfLine(c)) then Stop(m.fields, RetBadReq)
    else if !EndOfLine(c) then Go(m.(text := m.text + [c]))
    else if m.text == [] then Stop(m.fields, RetBadReq)
    else
      var v := Http.VersionGet(versions, m.text);
      if v.None? then Stop(m.fields.(version := None), RetBadReq)
      else Go(Machine(Newline3, m.text + [c], m.fields.(version := v)))
  }

  /**
   * STATE_NEWLINE_3: CR LF goes on to the headers; LF LF ends a request
   * without headers; any other byte is kept, unchecked, as the first byte of
   * a header name.
   */
  function Newline3Step(m: Machine, c: char): Next {
    if c == '\n' && Last(m.text) == '\r' then Go(Machine(NamePhase, [], m.fields))
    else if c == '\n' && Last(m.text) == '\n' then Stop(m.fields, RetOk)
    else Go(Machine(NamePhase, [c], m.fields))
  }

  /**
   * STATE_NAME_4: a line end at the start of a line ends the headers;
   * otherwise header characters up to a space that follows a ':', at most
   * `header_max` of them (too many is RET_TOOLARGE); the name is the text
   * before the ':', read as a C string.
   */
  function NameStep(m: Machine, c: char, st: Http.Static): Next {
    var t := m.text;
    if t == [] && EndOfLine(c) then Go(Machine(BodyPhase, [], m.fields))
    else if |t| > st.headerMax then Stop(m.fields, RetTooLarge)
    else if !HeaderChar(c) then Stop(m.fields, RetBadReq)
    else if c != ' ' then Go(m.(text := t + [c]))
    else if t == [] || t[|t| - 1] != ':' then Stop(m.fields, RetBadReq)
    else Go(Machine(ValuePhase, [], m.fields.(headers := m.fields.headers + [Header(CStr(t[..|t| - 1]), None)])))
  }

  /** STATE_VALUE_5: header characters up to a CR or LF, at most `header_max` of them, become the value of the last header. */
  function ValueStep(m: Machine, c: char, st: Http.Static): Next {
    var t := m.text;
    if |t| > st.headerMax then Stop(m.fields, RetTooLarge)
    else if !(HeaderChar(c) || EndOfLine(c)) then Stop(m.fields, RetBadReq)
    else if !EndOfLine(c) then Go(m.(text := t + [c]))
    else if t == [] then Stop(m.fields, RetBadReq)
    else Go(Machine(Newline6, t + [c], m.fields.(headers := WithValue(m.fields.headers, t))))
  }

  /**
   * STATE_NEWLINE_6: CR LF starts the next header line; LF LF moves to the
   * body state (which acts only on one more byte); any other byte is kept,
   * unchecked, as the first byte of the next header name.
   */
  function Newline6Step(m: Machine, c: char): Next {
    if c == '\n' && Last(m.text) == '\r' then Go(Machine(NamePhase, [], m.fields))
    else if c == '\n' && Last(m.text) == '\n' then Go(Machine(BodyPhase, [], m.fields))
    else Go(Machine(NamePhase, [c], m.fields))
  }

  /** The switch at src/parse.c:93-426 on one received byte, before the body state. */
  function Step(m: Machine, c: char, st: Http.Static, versions: seq<string>): Next
    requires m.phase != BodyPhase
  {
    match m.phase
    case MethodPhase => MethodStep(m, c, st)
    case PathPhase => PathStep(m, c, st)
    case VersionPhase => VersionStep(m, c, st, versions)
    case Newline3 => Newline3Step(m, c)
    case NamePhase => NameStep(m, c, st)
    case ValuePhase => ValueStep(m, c, st)
    case Newline6 => Newline6Step(m, c)
  }

  /** Where the byte loop stops: the result, the fields, and (when the body state took a byte) the input after it. */
  datatype Stopped = Stopped(ret: Ret, fields: Fields, body: Option<string>)

  /**
   * The loop at src/parse.c:91-449 over the bytes s: the end of the input
   * is RET_CONFAIL; the body state takes one byte and hands the rest to the
   * body read with RET_OK.
   */
  function Run(s: string, m: Machine, st: Http.Static, versions: seq<string>): Stopped
    decreases |s|
  {
    if s == [] then Stopped(RetConFail, m.fields, None)
    else if m.phase == BodyPhase then Stopped(RetOk, m.fields, Some(s[1..]))
    else match Step(m, s[0], st, versions)
      case Stop(f, r) => Stopped(r, f, None)
      case Go(m') => Run(s[1..], m', st, versions)
  }

  /** `req_header(req, "content-length")`: the value of the first header whose name matches it, ignoring case. */
  function ContentLength(hs: seq<Header>): Option<string> {
    if hs == [] then None
    else if Headers.FoldEq(hs[0].name, "content-length") then hs[0].value
    else ContentLength(hs[1..])
  }

  /** What the body state leaves: the result, the body size and the received body. */
  datatype Body = Body(ret: Ret, bodysize: int, body: Option<string>)

  /**
   * STATE_BODY_7 with the intended size test: no body for a method that
   * carries none or without a content-length; a size of zero or less is no
   * body; a size over `body_max` is RET_TOOLARGE; otherwise up to that many
   * bytes are received, and receiving none at all is RET_CONFAIL.
   */
  function BodyStep(f: Fields, rest: string, bodysize: int, body: Option<string>, st: Http.Static): Body {
    if !Http.HasBody(f.methodId) then Body(RetOk, bodysize, body)
    else match ContentLength(f.headers)
      case None => Body(RetOk, bodysize, body)
      case Some(cl) =>
        var n := Req.Atol(cl);
        if n <= 0 then Body(RetOk, n, body)
        else if n > st.bodyMax then Body(RetTooLarge, n, body)
        else
          var got := if n < |rest| then n else |rest|;
          if got > 0 then Body(RetOk, n, Some(rest[..got]))
          else Body(RetConFail, 0, None)
  }

  /**
   * STATE_BODY_7 as written: the test at src/parse.c:399 looks at the
   * buffer size, which is never zero, so a content-length of 0 asks `recv`
   * for no bytes, gets 0 and fails. The comparison with `body_max` converts
   * the `int64_t` size to `size_t`, so a negative size counts as 2^64 plus
   * itself and is RET_TOOLARGE unless `body_max` is at least that; past
   * that point `malloc` and `recv` would get the wrapped size, and the
   * model gives None.
   */
  function BodyAsWritten(f: Fields, rest: string, bodysize: int, body: Option<string>, st: Http.Static): Option<Body> {
    if !Http.HasBody(f.methodId) then Some(Body(RetOk, bodysize, body))
    else match ContentLength(f.headers)
      case None => Some(Body(RetOk, bodysize, body))
      case Some(cl) =>
        var n := Req.Atol(cl);
        var wide := if n < 0 then n + SizeRange else n;
        if wide > st.bodyMax then Some(Body(RetTooLarge, n, body))
        else if n < 0 then None
        else
          var got := if n < |rest| then n else |rest|;
          if got > 0 then Some(Body(RetOk, n, Some(rest[..got])))
          else Some(Body(RetConFail, 0, None))
  }

  /** The values of a 64-bit `size_t`. */
  const SizeRange: int := 0x1_0000_0000_0000_0000

  /** The result of `parse_request` on the bytes of a connection, with the request fields it leaves. */
  datatype Parsed = Parsed(ret: Ret, fields: Fields, bodysize: int, body: Option<string>)

  function Parsing(s: string, f: Fields, bodysize: int, body: Option<string>, st: Http.Static, versions: seq<string>): Parsed {
    var r := Run(s, Machine(MethodPhase, [], f), st, versions);
    match r.body
    case None => Parsed(r.ret, r.fields, bodysize, body)
    case Some(rest) =>
      var b := BodyStep(r.fields, rest, bodysize, body, st);
      Parsed(b.ret, r.fields, b.bodysize, b.body)
  }

  /** The query of an encoded path is one `parse_form` decodes without stepping over a buffer's NUL. */
  ghost predicate QueryDecodes(e: string) {
    Parse.FormSpec(Req.SplitPath(e).query).Some?
  }

  // Properties of the machine

  /** What the machine keeps between bytes: the states after the path have an encoded path, the newline states a text to look back on. */
  ghost predicate Sane(m: Machine) {
    (m.phase == PathPhase ==> '\0' !in m.text)
    && (m.phase == Newline3 || m.phase == Newline6 ==> m.text != [])
    && (m.phase != MethodPhase && m.phase != PathPhase ==> m.fields.encpath.Some?)
  }

  /** Every step keeps Sane, and a request that ends with RET_OK has an encoded path. */
  lemma StepSane(m: Machine, c: char, st: Http.Static, versions: seq<string>)
    requires Sane(m) && m.phase != BodyPhase
    ensures Step(m, c, st, versions).Go? ==> Sane(Step(m, c, st, versions).m)
    ensures Step(m, c, st, versions).Stop? && Step(m, c, st, versions).ret == RetOk ==> Step(m, c, st, versions).fields.encpath.Some?
  {
    if m.phase == PathPhase && c in ValidPath {
      assert c != '\0';
    }
  }

  /** Running from a Sane machine: RET_OK or a body always comes with an encoded path. */
  lemma {:induction false} RunSane(s: string, m: Machine, st: Http.Static, versions: seq<string>)
    requires Sane(m)
    ensures Run(s, m, st, versions).ret == RetOk ==> Run(s, m, st, versions).fields.encpath.Some?
    ensures Run(s, m, st, versions).body.Some? ==> Run(s, m, st, versions).ret == RetOk
    decreases |s|
  {
    if s != [] && m.phase != BodyPhase {
      StepSane(m, s[0], st, versions);
      if Step(m, s[0], st, versions).Go? {
        RunSane(s[1..], Step(m, s[0], st, versions).m, st, versions);
      }
    }
  }

  /** A request parsed with RET_OK has an encoded path, the one the split at src/parse.c:457-481 works on. */
  lemma OkHasPath(s: string, f: Fields, bodysize: int, body: Option<string>, st: Http.Static, versions: seq<string>)
    ensures Parsing(s, f, bodysize, body, st, versions).ret == RetOk ==> Parsing(s, f, bodysize, body, st, versions).fields.encpath.Some?
  {
    RunSane(s, Machine(MethodPhase, [], f), st, versions);
  }

  /** A byte that leaves the machine running: the loop goes on from the next state. */
  lemma RunGo(c: char, s: string, m: Machine, m': Machine, st: Http.Static, versions: seq<string>)
    requires m.phase != BodyPhase && Step(m, c, st, versions) == Go(m')
    ensures Run([c] + s, m, st, versions) == Run(s, m', st, versions)
  {
    assert ([c] + s)[0] == c && ([c] + s)[1..] == s;
  }

  /** A byte that ends the machine: the loop stops with its result. */
  lemma RunStop(c: char, s: string, m: Machine, f: Fields, r: Ret, st: Http.Static, versions: seq<string>)
    requires m.phase != BodyPhase && Step(m, c, st, versions) == Stop(f, r)
    ensures Run([c] + s, m, st, versions) == Stopped(r, f, None)
  {
    assert ([c] + s)[0] == c;
  }

  /** In the body state one byte is taken and the rest goes to the body read. */
  lemma RunBody(c: char, s: string, m: Machine, st: Http.Static, versions: seq<string>)
    requires m.phase == BodyPhase
    ensures Run([c] + s, m, st, versions) == Stopped(RetOk, m.fields, Some(s))
  {
    assert ([c] + s)[1..] == s;
  }

  /** The characters each state stores without acting on them. */
  predicate Plain(p: Phase, c: char) {
    match p
    case MethodPhase => MethodChar(c)
    case PathPhase => PathChar(c) && c != ' '
    case VersionPhase => VersionChar(c)
    case NamePhase => HeaderChar(c) && c != ' '
    case ValuePhase => HeaderChar(c)
    case _ => false
  }

  /** The length limit of each state that stores text. */
  function Max(p: Phase, st: Http.Static): nat {
    match p
    case MethodPhase => st.methodMax
    case PathPhase => st.pathMax
    case VersionPhase => st.versionLen
    case _ => st.headerMax
  }

  /** A plain character within the limit is appended to the buffer, and nothing else changes. */
  lemma StepAppends(m: Machine, c: char, st: Http.Static, versions: seq<string>)
    requires Plain(m.phase, c) && |m.text| <= Max(m.phase, st)
    ensures m.phase != BodyPhase && Step(m, c, st, versions) == Go(m.(text := m.text + [c]))
  {
  }

  /** A run of plain characters within the limit is stored as it stands. */
  lemma {:induction false} RunToken(t: string, s: string, m: Machine, st: Http.Static, versions: seq<string>)
    requires forall c :: c in t ==> Plain(m.phase, c)
    requires |m.text| + |t| <= Max(m.phase, st) + 1
    ensures Run(t + s, m, st, versions) == Run(s, m.(text := m.text + t), st, versions)
    decreases |t|
  {
    if t != [] {
      assert t[0] in t;
      StepAppends(m, t[0], st, versions);
      assert t + s == [t[0]] + (t[1..] + s);
      RunGo(t[0], t[1..] + s, m, m.(text := m.text + [t[0]]), st, versions);
      assert forall c :: c in t[1..] ==> c in t;
      RunToken(t[1..], s, m.(text := m.text + [t[0]]), st, versions);
      assert m.text + [t[0]] + t[1..] == m.text + t;
    } else {
      assert t + s == s && m.text + t == m.text;
    }
  }

  /** A known method name and a space move on to the path, with the method's code stored. */
  lemma MethodRead(meth: string, s: string, f: Fields, st: Http.Static, versions: seq<string>)
    requires 0 < |meth| <= st.methodMax && forall c :: c in meth ==> MethodChar(c)
    requires Http.MethodId(meth) != -1
    ensures Run(meth + " " + s, Machine(MethodPhase, [], f), st, versions)
         == Run(s, Machine(PathPhase, [], f.(methodId := Http.MethodId(meth))), st, versions)
  {
    assert meth + " " + s == meth + ([' '] + s);
    RunToken(meth, [' '] + s, Machine(MethodPhase, [], f), st, versions);
    assert [] + meth == meth;
    RunGo(' ', s, Machine(MethodPhase, meth, f), Machine(PathPhase, [], f.(methodId := Http.MethodId(meth))), st, versions);
  }

  /** A path and a space move on to the version, with the path stored as the encoded path. */
  lemma PathRead(p: string, s: string, f: Fields, st: Http.Static, versions: seq<string>)
    requires 0 < |p| <= st.pathMax && forall c :: c in p ==> PathChar(c) && c != ' '
    ensures Run(p + " " + s, Machine(PathPhase, [], f), st, versions)
         == Run(s, Machine(VersionPhase, [], f.(encpath := Some(p))), st, versions)
  {
    assert p + " " + s == p + ([' '] + s);
    RunToken(p, [' '] + s, Machine(PathPhase, [], f), st, versions);
    assert [] + p == p;
    RunGo(' ', s, Machine(PathPhase, p, f), Machine(VersionPhase, [], f.(encpath := Some(p))), st, versions);
  }

  /** A supported version and CR LF move on to the first header line, with the version stored. */
  lemma VersionRead(v: string, s: string, f: Fields, st: Http.Static, versions: seq<string>)
    requires 0 < |v| <= st.versionLen && forall c :: c in v ==> VersionChar(c)
    requires v in versions
    ensures Run(v + "\r\n" + s, Machine(VersionPhase, [], f), st, versions)
         == Run(s, Machine(NamePhase, [], f.(version := Some(v))), st, versions)
  {
    assert v + "\r\n" + s == v + (['\r'] + (['\n'] + s));
    RunToken(v, ['\r'] + (['\n'] + s), Machine(VersionPhase, [], f), st, versions);
    assert [] + v == v;
    var f1 := f.(version := Some(v));
    RunGo('\r', ['\n'] + s, Machine(VersionPhase, v, f), Machine(Newline3, v + ['\r'], f1), st, versions);
    assert Last(v + ['\r']) == '\r';
    RunGo('\n', s, Machine(Newline3, v + ['\r'], f1), Machine(NamePhase, [], f1), st, versions);
  }

  /**
   * A well-formed request line (a known method, a path and a supported
   * version, separated by single spaces and ended by CR LF) stores all three
   * and leaves the machine at the start of a header line.
   */
  lemma LineRead(meth: string, p: string, v: string, s: string, f: Fields, st: Http.Static, versions: seq<string>)
    requires 0 < |meth| <= st.methodMax && forall c :: c in meth ==> MethodChar(c)
    requires Http.MethodId(meth) != -1
    requires 0 < |p| <= st.pathMax && forall c :: c in p ==> PathChar(c) && c != ' '
    requires 0 < |v| <= st.versionLen && forall c :: c in v ==> VersionChar(c)
    requires v in versions
    ensures Run(meth + " " + p + " " + v + "\r\n" + s, Machine(MethodPhase, [], f), st, versions)
         == Run(s, Machine(NamePhase, [], f.(methodId := Http.MethodId(meth), encpath := Some(p), version := Some(v))), st, versions)
  {
    var vs := v + "\r\n" + s;
    var ps := p + " " + vs;
    assert meth + " " + p + " " + v + "\r\n" + s == meth + " " + ps;
    MethodRead(meth, ps, f, st, versions);
    var f1 := f.(methodId := Http.MethodId(meth));
    PathRead(p, vs, f1, st, versions);
    VersionRead(v, s, f1.(encpath := Some(p)), st, versions);
  }

  /** A header name, its ':' and a space add the header, still without a value, and move on to the value. */
  lemma NameRead(n: string, s: string, f: Fields, st: Http.Static, versions: seq<string>)
    requires |n| < st.headerMax && forall c :: c in n ==> HeaderChar(c) && c != ' '
    ensures Run(n + ": " + s, Machine(NamePhase, [], f), st, versions)
         == Run(s, Machine(ValuePhase, [], f.(headers := f.headers + [Header(n, None)])), st, versions)
  {
    var name := n + ":";
    assert n + ": " + s == name + ([' '] + s);
    assert forall c :: c in name ==> Plain(NamePhase, c) by {
      forall c | c in name ensures Plain(NamePhase, c) {
        assert c in n || c == ':';
      }
    }
    RunToken(name, [' '] + s, Machine(NamePhase, [], f), st, versions);
    assert [] + name == name;
    NameEnds(n, f, st, versions);
    RunGo(' ', s, Machine(NamePhase, name, f), Machine(ValuePhase, [], f.(headers := f.headers + [Header(n, None)])), st, versions);
  }

  /** The space after `name:` adds the header named by the text before the ':'. */
  lemma NameEnds(n: string, f: Fields, st: Http.Static, versions: seq<string>)
    requires |n| < st.headerMax && forall c :: c in n ==> HeaderChar(c) && c != ' '
    ensures Step(Machine(NamePhase, n + ":", f), ' ', st, versions) == Go(Machine(ValuePhase, [], f.(headers := f.headers + [Header(n, None)])))
  {
    var name := n + ":";
    assert name[..|name| - 1] == n && name[|name| - 1] == ':';
    assert '\0' !in n;
    CStrPlain(n);
  }

  /** A value ended by CR LF becomes the value of the last header and leaves the machine at the start of the next line. */
  lemma ValueRead(v: string, s: string, f: Fields, st: Http.Static, versions: seq<string>)
    requires 0 < |v| <= st.headerMax && forall c :: c in v ==> HeaderChar(c)
    ensures Run(v + "\r\n" + s, Machine(ValuePhase, [], f), st, versions)
         == Run(s, Machine(NamePhase, [], f.(headers := WithValue(f.headers, v))), st, versions)
  {
    assert v + "\r\n" + s == v + (['\r'] + (['\n'] + s));
    RunToken(v, ['\r'] + (['\n'] + s), Machine(ValuePhase, [], f), st, versions);
    assert [] + v == v;
    var f1 := f.(headers := WithValue(f.headers, v));
    RunGo('\r', ['\n'] + s, Machine(ValuePhase, v, f), Machine(Newline6, v + ['\r'], f1), st, versions);
    assert Last(v + ['\r']) == '\r';
    RunGo('\n', s, Machine(Newline6, v + ['\r'], f1), Machine(NamePhase, [], f1), st, versions);
  }

  /**
   * A header line `name: value` ended by CR LF adds the header with its
   * value and leaves the machine at the start of the next line. The name
   * and the ':' count against `header_max`, and so does the value.
   */
  lemma HeaderRead(n: string, v: string, s: string, f: Fields, st: Http.Static, versions: seq<string>)
    requires |n| < st.headerMax && forall c :: c in n ==> HeaderChar(c) && c != ' '
    requires 0 < |v| <= st.headerMax && forall c :: c in v ==> HeaderChar(c)
    ensures Run(n + ": " + v + "\r\n" + s, Machine(NamePhase, [], f), st, versions)
         == Run(s, Machine(NamePhase, [], f.(headers := f.headers + [Header(n, Some(v))])), st, versions)
  {
    var vs := v + "\r\n" + s;
    assert n + ": " + v + "\r\n" + s == n + ": " + vs;
    NameRead(n, vs, f, st, versions);
    var f1 := f.(headers := f.headers + [Header(n, None)]);
    ValueRead(v, s, f1, st, versions);
    assert WithValue(f1.headers, v) == f.headers + [Header(n, Some(v))];
  }

  /** An empty line (CR LF) at the start of a header line ends the headers; the body read gets the bytes after it. */
  lemma HeadersEnd(s: string, f: Fields, st: Http.Static, versions: seq<string>)
    ensures Run("\r\n" + s, Machine(NamePhase, [], f), st, versions) == Stopped(RetOk, f, Some(s))
  {
    assert "\r\n" + s == ['\r'] + (['\n'] + s);
    RunGo('\r', ['\n'] + s, Machine(NamePhase, [], f), Machine(BodyPhase, [], f), st, versions);
    RunBody('\n', s, Machine(BodyPhase, [], f), st, versions);
  }

  /**
   * A well-formed request with one header, for a method that carries no
   * body, parses with RET_OK into its method, encoded path, version and
   * header; the body size is left as it was and no body is read.
   */
  lemma RequestRead(meth: string, p: string, v: string, n: string, val: string, s: string,
                    f: Fields, bodysize: int, body: Option<string>, st: Http.Static, versions: seq<string>)
    requires 0 < |meth| <= st.methodMax && forall c :: c in meth ==> MethodChar(c)
    requires Http.MethodId(meth) != -1 && !Http.HasBody(Http.MethodId(meth))
    requires 0 < |p| <= st.pathMax && forall c :: c in p ==> PathChar(c) && c != ' '
    requires 0 < |v| <= st.versionLen && forall c :: c in v ==> VersionChar(c)
    requires v in versions
    requires |n| < st.headerMax && forall c :: c in n ==> HeaderChar(c) && c != ' '
    requires 0 < |val| <= st.headerMax && forall c :: c in val ==> HeaderChar(c)
    ensures Parsing(meth + " " + p + " " + v + "\r\n" + n + ": " + val + "\r\n" + "\r\n" + s, f, bodysize, body, st, versions)
         == Parsed(RetOk, Fields(Http.MethodId(meth), Some(p), Some(v), f.headers + [Header(n, Some(val))]), bodysize, body)
  {
    var hs := n + ": " + val + "\r\n" + ("\r\n" + s);
    assert meth + " " + p + " " + v + "\r\n" + n + ": " + val + "\r\n" + "\r\n" + s == meth + " " + p + " " + v + "\r\n" + hs;
    LineRead(meth, p, v, hs, f, st, versions);
    var f1 := f.(methodId := Http.MethodId(meth), encpath := Some(p), version := Some(v));
    HeaderRead(n, val, "\r\n" + s, f1, st, versions);
    HeadersEnd(s, f1.(headers := f1.headers + [Header(n, Some(val))]), st, versions);
  }

  /** A method name longer than `method_max` is a bad request. */
  lemma MethodTooLong(meth: string, c: char, s: string, f: Fields, st: Http.Static, versions: seq<string>)
    requires |meth| == st.methodMax + 1 && forall x :: x in meth ==> MethodChar(x)
    ensures Run(meth + [c] + s, Machine(MethodPhase, [], f), st, versions) == Stopped(RetBadReq, f, None)
  {
    assert meth + [c] + s == meth + ([c] + s);
    RunToken(meth, [c] + s, Machine(MethodPhase, [], f), st, versions);
    RunStop(c, s, Machine(MethodPhase, meth, f), f, RetBadReq, st, versions);
  }

  /** A well-formed method name that names no method is a bad request, with the method stored as -1. */
  lemma UnknownMethod(meth: string, s: string, f: Fields, st: Http.Static, versions: seq<string>)
    requires 0 < |meth| <= st.methodMax && forall c :: c in meth ==> MethodChar(c)
    requires Http.MethodId(meth) == -1
    ensures Run(meth + " " + s, Machine(MethodPhase, [], f), st, versions) == Stopped(RetBadReq, f.(methodId := -1), None)
  {
    assert meth + " " + s == meth + ([' '] + s);
    RunToken(meth, [' '] + s, Machine(MethodPhase, [], f), st, versions);
    RunStop(' ', s, Machine(MethodPhase, meth, f), f.(methodId := -1), RetBadReq, st, versions);
  }

  /** A header line longer than `header_max` is RET_TOOLARGE, whatever byte follows. */
  lemma HeaderTooLong(n: string, c: char, s: string, f: Fields, st: Http.Static, versions: seq<string>)
    requires |n| == st.headerMax + 1 && forall x :: x in n ==> HeaderChar(x) && x != ' '
    ensures Run(n + [c] + s, Machine(NamePhase, [], f), st, versions) == Stopped(RetTooLarge, f, None)
  {
    assert n + [c] + s == n + ([c] + s);
    RunToken(n, [c] + s, Machine(NamePhase, [], f), st, versions);
    RunStop(c, s, Machine(NamePhase, n, f), f, RetTooLarge, st, versions);
  }

  /** A header with an empty value is a bad request; the name has already been added. */
  lemma EmptyValue(n: string, s: string, f: Fields, st: Http.Static, versions: seq<string>)
    requires |n| < st.headerMax && forall c :: c in n ==> HeaderChar(c) && c != ' '
    ensures Run(n + ": \r" + s, Machine(NamePhase, [], f), st, versions)
         == Stopped(RetBadReq, f.(headers := f.headers + [Header(n, None)]), None)
  {
    assert n + ": \r" + s == n + ": " + (['\r'] + s);
    NameRead(n, ['\r'] + s, f, st, versions);
    var f1 := f.(headers := f.headers + [Header(n, None)]);
    RunStop('\r', s, Machine(ValuePhase, [], f1), f1, RetBadReq, st, versions);
  }

  /**
   * LF LF after a header value only moves to the body state, which acts on
   * one more byte: with the input ending there the result is RET_CONFAIL,
   * and otherwise that byte is dropped before the body.
   */
  lemma LineFeedsAfterValue(v: string, x: char, s: string, f: Fields, st: Http.Static, versions: seq<string>)
    requires 0 < |v| <= st.headerMax && forall c :: c in v ==> HeaderChar(c)
    ensures Run(v + "\n\n", Machine(ValuePhase, [], f), st, versions) == Stopped(RetConFail, f.(headers := WithValue(f.headers, v)), None)
    ensures Run(v + "\n\n" + [x] + s, Machine(ValuePhase, [], f), st, versions) == Stopped(RetOk, f.(headers := WithValue(f.headers, v)), Some(s))
  {
    var f1 := f.(headers := WithValue(f.headers, v));
    ValueBreak(v, [], f, st, versions);
    assert v + "\n\n" == v + "\n\n" + [];
    ValueBreak(v, [x] + s, f, st, versions);
    assert v + "\n\n" + [x] + s == v + "\n\n" + ([x] + s);
    RunBody(x, s, Machine(BodyPhase, [], f1), st, versions);
  }

  /** A value followed by LF LF reaches the body state. */
  lemma ValueBreak(v: string, tail: string, f: Fields, st: Http.Static, versions: seq<string>)
    requires 0 < |v| <= st.headerMax && forall c :: c in v ==> HeaderChar(c)
    ensures Run(v + "\n\n" + tail, Machine(ValuePhase, [], f), st, versions)
         == Run(tail, Machine(BodyPhase, [], f.(headers := WithValue(f.headers, v))), st, versions)
  {
    var f1 := f.(headers := WithValue(f.headers, v));
    assert v + "\n\n" + tail == v + (['\n'] + (['\n'] + tail));
    RunToken(v, ['\n'] + (['\n'] + tail), Machine(ValuePhase, [], f), st, versions);
    assert [] + v == v;
    RunGo('\n', ['\n'] + tail, Machine(ValuePhase, v, f), Machine(Newline6, v + ['\n'], f1), st, versions);
    assert Last(v + ['\n']) == '\n';
    RunGo('\n', tail, Machine(Newline6, v + ['\n'], f1), Machine(BodyPhase, [], f1), st, versions);
  }


  /** After the request line, LF LF ends the request with RET_OK at once, with no body read. */
  lemma LineFeedsAfterLine(v: string, s: string, f: Fields, st: Http.Static, versions: seq<string>)
    requires 0 < |v| <= st.versionLen && forall c :: c in v ==> VersionChar(c)
    requires v in versions
    ensures Run(v + "\n\n" + s, Machine(VersionPhase, [], f), st, versions) == Stopped(RetOk, f.(version := Some(v)), None)
  {
    assert v + "\n\n" + s == v + (['\n'] + (['\n'] + s));
    RunToken(v, ['\n'] + (['\n'] + s), Machine(VersionPhase, [], f), st, versions);
    assert [] + v == v;
    var f1 := f.(version := Some(v));
    RunGo('\n', ['\n'] + s, Machine(VersionPhase, v, f), Machine(Newline3, v + ['\n'], f1), st, versions);
    assert Last(v + ['\n']) == '\n';
    RunStop('\n', s, Machine(Newline3, v + ['\n'], f1), f1, RetOk, st, versions);
  }

  /** The body state, with the intended size test: when it reads a body, what it reads, and when it fails. */
  lemma BodyCases(f: Fields, rest: string, bodysize: int, body: Option<string>, st: Http.Static)
    ensures var b := BodyStep(f, rest, bodysize, body, st);
      var asked := Http.HasBody(f.methodId) && ContentLength(f.headers).Some? && Req.Atol(ContentLength(f.headers).value) > 0;
      && (b.ret == RetTooLarge <==> asked && Req.Atol(ContentLength(f.headers).value) > st.bodyMax)
      && (b.ret == RetConFail <==> asked && Req.Atol(ContentLength(f.headers).value) <= st.bodyMax && rest == [])
      && (!asked ==> b.ret == RetOk && b.body == body)
      && (asked && Req.Atol(ContentLength(f.headers).value) <= st.bodyMax && rest != [] ==>
            b.ret == RetOk && b.bodysize == Req.Atol(ContentLength(f.headers).value)
            && b.body.Some? && 0 < |b.body.value| <= b.bodysize && b.body.value == rest[..|b.body.value|]
            && (|b.body.value| == b.bodysize || |b.body.value| == |rest|))
  {
  }

  /**
   * A content-length of 0 on a method that carries a body: as written the
   * request fails with RET_CONFAIL and a body size of 0; with the size test
   * on the body size it is RET_OK with no body.
   */
  lemma ZeroLengthBody(f: Fields, rest: string, bodysize: int, body: Option<string>, st: Http.Static)
    requires Http.HasBody(f.methodId) && ContentLength(f.headers) == Some(Uri.Dec(0))
    ensures BodyAsWritten(f, rest, bodysize, body, st) == Some(Body(RetConFail, 0, None))
    ensures BodyStep(f, rest, bodysize, body, st) == Body(RetOk, 0, body)
  {
    Uri.AtoiDec(0);
  }

  /**
   * A negative content-length on a method that carries a body, with a
   * `body_max` below 2^63: as written the size converted to `size_t`
   * exceeds it and the request is RET_TOOLARGE; the corrected size test
   * treats it as no body and gives RET_OK.
   */
  lemma NegativeLengthBody(f: Fields, rest: string, bodysize: int, body: Option<string>, st: Http.Static)
    requires Http.HasBody(f.methodId) && ContentLength(f.headers).Some?
    requires Req.Atol(ContentLength(f.headers).value) < 0 && st.bodyMax < 0x8000_0000_0000_0000
    ensures BodyAsWritten(f, rest, bodysize, body, st) == Some(Body(RetTooLarge, Req.Atol(ContentLength(f.headers).value), body))
    ensures BodyStep(f, rest, bodysize, body, st) == Body(RetOk, Req.Atol(ContentLength(f.headers).value), body)
  {
  }

  /** The two body states agree on every size above zero. */
  lemma BodyAgrees(f: Fields, rest: string, bodysize: int, body: Option<string>, st: Http.Static)
    requires !Http.HasBody(f.methodId) || ContentLength(f.headers).None? || Req.Atol(ContentLength(f.headers).value) > 0
    ensures BodyAsWritten(f, rest, bodysize, body, st) == Some(BodyStep(f, rest, bodysize, body, st))
  {
  }

  // The imperative loop

  /** The request record as `parse_request` fills it. */
  class Request {
    var methodId: int
    var encpath: Option<string>
    var version: Option<string>
    var headers: seq<Header>
    var bodysize: int
    var body: Option<string>
    /** NULL, the encoded path itself, or a copy of the part before the '?'. */
    var path: Option<Req.PathRef>
    const query: Parse.FormTable

    /** A request with no fields read yet and an empty query table. */
    constructor ()
      ensures methodId == -1 && encpath.None? && version.None? && headers == []
      ensures bodysize == 0 && body.None? && path.None? && query.pairs == []
    {
      methodId := -1;
      encpath := None;
      version := None;
      headers := [];
      bodysize := 0;
      body := None;
      path := None;
      query := new Parse.FormTable();
    }

    function Current(): Fields
      reads this
    {
      Fields(methodId, encpath, version, headers)
    }
  }

  /** How the buffer changes after a byte: kept, cleared (`bzero`), cleared holding the byte, or emptied in place. */
  datatype Act = Append | Reset | Restart | Drop

  function NewText(act: Act, t: string, c: char): string {
    match act
    case Append => t + [c]
    case Reset => []
    case Restart => [c]
    case Drop => []
  }

  /** The step a byte method took, as a value of Next. */
  function Result(stop: Option<Ret>, act: Act, phase: Phase, t: string, c: char, f: Fields): Next {
    if stop.Some? then Stop(f, stop.value) else Go(Machine(phase, NewText(act, t, c), f))
  }

  /**
   * The copy of the encoded path as written at src/parse.c:152-154:
   * `malloc(index)` and `index` bytes copied, so the block holds no NUL and
   * every later read of it as a C string (`contains`, `strdup`) runs past
   * its end.
   */
  method PathCopyAsWritten(buffer: array<char>, index: nat) returns (block: array<char>)
    requires index <= buffer.Length && forall c :: c in buffer[..index] ==> PathChar(c)
    ensures block.Length == index && block[..] == buffer[..index]
    ensures '\0' !in block[..]
  {
    block := new char[index];
    forall k | 0 <= k < index {
      block[k] := buffer[k];
    }
    assert block[..] == buffer[..index];
    assert !PathChar('\0');
  }

  /** The copy with room for the terminator: the block reads back as exactly the path text. */
  method PathCopy(buffer: array<char>, index: nat) returns (block: array<char>)
    requires index <= buffer.Length && '\0' !in buffer[..index]
    ensures block.Length == index + 1 && CStr(block[..]) == buffer[..index]
  {
    block := new char[index + 1];
    forall k | 0 <= k <= index {
      block[k] := if k < index then buffer[k] else '\0';
    }
    assert block[..index] == buffer[..index];
    CStrAt(block[..], index);
    assert block[..][..index] == buffer[..index];
    CStrPlain(buffer[..index]);
  }

  /** STATE_METHOD_0 on byte c, which the loop has just stored at buffer[index]. */
  method MethodByte(req: Request, buffer: array<char>, index: nat, c: char, st: Http.Static, ghost m: Machine)
    returns (stop: Option<Ret>, act: Act, next: Phase)
    requires index <= buffer.Length && buffer[..index] == m.text && m.phase == MethodPhase && req.Current() == m.fields
    modifies req`methodId
    ensures Result(stop, act, next, m.text, c, req.Current()) == MethodStep(m, c, st)
  {
    if index > st.methodMax || !(MethodChar(c) || c == ' ') {
      return Some(RetBadReq), Append, MethodPhase;
    }
    if c != ' ' {
      return None, Append, MethodPhase;
    }
    if index == 0 {
      return Some(RetBadReq), Append, MethodPhase;
    }
    // The space is replaced by a NUL; the name before it holds none.
    req.methodId := Http.MethodId(buffer[..index]);
    if req.methodId == -1 {
      return Some(RetBadReq), Append, MethodPhase;
    }
    return None, Reset, PathPhase;
  }

  /** STATE_PATH_1 on byte c; the encoded path is a terminated copy of the buffer. */
  method PathByte(req: Request, buffer: array<char>, index: nat, c: char, st: Http.Static, ghost m: Machine)
    returns (stop: Option<Ret>, act: Act, next: Phase)
    requires index <= buffer.Length && buffer[..index] == m.text && m.phase == PathPhase && req.Current() == m.fields
    requires Sane(m)
    modifies req`encpath
    ensures Result(stop, act, next, m.text, c, req.Current()) == PathStep(m, c, st)
  {
    if index > st.pathMax || !(PathChar(c) || c == ' ') {
      return Some(RetBadReq), Append, PathPhase;
    }
    if c != ' ' {
      return None, Append, PathPhase;
    }
    if index == 0 {
      return Some(RetBadReq), Append, PathPhase;
    }
    var block := PathCopy(buffer, index);
    req.encpath := Some(CStr(block[..]));
    return None, Reset, VersionPhase;
  }

  /** STATE_VERSION_2 on byte c; the line end stays in the buffer. */
  method VersionByte(req: Request, buffer: array<char>, index: nat, c: char, st: Http.Static, versions: seq<string>, ghost m: Machine)
    returns (stop: Option<Ret>, act: Act, next: Phase)
    requires index <= buffer.Length && buffer[..index] == m.text && m.phase == VersionPhase && req.Current() == m.fields
    modifies req`version
    ensures Result(stop, act, next, m.text, c, req.Current()) == VersionStep(m, c, st, versions)
  {
    if index > st.versionLen || !(VersionChar(c) || EndOfLine(c)) {
      return Some(RetBadReq), Append, VersionPhase;
    }
    if !EndOfLine(c) {
      return None, Append, VersionPhase;
    }
    if index == 0 {
      return Some(RetBadReq), Append, VersionPhase;
    }
    req.version := Http.VersionGet(versions, buffer[..index]);
    if req.version.None? {
      return Some(RetBadReq), Append, VersionPhase;
    }
    return None, Append, Newline3;
  }

  /** STATE_NEWLINE_3 on byte c, looking back at the line end before it. */
  method Newline3Byte(buffer: array<char>, index: nat, c: char, ghost m: Machine, ghost f: Fields)
    returns (stop: Option<Ret>, act: Act, next: Phase)
    requires index <= buffer.Length && buffer[..index] == m.text && m.phase == Newline3 && m.fields == f
    requires Sane(m)
    ensures Result(stop, act, next, m.text, c, f) == Newline3Step(m, c)
  {
    if c == '\n' && buffer[index - 1] == '\r' {
      return None, Reset, NamePhase;
    }
    if c == '\n' && buffer[index - 1] == '\n' {
      return Some(RetOk), Append, Newline3;
    }
    return None, Restart, NamePhase;
  }

  /** STATE_NAME_4 on byte c; the name is read as a C string up to the ':'. */
  method NameByte(req: Request, buffer: array<char>, index: nat, c: char, st: Http.Static, ghost m: Machine)
    returns (stop: Option<Ret>, act: Act, next: Phase)
    requires index <= buffer.Length && buffer[..index] == m.text && m.phase == NamePhase && req.Current() == m.fields
    modifies req`headers
    ensures Result(stop, act, next, m.text, c, req.Current()) == NameStep(m, c, st)
  {
    if index == 0 && EndOfLine(c) {
      return None, Drop, BodyPhase;
    }
    if index > st.headerMax {
      return Some(RetTooLarge), Append, NamePhase;
    }
    if !HeaderChar(c) {
      return Some(RetBadReq), Append, NamePhase;
    }
    if c != ' ' {
      return None, Append, NamePhase;
    }
    if index == 0 || buffer[index - 1] != ':' {
      return Some(RetBadReq), Append, NamePhase;
    }
    assert buffer[..index - 1] == m.text[..|m.text| - 1];
    req.headers := req.headers + [Header(CStr(buffer[..index - 1]), None)];
    return None, Reset, ValuePhase;
  }

  /** STATE_VALUE_5 on byte c; the line end stays in the buffer. */
  method ValueByte(req: Request, buffer: array<char>, index: nat, c: char, st: Http.Static, ghost m: Machine)
    returns (stop: Option<Ret>, act: Act, next: Phase)
    requires index <= buffer.Length && buffer[..index] == m.text && m.phase == ValuePhase && req.Current() == m.fields
    modifies req`headers
    ensures Result(stop, act, next, m.text, c, req.Current()) == ValueStep(m, c, st)
  {
    if index > st.headerMax {
      return Some(RetTooLarge), Append, ValuePhase;
    }
    if !(HeaderChar(c) || EndOfLine(c)) {
      return Some(RetBadReq), Append, ValuePhase;
    }
    if !EndOfLine(c) {
      return None, Append, ValuePhase;
    }
    if index == 0 {
      return Some(RetBadReq), Append, ValuePhase;
    }
    req.headers := WithValue(req.headers, buffer[..index]);
    return None, Append, Newline6;
  }

  /** STATE_NEWLINE_6 on byte c, looking back at the line end before it. */
  method Newline6Byte(buffer: array<char>, index: nat, c: char, ghost m: Machine, ghost f: Fields)
    returns (stop: Option<Ret>, act: Act, next: Phase)
    requires index <= buffer.Length && buffer[..index] == m.text && m.phase == Newline6 && m.fields == f
    requires Sane(m)
    ensures Result(stop, act, next, m.text, c, f) == Newline6Step(m, c)
  {
    if c == '\n' && buffer[index - 1] == '\r' {
      return None, Reset, NamePhase;
    }
    if c == '\n' && buffer[index - 1] == '\n' {
      return None, Reset, BodyPhase;
    }
    return None, Restart, NamePhase;
  }

  /** The switch on the state for one byte before the body state. */
  method Feed(req: Request, buffer: array<char>, index: nat, phase: Phase, c: char, st: Http.Static, versions: seq<string>, ghost m: Machine)
    returns (stop: Option<Ret>, act: Act, next: Phase)
    requires index <= buffer.Length && buffer[..index] == m.text && req.Current() == m.fields
    requires m.phase == phase && phase != BodyPhase && Sane(m)
    modifies req`methodId, req`encpath, req`version, req`headers
    ensures Result(stop, act, next, m.text, c, req.Current()) == Step(m, c, st, versions)
  {
    match phase
    case MethodPhase => stop, act, next := MethodByte(req, buffer, index, c, st, m);
    case PathPhase => stop, act, next := PathByte(req, buffer, index, c, st, m);
    case VersionPhase => stop, act, next := VersionByte(req, buffer, index, c, st, versions, m);
    case Newline3 => stop, act, next := Newline3Byte(buffer, index, c, m, req.Current());
    case NamePhase => stop, act, next := NameByte(req, buffer, index, c, st, m);
    case ValuePhase => stop, act, next := ValueByte(req, buffer, index, c, st, m);
    case Newline6 => stop, act, next := Newline6Byte(buffer, index, c, m, req.Current());
  }

  /** `realloc` to twice the size: a new block starting with the old contents. */
  method Double(buffer: array<char>) returns (bigger: array<char>)
    ensures bigger.Length == 2 * buffer.Length && bigger[..buffer.Length] == buffer[..]
    ensures fresh(bigger)
  {
    bigger := new char[2 * buffer.Length];
    forall k | 0 <= k < buffer.Length {
      bigger[k] := buffer[k];
    }
    assert bigger[..buffer.Length] == buffer[..];
  }

  /** `bzero` on the whole buffer. */
  method Zero(buffer: array<char>)
    modifies buffer
    ensures forall k :: 0 <= k < buffer.Length ==> buffer[k] == '\0'
  {
    forall k | 0 <= k < buffer.Length {
      buffer[k] := '\0';
    }
  }

  /**
   * The end of one turn of the loop (src/parse.c:428-445): keep the byte
   * and grow the buffer to twice its size when it is full, or clear the
   * buffer, or clear it and keep the byte at its start, or empty it in
   * place.
   */
  method Advance(buffer: array<char>, size: nat, index: nat, act: Act, c: char, ghost t: string)
    returns (buffer': array<char>, size': nat, index': nat)
    requires size == buffer.Length && BufStart <= size && index < size
    requires buffer[..index] == t && buffer[index] == c
    modifies buffer
    ensures buffer' == buffer || fresh(buffer')
    ensures size' == buffer'.Length && BufStart <= size' && index' < size'
    ensures buffer'[..index'] == NewText(act, t, c)
  {
    buffer', size' := buffer, size;
    match act {
      case Append =>
        assert buffer[..index + 1] == buffer[..index] + [c];
        index' := index + 1;
        if index' >= size {
          size' := size + size;
          buffer' := Double(buffer);
        }
      case Reset =>
        Zero(buffer);
        index' := 0;
      case Restart =>
        Zero(buffer);
        buffer[0] := c;
        index' := 1;
        assert buffer[..index'] == [c];
      case Drop =>
        buffer[0] := '\0';
        index' := 0;
    }
  }

  /** The input from an index, or nothing. */
  function From(s: string, at: Option<nat>): Option<string>
    requires at.Some? ==> at.value <= |s|
  {
    if at.Some? then Some(s[at.value..]) else None
  }

  /** The loop unfolds once at index i. */
  lemma RunAt(s: string, i: nat, m: Machine, st: Http.Static, versions: seq<string>)
    requires i < |s|
    ensures Run(s[i..], m, st, versions)
         == if m.phase == BodyPhase then Stopped(RetOk, m.fields, Some(s[i + 1..]))
            else match Step(m, s[i], st, versions)
              case Stop(f, r) => Stopped(r, f, None)
              case Go(m') => Run(s[i + 1..], m', st, versions)
  {
    assert s[i..][0] == s[i] && s[i..][1..] == s[i + 1..];
  }

  /**
   * The byte loop at src/parse.c:91-449 on a buffer that starts at 200
   * bytes and doubles when full: it ends as Run says, and when the body
   * state took a byte, bodyAt is where the body starts.
   */
  method ReadHead(req: Request, input: string, st: Http.Static, versions: seq<string>) returns (ret: Ret, bodyAt: Option<nat>)
    modifies req`methodId, req`encpath, req`version, req`headers
    ensures bodyAt.Some? ==> bodyAt.value <= |input|
    ensures Run(input, Machine(MethodPhase, [], old(req.Current())), st, versions) == Stopped(ret, req.Current(), From(input, bodyAt))
    ensures ret == RetOk ==> req.encpath.Some?
  {
    var size: nat := BufStart;
    var buffer := new char[size];
    var index: nat := 0;
    var phase := MethodPhase;
    ghost var m := Machine(MethodPhase, [], req.Current());
    ghost var goal := Run(input, m, st, versions);
    var i: nat := 0;
    while i < |input|
      invariant i <= |input|
      invariant fresh(buffer) && size == buffer.Length && BufStart <= size && index < size
      invariant buffer[..index] == m.text && m.phase == phase && Sane(m)
      invariant req.Current() == m.fields
      invariant Run(input[i..], m, st, versions) == goal
      decreases |input| - i
    {
      var c := input[i];
      buffer[index] := c;
      RunAt(input, i, m, st, versions);
      if phase == BodyPhase {
        return RetOk, Some(i + 1);
      }
      var stop, act, next := Feed(req, buffer, index, phase, c, st, versions, m);
      StepSane(m, c, st, versions);
      if stop.Some? {
        return stop.value, None;
      }
      buffer, size, index := Advance(buffer, size, index, act, c, m.text);
      m := Step(m, c, st, versions).m;
      phase := next;
      i := i + 1;
    }
    return RetConFail, None;
  }

  /** `recv` of up to n bytes with MSG_WAITALL: all of them, or what the peer sent before closing. */
  function Received(rest: string, n: nat): (got: nat)
    ensures got <= n && got <= |rest| && (got == n || got == |rest|)
  {
    if n < |rest| then n else |rest|
  }

  /** STATE_BODY_7 with the size test on the body size, on the bytes after the one that reached the state. */
  method ReadBody(req: Request, rest: string, st: Http.Static) returns (ret: Ret)
    modifies req`bodysize, req`body
    ensures Body(ret, req.bodysize, req.body) == BodyStep(req.Current(), rest, old(req.bodysize), old(req.body), st)
  {
    ret := RetOk;
    if !Http.HasBody(req.methodId) {
      return;
    }
    var contentlen := ContentLength(req.headers);
    if contentlen.None? {
      return;
    }
    req.bodysize := Req.Atol(contentlen.value);
    if req.bodysize <= 0 {
      return;
    }
    if req.bodysize > st.bodyMax {
      return RetTooLarge;
    }
    var got := Received(rest, req.bodysize);
    if got > 0 {
      req.body := Some(rest[..got]);
      return;
    }
    req.bodysize := 0;
    req.body := None;
    ret := RetConFail;
  }

  /**
   * The split at src/parse.c:457-481: no '?' makes the path the encoded path
   * itself; otherwise the path is a copy of the text before the first '?'
   * and the text after it goes to `parse_form` on the query table.
   */
  method SplitQuery(req: Request)
    requires req.encpath.Some?
    modifies req`path, req.query
    ensures req.path == Some(Req.SplitPath(req.encpath.value).path)
    ensures QueryDecodes(req.encpath.value) ==>
              req.query.pairs == old(req.query.pairs) + Parse.FormSpec(Req.SplitPath(req.encpath.value).query).value.pairs
    ensures !QueryDecodes(req.encpath.value) ==> req.query.pairs == old(req.query.pairs)
  {
    var e := req.encpath.value;
    if !Contains(e, '?') {
      req.path := Some(Req.Alias);
      return;
    }
    var toks := Tokens(CStr(e), '?');
    if toks == [] {
      req.path := Some(Req.Alias);
      return;
    }
    if |toks| == 1 {
      req.path := Some(Req.Own(toks[0]));
      return;
    }
    var ok := Parse.ParseForm(req.query, Some(toks[1]));
    req.path := Some(Req.Own(toks[0]));
  }

  /**
   * `parse_request` on the bytes a connection delivers: the result and the
   * fields are those of Parsing; on RET_OK the path is split from the
   * encoded path and, when its query decodes, the query table receives the
   * pairs of `parse_form`, and is left as it was when it does not; on any
   * other result neither is touched.
   */
  method ParseRequest(req: Request, input: string, st: Http.Static, versions: seq<string>) returns (ret: Ret, ghost p: Parsed)
    modifies req, req.query
    ensures p == Parsing(input, old(req.Current()), old(req.bodysize), old(req.body), st, versions)
    ensures ret == p.ret && req.Current() == p.fields && req.bodysize == p.bodysize && req.body == p.body
    ensures ret == RetOk ==> req.encpath.Some? && req.path == Some(Req.SplitPath(req.encpath.value).path)
    ensures ret == RetOk && QueryDecodes(req.encpath.value) ==>
              req.query.pairs == old(req.query.pairs) + Parse.FormSpec(Req.SplitPath(req.encpath.value).query).value.pairs
    ensures ret == RetOk && !QueryDecodes(req.encpath.value) ==> req.query.pairs == old(req.query.pairs)
    ensures ret != RetOk ==> req.path == old(req.path) && req.query.pairs == old(req.query.pairs)
  {
    p := Parsing(input, req.Current(), req.bodysize, req.body, st, versions);
    var bodyAt;
    ret, bodyAt := ReadHead(req, input, st, versions);
    if bodyAt.Some? {
      ret := ReadBody(req, input[bodyAt.value..], st);
    }
    assert ret == p.ret && req.Current() == p.fields;
    if ret == RetOk {
      OkHasPath(input, old(req.Current()), old(req.bodysize), old(req.body), st, versions);
      SplitQuery(req);
    }
  }
}

=== FILE: percent.dfy ===
/**
 * src/enc/percent.c: in-place percent decoding (section 2.1 of RFC 3986) with
 * the HTML form convention that '+' stands for a space.
 */
module Percent {
  import opened Util

  /**
   * What `ctorm_percent_decode` writes for the string s from index i on,
   * `val` holding prev. The C `size` counter equals |s| - i throughout, so
   * an escape is only decoded when two more characters follow the '%'.
   */
  function PercentDecoded(s: string, i: nat, prev: char): (r: string)
    requires i <= |s|
    ensures |r| <= |s| - i
    decreases |s| - i
  {
    if i == |s| then []
    else
      var step := DecodeStep(s, i, prev);
      [step.0] + PercentDecoded(s, i + step.1, step.2)
  }

  /**
   * One step of the decoder at index i: the character written, how many
   * characters are read, and the new `val`. '+' is a space; '%' with two
   * more characters after it is the byte `sscanf` reads from them.
   */
  function DecodeStep(s: string, i: nat, prev: char): (r: (char, nat, char))
    requires i < |s|
    ensures 1 <= r.1 && i + r.1 <= |s|
  {
    if s[i] == '+' then (' ', 1, prev)
    else if s[i] == '%' && |s| - i > 2 then
      var v := ScanHex(s[i + 1..], prev);
      (v, 3, v)
    else (s[i], 1, prev)
  }

  /** The decoded form of the whole string, `val` starting at 0. */
  function Decode(s: string): string {
    PercentDecoded(s, 0, '\0')
  }

  /**
   * `ctorm_percent_decode(data, size)`: NULL gives 0; otherwise the NUL-
   * terminated string in data[..n] is decoded in place, terminated again, and
   * the decoded length returned. A size of 0 means "use the string length";
   * callers pass either 0 or that length.
   */
  method PercentDecode(data: array?<char>, size: nat, ghost n: nat) returns (len: nat)
    requires data != null ==> n < data.Length && data[n] == '\0' && '\0' !in data[..n]
    requires data != null ==> size == 0 || size == n
    modifies data
    ensures data == null ==> len == 0
    ensures data != null ==> len <= n && data[..len] == Decode(old(data[..n])) && data[len] == '\0'
  {
    if data == null {
      return 0;
    }
    len := DecodeInPlace(data, size, n);
  }

  /** The decoding loop of `ctorm_percent_decode` once data is known not to be NULL. */
  method DecodeInPlace(data: array<char>, size: nat, ghost n: nat) returns (len: nat)
    requires n < data.Length && data[n] == '\0' && '\0' !in data[..n]
    requires size == 0 || size == n
    modifies data
    ensures len <= n && data[..len] == Decode(old(data[..n])) && data[len] == '\0'
  {
    var remaining := size;
    if remaining == 0 {
      remaining := StrLen(data, n);
    }
    len := DecodeLoop(data, remaining, data[..n]);
    data[len] := '\0';
  }

  /** The loop of `ctorm_percent_decode` over the string s that data[..|s|] holds. */
  method DecodeLoop(data: array<char>, size: nat, ghost s: string) returns (len: nat)
    requires |s| < data.Length && data[..|s|] == s && data[|s|] == '\0' && '\0' !in s
    requires size == |s|
    modifies data
    ensures len <= |s| && data[..len] == Decode(s)
  {
    ghost var n := |s|;
    ghost var whole := Decode(s);
    ghost var out := [];
    var remaining := size;
    var cur := 0;
    len := 0;
    var val := '\0';
    while data[cur] != '\0'
      invariant 0 <= len <= cur <= n
      invariant remaining == n - cur
      invariant forall k :: cur <= k < n ==> data[k] == s[k]
      invariant data[n] == '\0'
      invariant data[..len] == out && out + PercentDecoded(s, cur, val) == whole
      decreases n - cur
    {
      assert cur < n;
      cur, remaining, len, val, out := DecodeOne(data, cur, remaining, len, val, s, out, whole);
    }
  }

  /** One iteration of the decoding loop: decode at cur, write at len, keep the loop invariant. */
  method DecodeOne(data: array<char>, cur: nat, remaining: nat, len: nat, val: char,
                   ghost s: string, ghost out: string, ghost whole: string)
    returns (cur': nat, remaining': nat, len': nat, val': char, ghost out': string)
    requires len <= cur < |s| < data.Length && remaining == |s| - cur && '\0' !in s
    requires forall k :: cur <= k < |s| ==> data[k] == s[k]
    requires data[|s|] == '\0' && data[..len] == out && out + PercentDecoded(s, cur, val) == whole
    modifies data
    ensures len' == len + 1 && cur < cur' <= |s| && len' <= cur' && remaining' == |s| - cur'
    ensures forall k :: cur' <= k < |s| ==> data[k] == s[k]
    ensures data[|s|] == '\0' && data[..len'] == out' && out' + PercentDecoded(s, cur', val') == whole
  {
    var ch, adv;
    ch, adv, val' := DecodeAt(data, cur, remaining, val, s);
    AppendOne(out, ch, PercentDecoded(s, cur + adv, val'), whole);
    WriteAt(data, len, ch, cur + adv, s);
    cur', remaining', len', out' := cur + adv, remaining - adv, len + 1, out + [ch];
  }

  /** One character of the decoding loop: what it writes, how far it reads, and the new `val`. */
  method DecodeAt(data: array<char>, cur: nat, remaining: nat, val: char, ghost s: string)
    returns (ch: char, adv: nat, val': char)
    requires cur < |s| < data.Length && remaining == |s| - cur && data[|s|] == '\0' && '\0' !in s
    requires forall k :: cur <= k < |s| ==> data[k] == s[k]
    ensures (ch, adv, val') == DecodeStep(s, cur, val)
  {
    ch, adv, val' := data[cur], 1, val;
    if ch == '+' {
      ch := ' ';
    } else if ch == '%' && remaining > 2 {
      assert data[cur + 1..|s|] == s[cur + 1..];
      assert '\0' !in s[cur + 1..] by { assert forall x :: x in s[cur + 1..] ==> x in s; }
      val' := ScanHexAt(data, cur + 1, val, s[cur + 1..]);
      ch := val';
      adv := 3;
    }
  }

  /** Decoding from index i is decoding the suffix that starts there. */
  lemma {:induction false} DecodedSuffix(s: string, i: nat, prev: char)
    requires i <= |s|
    ensures PercentDecoded(s, i, prev) == PercentDecoded(s[i..], 0, prev)
    decreases |s| - i
  {
    if i < |s| {
      var t := s[i..];
      var r := StepOnSuffix(s, i, prev);
      DecodedSuffix(s, i + r.1, r.2);
      DecodedSuffix(t, r.1, r.2);
      assert PercentDecoded(t, 0, prev) == [r.0] + PercentDecoded(t, r.1, r.2);
      assert PercentDecoded(s, i, prev) == [r.0] + PercentDecoded(s, i + r.1, r.2);
    }
  }

  /** The decoder's step at index i of s is its step at index 0 of s[i..]. */
  lemma StepOnSuffix(s: string, i: nat, prev: char) returns (r: (char, nat, char))
    requires i < |s|
    ensures r == DecodeStep(s, i, prev) && r == DecodeStep(s[i..], 0, prev)
    ensures i + r.1 <= |s| && s[i..][r.1..] == s[i + r.1..]
  {
    var t := s[i..];
    assert t[0] == s[i] && t[1..] == s[i + 1..];
    r := DecodeStep(s, i, prev);
  }

  /** A string with no '%' and no '+' decodes to itself. */
  lemma {:induction false} PlainDecodesToItself(s: string, i: nat, prev: char)
    requires i <= |s|
    requires forall k :: i <= k < |s| ==> s[k] != '%' && s[k] != '+'
    ensures PercentDecoded(s, i, prev) == s[i..]
    decreases |s| - i
  {
    if i < |s| {
      PlainDecodesToItself(s, i + 1, prev);
      assert s[i..] == [s[i]] + s[i + 1..];
    }
  }

  /** The decoders of the two API generations agree on strings `urldecode` can handle. */
  lemma {:induction false} UrlDecodeAgrees(s: string, i: nat, prev: char)
    requires i <= |s| && CompleteFrom(s, i)
    ensures UrlDecoded(s, i, prev) == PercentDecoded(s, i, prev)
    decreases |s| - i
  {
    if i < |s| {
      if s[i] == '%' {
        UrlDecodeAgrees(s, i + 3, ScanHex(s[i + 1..], prev));
      } else {
        UrlDecodeAgrees(s, i + 1, prev);
      }
    }
  }

  // The encoder the decoder inverts (application/x-www-form-urlencoded).

  function HexDigit(d: nat): (c: char)
    requires d < 16
    ensures IsHex(c) && HexVal(c) == d
  {
    if d < 10 then ('0' as int + d) as char else ('A' as int + d - 10) as char
  }

  predicate Unreserved(c: char) {
    IsLetter(c) || IsDigit(c) || c == '-' || c == '.' || c == '_' || c == '~'
  }

  /** How one character of a form value is written. */
  function EncodeChar(c: char): (r: string)
    requires c as int < 256
  {
    if c == ' ' then "+"
    else if Unreserved(c) then [c]
    else "%" + [HexDigit(c as int / 16), HexDigit(c as int % 16)]
  }

  predicate Bytes(t: string) {
    forall k :: 0 <= k < |t| ==> t[k] as int < 256
  }

  function Encode(t: string): (r: string)
    requires Bytes(t)
  {
    if |t| == 0 then [] else EncodeChar(t[0]) + Encode(t[1..])
  }

  /** Decoding undoes form encoding, whatever `val` held before. */
  lemma {:induction false} DecodeEncode(t: string, prev: char)
    requires Bytes(t)
    ensures PercentDecoded(Encode(t), 0, prev) == t
  {
    if |t| > 0 {
      var c := t[0];
      assert Bytes(t[1..]);
      DecodeEncodedChar(c, Encode(t[1..]), prev);
      DecodeEncode(t[1..], if |EncodeChar(c)| == 3 then c else prev);
      assert t == [c] + t[1..];
    }
  }

  /** The decoder reads an encoded character back in one step, leaving `val` at c after an escape. */
  lemma DecodeEncodedChar(c: char, rest: string, prev: char)
    requires c as int < 256
    ensures PercentDecoded(EncodeChar(c) + rest, 0, prev)
            == [c] + PercentDecoded(rest, 0, if |EncodeChar(c)| == 3 then c else prev)
  {
    var e := EncodeChar(c);
    var s := e + rest;
    var v := if |e| == 3 then c else prev;
    DecodeStepEncoded(c, rest, prev);
    assert s[|e|..] == rest;
    DecodedSuffix(s, |e|, v);
  }

  /** The decoder's step on an encoded character. */
  lemma DecodeStepEncoded(c: char, rest: string, prev: char)
    requires c as int < 256
    ensures DecodeStep(EncodeChar(c) + rest, 0, prev)
            == (c, |EncodeChar(c)|, if |EncodeChar(c)| == 3 then c else prev)
  {
    var e := EncodeChar(c);
    var s := e + rest;
    assert s[0] == e[0];
    if |e| == 3 {
      assert s[1] == e[1] && s[2] == e[2];
      assert c as int == 16 * (c as int / 16) + c as int % 16;
    }
  }
}

=== FILE: pool.dfy ===
// The work queue of the thread pool in src/pool.c: a singly linked FIFO
// with `first` and `last` pointers. The worker threads, the mutex and the
// condition variables are not part of this model.

module Pool {

  /** `work_t`: a function and its argument, stood for here by opaque tokens, and the link to the next work. */
  class Work {
    const func: nat
    const arg: nat
    var next: Work?

    /** `pool_work`: a new node holding func and arg, linked to nothing. */
    constructor (func: nat, arg: nat)
      ensures this.func == func && this.arg == arg && next == null
    {
      this.func := func;
      this.arg := arg;
      next := null;
    }
  }

  /** `pool_t`, reduced to its queue and its `stop` flag. */
  class Pool {
    var first: Work?
    var last: Work?
    var stop: bool

    /** The works in queue order, from `first` to `last`. */
    ghost var items: seq<Work>

    ghost predicate Valid()
      reads this, set w | w in items
    {
      (forall i, j :: 0 <= i < j < |items| ==> items[i] != items[j])
      && (items == [] <==> first == null)
      && (items == [] <==> last == null)
      && (items != [] ==> first == items[0] && last == items[|items| - 1] && last.next == null)
      && (forall i :: 0 <= i < |items| - 1 ==> items[i].next == items[i + 1])
    }

    /** The queue as `pool_init` leaves it: empty and not stopped. */
    constructor ()
      ensures Valid() && items == [] && !stop
    {
      first := null;
      last := null;
      stop := false;
      items := [];
    }

    /**
     * `pool_get`: NULL on an empty queue, which is left as it was; otherwise
     * the head is unlinked and returned, and `last` is cleared when it was
     * the only work, so `first` is NULL exactly when `last` is.
     */
    method Get() returns (w: Work?)
      requires Valid()
      modifies this
      ensures Valid()
      ensures old(items) == [] ==> w == null && items == [] && first == old(first) && last == old(last)
      ensures old(items) != [] ==> w == old(items[0]) && items == old(items[1..])
      ensures stop == old(stop)
    {
      w := first;
      if w == null {
        return;
      }
      assert |items| > 1 ==> w.next == items[1];
      first := w.next;
      if first == null {
        last := null;
      }
      items := items[1..];
    }

    /**
     * `pool_add` with the work `pool_work` built: on an empty queue it
     * becomes both `first` and `last`; otherwise it is linked after `last`
     * and becomes the new `last`.
     */
    method Add(w: Work)
      requires Valid() && w.next == null && w !in items
      modifies this, last
      ensures Valid()
      ensures items == old(items) + [w]
      ensures stop == old(stop)
    {
      if first == null {
        first := w;
        last := first;
      } else {
        last.next := w;
        last := w;
      }
      items := items + [w];
    }

    /** `pool_stop`: every queued work is visited once, in order, to be freed, and `stop` is set. */
    method Stop() returns (freed: seq<Work>)
      requires Valid()
      modifies this
      ensures freed == old(items)
      ensures stop && first == old(first) && last == old(last) && items == old(items)
    {
      var cur := first;
      freed := [];
      ghost var k := 0;
      while cur != null
        invariant 0 <= k <= |items|
        invariant cur == (if k < |items| then items[k] else null)
        invariant freed == items[..k]
        decreases |items| - k
      {
        freed := freed + [cur];
        cur := cur.next;
        k := k + 1;
      }
      stop := true;
    }
  }

  // The queue on values, the specification of the methods above.

  datatype Op = Put(func: nat, arg: nat) | Take

  /** Runs the operations on a queue of (func, arg) pairs and collects what each Take returns. */
  function Run(q: seq<(nat, nat)>, ops: seq<Op>): (out: seq<(nat, nat)>)
    ensures |out| <= |q| + |ops|
    decreases |ops|
  {
    if ops == [] then []
    else match ops[0]
      case Put(f, a) => Run(q + [(f, a)], ops[1..])
      case Take =>
        if q == [] then Run(q, ops[1..]) else [q[0]] + Run(q[1..], ops[1..])
  }

  function Puts(xs: seq<(nat, nat)>): (ops: seq<Op>)
    ensures |ops| == |xs|
  {
    if xs == [] then [] else [Put(xs[0].0, xs[0].1)] + Puts(xs[1..])
  }

  function Takes(n: nat): (ops: seq<Op>)
    ensures |ops| == n && forall i :: 0 <= i < n ==> ops[i] == Take
  {
    if n == 0 then [] else [Take] + Takes(n - 1)
  }

  /** Taking n works from a queue q returns its first n, in order. */
  lemma {:induction false} TakeFront(q: seq<(nat, nat)>, n: nat)
    requires n <= |q|
    ensures Run(q, Takes(n)) == q[..n]
  {
    if n > 0 {
      assert Takes(n)[1..] == Takes(n - 1);
      TakeFront(q[1..], n - 1);
      assert q[..n] == [q[0]] + q[1..][..n - 1];
    }
  }

  /** Putting works onto a queue appends them without returning anything. */
  lemma {:induction false} PutAll(q: seq<(nat, nat)>, xs: seq<(nat, nat)>, rest: seq<Op>)
    ensures Run(q, Puts(xs) + rest) == Run(q + xs, rest)
    decreases |xs|
  {
    if xs != [] {
      assert (Puts(xs) + rest)[0] == Put(xs[0].0, xs[0].1);
      assert (xs[0].0, xs[0].1) == xs[0];
      assert (Puts(xs) + rest)[1..] == Puts(xs[1..]) + rest;
      PutAll(q + [xs[0]], xs[1..], rest);
      assert q + [xs[0]] + xs[1..] == q + xs;
    } else {
      assert Puts(xs) + rest == rest && q + xs == q;
    }
  }

  /** FIFO: works come out of an empty queue in the order they were put in. */
  lemma Fifo(xs: seq<(nat, nat)>)
    ensures Run([], Puts(xs) + Takes(|xs|)) == xs
  {
    PutAll([], xs, Takes(|xs|));
    assert [] + xs == xs;
    TakeFront(xs, |xs|);
    assert xs[..|xs|] == xs;
  }

  // The pool and the queue on values

  /** The (func, arg) pairs of a sequence of works. */
  function Pairs(ws: seq<Work>): (r: seq<(nat, nat)>)
    ensures |r| == |ws| && forall i :: 0 <= i < |ws| ==> r[i] == (ws[i].func, ws[i].arg)
  {
    if ws == [] then [] else [(ws[0].func, ws[0].arg)] + Pairs(ws[1..])
  }

  /** The queue after one operation. */
  function After(q: seq<(nat, nat)>, op: Op): seq<(nat, nat)>
  {
    match op
    case Put(f, a) => q + [(f, a)]
    case Take => if q == [] then q else q[1..]
  }

  /** What one operation returns: the head for a Take on a non-empty queue, nothing otherwise. */
  function Output(q: seq<(nat, nat)>, op: Op): seq<(nat, nat)>
  {
    if op.Take? && q != [] then [q[0]] else []
  }

  /** Run takes one operation at a time. */
  lemma RunFirst(q: seq<(nat, nat)>, ops: seq<Op>)
    requires ops != []
    ensures Run(q, ops) == Output(q, ops[0]) + Run(After(q, ops[0]), ops[1..])
  {
  }

  /** Run from position i of the operations, one operation further on. */
  lemma Advance(acc: seq<(nat, nat)>, q: seq<(nat, nat)>, ops: seq<Op>, i: nat)
    requires i < |ops|
    ensures acc + Run(q, ops[i..]) == (acc + Output(q, ops[i])) + Run(After(q, ops[i]), ops[i + 1..])
  {
    RunFirst(q, ops[i..]);
    assert ops[i..][1..] == ops[i + 1..];
  }

  /**
   * One operation on the pool: a Put builds a work with `pool_work` and
   * queues it with `pool_add`, a Take is `pool_get`.
   */
  method Step(p: Pool, op: Op) returns (out: seq<(nat, nat)>)
    requires p.Valid()
    modifies p, p.last
    ensures p.Valid()
    ensures forall w :: w in p.items ==> w in old(p.items) || fresh(w)
    ensures Pairs(p.items) == After(Pairs(old(p.items)), op)
    ensures out == Output(Pairs(old(p.items)), op)
  {
    ghost var q := Pairs(p.items);
    match op {
      case Put(f, a) =>
        var w := new Work(f, a);
        p.Add(w);
        assert Pairs(p.items) == q + [(f, a)];
        out := [];
      case Take =>
        var w := p.Get();
        out := [];
        if w != null {
          assert Pairs(p.items) == q[1..];
          out := [(w.func, w.arg)];
        }
    }
  }

  /** The operations run on a pool one by one; what the Takes return is what Run gives on the queue the pool held. */
  method Apply(p: Pool, ops: seq<Op>) returns (out: seq<(nat, nat)>)
    requires p.Valid()
    modifies p, set w | w in p.items
    ensures p.Valid()
    ensures out == Run(Pairs(old(p.items)), ops)
  {
    out := [];
    var i := 0;
    while i < |ops|
      invariant i <= |ops| && p.Valid()
      invariant forall w :: w in p.items ==> w in old(p.items) || fresh(w)
      invariant out + Run(Pairs(p.items), ops[i..]) == Run(Pairs(old(p.items)), ops)
    {
      Advance(out, Pairs(p.items), ops, i);
      var o := Step(p, ops[i]);
      out := out + o;
      i := i + 1;
    }
    assert ops[i..] == [];
  }

  /** FIFO on the pool: works added to an empty pool are got back in the order they went in. */
  method FifoOnPool(xs: seq<(nat, nat)>) returns (out: seq<(nat, nat)>)
    ensures out == xs
  {
    var p := new Pool();
    out := Apply(p, Puts(xs) + Takes(|xs|));
    Fifo(xs);
  }

  /** On the pool itself: two works added to an empty queue come out in the order they went in. */
  method AddTwiceGetTwice(f1: nat, a1: nat, f2: nat, a2: nat) returns (x: Work?, y: Work?)
    ensures x != null && y != null && x.func == f1 && x.arg == a1 && y.func == f2 && y.arg == a2
  {
    var p := new Pool();
    var w1 := new Work(f1, a1);
    p.Add(w1);
    var w2 := new Work(f2, a2);
    p.Add(w2);
    x := p.Get();
    y := p.Get();
  }
}

=== FILE: query.dfy ===
/**
 * src/enc/query.c: parsing `key=value&key=value` into a pair list, and
 * looking a key up in it. Keys and values are percent-decoded before they
 * are stored; a decoded `%00` ends the C string, which `CStr` models.
 */
module Query {
  import opened Wrappers
  import opened Util
  import Percent
  import Error
  import opened Pair
  import Nodes = Pair

  const QueryKeyMax: nat := 256
  const QueryValueMax: nat := 1024

  /** The loop state: the `is_key` flag, the `cur` buffer and the list built so far (head first). */
  datatype State = State(isKey: bool, cur: string, nodes: seq<Pair>)

  datatype Step = Next(st: State) | Fail(code: int)

  const Start := State(true, [], [])

  /** A stored key or value: the decoded buffer, read as a C string. */
  function Stored(buf: string): string {
    CStr(Percent.Decode(buf))
  }

  /** One iteration of the parse loop on character c; `last` is `size == 1`. */
  function StepChar(st: State, c: char, last: bool): Step {
    if st.isKey && |st.cur| > QueryKeyMax then Fail(Error.QueryKeyTooLarge)
    else if !st.isKey && |st.cur| > QueryValueMax then Fail(Error.QueryValueTooLarge)
    else if c == '=' && st.isKey && |st.cur| > 0 then
      Next(State(false, [], [Pair(Stored(st.cur), None)] + st.nodes))
    else if (c != '&' && !last) || st.isKey then
      Next(st.(cur := st.cur + [c]))
    else
      var cur := if c != '&' then st.cur + [c] else st.cur;
      if |cur| == 0 then Next(st.(cur := cur))
      else if |st.nodes| == 0 then Next(State(true, [], st.nodes))
      else Next(State(true, [], [Pair(st.nodes[0].key, Some(Stored(cur)))] + st.nodes[1..]))
  }

  /** The loop run over the remaining input s. */
  function Run(s: string, st: State): (r: Step)
    ensures r.Next? ==> |r.st.nodes| >= |st.nodes|
  {
    if |s| == 0 then Next(st)
    else
      match StepChar(st, s[0], |s| == 1)
      case Fail(e) => Fail(e)
      case Next(st') => Run(s[1..], st')
  }

  /** The outcome `ctorm_query_parse` produces for the bytes it reads. */
  function ParseSpec(s: string): Result<seq<Pair>, int> {
    match Run(s, Start)
    case Fail(e) => Err(e)
    case Next(st) => if |st.nodes| == 0 then Err(Error.EmptyQuery) else Ok(st.nodes)
  }

  /**
   * `ctorm_query_parse(data, size)`: NULL data gives NULL without touching
   * errno (`None`); a size of 0 means strlen(data). Failures free what was
   * built and return NULL with the error number.
   */
  method Parse(data: Option<string>, size: nat) returns (r: Option<Result<seq<Pair>, int>>)
    requires data.Some? ==> size <= |data.value| && '\0' !in data.value
    ensures data.None? <==> r.None?
    ensures data.Some? ==> r == Some(ParseSpec(if size == 0 then data.value else data.value[..size]))
  {
    if data.None? {
      return None;
    }
    var n := if size == 0 then |data.value| else size;
    var s := data.value[..n];
    assert size == 0 ==> s == data.value;
    var st := Start;
    var i := 0;
    while i < n
      invariant 0 <= i <= n
      invariant Run(s[i..], st) == Run(s, Start)
    {
      var step := StepChar(st, s[i], n - i == 1);
      assert s[i..][0] == s[i] && |s[i..]| == n - i;
      assert s[i..][1..] == s[i + 1..];
      if step.Fail? {
        return Some(Err(step.code));
      }
      st := step.st;
      i := i + 1;
    }
    if |st.nodes| == 0 {
      return Some(Err(Error.EmptyQuery));
    }
    return Some(Ok(st.nodes));
  }

  /**
   * `ctorm_query_get`: the value of the first pair whose key equals the
   * name, NULL when the query is empty, the name NULL or no key equal.
   */
  method Get(query: seq<Pair>, name: Option<string>) returns (r: Option<string>)
    ensures name.None? ==> r.None?
    ensures name.Some? ==> r == (match Lookup(query, name.value)
                                 case None => None
                                 case Some(v) => v)
  {
    var found := Find(query, name);
    if found.Err? {
      if name.Some? && |query| > 0 {
        assert Lookup(query, name.value).None?;
      }
      return None;
    }
    var i := found.value;
    LookupFirst(query, name.value, i);
    return query[i].value;
  }

  /**
   * `ctorm_query_free`: nothing for an empty query; otherwise the key and
   * then the value (NULL for a pair that never got one) of every pair from
   * the head are passed to free, and then the nodes through `ctorm_pair_free`.
   */
  method Free(query: seq<Pair>) returns (strings: seq<Option<string>>, nodes: seq<Pair>)
    ensures |strings| == 2 * |query|
    ensures forall i :: 0 <= i < |query| ==> strings[2 * i] == Some(query[i].key) && strings[2 * i + 1] == query[i].value
    ensures nodes == query
  {
    strings := [];
    nodes := [];
    if |query| == 0 {
      return;
    }
    var i := 0;
    while i < |query|
      invariant 0 <= i <= |query|
      invariant |strings| == 2 * i
      invariant forall j :: 0 <= j < i ==> strings[2 * j] == Some(query[j].key) && strings[2 * j + 1] == query[j].value
    {
      strings := strings + [Some(query[i].key), query[i].value];
      i := i + 1;
    }
    nodes := Nodes.Free(query);
  }

  lemma {:induction false} LookupFirst(nodes: seq<Pair>, key: string, i: nat)
    requires FirstWithKey(nodes, key, i)
    ensures Lookup(nodes, key) == Some(nodes[i].value)
  {
    if i > 0 {
      assert FirstWithKey(nodes[1..], key, i - 1);
      LookupFirst(nodes[1..], key, i - 1);
    }
  }

  // Properties

  /** Running over a + b, when b is not empty, is running over a with no step the last, then over b. */
  function RunPrefix(a: string, st: State): Step {
    if |a| == 0 then Next(st)
    else
      match StepChar(st, a[0], false)
      case Fail(e) => Fail(e)
      case Next(st') => RunPrefix(a[1..], st')
  }

  lemma {:induction false} RunAppend(a: string, b: string, st: State)
    requires |b| > 0
    ensures Run(a + b, st) == (match RunPrefix(a, st)
                               case Fail(e) => Fail(e)
                               case Next(st') => Run(b, st'))
  {
    if |a| > 0 {
      assert |a + b| != 1;
      assert (a + b)[0] == a[0];
      assert (a + b)[1..] == a[1..] + b;
      var step := StepChar(st, a[0], false);
      assert Run(a + b, st) == (match step
                                case Fail(e) => Fail(e)
                                case Next(st') => Run(a[1..] + b, st'));
      if step.Next? {
        RunAppend(a[1..], b, step.st);
      }
    } else {
      assert a + b == b;
    }
  }

  /** In key mode every character without '=' is appended while the key stays short enough. */
  lemma {:induction false} KeyChars(k: string, st: State)
    requires st.isKey && '=' !in k && |st.cur| + |k| <= QueryKeyMax + 1
    ensures RunPrefix(k, st) == Next(st.(cur := st.cur + k))
  {
    if |k| > 0 {
      assert '=' !in k[1..] by { assert forall x :: x in k[1..] ==> x in k; }
      KeyChars(k[1..], st.(cur := st.cur + [k[0]]));
      assert st.cur + [k[0]] + k[1..] == st.cur + k;
    }
  }

  /** In value mode every character without '&' is appended while the value stays short enough. */
  lemma {:induction false} ValueChars(v: string, st: State)
    requires !st.isKey && '&' !in v && |st.cur| + |v| <= QueryValueMax + 1
    ensures RunPrefix(v, st) == Next(st.(cur := st.cur + v))
  {
    if |v| > 0 {
      assert '&' !in v[1..] by { assert forall x :: x in v[1..] ==> x in v; }
      ValueChars(v[1..], st.(cur := st.cur + [v[0]]));
      assert st.cur + [v[0]] + v[1..] == st.cur + v;
    }
  }

  /** A key and value as a client writes them: percent-encoded, joined by '='. */
  datatype Field = Field(key: string, value: string)

  predicate Writable(f: Field) {
    Percent.Bytes(f.key) && Percent.Bytes(f.value) && '\0' !in f.key && '\0' !in f.value
    && |f.key| > 0 && |f.value| > 0
  }

  /** The encoded key and value fit the parser's buffers. */
  predicate Fits(f: Field)
    requires Writable(f)
  {
    |Percent.Encode(f.key)| <= QueryKeyMax && |Percent.Encode(f.value)| <= QueryValueMax
  }

  function Item(f: Field): string
    requires Writable(f)
  {
    Percent.Encode(f.key) + "=" + Percent.Encode(f.value)
  }

  /** The query string of a non-empty list of fields, joined by '&'. */
  function Serialize(fs: seq<Field>): string
    requires |fs| > 0 && forall i :: 0 <= i < |fs| ==> Writable(fs[i])
  {
    if |fs| == 1 then Item(fs[0]) else Item(fs[0]) + "&" + Serialize(fs[1..])
  }

  /** The pairs the fields become, newest (last written) first. */
  function Pairs(fs: seq<Field>): seq<Pair> {
    if |fs| == 0 then [] else Pairs(fs[1..]) + [Pair(fs[0].key, Some(fs[0].value))]
  }

  /** Encoding never writes '=', '&' or NUL, and encodes a non-empty string to a non-empty one. */
  lemma {:induction false} EncodeClean(t: string)
    requires Percent.Bytes(t)
    ensures '=' !in Percent.Encode(t) && '&' !in Percent.Encode(t) && '\0' !in Percent.Encode(t)
    ensures |t| > 0 ==> |Percent.Encode(t)| > 0
  {
    if |t| > 0 {
      assert Percent.Bytes(t[1..]);
      EncodeClean(t[1..]);
      var e := Percent.EncodeChar(t[0]);
      assert '=' !in e && '&' !in e && '\0' !in e;
    }
  }

  /** What a stored encoded string reads back as. */
  lemma StoredEncode(t: string)
    requires Percent.Bytes(t) && '\0' !in t
    ensures Stored(Percent.Encode(t)) == t
  {
    Percent.DecodeEncode(t, '\0');
    CStrPlain(t);
  }

  /** A key, then '=': the decoded key becomes a new head pair with a NULL value. */
  lemma KeyThenEquals(ek: string, rest: string, nodes: seq<Pair>)
    requires 0 < |ek| <= QueryKeyMax && '=' !in ek
    ensures Run(ek + "=" + rest, State(true, [], nodes))
            == Run(rest, State(false, [], [Pair(Stored(ek), None)] + nodes))
  {
    var st0 := State(true, [], nodes);
    assert ek + "=" + rest == ek + ("=" + rest);
    RunAppend(ek, "=" + rest, st0);
    KeyChars(ek, st0);
    assert st0.cur + ek == ek;
    assert ("=" + rest)[0] == '=' && ("=" + rest)[1..] == rest;
  }

  /** A value, then '&': the decoded value goes to the head pair and key mode resumes. */
  lemma ValueThenAmp(ev: string, rest: string, key: string, nodes: seq<Pair>)
    requires 0 < |ev| <= QueryValueMax && '&' !in ev
    ensures Run(ev + "&" + rest, State(false, [], [Pair(key, None)] + nodes))
            == Run(rest, State(true, [], [Pair(key, Some(Stored(ev)))] + nodes))
  {
    var st1 := State(false, [], [Pair(key, None)] + nodes);
    assert ev + "&" + rest == ev + ("&" + rest);
    RunAppend(ev, "&" + rest, st1);
    ValueChars(ev, st1);
    assert st1.cur + ev == ev;
    assert ("&" + rest)[0] == '&' && ("&" + rest)[1..] == rest;
  }

  /** The last character of the input closes a non-empty value in progress. */
  lemma LastValueChar(pre: string, c: char, key: string, nodes: seq<Pair>)
    requires |pre| <= QueryValueMax && c != '&'
    ensures Run([c], State(false, pre, [Pair(key, None)] + nodes))
            == Next(State(true, [], [Pair(key, Some(Stored(pre + [c])))] + nodes))
  {
    var st := State(false, pre, [Pair(key, None)] + nodes);
    assert StepChar(st, c, true) == Next(State(true, [], [Pair(key, Some(Stored(pre + [c])))] + nodes));
    assert [c][1..] == [];
  }

  /** A value that runs to the end of the input: its last character closes it. */
  lemma ValueToEnd(ev: string, key: string, nodes: seq<Pair>)
    requires 0 < |ev| <= QueryValueMax && '&' !in ev
    ensures Run(ev, State(false, [], [Pair(key, None)] + nodes))
            == Next(State(true, [], [Pair(key, Some(Stored(ev)))] + nodes))
  {
    var st1 := State(false, [], [Pair(key, None)] + nodes);
    var n := |ev|;
    var pre, c := ev[..n - 1], ev[n - 1];
    SplitLast(ev);
    assert '&' !in pre by { assert forall x :: x in pre ==> x in ev; }
    assert c in ev;
    RunAppend(pre, [c], st1);
    ValueChars(pre, st1);
    assert st1.cur + pre == pre;
    LastValueChar(pre, c, key, nodes);
  }

  /** One field read from key mode with an empty buffer: the key, '=', and the value up to the end. */
  lemma LastField(f: Field, nodes: seq<Pair>)
    requires Writable(f) && Fits(f)
    ensures Run(Item(f), State(true, [], nodes))
            == Next(State(true, [], [Pair(f.key, Some(f.value))] + nodes))
  {
    var ek, ev := Percent.Encode(f.key), Percent.Encode(f.value);
    EncodeClean(f.key);
    EncodeClean(f.value);
    StoredEncode(f.key);
    StoredEncode(f.value);
    KeyThenEquals(ek, ev, nodes);
    ValueToEnd(ev, f.key, nodes);
  }

  /** A field followed by '&' and more input. */
  lemma InnerField(f: Field, rest: string, nodes: seq<Pair>)
    requires Writable(f) && Fits(f)
    ensures Run(Item(f) + "&" + rest, State(true, [], nodes))
            == Run(rest, State(true, [], [Pair(f.key, Some(f.value))] + nodes))
  {
    var ek, ev := Percent.Encode(f.key), Percent.Encode(f.value);
    EncodeClean(f.key);
    EncodeClean(f.value);
    StoredEncode(f.key);
    StoredEncode(f.value);
    assert Item(f) + "&" + rest == ek + "=" + (ev + "&" + rest);
    KeyThenEquals(ek, ev + "&" + rest, nodes);
    ValueThenAmp(ev, rest, f.key, nodes);
  }

  /** The first field's pair goes in front of what was there, behind the pairs of the others. */
  lemma PairsStep(fs: seq<Field>, nodes: seq<Pair>)
    requires |fs| > 0
    ensures Pairs(fs) + nodes == Pairs(fs[1..]) + ([Pair(fs[0].key, Some(fs[0].value))] + nodes)
  {
  }

  /** The fields after the first are writable when all are. */
  lemma WritableTail(fs: seq<Field>)
    requires |fs| > 0 && forall i :: 0 <= i < |fs| ==> Writable(fs[i])
    ensures forall i :: 0 <= i < |fs[1..]| ==> Writable(fs[1..][i])
  {
    forall i | 0 <= i < |fs[1..]| ensures Writable(fs[1..][i]) { assert fs[1..][i] == fs[i + 1]; }
  }

  /** Parsing runs through the fields in order, prepending each pair. */
  lemma {:induction false} RunSerialized(fs: seq<Field>, nodes: seq<Pair>)
    requires |fs| > 0 && forall i :: 0 <= i < |fs| ==> Writable(fs[i]) && Fits(fs[i])
    ensures Run(Serialize(fs), State(true, [], nodes)) == Next(State(true, [], Pairs(fs) + nodes))
  {
    var p := Pair(fs[0].key, Some(fs[0].value));
    if |fs| == 1 {
      LastField(fs[0], nodes);
      assert Pairs(fs) == [p] by { assert Pairs(fs[1..]) == []; }
    } else {
      FieldsTail(fs, nodes);
      InnerField(fs[0], Serialize(fs[1..]), nodes);
      RunSerialized(fs[1..], [p] + nodes);
    }
  }

  /** The fields after the first are writable and fit, and the pairs of all the fields are theirs after the first's. */
  lemma FieldsTail(fs: seq<Field>, nodes: seq<Pair>)
    requires |fs| > 1 && forall i :: 0 <= i < |fs| ==> Writable(fs[i]) && Fits(fs[i])
    ensures forall i :: 0 <= i < |fs[1..]| ==> Writable(fs[1..][i]) && Fits(fs[1..][i])
    ensures Serialize(fs) == Item(fs[0]) + "&" + Serialize(fs[1..])
    ensures Pairs(fs) + nodes == Pairs(fs[1..]) + ([Pair(fs[0].key, Some(fs[0].value))] + nodes)
  {
    forall i | 0 <= i < |fs[1..]| ensures Writable(fs[1..][i]) && Fits(fs[1..][i]) { assert fs[1..][i] == fs[i + 1]; }
  }

  /**
   * Round trip: a query written from fields with non-empty keys and values
   * parses back to exactly those fields, newest first.
   */
  lemma ParseSerialized(fs: seq<Field>)
    requires |fs| > 0 && forall i :: 0 <= i < |fs| ==> Writable(fs[i]) && Fits(fs[i])
    ensures ParseSpec(Serialize(fs)) == Ok(Pairs(fs))
  {
    RunSerialized(fs, []);
    assert Pairs(fs) + [] == Pairs(fs);
    assert |Pairs(fs)| > 0 by { PairsLength(fs); }
  }

  lemma {:induction false} PairsLength(fs: seq<Field>)
    ensures |Pairs(fs)| == |fs|
  {
    if |fs| > 0 { PairsLength(fs[1..]); }
  }

  /** In key mode, characters are only appended until a key of 257 characters is refused. */
  lemma {:induction false} LongKeyFrom(s: string, i: nat)
    requires i <= QueryKeyMax + 1 < |s| && '=' !in s[..QueryKeyMax + 1]
    ensures Run(s[i..], State(true, s[..i], [])) == Fail(Error.QueryKeyTooLarge)
    decreases QueryKeyMax + 1 - i
  {
    assert s[i..][0] == s[i];
    if i <= QueryKeyMax {
      assert s[i] in s[..QueryKeyMax + 1];
      assert s[..i] + [s[i]] == s[..i + 1];
      assert s[i..][1..] == s[i + 1..];
      LongKeyFrom(s, i + 1);
    }
  }

  /** Input that starts with more than 256 characters before any '=' fails with the key error. */
  lemma LongKeyFails(s: string)
    requires |s| > QueryKeyMax + 1 && '=' !in s[..QueryKeyMax + 1]
    ensures ParseSpec(s) == Err(Error.QueryKeyTooLarge)
  {
    LongKeyFrom(s, 0);
    assert s[0..] == s;
  }

  /** Input without '=' never creates a pair, so it parses to the empty-query error. */
  lemma {:induction false} NoEqualsFrom(s: string, cur: string)
    requires '=' !in s
    ensures Run(s, State(true, cur, [])) == Fail(Error.QueryKeyTooLarge)
            || Run(s, State(true, cur, [])) == Next(State(true, cur + s, []))
  {
    if |s| > 0 {
      assert '=' !in s[1..] by { assert forall x :: x in s[1..] ==> x in s; }
      NoEqualsFrom(s[1..], cur + [s[0]]);
      assert cur + [s[0]] + s[1..] == cur + s;
    }
  }

  lemma NoEqualsNoQuery(s: string)
    requires '=' !in s
    ensures ParseSpec(s).Err?
    ensures |s| <= QueryKeyMax + 1 ==> ParseSpec(s) == Err(Error.EmptyQuery)
  {
    NoEqualsFrom(s, []);
    if |s| <= QueryKeyMax + 1 {
      KeyChars(s, Start);
      RunAppendAll(s, Start);
    }
  }

  /** A run that appends every character is the same with or without the last-step flag in key mode. */
  lemma {:induction false} RunAppendAll(s: string, st: State)
    requires st.isKey && '=' !in s && |st.cur| + |s| <= QueryKeyMax + 1
    ensures Run(s, st) == Next(st.(cur := st.cur + s))
  {
    if |s| > 0 {
      assert '=' !in s[1..] by { assert forall x :: x in s[1..] ==> x in s; }
      RunAppendAll(s[1..], st.(cur := st.cur + [s[0]]));
      assert st.cur + [s[0]] + s[1..] == st.cur + s;
    }
  }
}

=== FILE: req.dfy ===
/**
 * src/req.c: the request reader of the newer server loop. `__rrecv_until`
 * reads the connection one byte at a time up to a delimiter, `req_start`
 * reads the request line with it and splits the path from the query, and
 * `req_body_size` and `req_body` hand out the body.
 */
module Req {
  import opened Wrappers
  import opened Util
  import Http
  import Uri
  import Table
  import Headers
  import PathMatchProps

  /** RECV_BUF_SIZE: the first size of a buffer `__rrecv_until` allocates, and its growth step. */
  const RecvBufSize: nat := 20

  const I64Max: int := 0x7fff_ffff_ffff_ffff
  const I64Min: int := -0x8000_0000_0000_0000

  /** `connection_t`, reduced to the bytes the peer sends and how many of them were consumed. */
  class Connection {
    var input: string
    var pos: nat

    predicate Valid()
      reads this
    {
      pos <= |input|
    }

    /** The bytes not yet received. */
    function Rest(): string
      requires Valid()
      reads this
    {
      input[pos..]
    }

    constructor (input: string)
      ensures this.input == input && pos == 0
    {
      this.input := input;
      pos := 0;
    }
  }

  /** The allocator: the blocks `malloc` handed out and `free` has not taken back. */
  class Memory {
    ghost var live: set<array<char>>

    constructor ()
      ensures live == {}
    {
      live := {};
    }
  }

  // __rrecv_until on the bytes of the connection

  /** How a call of `__rrecv_until` ends. */
  datatype Outcome = Found | LimitHit | Invalid | Ended

  /** The outcome and the index of the byte that ended the scan (the input length when it ran out). */
  datatype Scan = Scan(outcome: Outcome, at: nat)

  /**
   * A byte the optional validity check lets through. A check is given by
   * the set of bytes it accepts.
   */
  predicate Accepts(valid: Option<set<char>>, c: char) {
    valid.None? || c in valid.value
  }

  /** The bytes taken from the connection: every byte read, the one that ended the scan included. */
  function Used(r: Scan): nat {
    if r.outcome == Ended then r.at else r.at + 1
  }

  /** The bytes stored in the buffer: the byte that hits the limit is read but not stored. */
  function Written(r: Scan): nat {
    if r.outcome == Ended || r.outcome == LimitHit then r.at else r.at + 1
  }

  /**
   * The loop of `__rrecv_until` from index i, checking in its order: the
   * end of the input, a non-zero limit reached, the delimiter, a byte the
   * predicate rejects.
   */
  function ScanFrom(s: string, i: nat, limit: nat, del: char, valid: Option<set<char>>): Scan
    requires i <= |s|
    decreases |s| - i
  {
    if i == |s| then Scan(Ended, i)
    else if limit != 0 && i >= limit then Scan(LimitHit, i)
    else if s[i] == del then Scan(Found, i)
    else if !Accepts(valid, s[i]) then Scan(Invalid, i)
    else ScanFrom(s, i + 1, limit, del, valid)
  }

  /**
   * The scan stops at the first byte that reaches the limit, is the
   * delimiter or fails the predicate, or at the end of the input: every
   * byte before it passes, and the outcome names the reason.
   */
  /** Every byte of s in [i, k) is no delimiter, passes the predicate and lies below a non-zero limit. */
  predicate Passes(s: string, i: nat, k: nat, limit: nat, del: char, valid: Option<set<char>>)
    requires i <= k <= |s|
  {
    forall j :: i <= j < k ==> s[j] != del && Accepts(valid, s[j]) && (limit == 0 || j < limit)
  }

  lemma {:induction false} ScanStops(s: string, i: nat, limit: nat, del: char, valid: Option<set<char>>)
    requires i <= |s|
    ensures i <= ScanFrom(s, i, limit, del, valid).at <= |s|
    ensures Passes(s, i, ScanFrom(s, i, limit, del, valid).at, limit, del, valid)
    ensures ScanFrom(s, i, limit, del, valid).outcome == Ended <==> ScanFrom(s, i, limit, del, valid).at == |s|
    ensures ScanFrom(s, i, limit, del, valid).outcome == LimitHit <==>
      ScanFrom(s, i, limit, del, valid).at < |s| && limit != 0 && ScanFrom(s, i, limit, del, valid).at >= limit
    ensures ScanFrom(s, i, limit, del, valid).outcome == Found ==> s[ScanFrom(s, i, limit, del, valid).at] == del
    ensures ScanFrom(s, i, limit, del, valid).outcome == Invalid ==>
      s[ScanFrom(s, i, limit, del, valid).at] != del && !Accepts(valid, s[ScanFrom(s, i, limit, del, valid).at])
    decreases |s| - i
  {
    if i < |s| && !(limit != 0 && i >= limit) && s[i] != del && Accepts(valid, s[i]) {
      ScanStops(s, i + 1, limit, del, valid);
      var r := ScanFrom(s, i + 1, limit, del, valid);
      assert ScanFrom(s, i, limit, del, valid) == r;
      PassesCons(s, i, r.at, limit, del, valid);
    }
  }

  lemma PassesCons(s: string, i: nat, k: nat, limit: nat, del: char, valid: Option<set<char>>)
    requires i < k <= |s| && Passes(s, i + 1, k, limit, del, valid)
    requires s[i] != del && Accepts(valid, s[i]) && (limit == 0 || i < limit)
    ensures Passes(s, i, k, limit, del, valid)
  {
  }

  /** `__rrecv_until` on the bytes s with the limit `*size` (0, or a NULL size, for none). */
  function Recv(s: string, limit: nat, del: char, valid: Option<set<char>>): (r: Scan)
    ensures r.at <= |s|
    ensures del !in s[..r.at] && (forall c :: c in s[..r.at] ==> Accepts(valid, c)) && (limit == 0 || r.at <= limit)
    ensures r.outcome == Ended <==> r.at == |s|
    ensures r.outcome == LimitHit <==> r.at < |s| && limit != 0 && r.at >= limit
    ensures r.outcome == Found ==> s[r.at] == del
    ensures r.outcome == Invalid ==> s[r.at] != del && !Accepts(valid, s[r.at])
  {
    ScanStops(s, 0, limit, del, valid);
    var r := ScanFrom(s, 0, limit, del, valid);
    var t := s[..r.at];
    assert forall k :: 0 <= k < |t| ==> t[k] == s[k] && t[k] != del && Accepts(valid, t[k]);
    assert del !in t;
    assert forall c :: c in t ==> Accepts(valid, c);
    assert r.at > 0 ==> s[r.at - 1] != del && (limit == 0 || r.at - 1 < limit);
    r
  }

  /**
   * Reading a token that is followed by the delimiter: the call succeeds
   * and stops on that delimiter exactly when the token has no delimiter,
   * passes the predicate and is shorter than a non-zero limit.
   */
  lemma RecvToken(tok: string, rest: string, limit: nat, del: char, valid: Option<set<char>>)
    requires del !in tok && forall k :: 0 <= k < |tok| ==> Accepts(valid, tok[k])
    requires limit == 0 || |tok| < limit
    ensures Recv(tok + [del] + rest, limit, del, valid) == Scan(Found, |tok|)
  {
    var s := tok + [del] + rest;
    assert s[|tok|] == del;
    assert forall k :: 0 <= k < |tok| ==> s[k] == tok[k];
  }

  /** A token at least as long as a non-zero limit is cut off at the limit. */
  lemma RecvTooLong(s: string, limit: nat, del: char, valid: Option<set<char>>)
    requires 0 < limit < |s|
    requires forall k :: 0 <= k < limit ==> s[k] != del && Accepts(valid, s[k])
    ensures Recv(s, limit, del, valid) == Scan(LimitHit, limit)
  {
    var c := s[limit];
  }

  /**
   * The size of a buffer `__rrecv_until` allocated once n bytes were
   * stored: RECV_BUF_SIZE, grown by RECV_BUF_SIZE whenever a write would
   * reach past its end.
   */
  function GrownSize(n: nat): (r: nat)
    ensures r % RecvBufSize == 0 && RecvBufSize <= r && n <= r
    ensures n > 0 ==> r < n + RecvBufSize
  {
    if n <= RecvBufSize then RecvBufSize else GrownSize(n - RecvBufSize) + RecvBufSize
  }

  /** Storing the byte at index i grows the buffer exactly when i reached its size. */
  lemma GrownStep(i: nat)
    ensures GrownSize(i + 1) == if i >= GrownSize(i) then GrownSize(i) + RecvBufSize else GrownSize(i)
  {
    var g, h := GrownSize(i), GrownSize(i + 1);
    if i >= g {
      assert i == g;
      assert h == g + RecvBufSize by {
        assert g + RecvBufSize == h || g + RecvBufSize < h || h < g + RecvBufSize;
      }
    } else {
      assert h == g;
    }
  }

  /** Where `__rrecv_until` stores the bytes: nowhere (`buf` NULL), in the caller's array (`*buf` set), or in an array it allocates (`*buf` NULL). */
  datatype Target = Discard | Into(a: array<char>) | Allocate

  /** The limit a size pointer stands for. */
  function Limit(size: Option<nat>): nat {
    if size.Some? then size.value else 0
  }

  /** `realloc` of a buffer to a larger size: a fresh block holding the old bytes, the old block freed. */
  method Grow(mem: Memory, buf: array<char>, n: nat) returns (nb: array<char>)
    requires buf.Length <= n
    modifies mem
    ensures fresh(nb) && nb.Length == n && nb[..buf.Length] == buf[..]
    ensures mem.live == old(mem.live) - {buf} + {nb}
  {
    nb := new char[n];
    forall k | 0 <= k < buf.Length {
      nb[k] := buf[k];
    }
    mem.live := mem.live - {buf} + {nb};
  }

  // The request

  /** `req_t`. */
  class Request {
    const con: Connection
    const mem: Memory
    var headers: Table.Table
    var receivedHeaders: bool
    /** The text handed to `enc_url_parse`, whose nodes are modelled in the Url module. */
    var queries: Option<string>
    var bodysize: int
    var cancel: bool
    var methodId: int
    var version: Option<string>
    var encpath: array?<char>
    var path: array?<char>

    /**
     * `req_init`: an empty header table, headers not yet received, no
     * queries, a body size of -1 (not yet known), not cancelled, and NULL
     * version, encoded path and path. The method is left unset by the
     * source; the model starts it at -1.
     */
    constructor (con: Connection, mem: Memory)
      ensures this.con == con && this.mem == mem
      ensures fresh(headers) && fresh(headers.lists) && Headers.IsHeaders(headers) && headers.Nodes() == []
      ensures !receivedHeaders && queries.None? && bodysize == -1 && !cancel && methodId == -1
      ensures version.None? && encpath == null && path == null
    {
      var h := Headers.Init();
      headers := h;
      receivedHeaders := false;
      queries := None;
      bodysize := -1;
      this.con := con;
      this.mem := mem;
      cancel := false;
      methodId := -1;
      version := None;
      encpath := null;
      path := null;
    }

    /** The C string an array holds. */
    function Text(a: array<char>): string
      reads a
    {
      CStr(a[..])
    }

    /**
     * The first step of `req_start`: the method name is read into a stack
     * array of method_max + 1 bytes up to ' ', with that size as the
     * limit, and looked up; the method is set even when it is unknown.
     * s is what the connection has left.
     */
    method ReadMethod(st: Http.Static, ghost s: string) returns (ok: bool, ghost r: Scan)
      requires con.Valid() && con.Rest() == s
      modifies this`methodId, con, mem
      ensures r == Recv(s, st.methodMax + 1, ' ', None)
      ensures con.input == old(con.input) && con.pos == old(con.pos) + Used(r) && mem.live == old(mem.live)
      ensures methodId == if r.outcome == Found then Http.MethodId(CStr(s[..r.at])) else old(methodId)
      ensures ok <==> r.outcome == Found && methodId != -1
      ensures ok ==> con.Valid() && con.Rest() == s[r.at + 1..]
    {
      r := Recv(s, st.methodMax + 1, ' ', None);
      var a := new char[st.methodMax + 1];
      var size;
      ok, a, size := RecvUntil(this, Into(a), Some(st.methodMax + 1), ' ', None);
      if !ok {
        return;
      }
      CStrAt(a[..], r.at);
      assert a[..][..r.at] == s[..r.at];
      methodId := Http.MethodId(CStr(a[..]));
      ok := methodId != -1;
      Skip(con.input, old(con.pos), r.at + 1);
    }

    /**
     * The second step of `req_start` as written: the path is read into an
     * allocated buffer up to ' ', limited to path_max + 1 bytes and to
     * path characters. On failure the buffer is freed but `encpath` still
     * points to it.
     */
    method ReadPathAsWritten(st: Http.Static, validPath: set<char>, ghost s: string) returns (ok: bool, ghost r: Scan)
      requires con.Valid() && con.Rest() == s && encpath == null
      modifies this`encpath, con, mem
      ensures r == Recv(s, st.pathMax + 1, ' ', Some(PathChar(validPath)))
      ensures con.input == old(con.input) && con.pos == old(con.pos) + Used(r)
      ensures ok <==> r.outcome == Found
      ensures encpath != null && fresh(encpath)
      ensures ok ==> Text(encpath) == CStr(s[..r.at]) && mem.live == old(mem.live) + {encpath}
      ensures !ok ==> encpath !in mem.live && mem.live == old(mem.live)
    {
      r := Recv(s, st.pathMax + 1, ' ', Some(PathChar(validPath)));
      var size;
      ok, encpath, size := RecvUntil(this, Allocate, Some(st.pathMax + 1), ' ', Some(PathChar(validPath)));
      if ok {
        CStrAt(encpath[..], r.at);
        assert encpath[..][..r.at] == s[..r.at];
      }
    }

    /**
     * The second step of `req_start` with `encpath` cleared after its
     * buffer is freed: on failure `encpath` is NULL again, so every
     * pointer the request holds is NULL or live.
     */
    method ReadPath(st: Http.Static, validPath: set<char>, ghost s: string) returns (ok: bool, ghost r: Scan)
      requires con.Valid() && con.Rest() == s && encpath == null
      modifies this`encpath, con, mem
      ensures r == Recv(s, st.pathMax + 1, ' ', Some(PathChar(validPath)))
      ensures con.input == old(con.input) && con.pos == old(con.pos) + Used(r)
      ensures ok <==> r.outcome == Found
      ensures ok ==> encpath != null && fresh(encpath) && Text(encpath) == CStr(s[..r.at])
                     && mem.live == old(mem.live) + {encpath}
      ensures !ok ==> encpath == null && mem.live == old(mem.live)
      ensures ok ==> con.Valid() && con.Rest() == s[r.at + 1..]
    {
      ok, r := ReadPathAsWritten(st, validPath, s);
      if !ok {
        encpath := null;
        return;
      }
      Skip(con.input, old(con.pos), r.at + 1);
    }

    /**
     * The third step of `req_start`: the version is read into a stack
     * array of version_len + 2 bytes up to '\n', a '\r' before the
     * delimiter is cut off, and the version is looked up.
     */
    method ReadVersion(st: Http.Static, versions: seq<string>, ghost s: string) returns (ok: bool, ghost r: Scan)
      requires con.Valid() && con.Rest() == s
      modifies this`version, con, mem
      ensures r == Recv(s, st.versionLen + 2, '\n', None)
      ensures con.input == old(con.input) && con.pos == old(con.pos) + Used(r) && mem.live == old(mem.live)
      ensures version == if r.outcome == Found then Http.VersionGet(versions, CStr(TruncateCr(s[..r.at]))) else old(version)
      ensures ok <==> r.outcome == Found && version.Some?
    {
      r := Recv(s, st.versionLen + 2, '\n', None);
      var a := new char[st.versionLen + 2];
      var size;
      ok, a, size := RecvUntil(this, Into(a), Some(st.versionLen + 2), '\n', None);
      if !ok {
        return;
      }
      assert a[..r.at] == s[..r.at];
      var n := size.value - 1;
      TruncateBuf(a, n, s[..r.at]);
      version := Http.VersionGet(versions, CStr(a[..]));
      ok := version.Some?;
    }

    /**
     * The path/query split at the end of `req_start`: a path without '?'
     * is aliased; otherwise the first '?'-token is copied as the path
     * (the alias stays when there is none) and the second one, when there
     * is one, is handed to `enc_url_parse`.
     */
    method SplitQuery()
      requires encpath != null
      modifies this`path, this`queries, mem
      ensures var sp := SplitPath(Text(encpath));
        && (sp.path.Alias? ==> path == encpath && mem.live == old(mem.live))
        && (sp.path.Own? ==> path != null && fresh(path) && Text(path) == sp.path.text
                             && mem.live == old(mem.live) + {path})
        && queries == (if sp.query.Some? then sp.query else old(queries))
    {
      var sp := SplitPath(CStr(encpath[..]));
      if sp.query.Some? {
        queries := sp.query;
      }
      if sp.path.Alias? {
        path := encpath;
      } else {
        ghost var e := CStr(encpath[..]);
        CStrPlain(e);
        ghost var toks := Tokens(e, '?');
        assert sp.path.text == toks[0];
        TokensPlain(e, '?', '\0');
        CStrPlain(sp.path.text);
        var a := Dup(sp.path.text);
        path := a;
        mem.live := mem.live + {a};
      }
    }

    /** The path and the query of a started request are those SplitPath gives for the encoded path e; q0 is the query text before. */
    ghost predicate SplitAs(e: string, q0: Option<string>)
      reads this, path
    {
      var sp := SplitPath(e);
      && (sp.path.Alias? ==> path == encpath)
      && (sp.path.Own? ==> path != null && Text(path) == sp.path.text)
      && queries == (if sp.query.Some? then sp.query else q0)
    }

    /** What `req_free` demands: the encoded path is NULL or live, and so is the path unless it aliases the encoded path. */
    ghost predicate Freeable()
      reads this, mem
    {
      && (encpath != null ==> encpath in mem.live)
      && (path != null && path != encpath ==> path in mem.live)
    }

    /** The version step of `req_start` and the split that follows it, on the bytes s; t is VersionStage of s. */
    method StartVersion(st: Http.Static, versions: seq<string>, ghost s: string, ghost e: string, ghost t: Line)
      returns (ok: bool)
      requires con.Valid() && con.Rest() == s && encpath != null && Text(encpath) == e && path == null && Freeable()
      requires t == VersionStage(s, methodId, e, st, versions)
      modifies this`version, this`path, this`queries, con, mem
      ensures con.input == old(con.input) && con.pos == old(con.pos) + t.used
      ensures ok <==> t.stage == Started
      ensures version == if t.stage == VersionFailed then old(version) else t.version
      ensures ok ==> SplitAs(e, old(queries))
      ensures !ok ==> path == null && queries == old(queries)
      ensures Freeable()
    {
      ghost var r;
      ok, r := ReadVersion(st, versions, s);
      if !ok {
        return;
      }
      SplitQuery();
    }

    /** The path step of `req_start` and what follows it, on the bytes s; t is PathStage of s. */
    method StartPath(st: Http.Static, validPath: set<char>, versions: seq<string>, ghost s: string, ghost t: Line)
      returns (ok: bool)
      requires con.Valid() && con.Rest() == s && encpath == null && path == null
      requires t == PathStage(s, methodId, st, validPath, versions)
      modifies this`encpath, this`version, this`path, this`queries, con, mem
      ensures con.input == old(con.input) && con.pos == old(con.pos) + t.used
      ensures ok <==> t.stage == Started
      ensures version == if t.stage == UnknownVersion || t.stage == Started then t.version else old(version)
      ensures PathRead(t.stage) <==> encpath != null
      ensures ok ==> SplitAs(t.encpath, old(queries))
      ensures !ok ==> path == null && queries == old(queries)
      ensures Freeable()
    {
      ghost var r;
      ok, r := ReadPath(st, validPath, s);
      if !ok {
        assert t == Line(PathFailed, Used(r), methodId, [], None);
        return;
      }
      ghost var e := Text(encpath);
      ghost var rest := s[r.at + 1..];
      ghost var t3 := VersionStage(rest, methodId, e, st, versions);
      assert t == Shift(t3, r.at + 1);
      ok := StartVersion(st, versions, rest, e, t3);
    }

    /**
     * `req_start` on a request as `req_init` left it: the method, the
     * path and the version, then the split. t is StartSpec of the bytes
     * the connection had. The path step clears `encpath` when its buffer is
     * freed (see ReadPathAsWritten for the source as written), so
     * afterwards `req_free` may be called whatever the outcome.
     */
    method Start(st: Http.Static, validPath: set<char>, versions: seq<string>) returns (ok: bool, ghost t: Line)
      requires con.Valid() && encpath == null && path == null
      modifies this`methodId, this`encpath, this`version, this`path, this`queries, con, mem
      ensures t == StartSpec(old(con.Rest()), st, validPath, versions)
      ensures con.input == old(con.input) && con.pos == old(con.pos) + t.used
      ensures ok <==> t.stage == Started
      ensures ok ==> SplitAs(t.encpath, old(queries))
      ensures !ok ==> path == null && queries == old(queries)
      ensures t.stage != MethodFailed ==> methodId == t.methodId
      ensures t.stage == MethodFailed ==> methodId == old(methodId)
      ensures version == if t.stage == UnknownVersion || t.stage == Started then t.version else old(version)
      ensures PathRead(t.stage) <==> encpath != null
      ensures Freeable()
    {
      ghost var s := con.Rest();
      t := StartSpec(s, st, validPath, versions);
      ghost var r;
      ok, r := ReadMethod(st, s);
      if !ok {
        assert t == if r.outcome != Found then Line(MethodFailed, Used(r), -1, [], None)
                    else Line(UnknownMethod, r.at + 1, -1, [], None);
        assert t.stage != MethodFailed ==> methodId == -1;
        return;
      }
      ghost var rest := s[r.at + 1..];
      ghost var t2 := PathStage(rest, methodId, st, validPath, versions);
      assert t == Shift(t2, r.at + 1);
      ok := StartPath(st, validPath, versions, rest, t2);
    }

    /**
     * `req_free`: the header table is freed, then the encoded path and
     * the path, an aliased path only once. free() demands a live block (or
     * NULL) each time.
     */
    method Free()
      requires headers.Valid()
      requires encpath != null ==> encpath in mem.live
      requires path != null && path != encpath ==> path in mem.live
      modifies mem
      ensures forall a :: a in mem.live <==> a in old(mem.live) && a != encpath && a != path
    {
      var strings, nodes := headers.Free();
      if encpath == path {
        FreeBlock(mem, encpath);
        return;
      }
      FreeBlock(mem, encpath);
      FreeBlock(mem, path);
    }

    /**
     * `req_body_size`: a size already known (not negative) is kept;
     * otherwise it becomes ContentSize of the method and of the
     * content-length header `req_get` returns.
     */
    method BodySize(contentLength: Option<string>) returns (n: nat)
      modifies this`bodysize
      ensures old(bodysize) >= 0 ==> n == old(bodysize) == bodysize
      ensures old(bodysize) < 0 ==> n == ContentSize(methodId, contentLength) == bodysize
    {
      if bodysize >= 0 {
        return bodysize;
      }
      if !Http.HasBody(methodId) {
        bodysize := 0;
        return 0;
      }
      if contentLength.None? {
        bodysize := 0;
        return 0;
      }
      bodysize := Atol(contentLength.value);
      if bodysize < 0 {
        bodysize := 0;
      }
      return bodysize;
    }

    /**
     * `req_body(req, buffer, size)`: asks for no more than the body that
     * is left, takes that amount off the remainder, and receives it; once
     * nothing is left it receives nothing and returns 0. The headers are
     * taken as already received (`req_get` is not part of this model).
     */
    method Body(buffer: array<char>, size: nat, contentLength: Option<string>) returns (got: nat)
      requires con.Valid() && size <= buffer.Length
      modifies this`bodysize, con, buffer
      ensures var total := if old(bodysize) >= 0 then old(bodysize) else ContentSize(methodId, contentLength);
              var want := Asked(total, size);
              var rest := old(con.Rest());
        && bodysize == total - want
        && got == (if want < |rest| then want else |rest|)
        && con.input == old(con.input) && con.pos == old(con.pos) + got
        && buffer[..got] == rest[..got] && buffer[got..] == old(buffer[got..])
    {
      var total := BodySize(contentLength);
      var n := size;
      if n >= total {
        n := bodysize;
      }
      bodysize := bodysize - n;
      if n == 0 {
        return 0;
      }
      got := ReceiveAll(con, buffer, n);
    }
  }

  /** The buffer, when there is one, holds the first i bytes of s. */
  ghost predicate Holds(buf: array?<char>, s: string, i: nat)
    reads buf
  {
    buf != null ==> i <= |s| && i <= buf.Length && forall k :: 0 <= k < i ==> buf[k] == s[k]
  }

  /**
   * Storing the byte c = s[indx]: an allocated buffer (bufSize > 0) that
   * is full is first grown by RECV_BUF_SIZE; a caller's buffer is written
   * as it is.
   */
  method Store(mem: Memory, buf: array?<char>, bufSize: nat, indx: nat, c: char, ghost s: string)
    returns (buf': array?<char>, bufSize': nat)
    requires indx < |s| && s[indx] == c && Holds(buf, s, indx)
    requires buf != null && bufSize == 0 ==> indx < buf.Length
    requires bufSize > 0 ==> buf != null && bufSize == buf.Length == GrownSize(indx) && buf in mem.live
    modifies mem, buf
    ensures Holds(buf', s, indx + 1)
    ensures bufSize == 0 ==> buf' == buf && bufSize' == 0 && mem.live == old(mem.live)
    ensures bufSize > 0 ==> buf' != null && (buf' == buf || fresh(buf')) && bufSize' == buf'.Length == GrownSize(indx + 1)
                            && mem.live == old(mem.live) - {buf} + {buf'}
  {
    buf', bufSize' := buf, bufSize;
    if bufSize > 0 && indx >= bufSize {
      buf' := Grow(mem, buf, bufSize + RecvBufSize);
      bufSize' := bufSize + RecvBufSize;
      assert forall k :: 0 <= k < indx ==> buf'[k] == buf'[..buf.Length][k];
    }
    GrownStep(indx);
    if buf' != null {
      buf'[indx] := c;
    }
  }

  /**
   * The buffer a call works with: none, the caller's array (whose size
   * is at least the non-zero limit), or an allocated array grown to
   * GrownSize(n) after n bytes were stored.
   */
  predicate Shape(target: Target, limit: nat, buf: array?<char>, bufSize: nat, n: nat) {
    && (target.Discard? ==> buf == null && bufSize == 0)
    && (target.Into? ==> buf == target.a && bufSize == 0 && 0 < limit <= buf.Length && n <= limit)
    && (target.Allocate? ==> buf != null && bufSize == buf.Length == GrownSize(n))
  }

  /**
   * One pass of the loop of `__rrecv_until` on the byte cur = s[indx]
   * just received: the limit check, the store, the delimiter and the
   * predicate. The result says whether the loop stops, and whether it
   * stops on the delimiter.
   */
  method RecvTurn(mem: Memory, ghost s: string, ghost r: Scan, target: Target, limit: nat, del: char,
                  valid: Option<set<char>>, buf: array?<char>, bufSize: nat, indx: nat, cur: char)
    returns (buf': array?<char>, bufSize': nat, indx': nat, stopped: bool, found: bool)
    requires indx < |s| && s[indx] == cur && ScanFrom(s, indx, limit, del, valid) == r
    requires Shape(target, limit, buf, bufSize, indx) && Holds(buf, s, indx)
    requires target.Allocate? ==> buf in mem.live
    modifies mem, buf
    ensures Shape(target, limit, buf', bufSize', if stopped then Written(r) else indx')
    ensures target.Allocate? ==> (buf' == buf || fresh(buf')) && mem.live == old(mem.live) - {buf} + {buf'}
    ensures !target.Allocate? ==> buf' == buf && mem.live == old(mem.live)
    ensures !stopped ==> indx' == indx + 1 && ScanFrom(s, indx', limit, del, valid) == r
    ensures stopped ==> r.at == indx == indx' && r.outcome != Ended
    ensures found <==> stopped && r.outcome == Found
    ensures Holds(buf', s, indx')
    ensures found && buf' != null ==> indx < buf'.Length && buf'[indx] == '\0'
  {
    buf', bufSize', indx', stopped, found := buf, bufSize, indx, true, false;
    if limit != 0 && indx >= limit {
      return;
    }
    buf', bufSize' := Store(mem, buf, bufSize, indx, cur, s);
    if del == cur {
      if buf' != null {
        buf'[indx] := '\0';
      }
      found := true;
      return;
    }
    if !Accepts(valid, cur) {
      return;
    }
    indx', stopped := indx + 1, false;
  }

  /**
   * The loop of `__rrecv_until`: bytes are received while the connection
   * has them and no pass has stopped the loop.
   */
  method RecvLoop(con: Connection, mem: Memory, ghost s: string, ghost r: Scan, target: Target, limit: nat,
                  del: char, valid: Option<set<char>>, buf: array?<char>, bufSize: nat)
    returns (buf': array?<char>, bufSize': nat, indx: nat, found: bool)
    requires con.Valid() && con.Rest() == s && ScanFrom(s, 0, limit, del, valid) == r
    requires Shape(target, limit, buf, bufSize, 0)
    requires target.Allocate? ==> buf in mem.live
    modifies con, mem, buf
    ensures con.input == old(con.input) && con.pos == old(con.pos) + Used(r) && indx == r.at
    ensures Shape(target, limit, buf', bufSize', Written(r))
    ensures target.Allocate? ==> (buf' == buf || fresh(buf')) && mem.live == old(mem.live) - {buf} + {buf'}
    ensures !target.Allocate? ==> buf' == buf && mem.live == old(mem.live)
    ensures found <==> r.outcome == Found
    ensures Holds(buf', s, indx)
    ensures found && buf' != null ==> indx < buf'.Length && buf'[indx] == '\0'
  {
    buf', bufSize' := buf, bufSize;
    ghost var start := con.pos;
    indx := 0;
    var stopped := false;
    found := false;
    while !stopped && con.pos < |con.input|
      invariant con.input == old(con.input) && con.input[start..] == s && indx <= |s|
      invariant !stopped ==> con.pos == start + indx && ScanFrom(s, indx, limit, del, valid) == r
      invariant stopped ==> con.pos == start + Used(r) && r.at == indx && r.outcome != Ended
      invariant Shape(target, limit, buf', bufSize', if stopped then Written(r) else indx)
      invariant target.Allocate? ==> (buf' == buf || fresh(buf')) && mem.live == old(mem.live) - {buf} + {buf'}
      invariant !target.Allocate? ==> buf' == buf && mem.live == old(mem.live)
      invariant found <==> stopped && r.outcome == Found
      invariant Holds(buf', s, indx)
      invariant found && buf' != null ==> indx < buf'.Length && buf'[indx] == '\0'
      decreases |con.input| - con.pos, if stopped then 0 else 1
    {
      var cur := con.input[con.pos];
      con.pos := con.pos + 1;
      buf', bufSize', indx, stopped, found := RecvTurn(mem, s, r, target, limit, del, valid, buf', bufSize', indx, cur);
    }
    if !stopped {
      assert r.at == indx == |s|;
    }
  }

  /** The stages of `req_start` that leave `encpath` set. */
  predicate PathRead(stage: Stage) {
    stage == VersionFailed || stage == UnknownVersion || stage == Started
  }

  /**
   * The request "GET /" followed by the end of the connection, read by
   * `req_start` as written: the method is found, the path read ends with
   * the input and frees its buffer, and `encpath` is left pointing to the
   * freed block, which `req_free` then frees a second time.
   */
  method DanglingPath(st: Http.Static, validPath: set<char>) returns (req: Request)
    requires st.methodMax >= 3
    ensures req.encpath != null && req.encpath !in req.mem.live
    ensures !req.Freeable()
  {
    var con := new Connection("GET /");
    var mem := new Memory();
    req := new Request(con, mem);
    assert con.Rest() == "GET" + [' '] + "/";
    RecvToken("GET", "/", st.methodMax + 1, ' ', None);
    assert Http.MethodMap[0].name == "GET";
    var ok, r := req.ReadMethod(st, con.Rest());
    ok, r := req.ReadPathAsWritten(st, validPath, con.Rest());
  }

  /** `free` of a block (NULL does nothing); it must be live. */
  method FreeBlock(mem: Memory, p: array?<char>)
    requires p != null ==> p in mem.live
    modifies mem
    ensures forall a :: a in mem.live <==> a in old(mem.live) && a != p
  {
    if p != null {
      mem.live := mem.live - {p};
    }
  }

  /** `strdup`: a fresh array holding t and a NUL. */
  method Dup(t: string) returns (a: array<char>)
    ensures fresh(a) && CStr(a[..]) == CStr(t) && a.Length == |t| + 1
  {
    a := new char[|t| + 1](_ => '\0');
    forall k | 0 <= k < |t| {
      a[k] := t[k];
    }
    assert a[..][..|t|] == t;
    CStrAt(a[..], |t|);
  }

  /**
   * `truncate_buf(buf, size, 2, '\r')` (not part of this model; taken to
   * put a NUL over a '\r' just before the terminator): a on entry holds
   * the token t and a NUL at |t|.
   */
  method TruncateBuf(a: array<char>, n: nat, ghost t: string)
    requires n < a.Length && a[n] == '\0' && a[..n] == t
    modifies a
    ensures CStr(a[..]) == CStr(TruncateCr(t))
  {
    if n >= 1 && a[n - 1] == '\r' {
      assert TruncateCr(t) == t[..n - 1];
      a[n - 1] := '\0';
      ghost var b := a[..];
      assert b[..n - 1] == t[..n - 1];
      CStrAt(b, n - 1);
    } else {
      assert TruncateCr(t) == t;
      ghost var b := a[..];
      assert b[..n] == t;
      CStrAt(b, n);
    }
  }

  /** `recv(…, MSG_WAITALL)` of n bytes: what the connection still has, up to n. */
  method ReceiveAll(con: Connection, buffer: array<char>, n: nat) returns (got: nat)
    requires con.Valid() && n <= buffer.Length
    modifies con, buffer
    ensures var rest := old(con.Rest());
      && got == (if n < |rest| then n else |rest|)
      && con.input == old(con.input) && con.pos == old(con.pos) + got
      && buffer[..got] == rest[..got] && buffer[got..] == old(buffer[got..])
  {
    var rest := con.input[con.pos..];
    got := if n < |rest| then n else |rest|;
    forall k | 0 <= k < got {
      buffer[k] := rest[k];
    }
    con.pos := con.pos + got;
  }

  /**
   * `__rrecv_until(req, buf, size, del, is_valid)`: reads bytes until the
   * delimiter, storing each one; the delimiter is replaced by a NUL,
   * `*size` becomes its index plus one and the result is true. When the
   * input ends, a byte fails the predicate or the limit `*size` is
   * reached, the result is false, `*size` is 0 and a buffer the call
   * allocated is freed (the caller's pointer still refers to it). A NULL
   * request returns false at once.
   */
  method RecvUntil(req: Request?, target: Target, size: Option<nat>, del: char, valid: Option<set<char>>)
    returns (ok: bool, buf: array?<char>, size': Option<nat>)
    requires req != null ==> req.con.Valid()
    requires target.Into? ==> size.Some? && 0 < size.value <= target.a.Length
    modifies if req != null then {req.con, req.mem} else {}, if target.Into? then {target.a} else {}
    ensures req == null ==> !ok && size' == size && buf == (if target.Into? then target.a else null)
    ensures req != null ==>
      var s, r := old(req.con.Rest()), Recv(old(req.con.Rest()), Limit(size), del, valid);
      && (ok <==> r.outcome == Found)
      && req.con.input == old(req.con.input) && req.con.pos == old(req.con.pos) + Used(r)
      && size' == (if size.None? then None else if ok then Some(r.at + 1) else Some(0))
      && (target.Discard? ==> buf == null)
      && (target.Into? ==> buf == target.a)
      && (target.Allocate? ==> buf != null && fresh(buf) && buf.Length == GrownSize(Written(r)))
      && (ok && buf != null ==> r.at < buf.Length && buf[..r.at] == s[..r.at] && buf[r.at] == '\0')
      && req.mem.live == old(req.mem.live) + (if target.Allocate? && ok then {buf} else {})
  {
    ok, size' := false, size;
    buf := if target.Into? then target.a else null;
    if req == null {
      return;
    }
    var con, mem := req.con, req.mem;
    ghost var s := con.Rest();
    ghost var start := con.pos;
    ghost var r := Recv(s, Limit(size), del, valid);
    var limit := Limit(size);
    var bufSize: nat := 0;
    if target.Allocate? {
      bufSize := RecvBufSize;
      buf := new char[RecvBufSize];
      mem.live := mem.live + {buf};
    }
    var indx, found;
    buf, bufSize, indx, found := RecvLoop(con, mem, s, r, target, limit, del, valid, buf, bufSize);
    if found {
      ok := true;
      if buf != null {
        assert buf[..indx] == s[..indx];
      }
      if size.Some? {
        size' := Some(indx + 1);
      }
      return;
    }
    if bufSize > 0 {
      mem.live := mem.live - {buf};
    }
    if size.Some? {
      size' := Some(0);
    }
  }

  // req_start on the bytes of the connection

  /** `__rrecv_is_valid_path`: '\r', or a byte `http_is_valid_path_char` accepts (that function is not part of this model). */
  function PathChar(httpValid: set<char>): (f: set<char>)
    ensures '\r' in f && forall c :: c != '\r' ==> (c in f <==> c in httpValid)
  {
    httpValid + {'\r'}
  }

  /**
   * `__rrecv_is_valid_header`: '\r', or a byte `http_is_valid_header_char`
   * accepts (not part of this model). Its body is `PathChar`'s: the two C
   * predicates differ only in the set of valid bytes passed as `httpValid`.
   */
  function HeaderChar(httpValid: set<char>): (f: set<char>)
    ensures '\r' in f && forall c :: c != '\r' ==> (c in f <==> c in httpValid)
  {
    httpValid + {'\r'}
  }

  /** A token with its trailing '\r' cut off. */
  function TruncateCr(t: string): string {
    if |t| > 0 && t[|t| - 1] == '\r' then t[..|t| - 1] else t
  }

  /** Where `req_start` stops. */
  datatype Stage = MethodFailed | UnknownMethod | PathFailed | VersionFailed | UnknownVersion | Started

  /** What `req_start` makes of the bytes: the stage it reaches, the bytes it takes, and the fields it sets. */
  datatype Line = Line(stage: Stage, used: nat, methodId: int, encpath: string, version: Option<string>)

  /**
   * `req_start` on the bytes s: the method up to ' ' within method_max
   * bytes, the path up to ' ' within path_max bytes of path characters,
   * the version up to '\n' within version_len + 1 bytes.
   */
  function StartSpec(s: string, st: Http.Static, validPath: set<char>, versions: seq<string>): Line {
    var r := Recv(s, st.methodMax + 1, ' ', None);
    if r.outcome != Found then Line(MethodFailed, Used(r), -1, [], None)
    else
      var id := Http.MethodId(CStr(s[..r.at]));
      if id == -1 then Line(UnknownMethod, r.at + 1, id, [], None)
      else Shift(PathStage(s[r.at + 1..], id, st, validPath, versions), r.at + 1)
  }

  /** What follows the method, on the bytes after it. */
  function PathStage(s: string, id: int, st: Http.Static, validPath: set<char>, versions: seq<string>): (t: Line)
    ensures t.methodId == id
  {
    var r := Recv(s, st.pathMax + 1, ' ', Some(PathChar(validPath)));
    if r.outcome != Found then Line(PathFailed, Used(r), id, [], None)
    else Shift(VersionStage(s[r.at + 1..], id, CStr(s[..r.at]), st, versions), r.at + 1)
  }

  /** What follows the path, on the bytes after it. */
  function VersionStage(s: string, id: int, e: string, st: Http.Static, versions: seq<string>): (t: Line)
    ensures t.methodId == id
  {
    var r := Recv(s, st.versionLen + 2, '\n', None);
    if r.outcome != Found then Line(VersionFailed, Used(r), id, e, None)
    else
      var v := Http.VersionGet(versions, CStr(TruncateCr(s[..r.at])));
      Line(if v.None? then UnknownVersion else Started, r.at + 1, id, e, v)
  }

  /** A version the server knows followed by CR LF starts the request with that version. */
  lemma VersionAccepted(v: string, rest: string, id: int, e: string, st: Http.Static, versions: seq<string>)
    requires v in versions && '\n' !in v && '\0' !in v && |v| + 1 < st.versionLen + 2
    ensures VersionStage(v + "\r\n" + rest, id, e, st, versions) == Line(Started, |v| + 2, id, e, Some(v))
  {
    var tok := v + "\r";
    assert v + "\r\n" + rest == tok + ['\n'] + rest;
    RecvToken(tok, rest, st.versionLen + 2, '\n', None);
    assert (tok + ['\n'] + rest)[..|tok|] == tok;
    assert TruncateCr(tok) == v;
    CStrPlain(v);
  }

  /** A path of path characters, shorter than the limit and followed by ' ', is the encoded path. */
  lemma PathAccepted(p: string, tail: string, id: int, st: Http.Static, validPath: set<char>, versions: seq<string>)
    requires |p| < st.pathMax + 1 && ' ' !in p && '\0' !in p && forall c :: c in p ==> c in validPath
    ensures PathStage(p + " " + tail, id, st, validPath, versions)
            == Shift(VersionStage(tail, id, p, st, versions), |p| + 1)
  {
    RecvToken(p, tail, st.pathMax + 1, ' ', Some(PathChar(validPath)));
    assert (p + [' '] + tail)[..|p|] == p && (p + [' '] + tail)[|p| + 1..] == tail;
    CStrPlain(p);
  }

  /** A method name the map holds, shorter than the limit and followed by ' ', is taken with its code. */
  lemma MethodAccepted(m: string, tail: string, st: Http.Static, validPath: set<char>, versions: seq<string>)
    requires Http.MethodId(m) != -1 && |m| < st.methodMax + 1
    ensures ' ' !in m && '\0' !in m
    ensures StartSpec(m + " " + tail, st, validPath, versions)
            == Shift(PathStage(tail, Http.MethodId(m), st, validPath, versions), |m| + 1)
  {
    Http.MethodIdSpec(m);
    Http.MethodNamesPlain(Http.MethodId(m));
    RecvToken(m, tail, st.methodMax + 1, ' ', None);
    assert (m + [' '] + tail)[..|m|] == m && (m + [' '] + tail)[|m| + 1..] == tail;
    CStrPlain(m);
  }

  /** A name the map lacks, followed by ' ', stops the request there with UnknownMethod. */
  lemma MethodRejected(m: string, tail: string, st: Http.Static, validPath: set<char>, versions: seq<string>)
    requires Http.MethodId(m) == -1 && ' ' !in m && '\0' !in m && |m| < st.methodMax + 1
    ensures StartSpec(m + " " + tail, st, validPath, versions) == Line(UnknownMethod, |m| + 1, -1, [], None)
  {
    RecvToken(m, tail, st.methodMax + 1, ' ', None);
    assert (m + [' '] + tail)[..|m|] == m;
    CStrPlain(m);
  }

  /** A path longer than path_max of path characters fails at the limit, after path_max + 2 bytes. */
  lemma PathTooLong(p: string, id: int, st: Http.Static, validPath: set<char>, versions: seq<string>)
    requires |p| > st.pathMax + 1 && ' ' !in p && forall c :: c in p ==> c in validPath
    ensures PathStage(p, id, st, validPath, versions) == Line(PathFailed, st.pathMax + 2, id, [], None)
  {
    RecvTooLong(p, st.pathMax + 1, ' ', Some(PathChar(validPath)));
  }

  /**
   * A request line made of a known method, a path and a known version,
   * separated by single spaces and ended by CR LF, starts the request:
   * the stage is Started, the line's bytes are used, and the method code,
   * the encoded path and the version are the ones written.
   */
  lemma LineAccepted(m: string, p: string, v: string, rest: string, st: Http.Static, validPath: set<char>, versions: seq<string>)
    requires Http.MethodId(m) != -1 && |m| < st.methodMax + 1
    requires |p| < st.pathMax + 1 && ' ' !in p && '\0' !in p && forall c :: c in p ==> c in validPath
    requires v in versions && '\n' !in v && '\0' !in v && |v| + 1 < st.versionLen + 2
    ensures StartSpec(m + " " + p + " " + v + "\r\n" + rest, st, validPath, versions)
            == Line(Started, |m| + |p| + |v| + 4, Http.MethodId(m), p, Some(v))
  {
    var vt := v + "\r\n" + rest;
    var pt := p + " " + vt;
    assert m + " " + p + " " + v + "\r\n" + rest == m + " " + pt;
    MethodAccepted(m, pt, st, validPath, versions);
    PathAccepted(p, vt, Http.MethodId(m), st, validPath, versions);
    VersionAccepted(v, rest, Http.MethodId(m), p, st, versions);
  }

  /** Skipping n bytes of what is left from p. */
  lemma Skip(input: string, p: nat, n: nat)
    requires p + n <= |input|
    ensures input[p + n..] == input[p..][n..]
  {
  }

  /** A stage's result counted from n bytes earlier. */
  function Shift(t: Line, n: nat): Line {
    t.(used := t.used + n)
  }

  // The path/query split

  /** Where the path of a request points: into the encoded path itself, or to a copy of a token. */
  datatype PathRef = Alias | Own(text: string)

  /** The path and the query text the split gives. */
  datatype Split = Split(path: PathRef, query: Option<string>)

  /**
   * The split shared by `req_start` and `parse_request`: no '?' keeps the
   * encoded path as the path; otherwise `strtok_r` on '?' gives the path
   * (the first token) and the query (the second one), and an encoded
   * path made of '?' only keeps the alias.
   */
  function SplitPath(encpath: string): Split {
    if !Contains(encpath, '?') then Split(Alias, None)
    else
      var toks := Tokens(CStr(encpath), '?');
      if toks == [] then Split(Alias, None)
      else if |toks| == 1 then Split(Own(toks[0]), None)
      else Split(Own(toks[0]), Some(toks[1]))
  }

  /** A character that s does not hold is in none of its tokens. */
  lemma {:induction false} TokensPlain(s: string, d: char, c: char)
    requires c !in s
    ensures forall i :: 0 <= i < |Tokens(s, d)| ==> c !in Tokens(s, d)[i]
    decreases |s|
  {
    if |s| > 0 {
      assert c !in s[1..];
      if s[0] == d {
        TokensPlain(s[1..], d, c);
      } else {
        var k := RunLen(s, d);
        assert c !in s[k..];
        TokensPlain(s[k..], d, c);
        assert c !in s[..k];
      }
    }
  }

  /** A path without '?' is aliased, with no query. */
  lemma SplitPlain(p: string)
    requires '?' !in p
    ensures SplitPath(p) == Split(Alias, None)
  {
    assert '?' !in CStr(p) by {
      assert forall k :: 0 <= k < |CStr(p)| ==> CStr(p)[k] == p[k];
    }
  }

  /** On a string without NUL that holds a '?', the split reads the first two tokens. */
  lemma SplitTokens(e: string)
    requires '\0' !in e && '?' in e
    ensures var toks := Tokens(e, '?');
      SplitPath(e) == if toks == [] then Split(Alias, None)
                      else if |toks| == 1 then Split(Own(toks[0]), None)
                      else Split(Own(toks[0]), Some(toks[1]))
  {
    CStrPlain(e);
  }

  /** A path, '?', a query and then nothing or a '?': the first two tokens are the path and the query. */
  lemma TwoTokens(p: string, q: string, rest: string)
    requires |p| > 0 && |q| > 0 && '?' !in p && '?' !in q && (|rest| == 0 || rest[0] == '?')
    ensures var toks := Tokens(p + "?" + q + rest, '?');
      |toks| >= 2 && toks[0] == p && toks[1] == q && (rest == [] ==> |toks| == 2)
  {
    var v := ['?'] + (q + rest);
    assert p + "?" + q + rest == p + v;
    PathMatchProps.TokensRun(p, v, '?');
    PathMatchProps.TokensSkip(q + rest, '?');
    PathMatchProps.TokensRun(q, rest, '?');
  }

  /** A path and a query joined by '?' split back into the two. */
  lemma SplitQueryBack(p: string, q: string)
    requires |p| > 0 && |q| > 0 && '?' !in p && '?' !in q && '\0' !in p && '\0' !in q
    ensures SplitPath(p + "?" + q) == Split(Own(p), Some(q))
  {
    var e := p + "?" + q;
    assert e == p + "?" + q + [];
    TwoTokens(p, q, []);
    assert e[|p|] == '?';
    SplitTokens(e);
  }

  /** Only the second token is the query: a second '?' and what follows it are dropped. */
  lemma SplitDropsSecondQuery(p: string, q: string, x: string)
    requires |p| > 0 && |q| > 0 && '?' !in p && '?' !in q && '\0' !in p && '\0' !in q && '\0' !in x
    ensures SplitPath(p + "?" + q + "?" + x) == Split(Own(p), Some(q))
  {
    var e := p + "?" + q + ("?" + x);
    assert e == p + "?" + q + "?" + x;
    TwoTokens(p, q, "?" + x);
    assert e[|p|] == '?';
    assert '\0' !in e by {
      assert e == p + ['?'] + q + ['?'] + x;
    }
    SplitTokens(e);
  }

  /** An encoded path that starts with '?' has its query taken as the path. */
  lemma SplitLeadingMark(q: string)
    requires |q| > 0 && '?' !in q && '\0' !in q
    ensures SplitPath("?" + q) == Split(Own(q), None)
  {
    var e := "?" + q;
    CStrPlain(e);
    assert e[0] == '?';
    assert e == ['?'] + q;
    PathMatchProps.TokensSkip(q, '?');
    PathMatchProps.TokensRun(q, [], '?');
    assert q + [] == q;
  }

  // The body size

  /** `atol`, saturating on overflow as strtol does (atol's overflow is undefined). */
  function Atol(t: string): (r: int)
    ensures I64Min <= r <= I64Max
  {
    var v := Uri.Atoi(t);
    if v > I64Max then I64Max else if v < I64Min then I64Min else v
  }

  /** The size `req_body_size` settles on: 0 without a body rule or a content-length, else the value, not below 0. */
  function ContentSize(methodId: int, contentLength: Option<string>): nat {
    if !Http.HasBody(methodId) || contentLength.None? then 0
    else
      var n := Atol(contentLength.value);
      if n < 0 then 0 else n
  }

  /** A POST, PUT or DELETE with a decimal content-length has that many body bytes. */
  lemma ContentSizeDecimal(methodId: int, n: nat)
    requires Http.HasBody(methodId) && n <= I64Max
    ensures ContentSize(methodId, Some(Uri.Dec(n))) == n
  {
    Uri.AtoiDec(n);
  }

  /** A negative content-length counts as no body. */
  lemma ContentSizeNegative(methodId: int, n: nat)
    ensures ContentSize(methodId, Some("-" + Uri.Dec(n))) == 0
  {
    var d := Uri.Dec(n);
    var t := "-" + d;
    assert t[1..] == d && !Uri.IsSpace(t[0]);
    assert Uri.DigitRun(d) == |d| by {
      Uri.AtoiDec(n);
    }
  }

  /** What one `req_body` call asks for: the size given, but no more than the remaining body. */
  function Asked(remaining: nat, size: nat): (r: nat)
    ensures r <= remaining && r <= size && (r == remaining || r == size)
  {
    if size >= remaining then remaining else size
  }

  function Sum(xs: seq<nat>): nat {
    if xs == [] then 0 else xs[0] + Sum(xs[1..])
  }

  /** The amounts successive `req_body` calls with the given sizes ask for, from a remainder of rem. */
  function Requests(rem: nat, sizes: seq<nat>): (r: seq<nat>)
    ensures |r| == |sizes|
  {
    if sizes == [] then []
    else var k := Asked(rem, sizes[0]); [k] + Requests(rem - k, sizes[1..])
  }

  /**
   * Draining the body: whatever sizes the caller asks for, the calls
   * together receive the smaller of the body size and the total asked,
   * so no call reads past the body.
   */
  lemma {:induction false} RequestsTotal(rem: nat, sizes: seq<nat>)
    ensures Sum(Requests(rem, sizes)) == if Sum(sizes) < rem then Sum(sizes) else rem
  {
    if sizes != [] {
      var k := Asked(rem, sizes[0]);
      RequestsTotal(rem - k, sizes[1..]);
      assert Requests(rem, sizes)[1..] == Requests(rem - k, sizes[1..]);
    }
  }
}

=== FILE: res.dfy ===
/**
 * src/res.c: the response a route fills in. Its headers live in a header
 * table, its body is a buffer of `bodysize` bytes, `res_tostr` lays the
 * response out as HTTP/1.x text and `res_size` counts the bytes that takes.
 */
module Res {
  import opened Wrappers
  import opened Util
  import opened Table
  import Headers
  import Errors
  import Uri

  const U16: int := 0x1_0000
  const U32: int := 0x1_0000_0000

  // Header chains in which no two names compare equal

  /** No two nodes of a chain hold names `headers_cmp` finds equal. */
  predicate Distinct(chain: seq<Node>) {
    forall i, j :: 0 <= i < j < |chain| ==> Headers.HeadersCmp(chain[i].key, chain[j].key) != 0
  }

  lemma FoldEqTrans(a: string, b: string, c: string)
    requires Headers.FoldEq(a, b) && Headers.FoldEq(b, c)
    ensures Headers.FoldEq(a, c) && Headers.FoldEq(c, a)
  {
  }

  lemma AppendDistinct(chain: seq<Node>, n: Node)
    requires Distinct(chain) && FirstMatch(chain, n.key, Headers.HeadersCmp).None?
    ensures Distinct(chain + [n])
  {
    var c := chain + [n];
    forall i, j | 0 <= i < j < |c| ensures Headers.HeadersCmp(c[i].key, c[j].key) != 0 {
      if j == |chain| {
        assert Headers.HeadersCmp(n.key, chain[i].key) != 0;
      }
    }
  }

  /** Appending a node whose name the chain does not hold: that name reads the new value, the others as before. */
  lemma AppendValue(chain: seq<Node>, n: Node, k: string)
    requires FirstMatch(chain, n.key, Headers.HeadersCmp).None?
    ensures Headers.Value(chain + [n], k) == if Headers.HeadersCmp(n.key, k) == 0 then Some(n.value) else Headers.Value(chain, k)
  {
    if Headers.HeadersCmp(n.key, k) == 0 {
      Headers.MissFoldEq(chain, n.key, k);
      AppendedMatch(chain, n, k, Headers.HeadersCmp);
    } else {
      AppendedOther(chain, n, k, Headers.HeadersCmp);
      var m := FirstMatch(chain, k, Headers.HeadersCmp);
      if m.Some? {
        assert (chain + [n])[m.value] == chain[m.value];
      }
    }
  }

  /** `headers_set` keeps a chain distinct: a matching node keeps a name equal to the one it had. */
  lemma SetDistinct(chain: seq<Node>, key: string, value: string)
    requires Distinct(chain)
    ensures Distinct(Headers.SetChain(chain, key, value))
  {
    var c := Headers.SetChain(chain, key, value);
    match FirstMatch(chain, key, Headers.HeadersCmp)
    case None =>
      AppendDistinct(chain, Node(key, value, true));
    case Some(m) =>
      forall i, j | 0 <= i < j < |c| ensures Headers.HeadersCmp(c[i].key, c[j].key) != 0 {
        assert Headers.HeadersCmp(chain[i].key, chain[j].key) != 0;
        if i == m && Headers.FoldEq(key, chain[j].key) {
          FoldEqTrans(chain[m].key, key, chain[j].key);
        }
        if j == m && Headers.FoldEq(chain[i].key, key) {
          FoldEqTrans(chain[i].key, key, chain[m].key);
        }
      }
  }

  /** The chain with node i unlinked. */
  function Without(chain: seq<Node>, i: nat): (c: seq<Node>)
    requires i < |chain|
    ensures |c| == |chain| - 1
    ensures forall j :: 0 <= j < |c| ==> c[j] == if j < i then chain[j] else chain[j + 1]
  {
    chain[..i] + chain[i + 1..]
  }

  lemma RemoveDistinct(chain: seq<Node>, i: nat)
    requires Distinct(chain) && i < |chain|
    ensures Distinct(Without(chain, i))
  {
    var c := Without(chain, i);
    forall a, b | 0 <= a < b < |c| ensures Headers.HeadersCmp(c[a].key, c[b].key) != 0 {
      var a', b' := if a < i then a else a + 1, if b < i then b else b + 1;
      assert c[a] == chain[a'] && c[b] == chain[b'] && a' < b';
    }
  }

  /** Unlinking the first match of a distinct chain leaves no name equal to the key. */
  lemma RemoveEqual(chain: seq<Node>, key: string, k: string)
    requires Distinct(chain) && FirstMatch(chain, key, Headers.HeadersCmp).Some?
    requires Headers.HeadersCmp(key, k) == 0
    ensures Headers.Value(Without(chain, FirstMatch(chain, key, Headers.HeadersCmp).value), k).None?
  {
    var i := FirstMatch(chain, key, Headers.HeadersCmp).value;
    var c := Without(chain, i);
    forall j | 0 <= j < |c| ensures Headers.HeadersCmp(k, c[j].key) != 0 {
      if Headers.FoldEq(k, c[j].key) {
        if j < i {
          FoldEqTrans(key, k, c[j].key);
        } else {
          assert Headers.HeadersCmp(chain[i].key, chain[j + 1].key) != 0;
          FoldEqTrans(chain[i].key, key, k);
          FoldEqTrans(chain[i].key, k, c[j].key);
        }
      }
    }
  }

  /** Unlinking a node from a chain with no match leaves no match. */
  lemma WithoutMiss(chain: seq<Node>, i: nat, k: string, cmp: (string, string) -> int)
    requires i < |chain| && FirstMatch(chain, k, cmp).None?
    ensures FirstMatch(Without(chain, i), k, cmp).None?
  {
    var c := Without(chain, i);
    forall j | 0 <= j < |c| ensures cmp(k, c[j].key) != 0 {
      assert c[j] == chain[if j < i then j else j + 1];
    }
  }

  /** Unlinking a node other than the first match keeps that match, shifted past the gap. */
  lemma WithoutMatch(chain: seq<Node>, i: nat, k: string, cmp: (string, string) -> int, m: nat)
    requires i < |chain| && FirstMatch(chain, k, cmp) == Some(m) && m != i
    ensures FirstMatch(Without(chain, i), k, cmp) == Some(if m < i then m else m - 1)
  {
    var c := Without(chain, i);
    var m' := if m < i then m else m - 1;
    assert c[m'] == chain[m];
    forall j | 0 <= j < m' ensures cmp(k, c[j].key) != 0 {
      assert c[j] == chain[if j < i then j else j + 1];
    }
    FirstMatchAt(c, k, cmp, m');
  }

  /** Unlinking the first match of a key leaves every name the comparer tells apart from it as it was. */
  lemma RemoveOther(chain: seq<Node>, key: string, k: string)
    requires FirstMatch(chain, key, Headers.HeadersCmp).Some?
    requires Headers.HeadersCmp(key, k) != 0
    ensures Headers.Value(Without(chain, FirstMatch(chain, key, Headers.HeadersCmp).value), k) == Headers.Value(chain, k)
  {
    var i := FirstMatch(chain, key, Headers.HeadersCmp).value;
    match FirstMatch(chain, k, Headers.HeadersCmp)
    case None =>
      WithoutMiss(chain, i, k, Headers.HeadersCmp);
    case Some(m) =>
      WithoutMatch(chain, i, k, Headers.HeadersCmp, m);
      assert Without(chain, i)[if m < i then m else m - 1] == chain[m];
  }

  // Header tables as bucket sequences

  /** The bucket `table_hash` picks for a name in a header table. */
  function Slot(name: string): (b: nat)
    ensures b < TableSize
  {
    Headers.HeadersHash(name) % TableSize
  }

  /** Every bucket holds each name once. */
  predicate Unique(ls: seq<seq<Node>>) {
    forall b :: 0 <= b < |ls| ==> Distinct(ls[b])
  }

  /** The value `headers_get` finds for a name in a header table with buckets ls. */
  function Lookup(ls: seq<seq<Node>>, name: string): Option<string>
    requires |ls| == TableSize
  {
    Headers.Value(ls[Slot(name)], name)
  }

  lemma UniqueUpdate(ls: seq<seq<Node>>, b: nat, chain: seq<Node>)
    requires Unique(ls) && b < |ls| && Distinct(chain)
    ensures Unique(ls[b := chain])
  {
  }

  lemma LookupAppend(ls: seq<seq<Node>>, n: Node, k: string)
    requires |ls| == TableSize && FirstMatch(ls[Slot(n.key)], n.key, Headers.HeadersCmp).None?
    ensures Lookup(ls[Slot(n.key) := ls[Slot(n.key)] + [n]], k)
            == if Headers.HeadersCmp(n.key, k) == 0 then Some(n.value) else Lookup(ls, k)
  {
    if Slot(k) == Slot(n.key) {
      AppendValue(ls[Slot(n.key)], n, k);
    } else if Headers.HeadersCmp(n.key, k) == 0 {
      Headers.SameBucket(n.key, k);
    }
  }

  lemma LookupSet(ls: seq<seq<Node>>, name: string, value: string, k: string)
    requires |ls| == TableSize
    ensures Lookup(ls[Slot(name) := Headers.SetChain(ls[Slot(name)], name, value)], k)
            == if Headers.HeadersCmp(name, k) == 0 then Some(value) else Lookup(ls, k)
  {
    if Slot(k) == Slot(name) {
      if Headers.HeadersCmp(name, k) == 0 {
        Headers.SetThenGet(ls[Slot(name)], name, k, value);
      } else {
        Headers.SetThenGetOther(ls[Slot(name)], name, k, value);
      }
    } else if Headers.HeadersCmp(name, k) == 0 {
      Headers.SameBucket(name, k);
    }
  }

  lemma LookupRemove(ls: seq<seq<Node>>, name: string, k: string)
    requires |ls| == TableSize && Unique(ls) && FirstMatch(ls[Slot(name)], name, Headers.HeadersCmp).Some?
    ensures var c := ls[Slot(name)];
            Lookup(ls[Slot(name) := Without(c, FirstMatch(c, name, Headers.HeadersCmp).value)], k)
            == if Headers.HeadersCmp(name, k) == 0 then None else Lookup(ls, k)
  {
    var c := ls[Slot(name)];
    if Slot(k) == Slot(name) {
      if Headers.HeadersCmp(name, k) == 0 {
        RemoveEqual(c, name, k);
      } else {
        RemoveOther(c, name, k);
      }
    } else if Headers.HeadersCmp(name, k) == 0 {
      Headers.SameBucket(name, k);
    }
  }

  lemma LookupEmpty(ls: seq<seq<Node>>, name: string, k: string)
    requires |ls| == TableSize && ls[Slot(name)] == [] && Headers.HeadersCmp(name, k) == 0
    ensures Lookup(ls, k).None?
  {
    Headers.SameBucket(name, k);
  }

  // Content-Length

  /** The int a uint64_t becomes where an int parameter takes it: the low 32 bits in two's complement. */
  function ToInt(n: nat): (r: int)
    ensures INT_MIN <= r <= INT_MAX
    ensures n <= INT_MAX ==> r == n
  {
    var w := n % U32;
    if w > INT_MAX then w - U32 else w
  }

  /**
   * The Content-Length text `res_update_size` writes as the code stands:
   * `bodysize` goes through `digits`, which takes an int, and the buffer
   * of that many bytes plus one keeps that many leading digits of the
   * `%lu` text.
   */
  function LengthTextAsWritten(n: nat): (r: string)
    ensures r <= Uri.Dec(n) && r != []
  {
    var room := Digits(ToInt(n));
    var d := Uri.Dec(n);
    if room < |d| then d[..room] else d
  }

  /** The Content-Length text with room for every digit: it reads back as the size. */
  function LengthText(n: nat): (r: string)
    ensures Uri.Atoi(r) == n
  {
    Uri.AtoiDec(n);
    Uri.Dec(n)
  }

  lemma {:induction false} DigitsDec(n: nat)
    requires n <= INT_MAX
    ensures Digits(n) == |Uri.Dec(n)|
  {
    if n >= 10 {
      DigitsDec(n / 10);
    }
  }

  /** Sizes that fit an int get their full decimal form. */
  lemma LengthTextAgrees(n: nat)
    requires n <= INT_MAX
    ensures LengthTextAsWritten(n) == LengthText(n)
  {
    DigitsDec(n);
  }

  /** A body of 2^32 bytes gets a one-digit Content-Length: `digits` sees 0. */
  lemma LengthTextTruncated()
    ensures |LengthTextAsWritten(U32)| == 1 && LengthTextAsWritten(U32) != LengthText(U32)
  {
    assert ToInt(U32) == 0;
    assert |Uri.Dec(U32 / 10)| >= 1;
  }

  // Laying the response out

  /** `res_tostr` replaces a code outside 100..999 with 200. */
  function Fixed(code: nat): (r: nat)
    ensures 100 <= r <= 999
    ensures 100 <= code <= 999 ==> r == code
    ensures r != code ==> r == 200
  {
    if code > 999 || code < 100 then 200 else code
  }

  lemma ThreeDigits(n: nat)
    requires 100 <= n <= 999
    ensures |Uri.Dec(n)| == 3
  {
    assert |Uri.Dec(n / 100)| == 1;
    assert |Uri.Dec(n / 10)| == 2;
  }

  /** The version text of the status line: the version, or "HTTP/1.1" when there is none. */
  function VersionText(version: Option<string>): string {
    if version.None? then "HTTP/1.1" else CStr(version.value)
  }

  /** The status line: "%s %d\r\n". */
  function Status(version: Option<string>, code: nat): string {
    VersionText(version) + " " + Uri.Dec(code) + "\r\n"
  }

  /** One header line: "%s: %s\r\n". */
  function Line(n: Node): string {
    CStr(n.key) + ": " + CStr(n.value) + "\r\n"
  }

  /** The header lines in table order. */
  function Lines(ns: seq<Node>): string {
    if ns == [] then [] else Lines(ns[..|ns| - 1]) + Line(ns[|ns| - 1])
  }

  /** The whole response: status line, header lines, an empty line, the body. */
  function Wire(version: Option<string>, code: nat, ns: seq<Node>, body: string): string {
    Status(version, code) + Lines(ns) + "\r\n" + body
  }

  /** What `res_size` adds for the headers: strlen + 2 for each name and for each value. */
  function LinesSize(ns: seq<Node>): nat {
    if ns == [] then 0
    else
      var n := ns[|ns| - 1];
      LinesSize(ns[..|ns| - 1]) + (|CStr(n.key)| + 2) + (|CStr(n.value)| + 2)
  }

  /** `res_size` as a sum: the version and a space, a code and CRLF, the headers, CRLF, the body. */
  function SizeOf(versionLen: nat, ns: seq<Node>, bodysize: nat): nat {
    versionLen + 1 + 5 + LinesSize(ns) + 2 + bodysize
  }

  lemma {:induction false} LinesLength(ns: seq<Node>)
    ensures |Lines(ns)| == LinesSize(ns)
  {
    if ns != [] {
      LinesLength(ns[..|ns| - 1]);
    }
  }

  /**
   * `res_size` counts exactly the bytes `res_tostr` writes, when the
   * version text is `version_len` long and the code has been fixed.
   */
  lemma WireSize(version: Option<string>, code: nat, ns: seq<Node>, body: string, versionLen: nat)
    requires |VersionText(version)| == versionLen
    ensures |Wire(version, Fixed(code), ns, body)| == SizeOf(versionLen, ns, |body|)
  {
    ThreeDigits(Fixed(code));
    LinesLength(ns);
  }

  /** A code already in 100..999 sent by `res_tostr` reads back from the status line unchanged. */
  lemma StatusCode(version: Option<string>, code: nat)
    requires 100 <= code <= 999
    ensures var s := Status(version, Fixed(code));
            var at := |VersionText(version)| + 1;
            at + 3 <= |s| && Uri.Atoi(s[at..at + 3]) == code
  {
    ThreeDigits(code);
    var s := Status(version, code);
    var at := |VersionText(version)| + 1;
    assert s[at..at + 3] == Uri.Dec(code);
    Uri.AtoiDec(code);
  }

  // sendfile

  /** The Content-Type for each ending `res_sendfile` knows, in the order it tries them. */
  const Types: seq<(string, string)> := [
    (".html", "text/html; charset=utf-8"),
    (".json", "application/json; charset=utf-8"),
    (".css", "text/css; charset=utf-8"),
    (".js", "text/javascript; charset=utf-8")
  ]

  const ContentLengthName: string := "Content-Length"

  const ServerName: string := "Server"
  const ConnectionName: string := "Connection"
  const DateName: string := "Date"
  const ContentTypeName: string := "Content-Type"
  const LocationName: string := "Location"

  const PlainText: string := "text/plain; charset=utf-8"

  /** The Content-Type `res_sendfile` sets, chosen with `endswith` on the path. */
  function ContentType(path: string): string {
    if EndsWith(Some(path), Some(".html")) then "text/html; charset=utf-8"
    else if EndsWith(Some(path), Some(".json")) then "application/json; charset=utf-8"
    else if EndsWith(Some(path), Some(".css")) then "text/css; charset=utf-8"
    else if EndsWith(Some(path), Some(".js")) then "text/javascript; charset=utf-8"
    else PlainText
  }

  /** A path ending in a known extension gets that extension's type: no earlier test catches it. */
  lemma ContentTypeOf(stem: string, k: nat)
    requires k < |Types|
    ensures ContentType(stem + Types[k].0) == Types[k].1
  {
    var p := stem + Types[k].0;
    var n := |p|;
    if k == 1 {
      assert p[n - 4] == 'j' && ".html"[1] == 'h';
    } else if k == 2 {
      assert p[n - 1] == 's';
      assert p[n - 3] == 'c' && ".json"[1] == 'j';
    } else if k == 3 {
      assert p[n - 1] == 's' && p[n - 3] == '.';
    }
  }

  /** Plain text exactly when the path ends in none of the known extensions. */
  lemma ContentTypePlain(path: string)
    ensures ContentType(path) == PlainText <==> forall k :: 0 <= k < |Types| ==> !EndsWith(Some(path), Some(Types[k].0))
  {
    if k :| 0 <= k < |Types| && EndsWith(Some(path), Some(Types[k].0)) {
      var stem := path[..|path| - |Types[k].0|];
      assert path == stem + Types[k].0;
      ContentTypeOf(stem, k);
      assert Types[k].1 != PlainText by {
        if k == 1 {
          assert Types[k].1[0] != PlainText[0];
        } else {
          assert Types[k].1[5] != PlainText[5];
        }
      }
    } else {
      assert Types[0].0 == ".html" && Types[1].0 == ".json" && Types[2].0 == ".css" && Types[3].0 == ".js";
    }
  }

  /** The value of name k once n1 to n4 are added in that order, a later one taking precedence. */
  function Added(n1: string, v1: string, n2: string, v2: string, n3: string, v3: string, n4: string, v4: string, k: string): Option<string> {
    if Headers.HeadersCmp(n4, k) == 0 then Some(v4)
    else if Headers.HeadersCmp(n3, k) == 0 then Some(v3)
    else if Headers.HeadersCmp(n2, k) == 0 then Some(v2)
    else if Headers.HeadersCmp(n1, k) == 0 then Some(v1)
    else None
  }

  /** The headers `res_init` leaves: Server, Connection, Content-Length and Date, and nothing else. */
  function Initial(date: string, k: string): Option<string> {
    Added(ServerName, "ctorm", ConnectionName, "close", ContentLengthName, "0", DateName, date, k)
  }

  /** Each name `res_init` adds reads its own value; a name it does not add reads nothing. */
  lemma InitialValues(date: string)
    ensures Initial(date, DateName) == Some(date) && Initial(date, ContentLengthName) == Some("0")
    ensures Initial(date, ConnectionName) == Some("close") && Initial(date, ServerName) == Some("ctorm")
    ensures Initial(date, "Host").None?
  {
    assert Headers.FoldEq(ServerName, ServerName) && Headers.FoldEq(ConnectionName, ConnectionName);
    assert Headers.FoldEq(ContentLengthName, ContentLengthName) && Headers.FoldEq(DateName, DateName);
    assert Headers.Fold('D') != Headers.Fold('H');
  }

  /** The pairs `table_next` hands out for the nodes ns, in order. */
  predicate Listed(es: seq<(string, string)>, ns: seq<Node>) {
    |es| == |ns| && forall i :: 0 <= i < |es| ==> es[i] == (ns[i].key, ns[i].value)
  }

  lemma LinesStep(ns: seq<Node>, i: nat)
    requires i < |ns|
    ensures Lines(ns[..i + 1]) == Lines(ns[..i]) + Line(ns[i])
  {
    assert ns[..i + 1][..i] == ns[..i];
  }

  /** The header loop of `res_tostr`: one "%s: %s\r\n" per pair, in order. */
  method WriteLines(es: seq<(string, string)>, ghost ns: seq<Node>) returns (lines: string)
    requires Listed(es, ns)
    ensures lines == Lines(ns)
  {
    lines := [];
    var i := 0;
    while i < |es|
      invariant i <= |es|
      invariant lines == Lines(ns[..i])
    {
      LinesStep(ns, i);
      lines := lines + (CStr(es[i].0) + ": " + CStr(es[i].1) + "\r\n");
      i := i + 1;
    }
    assert ns[..i] == ns;
  }

  /** The header loop of `res_size`: strlen + 2 for each name and each value, added to the count so far. */
  method CountLines(start: nat, es: seq<(string, string)>, ghost ns: seq<Node>) returns (size: nat)
    requires Listed(es, ns)
    ensures size == start + LinesSize(ns)
  {
    size := start;
    var i := 0;
    while i < |es|
      invariant i <= |es|
      invariant size == start + LinesSize(ns[..i])
    {
      assert ns[..i + 1][..i] == ns[..i];
      size := size + |CStr(es[i].0)| + 2;
      size := size + |CStr(es[i].1)| + 2;
      i := i + 1;
    }
    assert ns[..i] == ns;
  }

  /** What the file system says about a path `res_sendfile` opens. */
  datatype File =
    | Missing
    | Unreadable
      /** A readable file: its bytes (whatever ends up in the buffer when the read fails) and whether `file_read` succeeded. */
    | Present(contents: string, readOk: bool)

  // The response

  /** `res_t` without its connection. */
  class Response {
    var version: Option<string>
    var code: nat
    var body: Option<string>
    var bodysize: nat
    const headers: Table

    /** The header table is wired by `headers_init` and holds each name once; the body holds bodysize bytes. */
    ghost predicate Valid()
      reads this, headers.lists
    {
      Headers.IsHeaders(headers) && Unique(headers.lists[..]) && code < U16
      && (if body.Some? then |body.value| == bodysize else bodysize == 0)
    }

    /** The value `headers_get` finds for a name. */
    ghost function Header(name: string): Option<string>
      requires headers.Valid()
      reads headers.lists
    {
      Lookup(headers.lists[..], name)
    }

    /** The bytes `res_tostr` copies after the headers. */
    function Payload(): string
      reads this
    {
      if body.Some? then body.value else []
    }

    /**
     * `res_init`: no version, code 200, no body, and the headers Server,
     * Connection and Content-Length, then Date through `res_set`; the
     * clock's text is `date`. No other name is held.
     */
    constructor (date: string)
      ensures Valid() && fresh(headers) && fresh(headers.lists)
      ensures version.None? && code == 200 && body.None? && bodysize == 0
      ensures forall k :: Header(k) == Initial(date, k)
    {
      version := None;
      code := 200;
      body := None;
      bodysize := 0;
      var h := Headers.Init();
      headers := h;
      new;
      assert forall k :: Header(k).None?;
      Defaults(ServerName, "ctorm", ConnectionName, "close", ContentLengthName, "0", DateName, date);
    }

    /**
     * The headers of `res_init` into an empty table: three names of
     * different lengths through `headers_add`, then a fourth of yet another
     * length through `res_set`.
     */
    method Defaults(n1: string, v1: string, n2: string, v2: string, n3: string, v3: string, n4: string, v4: string)
      requires Valid() && forall k :: Header(k).None?
      requires |n1| != |n2| && |n1| != |n3| && |n2| != |n3|
      modifies headers.lists
      ensures Valid()
      ensures forall k :: Header(k) == Added(n1, v1, n2, v2, n3, v3, n4, v4, k)
    {
      Fill(n1, v1, n2, v2, n3, v3, n4, v4);
    }

    /** The steps of `Defaults`, one call at a time. */
    method Fill(n1: string, v1: string, n2: string, v2: string, n3: string, v3: string, n4: string, v4: string)
      requires Valid() && forall k :: Header(k).None?
      requires |n1| != |n2| && |n1| != |n3| && |n2| != |n3|
      modifies headers.lists
      ensures Valid()
      ensures forall k :: Header(k) == if Headers.HeadersCmp(n4, k) == 0 then Some(v4)
                                      else if Headers.HeadersCmp(n3, k) == 0 then Some(v3)
                                      else if Headers.HeadersCmp(n2, k) == 0 then Some(v2)
                                      else if Headers.HeadersCmp(n1, k) == 0 then Some(v1)
                                      else None
    {
      AddNew(n1, v1);
      forall k | Headers.HeadersCmp(n2, k) == 0 ensures Header(k).None? {
        Apart(n2, n1, k);
      }
      AddNew(n2, v2);
      forall k | Headers.HeadersCmp(n3, k) == 0 ensures Header(k).None? {
        Apart(n3, n1, k);
        Apart(n3, n2, k);
      }
      AddNew(n3, v3);
      var _ := Set(Some(n4), Some(v4));
    }

    /** Names of different lengths never both equal a third. */
    static lemma Apart(a: string, b: string, k: string)
      requires |a| != |b|
      ensures Headers.HeadersCmp(a, k) == 0 ==> Headers.HeadersCmp(b, k) != 0
    {
    }

    /** `headers_add` of a name not held yet: an unowned node at the tail of its bucket. */
    method AddNew(name: string, value: string)
      requires Valid() && forall k :: Headers.HeadersCmp(name, k) == 0 ==> Header(k).None?
      modifies headers.lists
      ensures Valid()
      ensures forall k :: Header(k) == if Headers.HeadersCmp(name, k) == 0 then Some(value) else old(Header(k))
    {
      assert Header(name).None?;
      ghost var ls := headers.lists[..];
      var b := headers.Bucket(name);
      assert b == Slot(name);
      var n := Node(name, value, false);
      var _ := headers.Add(name, value, false, true);
      AppendDistinct(ls[b], n);
      UniqueUpdate(ls, b, ls[b] + [n]);
      forall k ensures Header(k) == if Headers.HeadersCmp(name, k) == 0 then Some(value) else old(Header(k)) {
        LookupAppend(ls, n, k);
      }
    }

    /** `res_set`: a NULL name or value sets BadHeaderPointer; otherwise `headers_set` with copies. */
    method Set(name: Option<string>, value: Option<string>) returns (errno: Option<int>)
      requires Valid()
      modifies headers.lists
      ensures Valid()
      ensures name.None? || value.None? ==>
                errno == Some(Errors.BadHeaderPointer) && headers.lists[..] == old(headers.lists[..])
      ensures name.Some? && value.Some? ==>
                var b := Slot(name.value);
                errno.None?
                && headers.lists[..] == old(headers.lists[..])[b := Headers.SetChain(old(headers.lists[b]), name.value, value.value)]
                && forall k :: Header(k) == if Headers.HeadersCmp(name.value, k) == 0 then value else old(Header(k))
    {
      if name.None? || value.None? {
        return Some(Errors.BadHeaderPointer);
      }
      ghost var ls := headers.lists[..];
      var b := headers.Bucket(name.value);
      assert b == Slot(name.value);
      var _, _ := Headers.Set(headers, name.value, value.value, true, true);
      SetDistinct(ls[b], name.value, value.value);
      UniqueUpdate(ls, b, Headers.SetChain(ls[b], name.value, value.value));
      forall k ensures Header(k) == if Headers.HeadersCmp(name.value, k) == 0 then value else old(Header(k)) {
        LookupSet(ls, name.value, value.value, k);
      }
      return None;
    }

    /**
     * `res_del`: a NULL name sets BadHeaderPointer; otherwise `headers_del`.
     * The name must be held when its bucket is not empty (`table_del`
     * dereferences NULL otherwise). Since names are held once, no name equal
     * to it is left.
     */
    method Del(name: Option<string>) returns (errno: Option<int>)
      requires Valid()
      requires name.Some? ==> !DelDerefsNull(headers.lists[headers.Bucket(name.value)], name.value, headers.comparer)
      modifies headers.lists
      ensures Valid()
      ensures name.None? ==> errno == Some(Errors.BadHeaderPointer) && headers.lists[..] == old(headers.lists[..])
      ensures name.Some? ==>
                errno.None? && forall k :: Header(k) == if Headers.HeadersCmp(name.value, k) == 0 then None else old(Header(k))
    {
      if name.None? {
        return Some(Errors.BadHeaderPointer);
      }
      ghost var ls := headers.lists[..];
      var b := headers.Bucket(name.value);
      assert b == Slot(name.value);
      var chain := headers.lists[b];
      var _ := headers.Del(name.value);
      if chain == [] {
        forall k ensures Header(k) == if Headers.HeadersCmp(name.value, k) == 0 then None else old(Header(k)) {
          if Headers.HeadersCmp(name.value, k) == 0 {
            LookupEmpty(ls, name.value, k);
          }
        }
        return None;
      }
      ghost var i := FirstMatch(chain, name.value, Headers.HeadersCmp).value;
      assert headers.lists[..] == ls[b := Without(ls[b], i)];
      RemoveDistinct(ls[b], i);
      UniqueUpdate(ls, b, Without(ls[b], i));
      forall k ensures Header(k) == if Headers.HeadersCmp(name.value, k) == 0 then None else old(Header(k)) {
        LookupRemove(ls, name.value, k);
      }
      return None;
    }

    /** `res_update_size` with room for every digit: Content-Length becomes bodysize in decimal. */
    method UpdateSize()
      requires Valid()
      modifies headers.lists
      ensures Valid()
      ensures forall k :: Header(k) == if Headers.HeadersCmp(ContentLengthName, k) == 0 then Some(LengthText(bodysize)) else old(Header(k))
    {
      var _ := Set(Some(ContentLengthName), Some(LengthText(bodysize)));
    }

    /** `res_clear`: the body is freed and its size is 0. */
    method Clear()
      requires Valid()
      modifies this`body, this`bodysize
      ensures Valid() && body.None? && bodysize == 0
    {
      body := None;
      bodysize := 0;
    }

    /**
     * `res_send` as written: `res_clear` zeroes bodysize before the size
     * is looked at, so only a size of 0 (take strlen(data)) gives a body;
     * any other size gives an empty one.
     */
    method SendAsWritten(data: Option<string>, size: nat) returns (errno: Option<int>)
      requires Valid()
      modifies this`body, this`bodysize, headers.lists
      ensures Valid()
      ensures data.None? ==> errno == Some(Errors.BadDataPointer) && unchanged(this) && headers.lists[..] == old(headers.lists[..])
      ensures data.Some? ==> errno.None? && body == Some(if size == 0 then CStr(data.value) else [])
      ensures data.Some? ==> Header(ContentLengthName) == Some(LengthText(bodysize))
    {
      if data.None? {
        return Some(Errors.BadDataPointer);
      }
      Clear();
      if size == 0 {
        bodysize := |CStr(data.value)|;
      }
      body := Some(data.value[..bodysize]);
      UpdateSize();
      return None;
    }

    /**
     * `res_send`: a NULL data sets BadDataPointer and changes nothing;
     * otherwise the body is a copy of the first `size` bytes of data, or of
     * its C string when size is 0, and Content-Length announces its length.
     */
    method Send(data: Option<string>, size: nat) returns (errno: Option<int>)
      requires Valid()
      requires data.Some? ==> size <= |data.value|
      modifies this`body, this`bodysize, headers.lists
      ensures Valid()
      ensures data.None? ==> errno == Some(Errors.BadDataPointer) && unchanged(this) && headers.lists[..] == old(headers.lists[..])
      ensures data.Some? ==> errno.None? && body == Some(if size == 0 then CStr(data.value) else data.value[..size])
      ensures data.Some? ==> Header(ContentLengthName) == Some(LengthText(bodysize))
      ensures data.Some? ==> forall k :: Headers.HeadersCmp(ContentLengthName, k) != 0 ==> Header(k) == old(Header(k))
    {
      if data.None? {
        return Some(Errors.BadDataPointer);
      }
      Clear();
      bodysize := if size == 0 then |CStr(data.value)| else size;
      body := Some(data.value[..bodysize]);
      UpdateSize();
      return None;
    }

    /**
     * `res_sendfile` with the file system's answers as `file`: a NULL path,
     * a missing or unreadable file, and a failed read each set their error
     * and give false; a failed read leaves the body in place but
     * Content-Length as it was. A readable file becomes the body, with the
     * Content-Type its ending calls for and its length.
     */
    method SendFile(path: Option<string>, file: File) returns (ok: bool, errno: Option<int>)
      requires Valid()
      modifies this`body, this`bodysize, headers.lists
      ensures Valid()
      ensures path.None? ==> !ok && errno == Some(Errors.BadPathPointer) && unchanged(this) && headers.lists[..] == old(headers.lists[..])
      ensures path.Some? && file.Missing? ==> !ok && errno == Some(Errors.FileNotExists) && unchanged(this) && headers.lists[..] == old(headers.lists[..])
      ensures path.Some? && file.Unreadable? ==> !ok && errno == Some(Errors.BadReadPerm) && unchanged(this) && headers.lists[..] == old(headers.lists[..])
      ensures path.Some? && file.Present? ==> body == Some(file.contents) && bodysize == |file.contents|
      ensures path.Some? && file.Present? && !file.readOk ==> !ok && errno == Some(Errors.CantRead) && headers.lists[..] == old(headers.lists[..])
      ensures path.Some? && file.Present? && file.readOk ==>
                ok && errno.None?
                && Header(ContentTypeName) == Some(ContentType(path.value))
                && Header(ContentLengthName) == Some(LengthText(bodysize))
                && forall k :: Headers.HeadersCmp(ContentTypeName, k) != 0 && Headers.HeadersCmp(ContentLengthName, k) != 0 ==>
                                 Header(k) == old(Header(k))
    {
      if path.None? {
        return false, Some(Errors.BadPathPointer);
      }
      match file
      case Missing =>
        return false, Some(Errors.FileNotExists);
      case Unreadable =>
        return false, Some(Errors.BadReadPerm);
      case Present(contents, readOk) =>
        Clear();
        bodysize := |contents|;
        body := Some(contents);
        if !readOk {
          return false, Some(Errors.CantRead);
        }
        Describe(path.value);
        return true, None;
    }

    /** The headers `sendfile` sets once the body is read: its Content-Type and Content-Length. */
    method Describe(path: string)
      requires Valid()
      modifies headers.lists
      ensures Valid()
      ensures Header(ContentTypeName) == Some(ContentType(path))
      ensures Header(ContentLengthName) == Some(LengthText(bodysize))
      ensures forall k :: Headers.HeadersCmp(ContentTypeName, k) != 0 && Headers.HeadersCmp(ContentLengthName, k) != 0 ==>
                            Header(k) == old(Header(k))
    {
      var _ := Set(Some(ContentTypeName), Some(ContentType(path)));
      assert Header(ContentTypeName) == Some(ContentType(path));
      UpdateSize();
      Apart(ContentTypeName, ContentLengthName, ContentTypeName);
    }

    /** `res_size`: the number of bytes the response takes on the wire. */
    method Size(versionLen: nat) returns (size: nat)
      requires Valid()
      ensures size == SizeOf(versionLen, headers.Nodes(), bodysize)
    {
      size := 0;
      size := size + versionLen + 1;
      size := size + 5;
      var es := headers.Entries();
      size := CountLines(size, es, headers.Nodes());
      size := size + 2;
      size := size + bodysize;
    }

    /**
     * `res_tostr`: the code is fixed first, then the status line, a line
     * per header in table order, an empty line and the body are written.
     */
    method ToStr() returns (str: string)
      requires Valid()
      modifies this`code
      ensures Valid() && code == Fixed(old(code))
      ensures str == Wire(version, code, headers.Nodes(), Payload())
    {
      if code > 999 || code < 100 {
        code := 200;
      }
      var v := if version.None? then "HTTP/1.1" else CStr(version.value);
      str := v + " " + Uri.Dec(code) + "\r\n";
      var es := headers.Entries();
      var lines := WriteLines(es, headers.Nodes());
      str := str + lines;
      str := str + "\r\n";
      if bodysize > 0 {
        str := str + body.value;
      } else {
        assert str + Payload() == str;
      }
    }

    /** `res_redirect`: a NULL url sets BadUrlPointer; otherwise code 301 and the Location header. */
    method Redirect(url: Option<string>) returns (errno: Option<int>)
      requires Valid()
      modifies this`code, headers.lists
      ensures Valid()
      ensures url.None? ==> errno == Some(Errors.BadUrlPointer) && code == old(code) && headers.lists[..] == old(headers.lists[..])
      ensures url.Some? ==>
                errno.None? && code == 301
                && forall k :: Header(k) == if Headers.HeadersCmp(LocationName, k) == 0 then url else old(Header(k))
    {
      if url.None? {
        return Some(Errors.BadUrlPointer);
      }
      code := 301;
      errno := Set(Some(LocationName), url);
    }
  }
}

=== FILE: table.dfy ===
/**
 * src/table.c with include/table.h: a chained hash table of TABLE_SIZE
 * buckets with a pluggable comparer and hasher. A bucket's chain is the
 * sequence of its nodes from the head on; `Entry` is the `table_entry_t`
 * cursor that `table_next` advances.
 */
module Table {
  import opened Wrappers

  const TableSize: nat := 20

  /** 2^64: `uint64_t` arithmetic wraps modulo this. */
  const U64: int := 0x1_0000_0000_0000_0000

  /** `table_node_t` without its `next` link. */
  datatype Node = Node(key: string, value: string, alloced: bool)

  // Byte arithmetic of the hashers: a `char` is a signed byte.

  /** The byte a character is stored as. */
  function Byte(c: char): nat {
    c as int % 256
  }

  /** The value of a byte read through a signed `char`. */
  function Signed(b: nat): int
    requires b < 256
  {
    if b >= 128 then b - 256 else b
  }

  /** The unbounded sum `__table_basic_hasher` adds up, one signed byte per character. */
  function BasicSum(s: string): int {
    if |s| == 0 then 0 else BasicSum(s[..|s| - 1]) + Signed(Byte(s[|s| - 1]))
  }

  /** `__table_basic_hasher` as the function the table holds: the sum wrapped to 64 bits. */
  function BasicHash(s: string): (r: nat)
    ensures r < U64
  {
    BasicSum(s) % U64
  }

  /** Adding a multiple of 2^64 does not change a value modulo 2^64. */
  lemma {:induction false} ModShift(y: int, q: int)
    ensures (y + q * U64) % U64 == y % U64
    decreases if q >= 0 then q else -q
  {
    if q > 0 {
      ModShift(y, q - 1);
      assert y + q * U64 == (y + (q - 1) * U64) + U64;
    } else if q < 0 {
      ModShift(y, q + 1);
      assert y + q * U64 == (y + (q + 1) * U64) - U64;
    }
  }

  /** Reducing the running sum before adding a term gives the same 64-bit result. */
  lemma ModAdd(a: int, x: int)
    ensures (a % U64 + x) % U64 == (a + x) % U64
  {
    var q := a / U64;
    assert a == q * U64 + a % U64;
    ModShift(a % U64 + x, q);
  }

  /** `__table_basic_hasher`: the loop adding each signed byte into a `uint64_t`. */
  method BasicHasher(data: string) returns (sum: nat)
    ensures sum == BasicHash(data)
  {
    sum := 0;
    var i := 0;
    while i < |data|
      invariant 0 <= i <= |data|
      invariant sum == BasicSum(data[..i]) % U64
    {
      ModAdd(BasicSum(data[..i]), Signed(Byte(data[i])));
      assert data[..i + 1][..i] == data[..i];
      sum := (sum + Signed(Byte(data[i]))) % U64;
      i := i + 1;
    }
    assert data[..i] == data;
  }

  /** The sum of a concatenation is the sum of the parts. */
  lemma {:induction false} BasicSumAppend(a: string, b: string)
    ensures BasicSum(a + b) == BasicSum(a) + BasicSum(b)
    decreases |b|
  {
    if |b| > 0 {
      var n := |b|;
      assert (a + b)[..|a + b| - 1] == a + b[..n - 1];
      BasicSumAppend(a, b[..n - 1]);
    } else {
      assert a + b == a;
    }
  }

  /** The basic hash ignores order: swapping two parts of a key keeps its bucket. */
  lemma BasicHashSwap(a: string, b: string)
    ensures BasicHash(a + b) == BasicHash(b + a)
  {
    BasicSumAppend(a, b);
    BasicSumAppend(b, a);
  }

  /**
   * libc `strcmp` on two C strings: the difference of the first differing
   * bytes (as unsigned char), 0 when the strings are equal.
   */
  function Strcmp(a: string, b: string): (r: int)
    ensures r == 0 <==> a == b
  {
    if |a| == 0 && |b| == 0 then 0
    else if |a| == 0 then -(Byte(b[0]) + 1)
    else if |b| == 0 then Byte(a[0]) + 1
    else if Byte(a[0]) != Byte(b[0]) then Byte(a[0]) - Byte(b[0])
    else if a[0] != b[0] then (if a[0] < b[0] then -1 else 1)
    else
      var r := Strcmp(a[1..], b[1..]);
      assert a == [a[0]] + a[1..] && b == [b[0]] + b[1..];
      r
  }

  /** All the chains in bucket order, each from its head: the order `table_next` visits. */
  function Flat(ls: seq<seq<Node>>): seq<Node> {
    if |ls| == 0 then [] else Flat(ls[..|ls| - 1]) + ls[|ls| - 1]
  }

  /** The first node of a chain whose key the comparer finds equal to key. */
  function FirstMatch(chain: seq<Node>, key: string, cmp: (string, string) -> int): (r: Option<nat>)
    ensures r.Some? ==> r.value < |chain| && cmp(key, chain[r.value].key) == 0
    ensures r.Some? ==> forall j :: 0 <= j < r.value ==> cmp(key, chain[j].key) != 0
    ensures r.None? <==> forall j :: 0 <= j < |chain| ==> cmp(key, chain[j].key) != 0
  {
    if |chain| == 0 then None
    else if cmp(key, chain[0].key) == 0 then Some(0)
    else
      match FirstMatch(chain[1..], key, cmp)
      case None => None
      case Some(i) => Some(i + 1)
  }

  /** The cursor `table_entry_t`: `_indx`, `_node` as a position in chain `_indx`, and the copied fields. */
  class Entry {
    var indx: nat
    var node: Option<nat>
    var key: string
    var value: string

    /** `table_start`: the zeroed cursor. */
    constructor ()
      ensures indx == 0 && node.None? && key == [] && value == []
    {
      indx, node, key, value := 0, None, [], [];
    }
  }

  /** `table_t`. */
  class Table {
    const lists: array<seq<Node>>
    const comparer: (string, string) -> int
    const hasher: string -> nat

    predicate Valid() {
      lists.Length == TableSize
    }

    /** `table_hash(key)`: the bucket a key belongs to. */
    function Bucket(key: string): (b: nat)
      requires Valid()
      ensures b < lists.Length
    {
      hasher(key) % TableSize
    }

    /** The nodes in enumeration order. */
    function Nodes(): seq<Node>
      reads lists
    {
      Flat(lists[..])
    }

    /** How many nodes a cursor at (indx, node) has already yielded. */
    function Seen(indx: nat, node: Option<nat>): nat
      requires indx <= lists.Length
      reads lists
    {
      |Flat(lists[..indx])| + (if node.Some? then node.value + 1 else 0)
    }

    /** A cursor position `table_next` can be called from. */
    predicate CursorOk(indx: nat, node: Option<nat>)
      reads lists
    {
      indx <= lists.Length && (node.Some? ==> indx < lists.Length && node.value < |lists[indx]|)
    }

    /**
     * `table_init`: every bucket empty, a NULL comparer replaced by strcmp and
     * a NULL hasher by `__table_basic_hasher`.
     */
    constructor (comparer: Option<(string, string) -> int>, hasher: Option<string -> nat>)
      ensures Valid() && fresh(lists)
      ensures forall i :: 0 <= i < lists.Length ==> lists[i] == []
      ensures this.comparer == (if comparer.Some? then comparer.value else Strcmp)
      ensures this.hasher == (if hasher.Some? then hasher.value else BasicHash)
    {
      lists := new seq<Node>[TableSize](_ => []);
      if comparer.Some? {
        this.comparer := comparer.value;
      } else {
        this.comparer := Strcmp;
      }
      if hasher.Some? {
        this.hasher := hasher.value;
      } else {
        this.hasher := BasicHash;
      }
    }

    /**
     * `table_add`: a failed malloc (`allocOk` false) sets errno to
     * AllocFailed and leaves the table as it was; otherwise the node goes
     * to the tail of its key's bucket and no other bucket changes.
     */
    method Add(key: string, value: string, alloced: bool, allocOk: bool) returns (ok: bool)
      requires Valid()
      modifies lists
      ensures ok == allocOk
      ensures !ok ==> lists[..] == old(lists[..])
      ensures ok ==> lists[..] == old(lists[..])[Bucket(key) := old(lists[Bucket(key)]) + [Node(key, value, alloced)]]
    {
      if !allocOk {
        return false;
      }
      var b := Bucket(key);
      lists[b] := lists[b] + [Node(key, value, alloced)];
      return true;
    }

    /** `table_get`: walks the key's bucket and gives the position of the first node the comparer finds equal. */
    method Get(key: string) returns (r: Option<nat>)
      requires Valid()
      ensures r == FirstMatch(lists[Bucket(key)], key, comparer)
    {
      var chain := lists[Bucket(key)];
      var i := 0;
      while i < |chain|
        invariant 0 <= i <= |chain|
        invariant forall j :: 0 <= j < i ==> comparer(key, chain[j].key) != 0
      {
        if comparer(key, chain[i].key) == 0 {
          FirstMatchAt(chain, key, comparer, i);
          return Some(i);
        }
        i := i + 1;
      }
      return None;
    }

    /**
     * `table_next`: advances the cursor to the next node, bucket by bucket
     * and along each chain, and copies its key and value; false once every
     * bucket is done (and for a NULL cursor).
     */
    method Next(cur: Entry?) returns (r: bool)
      requires Valid()
      requires cur != null ==> CursorOk(cur.indx, cur.node)
      modifies cur
      ensures cur == null ==> !r
      ensures cur != null ==> CursorOk(cur.indx, cur.node)
      ensures cur != null && r ==>
                Seen(cur.indx, cur.node) == old(Seen(cur.indx, cur.node)) + 1
                && Seen(cur.indx, cur.node) <= |Nodes()|
                && Nodes()[Seen(cur.indx, cur.node) - 1].key == cur.key
                && Nodes()[Seen(cur.indx, cur.node) - 1].value == cur.value
      ensures cur != null && !r ==> old(Seen(cur.indx, cur.node)) == |Nodes()| && cur.indx == TableSize
      ensures cur != null && !r ==> cur.key == old(cur.key) && cur.value == old(cur.value)
    {
      if cur == null {
        return false;
      }
      var indx, q;
      r, indx, q := Locate(cur.indx, cur.node);
      if r {
        cur.indx, cur.node := indx, Some(q);
        cur.key, cur.value := lists[indx][q].key, lists[indx][q].value;
      } else {
        cur.indx, cur.node := indx, None;
      }
    }

    /**
     * The walk of `table_next` from the cursor position (indx, node): the
     * next node of the chain, else the head of the next non-empty bucket.
     * When there is one, it is the node the enumeration yields next.
     */
    method Locate(indx: nat, node: Option<nat>) returns (found: bool, i: nat, q: nat)
      requires Valid() && CursorOk(indx, node)
      ensures found ==> CursorOk(i, Some(q)) && Seen(i, Some(q)) == Seen(indx, node) + 1
                        && Seen(i, Some(q)) <= |Nodes()| && Nodes()[Seen(indx, node)] == lists[i][q]
      ensures !found ==> Seen(indx, node) == |Nodes()| && i == TableSize
    {
      var n := node;
      i := indx;
      while true
        invariant CursorOk(i, n)
        invariant Seen(i, n) == Seen(indx, node)
        decreases TableSize - i
      {
        if i >= TableSize {
          assert lists[..i] == lists[..];
          return false, i, 0;
        }
        var chain := lists[i];
        q := if n.None? then 0 else n.value + 1;
        if q < |chain| {
          FlatAt(lists[..], i, q);
          return true, i, q;
        }
        FlatStep(lists[..], i);
        i, n := i + 1, None;
      }
    }

    /**
     * A loop `while (table_next(t, &e))` from a zeroed cursor: it yields
     * every node once, buckets in index order and each chain from its head.
     */
    method Entries() returns (es: seq<(string, string)>)
      requires Valid()
      ensures |es| == |Nodes()|
      ensures forall i :: 0 <= i < |es| ==> es[i] == (Nodes()[i].key, Nodes()[i].value)
    {
      var cur := new Entry();
      es := [];
      var more := Next(cur);
      while more
        invariant CursorOk(cur.indx, cur.node)
        invariant more ==> Seen(cur.indx, cur.node) == |es| + 1 && |es| < |Nodes()|
                           && Nodes()[|es|] == Node(cur.key, cur.value, Nodes()[|es|].alloced)
        invariant !more ==> |es| == |Nodes()|
        invariant forall i :: 0 <= i < |es| ==> es[i] == (Nodes()[i].key, Nodes()[i].value)
        decreases |Nodes()| - |es|
      {
        es := es + [(cur.key, cur.value)];
        more := Next(cur);
      }
    }

    /**
     * `table_del`: nothing for an empty bucket; otherwise the first node
     * the comparer finds equal is unlinked and freed, the rest of the chain
     * keeping its order. A non-empty bucket must hold the key: otherwise the
     * C walk dereferences NULL (`DelWalkMiss`).
     */
    method Del(key: string) returns (removed: Option<Node>)
      requires Valid()
      requires !DelDerefsNull(lists[Bucket(key)], key, comparer)
      modifies lists
      ensures old(lists[Bucket(key)]) == [] ==> removed.None? && lists[..] == old(lists[..])
      ensures old(lists[Bucket(key)]) != [] ==>
                var chain := old(lists[Bucket(key)]);
                FirstMatch(chain, key, comparer).Some?
                && var i := FirstMatch(chain, key, comparer).value;
                   removed == Some(chain[i]) && lists[..] == old(lists[..])[Bucket(key) := chain[..i] + chain[i + 1..]]
    {
      var b := Bucket(key);
      var chain := lists[b];
      if chain == [] {
        return None;
      }
      DelWalkMiss(chain, key, comparer);
      var i := 0;
      while i < |chain| && comparer(key, chain[i].key) != 0
        invariant 0 <= i <= |chain|
        invariant forall j :: 0 <= j < i ==> comparer(key, chain[j].key) != 0
      {
        i := i + 1;
      }
      FirstMatchAt(chain, key, comparer, i);
      lists[b] := chain[..i] + chain[i + 1..];
      return Some(chain[i]);
    }

    /**
     * `table_free`: frees every node of every bucket; a node's key and value
     * are freed as well when it is `alloced`. The result lists the strings
     * freed and the number of nodes freed.
     */
    method Free() returns (strings: seq<string>, nodes: nat)
      requires Valid()
      ensures nodes == |Nodes()|
      ensures strings == Owned(Nodes())
    {
      strings, nodes := [], 0;
      var b := 0;
      while b < TableSize
        invariant 0 <= b <= TableSize
        invariant nodes == |Flat(lists[..b])| && strings == Owned(Flat(lists[..b]))
      {
        var more, count := FreeChain(lists[b]);
        OwnedConcat(Flat(lists[..b]), lists[b]);
        FlatStep(lists[..], b);
        strings, nodes := strings + more, nodes + count;
        b := b + 1;
      }
      assert lists[..b] == lists[..];
    }
  }

  /** `__table_node_free`: walks one chain from its head, freeing each node. */
  method FreeChain(chain: seq<Node>) returns (strings: seq<string>, nodes: nat)
    ensures nodes == |chain| && strings == Owned(chain)
  {
    strings, nodes := [], 0;
    while nodes < |chain|
      invariant nodes <= |chain| && strings == Owned(chain[..nodes])
    {
      OwnedAppend(chain[..nodes], chain[nodes]);
      assert chain[..nodes + 1] == chain[..nodes] + [chain[nodes]];
      strings := strings + Released(chain[nodes]);
      nodes := nodes + 1;
    }
    assert chain[..nodes] == chain;
  }

  /** `__table_single_node_free`: the strings it frees besides the node. */
  function Released(n: Node): seq<string> {
    if n.alloced then [n.key, n.value] else []
  }

  /** The strings freed with a sequence of nodes: key and value of each alloced one. */
  function Owned(ns: seq<Node>): (r: seq<string>)
    ensures |r| <= 2 * |ns|
  {
    if |ns| == 0 then [] else Owned(ns[..|ns| - 1]) + Released(ns[|ns| - 1])
  }

  lemma OwnedAppend(ns: seq<Node>, n: Node)
    ensures Owned(ns + [n]) == Owned(ns) + Released(n)
  {
    assert (ns + [n])[..|ns + [n]| - 1] == ns;
  }

  lemma {:induction false} OwnedConcat(a: seq<Node>, b: seq<Node>)
    ensures Owned(a + b) == Owned(a) + Owned(b)
    decreases |b|
  {
    if |b| == 0 {
      assert a + b == a;
    } else {
      var c, x := b[..|b| - 1], b[|b| - 1];
      assert (a + b)[..|a + b| - 1] == a + c;
      assert (a + b)[|a + b| - 1] == x;
      assert Owned(a + b) == Owned(a + c) + Released(x);
      assert Owned(b) == Owned(c) + Released(x);
      OwnedConcat(a, c);
      assert (Owned(a) + Owned(c)) + Released(x) == Owned(a) + (Owned(c) + Released(x));
    }
  }

  /** Nodes that own nothing release nothing: freeing a table of borrowed strings frees no string. */
  lemma {:induction false} OwnedBorrowed(ns: seq<Node>)
    requires forall i :: 0 <= i < |ns| ==> !ns[i].alloced
    ensures Owned(ns) == []
  {
    if |ns| > 0 {
      OwnedBorrowed(ns[..|ns| - 1]);
    }
  }

  /** The position returned by a walk that stops at the first equal node is FirstMatch. */
  lemma FirstMatchAt(chain: seq<Node>, key: string, cmp: (string, string) -> int, i: nat)
    requires i < |chain| && cmp(key, chain[i].key) == 0
    requires forall j :: 0 <= j < i ==> cmp(key, chain[j].key) != 0
    ensures FirstMatch(chain, key, cmp) == Some(i)
  {
    var r := FirstMatch(chain, key, cmp);
    if r.Some? && r.value < i {
      assert false;
    }
  }

  /** One more bucket in the flattened prefix. */
  lemma FlatStep(ls: seq<seq<Node>>, i: nat)
    requires i < |ls|
    ensures Flat(ls[..i + 1]) == Flat(ls[..i]) + ls[i]
  {
    assert ls[..i + 1][..i] == ls[..i];
  }

  /** Flattening a prefix of the buckets gives a prefix of the enumeration. */
  lemma {:induction false} FlatPrefix(ls: seq<seq<Node>>, i: nat)
    requires i <= |ls|
    ensures |Flat(ls[..i])| <= |Flat(ls)| && Flat(ls)[..|Flat(ls[..i])|] == Flat(ls[..i])
    decreases |ls| - i
  {
    if i < |ls| {
      FlatStep(ls, i);
      FlatPrefix(ls, i + 1);
    } else {
      assert ls[..i] == ls;
    }
  }

  /** Node q of bucket i sits at index |earlier buckets| + q of the enumeration. */
  lemma FlatAt(ls: seq<seq<Node>>, i: nat, q: nat)
    requires i < |ls| && q < |ls[i]|
    ensures |Flat(ls[..i])| + q < |Flat(ls)| && Flat(ls)[|Flat(ls[..i])| + q] == ls[i][q]
  {
    FlatStep(ls, i);
    FlatPrefix(ls, i + 1);
    var k := |Flat(ls[..i])| + q;
    assert Flat(ls[..i + 1])[k] == ls[i][q];
  }

  // Properties relating the operations.

  /** A comparer that finds every key equal to itself. */
  predicate Reflexive(cmp: (string, string) -> int, key: string) {
    cmp(key, key) == 0
  }

  /**
   * After a successful `table_add(t, k, v, _)`, `table_get(t, k)` finds a
   * node: the added one, or an earlier one in the same bucket equal to k.
   */
  lemma AddThenGet(chain: seq<Node>, key: string, value: string, alloced: bool, cmp: (string, string) -> int)
    requires Reflexive(cmp, key)
    ensures FirstMatch(chain + [Node(key, value, alloced)], key, cmp).Some?
  {
    var c := chain + [Node(key, value, alloced)];
    assert cmp(key, c[|chain|].key) == 0;
  }

  /** A node appended to a chain with no equal node is the first match of every key equal to it. */
  lemma AppendedMatch(chain: seq<Node>, n: Node, key: string, cmp: (string, string) -> int)
    requires FirstMatch(chain, key, cmp).None? && cmp(key, n.key) == 0
    ensures FirstMatch(chain + [n], key, cmp) == Some(|chain|)
  {
    var c := chain + [n];
    assert c[|chain|] == n;
    forall j | 0 <= j < |chain|
      ensures cmp(key, c[j].key) != 0
    {
      assert c[j] == chain[j];
    }
    FirstMatchAt(c, key, cmp, |chain|);
  }

  /** A node appended that a key tells apart leaves the key's first match as it was. */
  lemma AppendedOther(chain: seq<Node>, n: Node, key: string, cmp: (string, string) -> int)
    requires cmp(key, n.key) != 0
    ensures FirstMatch(chain + [n], key, cmp) == FirstMatch(chain, key, cmp)
  {
    var c := chain + [n];
    var m := FirstMatch(chain, key, cmp);
    if m.Some? {
      forall j | 0 <= j < m.value
        ensures cmp(key, c[j].key) != 0
      {
        assert c[j] == chain[j];
      }
      assert c[m.value] == chain[m.value];
      FirstMatchAt(c, key, cmp, m.value);
    } else {
      forall j | 0 <= j < |c|
        ensures cmp(key, c[j].key) != 0
      {
        if j < |chain| {
          assert c[j] == chain[j];
        }
      }
    }
  }

  /** Replacing the first match of a key by a node still equal to it keeps the match in place. */
  lemma UpdatedMatch(chain: seq<Node>, i: nat, n: Node, key: string, cmp: (string, string) -> int)
    requires FirstMatch(chain, key, cmp) == Some(i) && cmp(key, n.key) == 0
    ensures FirstMatch(chain[i := n], key, cmp) == Some(i)
  {
    var c := chain[i := n];
    forall j | 0 <= j < i
      ensures cmp(key, c[j].key) != 0
    {
      assert c[j] == chain[j];
    }
    FirstMatchAt(c, key, cmp, i);
  }

  /** Replacing a node that a key tells apart, by another such node, keeps the key's first match. */
  lemma UpdatedOther(chain: seq<Node>, i: nat, n: Node, key: string, cmp: (string, string) -> int)
    requires i < |chain| && cmp(key, chain[i].key) != 0 && cmp(key, n.key) != 0
    ensures FirstMatch(chain[i := n], key, cmp) == FirstMatch(chain, key, cmp)
  {
    var c := chain[i := n];
    var m := FirstMatch(chain, key, cmp);
    if m.Some? {
      forall j | 0 <= j < m.value
        ensures cmp(key, c[j].key) != 0
      {
        assert c[j] == chain[j] || j == i;
      }
      FirstMatchAt(c, key, cmp, m.value);
    } else {
      forall j | 0 <= j < |c|
        ensures cmp(key, c[j].key) != 0
      {
        assert c[j] == chain[j] || j == i;
      }
    }
  }

  /** Adding to one bucket leaves what every key of another bucket finds as it was. */
  lemma AddOtherBucket(ls: seq<seq<Node>>, b: nat, n: Node, b2: nat, key: string, cmp: (string, string) -> int)
    requires b < |ls| && b2 < |ls| && b != b2
    ensures FirstMatch(ls[b := ls[b] + [n]][b2], key, cmp) == FirstMatch(ls[b2], key, cmp)
  {
  }

  /** The chain with node i unlinked: earlier nodes keep their index, later ones move down by one. */
  lemma Unlinked(chain: seq<Node>, i: nat)
    requires i < |chain|
    ensures var rest := chain[..i] + chain[i + 1..];
            |rest| == |chain| - 1
            && (forall j :: 0 <= j < i ==> rest[j] == chain[j])
            && (forall j :: i <= j < |rest| ==> rest[j] == chain[i + 1..][j - i])
  {
  }

  /**
   * Where the C walk of `table_del` stops: the first equal node, or
   * |chain| for the NULL after the last node (`cur` is then NULL).
   */
  function DelWalk(chain: seq<Node>, key: string, cmp: (string, string) -> int): (r: nat)
    ensures r <= |chain|
  {
    if |chain| == 0 || cmp(key, chain[0].key) == 0 then 0 else 1 + DelWalk(chain[1..], key, cmp)
  }

  /** `table_del` as written reads `cur->next` with `cur` NULL: a non-empty bucket walked to its end. */
  predicate DelDerefsNull(chain: seq<Node>, key: string, cmp: (string, string) -> int) {
    chain != [] && DelWalk(chain, key, cmp) == |chain|
  }

  /** The C walk dereferences NULL exactly when the bucket is non-empty and holds no equal key. */
  lemma {:induction false} DelWalkMiss(chain: seq<Node>, key: string, cmp: (string, string) -> int)
    ensures DelWalk(chain, key, cmp) == |chain| <==> FirstMatch(chain, key, cmp).None?
    ensures DelDerefsNull(chain, key, cmp) <==> chain != [] && FirstMatch(chain, key, cmp).None?
  {
    if |chain| > 0 && cmp(key, chain[0].key) != 0 {
      DelWalkMiss(chain[1..], key, cmp);
    }
  }

  /**
   * With the default comparer and hasher, "ab" and "ba" share a bucket;
   * deleting "ba" from a table holding only "ab" dereferences NULL.
   */
  lemma DelCollidingAbsentKey()
    ensures BasicHash("ab") % TableSize == BasicHash("ba") % TableSize
    ensures DelDerefsNull([Node("ab", "1", false)], "ba", Strcmp)
  {
    BasicHashSwap("a", "b");
    assert "a" + "b" == "ab" && "b" + "a" == "ba";
    assert Strcmp("ba", "ab") != 0;
    DelWalkMiss([Node("ab", "1", false)], "ba", Strcmp);
  }

  /** After deleting the first equal node at i, the next equal node is found, one place earlier than before. */
  lemma {:induction false} DelThenGetNext(chain: seq<Node>, key: string, cmp: (string, string) -> int, i: nat, j: nat)
    requires FirstMatch(chain, key, cmp) == Some(i)
    requires FirstMatch(chain[i + 1..], key, cmp) == Some(j)
    ensures FirstMatch(chain[..i] + chain[i + 1..], key, cmp) == Some(i + j)
  {
    PrefixMisses(chain, key, cmp, i);
    MissThenMatch(chain[..i], chain[i + 1..], key, cmp, i, j);
  }

  /** The nodes in front of the first match all differ from the key. */
  lemma PrefixMisses(chain: seq<Node>, key: string, cmp: (string, string) -> int, i: nat)
    requires FirstMatch(chain, key, cmp) == Some(i)
    ensures i < |chain| && |chain[..i]| == i
    ensures forall k :: 0 <= k < |chain[..i]| ==> cmp(key, chain[..i][k].key) != 0
  {
    forall k | 0 <= k < i
      ensures cmp(key, chain[..i][k].key) != 0
    {
      assert chain[..i][k] == chain[k];
    }
  }

  /** Nodes with no equal key in front of a chain shift its first match by their number. */
  lemma MissThenMatch(pre: seq<Node>, tail: seq<Node>, key: string, cmp: (string, string) -> int, n: nat, j: nat)
    requires n == |pre| && forall k :: 0 <= k < |pre| ==> cmp(key, pre[k].key) != 0
    requires FirstMatch(tail, key, cmp) == Some(j)
    ensures FirstMatch(pre + tail, key, cmp) == Some(n + j)
  {
    var s := pre + tail;
    assert s[n + j] == tail[j];
    forall k | 0 <= k < n + j
      ensures cmp(key, s[k].key) != 0
    {
      if k < n {
        assert s[k] == pre[k];
      } else {
        assert s[k] == tail[k - n];
      }
    }
    FirstMatchAt(s, key, cmp, n + j);
  }

  /** After deleting the only equal node, the key is no longer found. */
  lemma {:induction false} DelThenGetNone(chain: seq<Node>, key: string, cmp: (string, string) -> int, i: nat)
    requires FirstMatch(chain, key, cmp) == Some(i)
    requires FirstMatch(chain[i + 1..], key, cmp).None?
    ensures FirstMatch(chain[..i] + chain[i + 1..], key, cmp).None?
  {
    var rest := chain[..i] + chain[i + 1..];
    var tail := chain[i + 1..];
    Unlinked(chain, i);
    forall k | 0 <= k < |rest| ensures cmp(key, rest[k].key) != 0 {
      if k >= i {
        assert rest[k] == tail[k - i];
      }
    }
  }
}

=== FILE: uri.dfy ===
/**
 * src/uri.c: the generic URI parser of sections 3.1 to 3.5 of RFC 3986.
 * Each component is read character by character into a growing buffer,
 * checked against its character set and length limit, percent-decoded and
 * stored in the `ctorm_uri_t`; a failure frees what was stored.
 *
 * A `char *` into the input is the suffix of the input it points to. The
 * `cu_str_t` buffer is its text; an empty buffer holds a NULL pointer, so a
 * component read from no characters is stored as NULL (`None`).
 */
module Uri {
  import opened Wrappers
  import opened Util
  import opened Pair
  import Percent
  import Query
  import Error

  const SchemeMax: nat := 256
  const UserinfoMax: nat := 256
  const HostMax: nat := 255
  const PortMax: nat := 5
  const PathMax: nat := 2048
  const QueryMax: nat := 1024
  const FragmentMax: nat := 64
  const PortNumMax: nat := 65535
  const PortNumMin: nat := 1

  const Unreserved: string := "-._~"
  const SubDelims: string := "!$&'()*+,;="

  /** scheme = ALPHA *( ALPHA / DIGIT / "+" / "-" / "." ) */
  predicate SchemeChar(c: char) {
    IsLetter(c) || IsDigit(c) || c in "+-."
  }

  /** userinfo = *( unreserved / pct-encoded / sub-delims / ":" ) */
  predicate UserinfoChar(c: char) {
    IsLetter(c) || IsDigit(c) || c in Unreserved + SubDelims + "%:"
  }

  /** The characters of an IP-literal, IPv4 address or reg-name host. */
  predicate HostChar(c: char) {
    IsLetter(c) || IsDigit(c) || c in Unreserved + SubDelims + "[:]%"
  }

  predicate PathChar(c: char) {
    IsLetter(c) || IsDigit(c) || c in "/" + Unreserved + SubDelims + "%:@"
  }

  /** query = *( pchar / "/" / "?" ); the fragment loop uses the same set. */
  predicate QueryChar(c: char) {
    IsLetter(c) || IsDigit(c) || c in Unreserved + SubDelims + ":@%" + "/?"
  }

  // The characters that end a component loop.

  predicate IsColon(c: char) { c == ':' }
  predicate IsSlash(c: char) { c == '/' }
  predicate IsAt(c: char) { c == '@' }
  predicate IsHash(c: char) { c == '#' }
  predicate EndsPath(c: char) { c == '?' || c == '#' }
  predicate NoChar(c: char) { false }
  predicate AnyChar(c: char) { true }

  /** The fields of `ctorm_uri_t` (src/uri.c also writes a `path` field). */
  datatype Parts = Parts(scheme: Option<string>, userinfo: Option<string>, host: Option<string>, port: nat,
                         path: Option<string>, query: Option<seq<Pair>>, fragment: Option<string>)

  /** The structure after `memset(uri, 0, ...)`. */
  const Zero := Parts(None, None, None, 0, None, None, None)

  /** What a parse step returns (the rest of the input, or the errno it set) and the fields it leaves. */
  datatype Out = Out(r: Result<string, int>, parts: Parts)

  /** A buffer after `ctorm_percent_decode`, as the field stores it: NULL for an empty buffer. */
  function Decoded(buf: string): Option<string> {
    if buf == [] then None else Some(CStr(Percent.Decode(buf)))
  }

  /**
   * One component loop from index i of t: characters are read until `stop`
   * or the end of the input; each must be `valid` (else `bad`) and the
   * buffer, holding `len` characters so far, must be shorter than `limit`
   * before the character is added (else `big`). The result is the index
   * where reading stopped.
   */
  function Scan(t: string, i: nat, stop: char -> bool, valid: char -> bool, len: nat, limit: nat, bad: int, big: int): (r: Result<nat, int>)
    requires i <= |t|
    ensures r.Ok? ==> i <= r.value <= |t| && (r.value == |t| || stop(t[r.value]))
    ensures r.Ok? ==> forall k :: i <= k < r.value ==> !stop(t[k]) && valid(t[k])
    ensures r.Ok? && r.value > i ==> len + (r.value - i) <= limit
    ensures r.Err? ==> r.error == bad || r.error == big
    decreases |t| - i
  {
    if i == |t| || stop(t[i]) then Ok(i)
    else if !valid(t[i]) then Err(bad)
    else if len >= limit then Err(big)
    else Scan(t, i + 1, stop, valid, len + 1, limit, bad, big)
  }

  /** The host loop from index i: ':' ends the host only outside `[...]`; the result is the index where it stopped. */
  function HostScan(t: string, i: nat, bracket: bool, len: nat): (r: Result<nat, int>)
    requires i <= |t|
    ensures r.Ok? ==> i <= r.value <= |t| && (r.value == |t| || t[r.value] == '/' || t[r.value] == ':')
    ensures r.Ok? ==> forall k :: i <= k < r.value ==> HostChar(t[k]) && t[k] != '/'
    ensures r.Ok? && r.value > i ==> len + (r.value - i) <= HostMax
    ensures r.Err? ==> r.error == Error.BadHost || r.error == Error.HostTooLarge
    decreases |t| - i
  {
    if i == |t| || t[i] == '/' || (!bracket && t[i] == ':') then Ok(i)
    else if !HostChar(t[i]) then Err(Error.BadHost)
    else if len >= HostMax then Err(Error.HostTooLarge)
    else HostScan(t, i + 1, if t[i] == '[' then true else if t[i] == ']' then false else bracket, len + 1)
  }

  // libc `atoi` on the port buffer.

  predicate IsSpace(c: char) {
    c == ' ' || '\t' <= c <= '\r'
  }

  /** The number of leading decimal digits. */
  function DigitRun(t: string): (n: nat)
    ensures n <= |t| && forall k :: 0 <= k < n ==> IsDigit(t[k])
    ensures n < |t| ==> !IsDigit(t[n])
  {
    if |t| > 0 && IsDigit(t[0]) then 1 + DigitRun(t[1..]) else 0
  }

  /** The value of a string of decimal digits. */
  function DecValue(d: string): nat
    requires forall k :: 0 <= k < |d| ==> IsDigit(d[k])
  {
    if |d| == 0 then 0
    else
      assert IsDigit(d[|d| - 1]);
      10 * DecValue(d[..|d| - 1]) + (d[|d| - 1] as int - '0' as int)
  }

  /** `atoi`: leading white space, an optional sign, then the longest run of digits. */
  function Atoi(t: string): int {
    if |t| > 0 && IsSpace(t[0]) then Atoi(t[1..])
    else if |t| > 0 && (t[0] == '-' || t[0] == '+') then
      var u := t[1..];
      var v: int := DecValue(u[..DigitRun(u)]);
      if t[0] == '-' then -v else v
    else DecValue(t[..DigitRun(t)])
  }

  // The parse steps over the fields, one per C function.

  /** The text a pointer further into t points to. */
  predicate Suffix(u: string, t: string) {
    |u| <= |t| && u == t[|t| - |u|..]
  }

  /** A failing `ctorm_uri_parse_host` frees and clears the host and zeroes the port. */
  function HostFail(p: Parts, e: int): Out {
    Out(Err(e), p.(host := None, port := 0))
  }

  /** `ctorm_uri_parse_host` on the text `addr` points to. */
  function HostStep(p: Parts, addr: Option<string>): (o: Out)
    ensures o.r.Ok? ==> addr.Some? && Suffix(o.r.value, addr.value)
  {
    if addr.None? then Out(Err(Error.BadHostPtr), p)
    else
      var t := addr.value;
      match HostScan(t, 0, false, 0)
      case Err(e) => HostFail(p, e)
      case Ok(n) =>
        var p1 := p.(host := Decoded(t[..n]));
        if n == |t| || t[n] != ':' then Out(Ok(t[n..]), p1)
        else
          var pt := t[n + 1..];
          match Scan(pt, 0, IsSlash, AnyChar, 0, PortMax, Error.BadPort, Error.PortTooLarge)
          case Err(e) => HostFail(p1, Error.PortTooLarge)
          case Ok(m) =>
            var num := Atoi(pt[..m]);
            if num > PortNumMax || num < PortNumMin then HostFail(p1, Error.BadPort)
            else Out(Ok(pt[m..]), p1.(port := num))
  }

  /** Userinfo is present iff an '@' comes before the first '/'. */
  predicate HasUserinfo(t: string) {
    exists k :: 0 <= k < |t| && t[k] == '@' && '/' !in t[..k]
  }

  /** A failing `ctorm_uri_parse_auth` frees and clears the userinfo. */
  function AuthFail(o: Out): Out {
    if o.r.Err? then Out(o.r, o.parts.(userinfo := None)) else o
  }

  /**
   * `ctorm_uri_parse_auth` on the text after "//": the userinfo up to the
   * '@', then the host from where the userinfo loop stopped, which is the
   * '@' itself.
   */
  function AuthStep(p: Parts, auth: Option<string>): (o: Out)
    ensures o.r.Ok? ==> auth.Some? && Suffix(o.r.value, auth.value)
  {
    if auth.None? then Out(Err(Error.BadAuthorityPtr), p)
    else
      var t := auth.value;
      if HasUserinfo(t) then
        match Scan(t, 0, IsAt, UserinfoChar, 0, UserinfoMax, Error.BadUserinfo, Error.UserinfoTooLarge)
        case Err(e) => Out(Err(e), p.(userinfo := None))
        case Ok(n) => AuthFail(HostStep(p.(userinfo := Decoded(t[..n])), Some(t[n..])))
      else AuthFail(HostStep(p, Some(t)))
  }

  /** A failing `ctorm_uri_parse_path` frees and clears the path, the query and the fragment. */
  function PathFail(p: Parts, e: int): Out {
    Out(Err(e), p.(path := None, query := None, fragment := None))
  }

  /** `ctorm_query_parse(str.buf, str.len)`: NULL for an empty buffer and for a failed parse. */
  function QueryOf(q: string): Option<seq<Pair>> {
    if q == [] then None
    else match Query.ParseSpec(q)
      case Ok(ps) => Some(ps)
      case Err(_) => None
  }

  /** The fragment loop, from where the query loop stopped. */
  function FragmentStep(p: Parts, v: string): Out {
    if |v| == 0 then Out(Ok(v), p)
    else
      match Scan(v, 0, NoChar, QueryChar, 0, FragmentMax + 1, Error.BadQuery, Error.QueryTooLarge)
      case Err(e) => PathFail(p, e)
      case Ok(m) => Out(Ok(v[m..]), p.(fragment := Decoded(v[..m])))
  }

  /** The query part, from the '?' or '#' that ended the path. */
  function QueryStep(p: Parts, u: string): Out
    requires |u| > 0
  {
    if u[0] == '?' && |u| > 1 then
      var q := u[1..];
      match Scan(q, 0, IsHash, QueryChar, 0, QueryMax + 1, Error.BadQuery, Error.QueryTooLarge)
      case Err(e) => PathFail(p, e)
      case Ok(m) => FragmentStep(p.(query := QueryOf(q[..m])), q[m..])
    else
      FragmentStep(p.(query := None), if u[0] == '?' then u[1..] else u)
  }

  /**
   * `ctorm_uri_parse_path`: an empty path returns at once; otherwise '/' is
   * put in front when missing and the path runs to '?' or '#'.
   */
  function PathStep(p: Parts, path: Option<string>): Out {
    if path.None? then Out(Err(Error.BadPathPtr), p)
    else
      var t := path.value;
      if |t| == 0 then Out(Ok(t), p)
      else
        var pre := if t[0] != '/' then "/" else "";
        match Scan(t, 0, EndsPath, PathChar, |pre|, PathMax + 1, Error.BadPath, Error.PathTooLarge)
        case Err(e) => PathFail(p, e)
        case Ok(n) =>
          var p1 := p.(path := Decoded(pre + t[..n]));
          if n == |t| then Out(Ok(t[n..]), p1) else QueryStep(p1, t[n..])
  }

  /** What follows "scheme:": the authority when the text starts with "//", then the path. */
  function HierStep(p: Parts, t: string): Out {
    var a := if StartsWith(Some(t), Some("//")) then AuthStep(p, Some(t[2..])) else Out(Ok(t), p);
    if a.r.Err? then a else PathStep(a.parts, Some(a.r.value))
  }

  /** `ctorm_uri_parse`: scheme, ':', then the hier-part; a failure after the first character zeroes every field. */
  function ParseStep(p: Parts, s: string): Out {
    if |s| == 0 || !IsLetter(s[0]) then Out(Err(Error.BadScheme), p)
    else
      match Scan(s, 0, IsColon, SchemeChar, 0, SchemeMax, Error.BadScheme, Error.SchemeTooLarge)
      case Err(e) => Out(Err(e), Zero)
      case Ok(n) =>
        if n == |s| then Out(Err(Error.BadUriFormat), Zero)
        else
          var h := HierStep(p.(scheme := Some(s[..n])), s[n + 1..]);
          if h.r.Err? then Out(h.r, Zero) else h
  }

  // Properties of the parse steps.

  /** Unreserved characters, which every component accepts and percent-decoding keeps. */
  predicate UnreservedChar(c: char) {
    IsLetter(c) || IsDigit(c) || c in Unreserved
  }

  lemma UnreservedAccepted(c: char)
    requires UnreservedChar(c)
    ensures UserinfoChar(c) && HostChar(c) && PathChar(c) && QueryChar(c)
  {
    if c in Unreserved {
      assert c in Unreserved + SubDelims + "%:";
      assert c in Unreserved + SubDelims + "[:]%";
      assert c in "/" + Unreserved + SubDelims + "%:@";
      assert c in Unreserved + SubDelims + ":@%" + "/?";
    }
  }

  predicate Plain(t: string) {
    forall k :: 0 <= k < |t| ==> UnreservedChar(t[k])
  }

  /** A component loop reads exactly up to its first stop character when all before it are accepted and fit. */
  lemma {:induction false} ScanTo(t: string, i: nat, stop: char -> bool, valid: char -> bool, len: nat, limit: nat, bad: int, big: int, n: nat)
    requires i <= n <= |t| && (n == |t| || stop(t[n]))
    requires forall k :: i <= k < n ==> !stop(t[k]) && valid(t[k])
    requires len + (n - i) <= limit
    ensures Scan(t, i, stop, valid, len, limit, bad, big) == Ok(n)
    decreases n - i
  {
    if i < n {
      ScanTo(t, i + 1, stop, valid, len + 1, limit, bad, big, n);
    }
  }

  /** A component loop fails with `big` when more than limit - len accepted characters come before any stop. */
  lemma {:induction false} ScanLong(t: string, i: nat, stop: char -> bool, valid: char -> bool, len: nat, limit: nat, bad: int, big: int)
    requires len <= limit && i + (limit - len) < |t|
    requires forall k :: i <= k <= i + (limit - len) ==> !stop(t[k]) && valid(t[k])
    ensures Scan(t, i, stop, valid, len, limit, bad, big) == Err(big)
    decreases limit - len
  {
    if len < limit {
      ScanLong(t, i + 1, stop, valid, len + 1, limit, bad, big);
    }
  }

  /** The host loop reads a run of unreserved characters up to the end, a '/' or a ':'. */
  lemma {:induction false} HostScanPlain(t: string, i: nat, n: nat)
    requires i <= n <= |t| && (n == |t| || t[n] == '/' || t[n] == ':')
    requires forall k :: i <= k < n ==> UnreservedChar(t[k])
    requires n - i <= HostMax
    ensures HostScan(t, i, false, 0) == Ok(n)
    decreases n - i
  {
    if i < n {
      HostScanFrom(t, i + 1, n, 1);
      assert t[i] != '[' && t[i] != ']' && t[i] != ':' && t[i] != '/';
      UnreservedAccepted(t[i]);
    }
  }

  lemma {:induction false} HostScanFrom(t: string, i: nat, n: nat, len: nat)
    requires i <= n <= |t| && (n == |t| || t[n] == '/' || t[n] == ':')
    requires forall k :: i <= k < n ==> UnreservedChar(t[k])
    requires len + (n - i) <= HostMax
    ensures HostScan(t, i, false, len) == Ok(n)
    decreases n - i
  {
    if i < n {
      assert t[i] != '[' && t[i] != ']' && t[i] != ':' && t[i] != '/';
      UnreservedAccepted(t[i]);
      HostScanFrom(t, i + 1, n, len + 1);
    }
  }

  /** An unreserved component is stored as written. */
  lemma DecodedPlain(t: string)
    requires t != [] && Plain(t)
    ensures Decoded(t) == Some(t)
  {
    Percent.PlainDecodesToItself(t, 0, '\0');
    assert t[0..] == t;
    CStrPlain(t);
  }

  /** The decimal form of a port number. */
  function Dec(n: nat): (d: string)
    ensures |d| > 0 && forall k :: 0 <= k < |d| ==> IsDigit(d[k])
  {
    if n < 10 then [('0' as int + n) as char]
    else Dec(n / 10) + [('0' as int + n % 10) as char]
  }

  lemma {:induction false} DecValueDec(n: nat)
    ensures DecValue(Dec(n)) == n
  {
    if n >= 10 {
      DecValueDec(n / 10);
      var d := Dec(n);
      assert d[..|d| - 1] == Dec(n / 10);
    }
  }

  lemma {:induction false} DecLength(n: nat, k: nat)
    requires k >= 1 && n < Pow10(k)
    ensures |Dec(n)| <= k
  {
    if n >= 10 {
      assert k > 0 && n / 10 < Pow10(k - 1);
      DecLength(n / 10, k - 1);
    }
  }

  /** `atoi` reads back the decimal form of a number. */
  lemma AtoiDec(n: nat)
    ensures Atoi(Dec(n)) == n
  {
    var d := Dec(n);
    assert !IsSpace(d[0]) && d[0] != '-' && d[0] != '+';
    assert DigitRun(d) == |d|;
    assert d[..|d|] == d;
    DecValueDec(n);
  }

  /** A host and an in-range port followed by the path: both are stored and the path is what is left. */
  lemma HostAndPort(p: Parts, h: string, n: nat, rest: string)
    requires h != [] && Plain(h) && |h| <= HostMax
    requires PortNumMin <= n <= PortNumMax
    requires rest == [] || rest[0] == '/'
    ensures HostStep(p, Some(h + ":" + Dec(n) + rest)) == Out(Ok(rest), p.(host := Some(h), port := n))
  {
    var t := h + ":" + Dec(n) + rest;
    HostThenPort(h, n, rest);
    HostStepGoodPort(p, t, |h|, t[|h| + 1..], |Dec(n)|);
    DecodedPlain(h);
  }

  /** A port of at most five digits outside 1..65535 fails with BadPort, and the host is cleared again. */
  lemma PortOutOfRange(p: Parts, h: string, n: nat, rest: string)
    requires h != [] && Plain(h) && |h| <= HostMax
    requires n < PortNumMin || (PortNumMax < n < 100000)
    requires rest == [] || rest[0] == '/'
    ensures HostStep(p, Some(h + ":" + Dec(n) + rest)) == Out(Err(Error.BadPort), p.(host := None, port := 0))
  {
    var t := h + ":" + Dec(n) + rest;
    HostThenPort(h, n, rest);
    HostStepBadPort(p, t, |h|, t[|h| + 1..], |Dec(n)|);
  }

  /** The host step on text whose host loop stops at a ':' and whose port scan reads an out-of-range number. */
  lemma HostStepBadPort(p: Parts, t: string, n: nat, pt: string, m: nat)
    requires HostScan(t, 0, false, 0) == Ok(n) && n < |t| && t[n] == ':' && pt == t[n + 1..]
    requires Scan(pt, 0, IsSlash, AnyChar, 0, PortMax, Error.BadPort, Error.PortTooLarge) == Ok(m)
    requires m <= |pt| && (Atoi(pt[..m]) > PortNumMax || Atoi(pt[..m]) < PortNumMin)
    ensures HostStep(p, Some(t)) == Out(Err(Error.BadPort), p.(host := None, port := 0))
  {
  }

  /** The host step on text whose host loop stops at a ':' and whose port scan reads an in-range number. */
  lemma HostStepGoodPort(p: Parts, t: string, n: nat, pt: string, m: nat)
    requires HostScan(t, 0, false, 0) == Ok(n) && n < |t| && t[n] == ':' && pt == t[n + 1..]
    requires Scan(pt, 0, IsSlash, AnyChar, 0, PortMax, Error.BadPort, Error.PortTooLarge) == Ok(m)
    requires m <= |pt| && PortNumMin <= Atoi(pt[..m]) <= PortNumMax
    ensures HostStep(p, Some(t)) == Out(Ok(pt[m..]), p.(host := Decoded(t[..n]), port := Atoi(pt[..m])))
  {
  }

  /** How the host loop and the port scan split "h:port/rest". */
  lemma HostThenPort(h: string, n: nat, rest: string)
    requires h != [] && Plain(h) && |h| <= HostMax && n < 100000
    requires rest == [] || rest[0] == '/'
    ensures var t := h + ":" + Dec(n) + rest;
            var pt := t[|h| + 1..];
            HostScan(t, 0, false, 0) == Ok(|h|) && |h| < |t| && t[|h|] == ':' && t[..|h|] == h
            && Scan(pt, 0, IsSlash, AnyChar, 0, PortMax, Error.BadPort, Error.PortTooLarge) == Ok(|Dec(n)|)
            && Atoi(pt[..|Dec(n)|]) == n && pt[|Dec(n)|..] == rest
  {
    var t := h + ":" + Dec(n) + rest;
    HostPart(h, Dec(n) + rest);
    assert t == h + ":" + (Dec(n) + rest);
    assert t[|h| + 1..] == Dec(n) + rest;
    PortPart(n, rest);
  }

  /** The host loop stops at the ':' after a plain host. */
  lemma HostPart(h: string, tail: string)
    requires h != [] && Plain(h) && |h| <= HostMax
    ensures var t := h + ":" + tail;
            HostScan(t, 0, false, 0) == Ok(|h|) && |h| < |t| && t[|h|] == ':' && t[..|h|] == h
            && t[|h| + 1..] == tail
  {
    var t := h + ":" + tail;
    HostScanPlain(t, 0, |h|);
    assert t[..|h|] == h;
  }

  /** The port scan reads the digits of n up to the '/' or the end, and `atoi` gives n back. */
  lemma PortPart(n: nat, rest: string)
    requires n < 100000 && (rest == [] || rest[0] == '/')
    ensures var pt := Dec(n) + rest;
            Scan(pt, 0, IsSlash, AnyChar, 0, PortMax, Error.BadPort, Error.PortTooLarge) == Ok(|Dec(n)|)
            && Atoi(pt[..|Dec(n)|]) == n && pt[|Dec(n)|..] == rest
  {
    var pt := Dec(n) + rest;
    var m := |Dec(n)|;
    assert Pow10(5) == 100000;
    DecLength(n, 5);
    ScanTo(pt, 0, IsSlash, AnyChar, 0, PortMax, Error.BadPort, Error.PortTooLarge, m);
    assert pt[..m] == Dec(n) && pt[m..] == rest;
    AtoiDec(n);
  }

  /** More than five characters before the next '/' after the host's ':' fail with PortTooLarge. */
  lemma PortTooLong(p: Parts, h: string, port: string, rest: string)
    requires h != [] && Plain(h) && |h| <= HostMax
    requires |port| > PortMax && '/' !in port
    ensures HostStep(p, Some(h + ":" + port + rest)) == Out(Err(Error.PortTooLarge), p.(host := None, port := 0))
  {
    var t := h + ":" + port + rest;
    HostScanPlain(t, 0, |h|);
    var pt := t[|h| + 1..];
    assert forall k :: 0 <= k <= PortMax ==> pt[k] == port[k];
    ScanLong(pt, 0, IsSlash, AnyChar, 0, PortMax, Error.BadPort, Error.PortTooLarge);
  }

  /** A path of unreserved characters and slashes, with no query or fragment, is stored and nothing is left. */
  lemma PathPlain(p: Parts, path: string)
    requires path != [] && path[0] == '/' && |path| <= PathMax
    requires forall k :: 0 <= k < |path| ==> UnreservedChar(path[k]) || path[k] == '/'
    ensures PathStep(p, Some(path)) == Out(Ok([]), p.(path := Some(path)))
  {
    forall k | 0 <= k < |path| ensures PathChar(path[k]) && !EndsPath(path[k]) {
      if path[k] != '/' {
        UnreservedAccepted(path[k]);
      }
    }
    ScanTo(path, 0, EndsPath, PathChar, 0, PathMax + 1, Error.BadPath, Error.PathTooLarge, |path|);
    assert "" + path[..|path|] == path && path[|path|..] == [];
    PlainPathDecoded(path);
  }

  /** An authority of host, port and plain path, with no '@', is read by the host step alone. */
  lemma AuthorityPlain(p: Parts, h: string, n: nat, path: string)
    requires h != [] && Plain(h) && |h| <= HostMax
    requires PortNumMin <= n <= PortNumMax
    requires path != [] && path[0] == '/'
    requires forall k :: 0 <= k < |path| ==> UnreservedChar(path[k]) || path[k] == '/'
    ensures AuthStep(p, Some(h + ":" + Dec(n) + path)) == Out(Ok(path), p.(host := Some(h), port := n))
  {
    var a := h + ":" + Dec(n) + path;
    forall k | 0 <= k < |a| ensures a[k] != '@' {
      if k < |h| {
        assert a[k] == h[k];
      } else if |h| < k < |h| + 1 + |Dec(n)| {
        assert a[k] == Dec(n)[k - |h| - 1];
      } else if k >= |h| + 1 + |Dec(n)| {
        assert a[k] == path[k - |h| - 1 - |Dec(n)|];
      }
    }
    HostAndPort(p, h, n, path);
  }

  /** After "//", a host, an in-range port and a plain path fill exactly those parts. */
  lemma HierAuthority(p: Parts, h: string, n: nat, path: string)
    requires h != [] && Plain(h) && |h| <= HostMax
    requires PortNumMin <= n <= PortNumMax
    requires path != [] && path[0] == '/' && |path| <= PathMax
    requires forall k :: 0 <= k < |path| ==> UnreservedChar(path[k]) || path[k] == '/'
    ensures HierStep(p, "//" + h + ":" + Dec(n) + path)
         == Out(Ok([]), p.(host := Some(h), port := n, path := Some(path)))
  {
    var a := h + ":" + Dec(n) + path;
    assert "//" + h + ":" + Dec(n) + path == "//" + a;
    HierSlashes(p, a);
    AuthorityPlain(p, h, n, path);
    PathPlain(p.(host := Some(h), port := n), path);
  }

  /** After "//" the hier-part is the authority, then the path from where the authority stopped. */
  lemma HierSlashes(p: Parts, a: string)
    ensures var o := AuthStep(p, Some(a));
            HierStep(p, "//" + a) == if o.r.Err? then o else PathStep(o.parts, Some(o.r.value))
  {
    var t := "//" + a;
    assert t[..2] == "//" && t[2..] == a;
  }

  /**
   * The authority form round trip: "scheme://host:port/path" with
   * unreserved components parses into exactly those parts, leaving the
   * userinfo, query and fragment as they were.
   */
  lemma ParseAuthority(p: Parts, sc: string, h: string, n: nat, path: string)
    requires sc != [] && IsLetter(sc[0]) && |sc| <= SchemeMax && forall k :: 0 <= k < |sc| ==> SchemeChar(sc[k])
    requires h != [] && Plain(h) && |h| <= HostMax
    requires PortNumMin <= n <= PortNumMax
    requires path != [] && path[0] == '/' && |path| <= PathMax
    requires forall k :: 0 <= k < |path| ==> UnreservedChar(path[k]) || path[k] == '/'
    ensures ParseStep(p, sc + "://" + h + ":" + Dec(n) + path)
         == Out(Ok([]), p.(scheme := Some(sc), host := Some(h), port := n, path := Some(path)))
  {
    var rest := "//" + h + ":" + Dec(n) + path;
    var s := sc + ":" + rest;
    assert s == sc + "://" + h + ":" + Dec(n) + path;
    assert s[0] == sc[0];
    ScanTo(s, 0, IsColon, SchemeChar, 0, SchemeMax, Error.BadScheme, Error.SchemeTooLarge, |sc|);
    assert s[..|sc|] == sc && s[|sc| + 1..] == rest;
    HierAuthority(p.(scheme := Some(sc)), h, n, path);
  }

  /**
   * As written, an authority with userinfo always fails: the host is read
   * from the '@' that ended the userinfo, and '@' is not a host character.
   */
  lemma UserinfoBreaksHost(p: Parts, t: string)
    requires HasUserinfo(t)
    ensures AuthStep(p, Some(t)).r.Err?
    ensures (forall k :: 0 <= k < |t| && t[k] == '@' ==> forall j :: 0 <= j < k ==> UserinfoChar(t[j])) && |t| <= UserinfoMax ==>
              AuthStep(p, Some(t)).r == Err(Error.BadHost)
  {
    var k :| 0 <= k < |t| && t[k] == '@' && '/' !in t[..k];
    match Scan(t, 0, IsAt, UserinfoChar, 0, UserinfoMax, Error.BadUserinfo, Error.UserinfoTooLarge)
    case Err(e) =>
      if (forall k :: 0 <= k < |t| && t[k] == '@' ==> forall j :: 0 <= j < k ==> UserinfoChar(t[j])) && |t| <= UserinfoMax {
        var first := FirstAt(t, k);
        ScanTo(t, 0, IsAt, UserinfoChar, 0, UserinfoMax, Error.BadUserinfo, Error.UserinfoTooLarge, first);
      }
    case Ok(n) =>
      assert n <= k;
      HostAtFails(p.(userinfo := Decoded(t[..n])), t[n..]);
  }

  /** The host loop fails with BadHost on text that starts with '@'. */
  lemma HostAtFails(p: Parts, rest: string)
    requires rest != [] && rest[0] == '@'
    ensures HostStep(p, Some(rest)).r == Err(Error.BadHost)
  {
    assert !HostChar('@');
  }

  /** The first '@' of t, at or before k. */
  function FirstAt(t: string, k: nat): (f: nat)
    requires k < |t| && t[k] == '@'
    ensures f <= k && t[f] == '@' && forall j :: 0 <= j < f ==> t[j] != '@'
  {
    if k == 0 then 0
    else if '@' in t[..k] then
      var j :| 0 <= j < k && t[..k][j] == '@';
      FirstAt(t, j)
    else k
  }

  lemma UserinfoExample(p: Parts, u: string, h: string)
    requires u != [] && Plain(u) && |u| <= UserinfoMax
    ensures AuthStep(p, Some(u + "@" + h)).r == Err(Error.BadHost)
  {
    var t := u + "@" + h;
    assert t[|u|] == '@' && t[..|u|] == u;
    forall k | 0 <= k < |u| ensures UserinfoChar(t[k]) && t[k] != '@' && t[k] != '/' {
      assert t[k] == u[k];
      UnreservedAccepted(u[k]);
    }
    assert HasUserinfo(t);
    ScanTo(t, 0, IsAt, UserinfoChar, 0, UserinfoMax, Error.BadUserinfo, Error.UserinfoTooLarge, |u|);
    HostAtFails(p.(userinfo := Decoded(u)), t[|u|..]);
  }

  /** The authority step as evidently intended: the host starts after the '@'. */
  function AuthStepFixed(p: Parts, auth: Option<string>): Out {
    if auth.None? then Out(Err(Error.BadAuthorityPtr), p)
    else
      var t := auth.value;
      if HasUserinfo(t) then
        match Scan(t, 0, IsAt, UserinfoChar, 0, UserinfoMax, Error.BadUserinfo, Error.UserinfoTooLarge)
        case Err(e) => Out(Err(e), p.(userinfo := None))
        case Ok(n) =>
          if n == |t| then Out(Err(Error.BadUserinfo), p.(userinfo := None))
          else AuthFail(HostStep(p.(userinfo := Decoded(t[..n])), Some(t[n + 1..])))
      else AuthFail(HostStep(p, Some(t)))
  }

  /** With the fix, "user@host" stores both parts. */
  lemma UserinfoFixed(p: Parts, u: string, h: string)
    requires u != [] && Plain(u) && |u| <= UserinfoMax
    requires h != [] && Plain(h) && |h| <= HostMax
    ensures AuthStepFixed(p, Some(u + "@" + h)) == Out(Ok([]), p.(userinfo := Some(u), host := Some(h)))
  {
    var t := u + "@" + h;
    assert t[|u|] == '@' && t[..|u|] == u;
    assert HasUserinfo(t);
    forall k | 0 <= k < |u| ensures UserinfoChar(t[k]) && t[k] != '@' {
      assert t[k] == u[k];
      UnreservedAccepted(u[k]);
    }
    ScanTo(t, 0, IsAt, UserinfoChar, 0, UserinfoMax, Error.BadUserinfo, Error.UserinfoTooLarge, |u|);
    DecodedPlain(u);
    assert t[|u| + 1..] == h;
    HostScanPlain(h, 0, |h|);
    assert h[..|h|] == h;
    DecodedPlain(h);
  }

  /** The fragment loop never stops early, so it succeeds only when every character left is a query character, never '#'. */
  lemma FragmentStepNoHash(p: Parts, v: string)
    requires FragmentStep(p, v).r.Ok?
    ensures forall k :: 0 <= k < |v| ==> v[k] != '#'
  {
    if |v| > 0 {
      assert !QueryChar('#');
    }
  }

  lemma QueryStepNoHash(p: Parts, u: string)
    requires |u| > 0 && QueryStep(p, u).r.Ok?
    ensures forall k :: 0 <= k < |u| ==> u[k] != '#'
  {
    if u[0] == '?' && |u| > 1 {
      var q := u[1..];
      var m := Scan(q, 0, IsHash, QueryChar, 0, QueryMax + 1, Error.BadQuery, Error.QueryTooLarge).value;
      assert forall k :: 1 <= k < |u| ==> u[k] == q[k - 1];
      assert m < |q| ==> q[m..][0] == '#';
      FragmentStepNoHash(p.(query := QueryOf(q[..m])), q[m..]);
    } else if u[0] != '?' {
      FragmentStepNoHash(p.(query := None), u);
    }
  }

  /**
   * As written, the fragment loop starts on the '#' itself, which is not a
   * query character: a path that parses has no '#' in it.
   */
  lemma FragmentRejected(p: Parts, t: string)
    requires PathStep(p, Some(t)).r.Ok?
    ensures forall k :: 0 <= k < |t| ==> t[k] != '#'
  {
    if |t| > 0 {
      var pre := if t[0] != '/' then "/" else "";
      var sc := Scan(t, 0, EndsPath, PathChar, |pre|, PathMax + 1, Error.BadPath, Error.PathTooLarge);
      assert sc.Ok?;
      var n := sc.value;
      if n < |t| {
        var p1 := p.(path := Decoded(pre + t[..n]));
        assert QueryStep(p1, t[n..]).r.Ok?;
        QueryStepNoHash(p1, t[n..]);
        forall k | n <= k < |t|
          ensures t[k] != '#'
        {
          assert t[k] == t[n..][k - n];
        }
      }
    }
  }

  lemma FragmentExample(p: Parts)
    ensures PathStep(p, Some("/a#top")).r.Err?
  {
    var t := "/a#top";
    assert t[2] == '#';
    if PathStep(p, Some(t)).r.Ok? {
      FragmentRejected(p, t);
    }
  }

  /** The fragment step as evidently intended: the fragment starts after the '#'. */
  function FragmentStepFixed(p: Parts, v: string): Out {
    if |v| == 0 then Out(Ok(v), p)
    else
      var w := if v[0] == '#' then v[1..] else v;
      match Scan(w, 0, NoChar, QueryChar, 0, FragmentMax + 1, Error.BadQuery, Error.QueryTooLarge)
      case Err(e) => PathFail(p, e)
      case Ok(m) => Out(Ok(w[m..]), p.(fragment := Decoded(w[..m])))
  }

  /** `ctorm_uri_parse_path` with the fragment fix. */
  function PathStepFixed(p: Parts, path: Option<string>): Out {
    if path.None? then Out(Err(Error.BadPathPtr), p)
    else
      var t := path.value;
      if |t| == 0 then Out(Ok(t), p)
      else
        var pre := if t[0] != '/' then "/" else "";
        match Scan(t, 0, EndsPath, PathChar, |pre|, PathMax + 1, Error.BadPath, Error.PathTooLarge)
        case Err(e) => PathFail(p, e)
        case Ok(n) =>
          var p1 := p.(path := Decoded(pre + t[..n]));
          if n == |t| then Out(Ok(t[n..]), p1)
          else
            var u := t[n..];
            if u[0] == '?' && |u| > 1 then
              var q := u[1..];
              match Scan(q, 0, IsHash, QueryChar, 0, QueryMax + 1, Error.BadQuery, Error.QueryTooLarge)
              case Err(e) => PathFail(p1, e)
              case Ok(m) => FragmentStepFixed(p1.(query := QueryOf(q[..m])), q[m..])
            else
              FragmentStepFixed(p1.(query := None), if u[0] == '?' then u[1..] else u)
  }

  /** With the fix, a fragment after '#' is stored. */
  lemma FragmentStored(p: Parts, frag: string)
    requires frag != [] && Plain(frag) && |frag| <= FragmentMax
    ensures FragmentStepFixed(p, "#" + frag) == Out(Ok([]), p.(fragment := Some(frag)))
  {
    assert ("#" + frag)[0] == '#' && ("#" + frag)[1..] == frag;
    forall k | 0 <= k < |frag| ensures QueryChar(frag[k]) {
      UnreservedAccepted(frag[k]);
    }
    ScanTo(frag, 0, NoChar, QueryChar, 0, FragmentMax + 1, Error.BadQuery, Error.QueryTooLarge, |frag|);
    assert frag[..|frag|] == frag;
    DecodedPlain(frag);
    var v := "#" + frag;
    assert |v| != 0;
    var w := if v[0] == '#' then v[1..] else v;
    assert w == frag;
    assert Scan(w, 0, NoChar, QueryChar, 0, FragmentMax + 1, Error.BadQuery, Error.QueryTooLarge) == Ok(|frag|);
    assert w[|frag|..] == [];
    assert FragmentStepFixed(p, v) == Out(Ok(w[|frag|..]), p.(fragment := Decoded(w[..|frag|])));
  }

  /** With the fix, "/path#frag" stores the path and the fragment. */
  lemma FragmentFixed(p: Parts, path: string, frag: string)
    requires path != [] && path[0] == '/' && |path| <= PathMax
    requires forall k :: 0 <= k < |path| ==> UnreservedChar(path[k]) || path[k] == '/'
    requires frag != [] && Plain(frag) && |frag| <= FragmentMax
    ensures PathStepFixed(p, Some(path + "#" + frag))
         == Out(Ok([]), p.(path := Some(path), query := None, fragment := Some(frag)))
  {
    var t := path + "#" + frag;
    forall k | 0 <= k < |path| ensures PathChar(t[k]) && !EndsPath(t[k]) {
      assert t[k] == path[k];
      if path[k] != '/' {
        UnreservedAccepted(path[k]);
      }
    }
    ScanTo(t, 0, EndsPath, PathChar, 0, PathMax + 1, Error.BadPath, Error.PathTooLarge, |path|);
    assert t[|path|..] == "#" + frag;
    assert t[..|path|] == path;
    PathThenFragment(p, t, |path|);
    PlainPathDecoded(path);
    FragmentStored(p.(path := Some(path), query := None), frag);
  }

  /** With the fix, a path ended by '#' goes straight to the fragment, with no query. */
  lemma PathThenFragment(p: Parts, t: string, n: nat)
    requires 0 < n < |t| && t[0] == '/' && t[n] == '#'
    requires Scan(t, 0, EndsPath, PathChar, 0, PathMax + 1, Error.BadPath, Error.PathTooLarge) == Ok(n)
    ensures PathStepFixed(p, Some(t)) == FragmentStepFixed(p.(path := Decoded(t[..n]), query := None), t[n..])
  {
    var pre := if t[0] != '/' then "/" else "";
    assert pre == "" && |pre| == 0;
    assert pre + t[..n] == t[..n];
    var u := t[n..];
    assert u[0] == '#' && u[0] != '?';
  }

  /** A path of unreserved characters and slashes is stored as written. */
  lemma PlainPathDecoded(path: string)
    requires path != [] && forall k :: 0 <= k < |path| ==> UnreservedChar(path[k]) || path[k] == '/'
    ensures Decoded(path) == Some(path)
  {
    Percent.PlainDecodesToItself(path, 0, '\0');
    assert path[0..] == path;
    CStrPlain(path);
  }

  // The C loops.

  /** A component loop of src/uri.c, appending each accepted character to its buffer. */
  method ReadComponent(t: string, stop: char -> bool, valid: char -> bool, len: nat, limit: nat, bad: int, big: int)
    returns (r: Result<nat, int>)
    ensures r == Scan(t, 0, stop, valid, len, limit, bad, big)
  {
    var i, n := 0, len;
    while i < |t| && !stop(t[i])
      invariant i <= |t| && n == len + i
      invariant Scan(t, 0, stop, valid, len, limit, bad, big) == Scan(t, i, stop, valid, n, limit, bad, big)
    {
      if !valid(t[i]) {
        return Err(bad);
      }
      if n >= limit {
        return Err(big);
      }
      i, n := i + 1, n + 1;
    }
    return Ok(i);
  }

  /** The host loop of `ctorm_uri_parse_host`, tracking whether it is inside `[...]`. */
  method ReadHost(t: string) returns (r: Result<nat, int>)
    ensures r == HostScan(t, 0, false, 0)
  {
    var i, bracket := 0, false;
    while i < |t| && t[i] != '/'
      invariant i <= |t|
      invariant HostScan(t, 0, false, 0) == HostScan(t, i, bracket, i)
    {
      if !bracket && t[i] == ':' {
        break;
      }
      if !HostChar(t[i]) {
        return Err(Error.BadHost);
      }
      if i >= HostMax {
        return Err(Error.HostTooLarge);
      }
      if t[i] == '[' {
        bracket := true;
      } else if t[i] == ']' {
        bracket := false;
      }
      i := i + 1;
    }
    return Ok(i);
  }

  /** The first loop of `ctorm_uri_parse_auth`: is there an '@' before the first '/'? */
  method FindUserinfo(t: string) returns (has: bool)
    ensures has == HasUserinfo(t)
  {
    var i := 0;
    while i < |t| && t[i] != '/'
      invariant i <= |t|
      invariant forall j :: 0 <= j < i ==> t[j] != '@' && t[j] != '/'
    {
      if t[i] == '@' {
        assert '/' !in t[..i];
        return true;
      }
      i := i + 1;
    }
    forall k | 0 <= k < |t| && t[k] == '@'
      ensures '/' in t[..k]
    {
      assert t[..k][i] == '/';
    }
    return false;
  }

  /** `ctorm_uri_t`. */
  class Uri {
    var scheme: Option<string>
    var userinfo: Option<string>
    var host: Option<string>
    var port: nat
    var path: Option<string>
    var query: Option<seq<Pair>>
    var fragment: Option<string>

    function Value(): Parts
      reads this
    {
      Parts(scheme, userinfo, host, port, path, query, fragment)
    }

    /** A zeroed structure, as `ctorm_uri_free` leaves it. */
    constructor ()
      ensures Value() == Zero
    {
      scheme, userinfo, host, port := None, None, None, 0;
      path, query, fragment := None, None, None;
    }

    /** `ctorm_uri_free`: every component freed and the structure zeroed. */
    method Free()
      modifies this
      ensures Value() == Zero
    {
      scheme, userinfo, host, port := None, None, None, 0;
      path, query, fragment := None, None, None;
    }

    /** `ctorm_uri_parse_host`: the host up to '/', the end or an unbracketed ':', then the port after ':'. */
    method ParseHost(addr: Option<string>) returns (r: Result<string, int>)
      modifies this
      ensures Out(r, Value()) == HostStep(old(Value()), addr)
    {
      if addr.None? {
        return Err(Error.BadHostPtr);
      }
      var t := addr.value;
      var hs := ReadHost(t);
      if hs.Err? {
        host, port := None, 0;
        return Err(hs.error);
      }
      var n := hs.value;
      host := Decoded(t[..n]);
      if n == |t| || t[n] != ':' {
        return Ok(t[n..]);
      }
      var pt := t[n + 1..];
      var ps := ReadComponent(pt, IsSlash, AnyChar, 0, PortMax, Error.BadPort, Error.PortTooLarge);
      if ps.Err? {
        host, port := None, 0;
        return Err(Error.PortTooLarge);
      }
      var num := Atoi(pt[..ps.value]);
      if num > PortNumMax || num < PortNumMin {
        host, port := None, 0;
        return Err(Error.BadPort);
      }
      port := num;
      return Ok(pt[ps.value..]);
    }

    /** `ctorm_uri_parse_auth`: the userinfo when an '@' comes before the first '/', then the host. */
    method ParseAuth(auth: Option<string>) returns (r: Result<string, int>)
      modifies this
      ensures Out(r, Value()) == AuthStep(old(Value()), auth)
    {
      if auth.None? {
        return Err(Error.BadAuthorityPtr);
      }
      var t := auth.value;
      var has := FindUserinfo(t);
      var rest := t;
      if has {
        var us := ReadComponent(t, IsAt, UserinfoChar, 0, UserinfoMax, Error.BadUserinfo, Error.UserinfoTooLarge);
        if us.Err? {
          userinfo := None;
          return Err(us.error);
        }
        userinfo := Decoded(t[..us.value]);
        rest := t[us.value..];
      }
      r := ParseHost(Some(rest));
      if r.Err? {
        userinfo := None;
      }
    }

    /** `ctorm_uri_parse_path`: the path, then the query after '?', then the fragment after '#'. */
    method ParsePath(p: Option<string>) returns (r: Result<string, int>)
      requires p.Some? ==> '\0' !in p.value
      modifies this
      ensures Out(r, Value()) == PathStep(old(Value()), p)
    {
      if p.None? {
        return Err(Error.BadPathPtr);
      }
      var t := p.value;
      if |t| == 0 {
        return Ok(t);
      }
      var pre := if t[0] != '/' then "/" else "";
      var ps := ReadComponent(t, EndsPath, PathChar, |pre|, PathMax + 1, Error.BadPath, Error.PathTooLarge);
      if ps.Err? {
        path, query, fragment := None, None, None;
        return Err(ps.error);
      }
      var n := ps.value;
      path := Decoded(pre + t[..n]);
      if n == |t| {
        return Ok(t[n..]);
      }
      r := ParseQuery(t[n..]);
    }

    /** The query loop of `ctorm_uri_parse_path`, from the '?' or '#' that ended the path. */
    method ParseQuery(u: string) returns (r: Result<string, int>)
      requires |u| > 0 && '\0' !in u
      modifies this
      ensures Out(r, Value()) == QueryStep(old(Value()), u)
    {
      var qtext, v := [], u;
      if u[0] == '?' && |u| > 1 {
        var q := u[1..];
        var qs := ReadComponent(q, IsHash, QueryChar, 0, QueryMax + 1, Error.BadQuery, Error.QueryTooLarge);
        if qs.Err? {
          path, query, fragment := None, None, None;
          return Err(qs.error);
        }
        qtext, v := q[..qs.value], q[qs.value..];
      } else if u[0] == '?' {
        v := u[1..];
      }
      assert qtext[..|qtext|] == qtext;
      var parsed := Query.Parse(if qtext == [] then None else Some(qtext), |qtext|);
      query := if parsed.Some? && parsed.value.Ok? then Some(parsed.value.value) else None;
      assert query == QueryOf(qtext);
      r := ParseFragment(v);
    }

    /** The fragment loop of `ctorm_uri_parse_path`. */
    method ParseFragment(v: string) returns (r: Result<string, int>)
      modifies this
      ensures Out(r, Value()) == FragmentStep(old(Value()), v)
    {
      if |v| == 0 {
        return Ok(v);
      }
      var fs := ReadComponent(v, NoChar, QueryChar, 0, FragmentMax + 1, Error.BadQuery, Error.QueryTooLarge);
      if fs.Err? {
        path, query, fragment := None, None, None;
        return Err(fs.error);
      }
      fragment := Decoded(v[..fs.value]);
      return Ok(v[fs.value..]);
    }

    /** The hier-part of `ctorm_uri_parse`: the authority after "//", then the path. */
    method ParseHier(t: string) returns (r: Result<string, int>)
      requires '\0' !in t
      modifies this
      ensures Out(r, Value()) == HierStep(old(Value()), t)
    {
      var rest := t;
      if StartsWith(Some(t), Some("//")) {
        r := ParseAuth(Some(t[2..]));
        if r.Err? {
          return;
        }
        rest := r.value;
      }
      assert rest == t[|t| - |rest|..];
      assert '\0' !in rest;
      r := ParsePath(Some(rest));
    }

    /**
     * `ctorm_uri_parse`: a first character that is not a letter fails at
     * once; every later failure frees and zeroes the structure.
     */
    method Parse(str: string) returns (r: Result<string, int>)
      requires '\0' !in str
      modifies this
      ensures Out(r, Value()) == ParseStep(old(Value()), str)
    {
      if |str| == 0 || !IsLetter(str[0]) {
        return Err(Error.BadScheme);
      }
      var sc := ReadComponent(str, IsColon, SchemeChar, 0, SchemeMax, Error.BadScheme, Error.SchemeTooLarge);
      if sc.Err? {
        Free();
        return Err(sc.error);
      }
      var n := sc.value;
      if n == |str| {
        Free();
        return Err(Error.BadUriFormat);
      }
      scheme := Some(str[..n]);
      r := ParseHier(str[n + 1..]);
      if r.Err? {
        Free();
      }
    }
  }
}

=== FILE: url.dfy ===
/**
 * src/encoding/url.c: the first generation's parser for
 * application/x-www-form-urlencoded data. It reads `key=value&...` through
 * two heap buffers that grow by doubling, decodes both in place whenever a
 * pair closes, and links a node per pair. Every node points at the same two
 * buffers; a `GrowBuf` object stands for one of them, so the nodes share it
 * exactly as the C nodes share `key_buf` and `val_buf`.
 */
module Url {
  import opened Wrappers
  import opened Util
  import Percent
  import Errors
  import opened Pair
  import Query

  /** BUF_SIZE: inputs longer than twice this start with buffers of this size. */
  const BufSize: nat := 20

  /** A heap buffer; realloc replaces `cells` by a larger array with the same prefix. */
  class GrowBuf {
    var cells: array<char>

    /** The buffer holds a NUL-terminated string. */
    predicate Valid()
      reads this, cells
    {
      |CStr(cells[..])| < cells.Length
    }

    /** The C string the buffer holds. */
    function Content(): string
      reads this, cells
    {
      CStr(cells[..])
    }

    /**
     * The bytes written since the buffer was last reset are raw, and a NUL
     * follows them. A NUL among them cuts the C string short.
     */
    predicate Holds(raw: string)
      reads this, cells
    {
      |raw| < cells.Length && cells[..|raw|] == raw && cells[|raw|] == '\0'
    }

    /** A buffer holding raw reads as the C string of raw. */
    lemma HoldsContent(raw: string)
      requires Holds(raw)
      ensures Valid() && Content() == CStr(raw)
    {
      CStrAt(cells[..], |raw|);
      assert cells[..][..|raw|] == raw;
    }

    /** malloc(size); the model fills the new bytes with NUL. */
    constructor (size: nat)
      ensures fresh(cells) && cells.Length == size
      ensures size > 0 ==> Valid() && Content() == []
    {
      cells := new char[size](_ => '\0');
    }

    /** `buf = realloc(buf, size *= 2)`: twice the room, every byte of the old block kept. */
    method Grow()
      modifies this
      ensures fresh(cells) && cells.Length == 2 * old(cells.Length)
      ensures cells[..old(cells.Length)] == old(cells[..])
    {
      var n := cells.Length;
      var grown := new char[2 * n](_ => '\0');
      forall i | 0 <= i < n {
        grown[i] := cells[i];
      }
      cells := grown;
    }

    /**
     * One character stored by the loop: `if (indx + 1 >= size)` the buffer
     * is doubled, then `buf[indx++] = c; buf[indx] = 0`. The index is 0 or
     * the end of the bytes written; c may itself be a NUL.
     */
    method Put(indx: nat, c: char, ghost raw: string)
      requires Holds(raw) && indx < cells.Length
      requires indx == 0 || indx == |raw|
      modifies this, cells
      ensures Holds(Write(raw, indx, c)) && indx + 1 < cells.Length
      ensures Content() == CStr(Write(raw, indx, c))
      ensures cells == old(cells) || fresh(cells)
    {
      if indx + 1 >= cells.Length {
        ghost var before := cells[..];
        Grow();
        assert cells[..|raw|] == before[..|raw|];
      }
      ghost var pre := if indx == 0 then [] else raw;
      assert cells[..indx] == pre;
      cells[indx] := c;
      cells[indx + 1] := '\0';
      assert cells[..indx + 1] == pre + [c];
      HoldsContent(Write(raw, indx, c));
    }

    /** `urldecode(buf)` on the C string the buffer holds. */
    method Decode(ghost raw: string)
      requires Holds(raw) && CompleteFrom(CStr(raw), 0)
      modifies cells
      ensures Holds(Decoded(CStr(raw))) && Content() == Decoded(CStr(raw))
    {
      HoldsContent(raw);
      ghost var s := CStr(raw);
      var n := |Content()|;
      assert cells[..n] == s && cells[n] == '\0';
      UrlDecode(cells, n);
      ghost var d := UrlDecoded(s, 0, '\0');
      ghost var e := CStr(d);
      assert cells[..|e|] == e && cells[|e|] == '\0' by {
        assert cells[..|d|] == d;
        assert cells[..|e|] == cells[..|d|][..|e|];
      }
      HoldsContent(e);
    }
  }

  /** `enc_url_t`: the buffers a node points at (its `pre` link is the list order). */
  datatype UrlNode = UrlNode(key: GrowBuf, value: GrowBuf)

  // The parse loop as a function of the bytes read.

  /**
   * The loop state: `is_key`, `indx`, the bytes written to the key and value
   * buffers since their last reset (a stored NUL stays among them, and their
   * C strings end there), the number of nodes linked so far, and a copy of each pair taken
   * when it closes (head first), which is what each node was meant to hold.
   */
  datatype UState = UState(isKey: bool, indx: nat, key: string, val: string, count: nat, copies: seq<Pair>)

  const UStart := UState(true, 0, [], [], 0, [])

  /** A buffer after storing c at indx: a fresh one-character string at 0, else one more character. */
  function Write(content: string, indx: nat, c: char): string {
    (if indx == 0 then [] else content) + [c]
  }

  /** What a buffer holds after `urldecode`. */
  function Decoded(buf: string): string
    requires CompleteFrom(buf, 0)
  {
    CStr(UrlDecoded(buf, 0, '\0'))
  }

  /**
   * The `url_add` block: both buffers decoded, a node linked, key mode again.
   * None when a buffer ends inside an escape, where `urldecode` would read
   * past the terminator.
   */
  function Close(st: UState): Option<UState> {
    if CompleteFrom(CStr(st.key), 0) && CompleteFrom(CStr(st.val), 0) then
      var k := Decoded(CStr(st.key));
      var v := Decoded(CStr(st.val));
      Some(UState(true, 0, k, v, st.count + 1, [Pair(k, Some(v))] + st.copies))
    else None
  }

  /** One iteration on character c; `last` is `len == 1`. */
  function StepChar(st: UState, c: char, last: bool): Option<UState> {
    if c == '=' && st.isKey then Some(st.(isKey := false, indx := 0))
    else if !st.isKey && c == '&' then Close(st)
    else
      var st1 := if st.isKey then st.(key := Write(st.key, st.indx, c), indx := st.indx + 1)
                 else st.(val := Write(st.val, st.indx, c), indx := st.indx + 1);
      if last then Close(st1) else Some(st1)
  }

  function Run(s: string, st: UState): (r: Option<UState>)
    ensures r.Some? ==> r.value.count >= st.count
  {
    if |s| == 0 then Some(st)
    else
      match StepChar(st, s[0], |s| == 1)
      case None => None
      case Some(st') => Run(s[1..], st')
  }

  /** The bytes read: `len` of them, NULs included, or up to the first NUL when `len` is 0. */
  function Input(data: string, len: nat): string
    requires len <= |data|
  {
    if len == 0 then CStr(data) else data[..len]
  }

  /** The key and value every node shows once parsing is over: all of them read the final buffers. */
  function AsWritten(s: string): (r: seq<Pair>)
    requires Run(s, UStart).Some?
    ensures |r| == Run(s, UStart).value.count
    ensures forall i :: 0 <= i < |r| ==> r[i] == Pair(CStr(Run(s, UStart).value.key), Some(CStr(Run(s, UStart).value.val)))
  {
    var st := Run(s, UStart).value;
    seq(st.count, _ => Pair(CStr(st.key), Some(CStr(st.val))))
  }

  /**
   * `enc_url_parse(data, len)`: NULL data gives NULL (`None`); a failed
   * malloc (`keyAllocOk`, `valAllocOk` false) sets errno to AllocFailed and
   * gives NULL. Otherwise the nodes, head first; an empty list is NULL.
   * The data may hold NUL bytes within its `len` bytes (`req_form` passes a
   * raw body); each is stored like any other byte. The caller must not hand
   * it input on which `urldecode` overruns a buffer.
   */
  method Parse(data: Option<string>, len: nat, keyAllocOk: bool, valAllocOk: bool)
    returns (r: Option<Result<seq<UrlNode>, int>>)
    requires data.Some? ==> len <= |data.value|
    requires data.Some? ==> Run(Input(data.value, len), UStart).Some?
    ensures data.None? <==> r.None?
    ensures data.Some? && !(keyAllocOk && valAllocOk) ==> r == Some(Err(Errors.AllocFailed))
    ensures data.Some? && keyAllocOk && valAllocOk ==>
              r.Some? && r.value.Ok?
              && var url, ps := r.value.value, AsWritten(Input(data.value, len));
                 |url| == |ps|
                 && (forall i :: 0 <= i < |url| ==>
                       url[i].key.Content() == ps[i].key && Some(url[i].value.Content()) == ps[i].value)
                 && (forall i, j :: 0 <= i < |url| && 0 <= j < |url| ==> url[i] == url[j])
  {
    if data.None? {
      return None;
    }
    var s := Input(data.value, len);
    var n := |s|;
    var size := if n > BufSize * 2 then BufSize else n;
    if !keyAllocOk {
      return Some(Err(Errors.AllocFailed));
    }
    var kb := new GrowBuf(size);
    if !valAllocOk {
      return Some(Err(Errors.AllocFailed));
    }
    var vb := new GrowBuf(size);
    if n == 0 {
      return Some(Ok([]));
    }
    var url;
    ghost var st;
    url, st := Loop(kb, vb, s);
    kb.HoldsContent(st.key);
    vb.HoldsContent(st.val);
    return Some(Ok(url));
  }

  /** The loop of `enc_url_parse` over the characters of s, with the two fresh buffers. */
  method Loop(kb: GrowBuf, vb: GrowBuf, s: string) returns (url: seq<UrlNode>, ghost st: UState)
    requires |s| > 0 && Run(s, UStart).Some?
    requires Mirrors(kb, vb, true, 0, UStart)
    modifies kb, kb.cells, vb, vb.cells
    ensures Mirrors(kb, vb, st.isKey, st.indx, st) && Run(s, UStart) == Some(st)
    ensures |url| == st.count && forall j :: 0 <= j < |url| ==> url[j] == UrlNode(kb, vb)
  {
    var isKey := true;
    var indx := 0;
    url := [];
    st := UStart;
    var i := 0;
    while i < |s|
      invariant 0 <= i <= |s|
      invariant Run(s[i..], st) == Run(s, UStart)
      invariant Mirrors(kb, vb, isKey, indx, st)
      invariant (kb.cells == old(kb.cells) || fresh(kb.cells)) && (vb.cells == old(vb.cells) || fresh(vb.cells))
      invariant |url| == st.count
      invariant forall j :: 0 <= j < |url| ==> url[j] == UrlNode(kb, vb)
    {
      isKey, indx, url, st := Turn(kb, vb, s, i, isKey, indx, url, st);
      i := i + 1;
    }
    assert s[|s|..] == [];
  }

  /** One turn of the loop at index i, keeping its invariant. */
  method Turn(kb: GrowBuf, vb: GrowBuf, s: string, i: nat, isKey: bool, indx: nat, url: seq<UrlNode>, ghost st: UState)
    returns (isKey': bool, indx': nat, url': seq<UrlNode>, ghost st': UState)
    requires i < |s| && Run(s[i..], st).Some?
    requires Mirrors(kb, vb, isKey, indx, st)
    requires |url| == st.count && forall j :: 0 <= j < |url| ==> url[j] == UrlNode(kb, vb)
    modifies kb, kb.cells, vb, vb.cells
    ensures Run(s[i + 1..], st') == Run(s[i..], st)
    ensures Mirrors(kb, vb, isKey', indx', st')
    ensures (kb.cells == old(kb.cells) || fresh(kb.cells)) && (vb.cells == old(vb.cells) || fresh(vb.cells))
    ensures |url'| == st'.count && forall j :: 0 <= j < |url'| ==> url'[j] == UrlNode(kb, vb)
  {
    var c := s[i];
    RunStep(s, i, st);
    var close;
    isKey', indx', close, st' := Feed(kb, vb, isKey, indx, c, |s| - i == 1, st);
    url' := url;
    if close {
      url' := [UrlNode(kb, vb)] + url;
    }
  }

  /** Running from index i is one step, then the run from i + 1. */
  lemma RunStep(s: string, i: nat, st: UState)
    requires i < |s|
    ensures Run(s[i..], st).Some? ==> StepChar(st, s[i], |s| - i == 1).Some?
    ensures StepChar(st, s[i], |s| - i == 1).Some? ==>
              Run(s[i..], st) == Run(s[i + 1..], StepChar(st, s[i], |s| - i == 1).value)
  {
    assert s[i..][0] == s[i] && s[i..][1..] == s[i + 1..] && |s[i..]| == |s| - i;
  }

  /** The buffers and the loop variables hold what the state says. */
  predicate Mirrors(kb: GrowBuf, vb: GrowBuf, isKey: bool, indx: nat, st: UState)
    reads kb, vb, kb.cells, vb.cells
  {
    kb.cells != vb.cells && kb.Holds(st.key) && vb.Holds(st.val)
    && st.isKey == isKey && st.indx == indx
    && (if isKey then indx < kb.cells.Length else indx < vb.cells.Length)
    && (isKey && indx > 0 ==> indx == |st.key|)
    && (!isKey && indx > 0 ==> indx == |st.val|)
  }

  /** One iteration of the loop body on the buffers; `close` tells whether a node is linked. */
  method Feed(kb: GrowBuf, vb: GrowBuf, isKey: bool, indx: nat, c: char, last: bool, ghost st: UState)
    returns (isKey': bool, indx': nat, close: bool, ghost st': UState)
    requires Mirrors(kb, vb, isKey, indx, st) && StepChar(st, c, last).Some?
    modifies kb, kb.cells, vb, vb.cells
    ensures Mirrors(kb, vb, isKey', indx', st') && StepChar(st, c, last) == Some(st')
    ensures st'.count == st.count + (if close then 1 else 0)
    ensures (kb.cells == old(kb.cells) || fresh(kb.cells)) && (vb.cells == old(vb.cells) || fresh(vb.cells))
  {
    ghost var mid;
    isKey', indx', close, mid := Advance(kb, vb, isKey, indx, c, last, st);
    if close {
      isKey' := true;
      indx' := 0;
      CloseBuffers(kb, vb, mid.key, mid.val);
      st' := Close(mid).value;
    } else {
      st' := mid;
    }
  }

  /** The loop body up to the closing of a pair: the mode switch or the store. */
  method Advance(kb: GrowBuf, vb: GrowBuf, isKey: bool, indx: nat, c: char, last: bool, ghost st: UState)
    returns (isKey': bool, indx': nat, close: bool, ghost mid: UState)
    requires Mirrors(kb, vb, isKey, indx, st)
    modifies kb, kb.cells, vb, vb.cells
    ensures Mirrors(kb, vb, isKey', indx', mid) && mid == Mid(st, c)
    ensures StepChar(st, c, last) == if close then Close(mid) else Some(mid)
    ensures (kb.cells == old(kb.cells) || fresh(kb.cells)) && (vb.cells == old(vb.cells) || fresh(vb.cells))
  {
    mid := Mid(st, c);
    isKey', indx', close := isKey, indx, false;
    if c == '=' && isKey {
      isKey' := false;
      indx' := 0;
    } else if !isKey && c == '&' {
      close := true;
    } else {
      Store(kb, vb, isKey, indx, c, st.key, st.val);
      indx' := indx + 1;
      close := last;
    }
  }

  /** The state after one character, before any closing of the pair. */
  function Mid(st: UState, c: char): UState {
    if c == '=' && st.isKey then st.(isKey := false, indx := 0)
    else if !st.isKey && c == '&' then st
    else if st.isKey then st.(key := Write(st.key, st.indx, c), indx := st.indx + 1)
    else st.(val := Write(st.val, st.indx, c), indx := st.indx + 1)
  }

  /** The store into the buffer of the current mode. */
  method Store(kb: GrowBuf, vb: GrowBuf, isKey: bool, indx: nat, c: char, ghost key: string, ghost val: string)
    requires kb.cells != vb.cells && kb.Holds(key) && vb.Holds(val)
    requires if isKey then indx < kb.cells.Length && (indx == 0 || indx == |key|)
             else indx < vb.cells.Length && (indx == 0 || indx == |val|)
    modifies kb, kb.cells, vb, vb.cells
    ensures kb.cells != vb.cells
    ensures (kb.cells == old(kb.cells) || fresh(kb.cells)) && (vb.cells == old(vb.cells) || fresh(vb.cells))
    ensures isKey ==> kb.Holds(Write(key, indx, c)) && vb.Holds(val) && indx + 1 < kb.cells.Length
    ensures !isKey ==> vb.Holds(Write(val, indx, c)) && kb.Holds(key) && indx + 1 < vb.cells.Length
  {
    if isKey {
      kb.Put(indx, c, key);
    } else {
      vb.Put(indx, c, val);
    }
  }

  /** `urldecode(key_buf); urldecode(val_buf);` */
  method CloseBuffers(kb: GrowBuf, vb: GrowBuf, ghost key: string, ghost val: string)
    requires kb.cells != vb.cells && kb.Holds(key) && vb.Holds(val)
    requires CompleteFrom(CStr(key), 0) && CompleteFrom(CStr(val), 0)
    modifies kb.cells, vb.cells
    ensures kb.Holds(Decoded(CStr(key))) && vb.Holds(Decoded(CStr(val)))
    ensures kb.Content() == Decoded(CStr(key)) && vb.Content() == Decoded(CStr(val))
  {
    kb.Decode(key);
    vb.Decode(val);
  }

  /**
   * `enc_url_get`: walks from the head and returns the value of the first
   * node whose key equals `key` under strcmp, or NULL.
   */
  method Get(url: seq<UrlNode>, key: string) returns (r: Option<string>)
    ensures r.None? <==> forall i :: 0 <= i < |url| ==> url[i].key.Content() != key
    ensures r.Some? ==> exists i :: 0 <= i < |url| && url[i].key.Content() == key
                                    && r.value == url[i].value.Content()
                                    && forall j :: 0 <= j < i ==> url[j].key.Content() != key
  {
    var i := 0;
    while i < |url|
      invariant 0 <= i <= |url|
      invariant forall j :: 0 <= j < i ==> url[j].key.Content() != key
    {
      if url[i].key.Content() == key {
        return Some(url[i].value.Content());
      }
      i := i + 1;
    }
    return None;
  }

  /**
   * `enc_url_free`: for each node from the head, frees its value buffer,
   * then its key buffer; the result lists the buffers passed to free.
   */
  method Free(url: seq<UrlNode>) returns (freed: seq<GrowBuf>)
    ensures |freed| == 2 * |url|
    ensures forall i :: 0 <= i < |url| ==> freed[2 * i] == url[i].value && freed[2 * i + 1] == url[i].key
  {
    freed := [];
    var i := 0;
    while i < |url|
      invariant 0 <= i <= |url| && |freed| == 2 * i
      invariant forall k :: 0 <= k < i ==> freed[2 * k] == url[k].value && freed[2 * k + 1] == url[k].key
    {
      freed := freed + [url[i].value, url[i].key];
      i := i + 1;
    }
  }

  /**
   * A NUL byte within the `len` bytes is stored like any other: for the
   * five bytes "a", NUL, "b=1" the key buffer holds "a", NUL, "b", and its
   * C string, which the node shows, is "a".
   */
  lemma StoredNulCutsKey()
    ensures Run("a\0b=1", UStart).Some?
    ensures Run("a\0b=1", UStart).value.key == "a"
    ensures AsWritten("a\0b=1") == [Pair("a", Some("1"))]
  {
    RunNulKey();
    CStrPlain("a");
    CStrPlain("1");
  }

  /** The run over "a", NUL, "b=1", one byte at a time. */
  lemma RunNulKey()
    ensures Run("a\0b=1", UStart) == Some(UState(true, 0, "a", "1", 1, [Pair("a", Some("1"))]))
  {
    var s := "a\0b=1";
    var st1 := UState(true, 1, "a", [], 0, []);
    var st2 := UState(true, 2, "a\0", [], 0, []);
    var st3 := UState(true, 3, "a\0b", [], 0, []);
    var st4 := UState(false, 0, "a\0b", [], 0, []);
    assert Write([], 0, 'a') == "a" && Write("a", 1, '\0') == "a\0" && Write("a\0", 2, 'b') == "a\0b";
    assert StepChar(UStart, 'a', false) == Some(st1);
    assert StepChar(st1, '\0', false) == Some(st2);
    assert StepChar(st2, 'b', false) == Some(st3);
    assert StepChar(st3, '=', false) == Some(st4);
    CloseNulKey(st4);
    RunStep(s, 0, UStart);
    RunStep(s, 1, st1);
    RunStep(s, 2, st2);
    RunStep(s, 3, st3);
    RunStep(s, 4, st4);
    assert s[5..] == [];
  }

  /** The pair closed at the end of "a", NUL, "b=1". */
  lemma CloseNulKey(st4: UState)
    requires st4 == UState(false, 0, "a\0b", [], 0, [])
    ensures StepChar(st4, '1', true) == Some(UState(true, 0, "a", "1", 1, [Pair("a", Some("1"))]))
  {
    assert CStr("a\0b") == "a" by {
      assert CStr("\0b") == [];
      assert "a\0b"[1..] == "\0b";
    }
    CStrPlain("a");
    CStrPlain("1");
    assert CompleteFrom("a", 0) && CompleteFrom("1", 0);
    assert UrlDecoded("a", 0, '\0') == "a" && UrlDecoded("1", 0, '\0') == "1";
    assert Decoded("a") == "a" && Decoded("1") == "1";
    assert Write([], 0, '1') == "1";
    assert [Pair("a", Some("1"))] + [] == [Pair("a", Some("1"))];
  }

  // The shared buffers, and the parser as it was meant to be.

  /** With two nodes or more, the same value buffer is freed more than once. */
  lemma FreeTwice(url: seq<UrlNode>, freed: seq<GrowBuf>)
    requires |url| >= 2 && url[0] == url[1]
    requires |freed| == 2 * |url|
    requires forall i :: 0 <= i < |url| ==> freed[2 * i] == url[i].value && freed[2 * i + 1] == url[i].key
    ensures freed[0] == freed[2]
  {
    assert freed[2 * 1] == url[1].value;
  }

  /** The pairs linked when each node owns a copy of its decoded key and value, head first. */
  function Fixed(s: string): (r: Option<seq<Pair>>)
    ensures r.Some? <==> Run(s, UStart).Some?
    ensures r.Some? ==> |r.value| == Run(s, UStart).value.count
  {
    match Run(s, UStart)
    case None => None
    case Some(st) => RunCopies(s, UStart); Some(st.copies)
  }

  /** The copies grow by one per node linked. */
  lemma {:induction false} RunCopies(s: string, st: UState)
    requires |st.copies| == st.count && Run(s, st).Some?
    ensures |Run(s, st).value.copies| == Run(s, st).value.count
  {
    if |s| > 0 {
      RunCopies(s[1..], StepChar(st, s[0], |s| == 1).value);
    }
  }

  /**
   * Two fields with different keys, as written: both nodes show the second
   * key and value, so the first key is not found (for "a=1&b=2" both nodes
   * read "b" = "2"); with a copy per node it is.
   */
  lemma SharedBuffersLoseKeys(fa: Query.Field, fb: Query.Field)
    requires Query.Writable(fa) && Query.Writable(fb) && fa.key != fb.key
    ensures Run(Query.Serialize([fa, fb]), UStart).Some?
    ensures AsWritten(Query.Serialize([fa, fb])) == [Pair(fb.key, Some(fb.value)), Pair(fb.key, Some(fb.value))]
    ensures Lookup(AsWritten(Query.Serialize([fa, fb])), fa.key).None?
    ensures Fixed(Query.Serialize([fa, fb])) == Some([Pair(fb.key, Some(fb.value)), Pair(fa.key, Some(fa.value))])
    ensures Lookup(Fixed(Query.Serialize([fa, fb])).value, fa.key) == Some(Some(fa.value))
  {
    var fs := [fa, fb];
    assert forall i :: 0 <= i < |fs| ==> Query.Writable(fs[i]);
    FixedSerialized(fs);
    AsWrittenSerialized(fs);
    assert Query.Pairs(fs) == [Pair(fb.key, Some(fb.value)), Pair(fa.key, Some(fa.value))] by {
      assert fs[1..] == [fb] && fs[1..][1..] == [];
    }
    var w := AsWritten(Query.Serialize(fs));
    assert w == [Pair(fb.key, Some(fb.value)), Pair(fb.key, Some(fb.value))];
    assert w[1..][1..] == [];
  }

  // The round trip of the copying parser.

  /** Running over a + b, with b not empty, is running over a with no step the last, then over b. */
  function RunPrefix(a: string, st: UState): Option<UState> {
    if |a| == 0 then Some(st)
    else
      match StepChar(st, a[0], false)
      case None => None
      case Some(st') => RunPrefix(a[1..], st')
  }

  lemma {:induction false} RunAppend(a: string, b: string, st: UState)
    requires |b| > 0
    ensures Run(a + b, st) == (match RunPrefix(a, st)
                               case None => None
                               case Some(st') => Run(b, st'))
  {
    if |a| > 0 {
      assert |a + b| != 1;
      assert (a + b)[0] == a[0];
      assert (a + b)[1..] == a[1..] + b;
      var step := StepChar(st, a[0], false);
      assert Run(a + b, st) == (match step
                                case None => None
                                case Some(st') => Run(a[1..] + b, st'));
      if step.Some? {
        RunAppend(a[1..], b, step.value);
      }
    } else {
      assert a + b == b;
    }
  }

  /** In key mode, with the index at the end of the key, characters without '=' extend it. */
  lemma {:induction false} KeyChars(k: string, st: UState)
    requires st.isKey && st.indx == |st.key| && '=' !in k
    ensures RunPrefix(k, st) == Some(st.(key := st.key + k, indx := st.indx + |k|))
  {
    if |k| > 0 {
      assert '=' !in k[1..] by { assert forall x :: x in k[1..] ==> x in k; }
      var st1 := st.(key := st.key + [k[0]], indx := st.indx + 1);
      if st.indx == 0 {
        assert st.key + [k[0]] == Write(st.key, 0, k[0]);
      }
      assert StepChar(st, k[0], false) == Some(st1);
      KeyChars(k[1..], st1);
      assert st.key + [k[0]] + k[1..] == st.key + k;
    } else {
      assert st.key + k == st.key;
    }
  }

  /** In value mode, with the index at the end of the value, characters without '&' extend it. */
  lemma {:induction false} ValueChars(v: string, st: UState)
    requires !st.isKey && st.indx == |st.val| && '&' !in v
    ensures RunPrefix(v, st) == Some(st.(val := st.val + v, indx := st.indx + |v|))
  {
    if |v| > 0 {
      assert '&' !in v[1..] by { assert forall x :: x in v[1..] ==> x in v; }
      var st1 := st.(val := st.val + [v[0]], indx := st.indx + 1);
      if st.indx == 0 {
        assert st.val + [v[0]] == Write(st.val, 0, v[0]);
      }
      assert StepChar(st, v[0], false) == Some(st1);
      ValueChars(v[1..], st1);
      assert st.val + [v[0]] + v[1..] == st.val + v;
    } else {
      assert st.val + v == st.val;
    }
  }

  /** Whether an escape is complete from index i on depends only on what follows it. */
  lemma {:induction false} CompleteShift(p: string, r: string, i: nat)
    requires i <= |r|
    ensures CompleteFrom(p + r, |p| + i) == CompleteFrom(r, i)
    decreases |r| - i
  {
    if i < |r| {
      assert (p + r)[|p| + i] == r[i];
      if r[i] == '%' {
        if i + 3 <= |r| {
          CompleteShift(p, r, i + 3);
        }
      } else {
        CompleteShift(p, r, i + 1);
      }
    }
  }

  /** Form encoding never leaves an escape unfinished. */
  lemma {:induction false} EncodeComplete(t: string)
    requires Percent.Bytes(t)
    ensures CompleteFrom(Percent.Encode(t), 0)
  {
    if |t| > 0 {
      assert Percent.Bytes(t[1..]);
      EncodeComplete(t[1..]);
      var e := Percent.EncodeChar(t[0]);
      var r := Percent.Encode(t[1..]);
      CompleteShift(e, r, 0);
      assert Percent.Encode(t) == e + r;
      if |e| == 3 {
        assert CompleteFrom(e + r, 0) == CompleteFrom(e + r, 3);
      } else {
        assert e[0] != '%';
        assert CompleteFrom(e + r, 0) == CompleteFrom(e + r, 1);
      }
    }
  }

  /** A buffer holding an encoded string decodes back to it. */
  lemma DecodedEncode(t: string)
    requires Percent.Bytes(t) && '\0' !in t
    ensures CompleteFrom(Percent.Encode(t), 0) && Decoded(Percent.Encode(t)) == t
  {
    EncodeComplete(t);
    Percent.UrlDecodeAgrees(Percent.Encode(t), 0, '\0');
    Percent.DecodeEncode(t, '\0');
    CStrPlain(t);
  }

  /** A key in key mode, then '=': the key buffer holds the key and value mode starts. */
  lemma KeyThenEquals(ek: string, rest: string, st: UState)
    requires st.isKey && st.indx == 0 && |ek| > 0 && '=' !in ek
    ensures Run(ek + "=" + rest, st) == Run(rest, st.(isKey := false, indx := 0, key := ek))
  {
    var st1 := st.(key := [ek[0]], indx := 1);
    assert ek[0] in ek && Write(st.key, 0, ek[0]) == [ek[0]];
    assert StepChar(st, ek[0], false) == Some(st1);
    assert '=' !in ek[1..] by { assert forall x :: x in ek[1..] ==> x in ek; }
    KeyChars(ek[1..], st1);
    assert [ek[0]] + ek[1..] == ek;
    assert RunPrefix(ek, st) == Some(st.(key := ek, indx := |ek|));
    assert ek + "=" + rest == ek + ("=" + rest);
    RunAppend(ek, "=" + rest, st);
    assert ("=" + rest)[0] == '=' && ("=" + rest)[1..] == rest;
  }

  /** A value in value mode, up to just before its last character. */
  lemma ValueBody(ev: string, st: UState)
    requires !st.isKey && st.indx == 0 && |ev| > 0 && '&' !in ev
    ensures RunPrefix(ev, st) == Some(st.(val := ev, indx := |ev|))
  {
    var st1 := st.(val := [ev[0]], indx := 1);
    assert ev[0] in ev && Write(st.val, 0, ev[0]) == [ev[0]];
    assert StepChar(st, ev[0], false) == Some(st1);
    assert '&' !in ev[1..] by { assert forall x :: x in ev[1..] ==> x in ev; }
    ValueChars(ev[1..], st1);
    assert [ev[0]] + ev[1..] == ev;
  }

  /** A value, then '&': the pair closes. */
  lemma ValueThenAmp(ev: string, rest: string, st: UState)
    requires !st.isKey && st.indx == 0 && |ev| > 0 && '&' !in ev
    ensures Run(ev + "&" + rest, st) == (match Close(st.(val := ev, indx := |ev|))
                                         case None => None
                                         case Some(st') => Run(rest, st'))
  {
    ValueBody(ev, st);
    assert ev + "&" + rest == ev + ("&" + rest);
    RunAppend(ev, "&" + rest, st);
    assert ("&" + rest)[0] == '&' && ("&" + rest)[1..] == rest;
  }

  /** A value that runs to the end: its last character closes the pair. */
  lemma ValueToEnd(ev: string, st: UState)
    requires !st.isKey && st.indx == 0 && |ev| > 0 && '&' !in ev
    ensures Run(ev, st) == Close(st.(val := ev, indx := |ev|))
  {
    var m := |ev|;
    var pre, c := ev[..m - 1], ev[m - 1];
    SplitLast(ev);
    assert c in ev;
    RunAppend(pre, [c], st);
    if m == 1 {
      assert pre == [];
      assert StepChar(st, c, true) == Close(st.(val := [c], indx := 1));
    } else {
      assert '&' !in pre by { assert forall x :: x in pre ==> x in ev; }
      ValueBody(pre, st);
      var mid := st.(val := pre, indx := |pre|);
      assert StepChar(mid, c, true) == Close(st.(val := ev, indx := m));
    }
  }

  /** Closing a pair read from an encoded field records exactly that field. */
  lemma CloseField(f: Query.Field, st: UState)
    requires Query.Writable(f)
    ensures Close(st.(isKey := false, key := Percent.Encode(f.key), val := Percent.Encode(f.value), indx := |Percent.Encode(f.value)|))
            == Some(UState(true, 0, f.key, f.value, st.count + 1, [Pair(f.key, Some(f.value))] + st.copies))
  {
    Query.EncodeClean(f.key);
    Query.EncodeClean(f.value);
    CStrPlain(Percent.Encode(f.key));
    CStrPlain(Percent.Encode(f.value));
    DecodedEncode(f.key);
    DecodedEncode(f.value);
  }

  /** One field that ends the input. */
  lemma LastField(f: Query.Field, st: UState)
    requires Query.Writable(f) && st.isKey && st.indx == 0
    ensures Run(Query.Item(f), st)
            == Some(UState(true, 0, f.key, f.value, st.count + 1, [Pair(f.key, Some(f.value))] + st.copies))
  {
    var ek, ev := Percent.Encode(f.key), Percent.Encode(f.value);
    Query.EncodeClean(f.key);
    Query.EncodeClean(f.value);
    KeyThenEquals(ek, ev, st);
    ValueToEnd(ev, st.(isKey := false, indx := 0, key := ek));
    CloseField(f, st);
  }

  /** One field followed by '&' and more input. */
  lemma InnerField(f: Query.Field, rest: string, st: UState)
    requires Query.Writable(f) && st.isKey && st.indx == 0
    ensures Run(Query.Item(f) + "&" + rest, st)
            == Run(rest, UState(true, 0, f.key, f.value, st.count + 1, [Pair(f.key, Some(f.value))] + st.copies))
  {
    var ek, ev := Percent.Encode(f.key), Percent.Encode(f.value);
    Query.EncodeClean(f.key);
    Query.EncodeClean(f.value);
    assert Query.Item(f) + "&" + rest == ek + "=" + (ev + "&" + rest);
    KeyThenEquals(ek, ev + "&" + rest, st);
    ValueThenAmp(ev, rest, st.(isKey := false, indx := 0, key := ek));
    CloseField(f, st);
  }

  /** The loop runs through the fields in order, one node per field, the last field in the buffers. */
  lemma {:induction false} RunSerialized(fs: seq<Query.Field>, st: UState)
    requires |fs| > 0 && forall i :: 0 <= i < |fs| ==> Query.Writable(fs[i])
    requires st.isKey && st.indx == 0
    ensures Run(Query.Serialize(fs), st)
            == Some(UState(true, 0, fs[|fs| - 1].key, fs[|fs| - 1].value, st.count + |fs|, Query.Pairs(fs) + st.copies))
  {
    var p := Pair(fs[0].key, Some(fs[0].value));
    if |fs| == 1 {
      LastField(fs[0], st);
      assert Query.Pairs(fs) == [p] by { assert Query.Pairs(fs[1..]) == []; }
    } else {
      Query.WritableTail(fs);
      var rest := Query.Serialize(fs[1..]);
      var st1 := UState(true, 0, fs[0].key, fs[0].value, st.count + 1, [p] + st.copies);
      assert Query.Serialize(fs) == Query.Item(fs[0]) + "&" + rest;
      InnerField(fs[0], rest, st);
      RunSerialized(fs[1..], st1);
      LastOfTail(fs);
      Query.PairsStep(fs, st.copies);
    }
  }

  /**
   * Round trip of the copying parser: a form written from fields with
   * non-empty keys and values parses back to those fields, newest first.
   */
  lemma FixedSerialized(fs: seq<Query.Field>)
    requires |fs| > 0 && forall i :: 0 <= i < |fs| ==> Query.Writable(fs[i])
    ensures Fixed(Query.Serialize(fs)) == Some(Query.Pairs(fs))
  {
    RunSerialized(fs, UStart);
    assert Query.Pairs(fs) + [] == Query.Pairs(fs);
  }

  /**
   * The same input as written: one node per field, every node showing the
   * last field, so only the last key is found.
   */
  lemma AsWrittenSerialized(fs: seq<Query.Field>)
    requires |fs| > 0 && forall i :: 0 <= i < |fs| ==> Query.Writable(fs[i])
    ensures Run(Query.Serialize(fs), UStart).Some?
    ensures var w := AsWritten(Query.Serialize(fs));
            |w| == |fs| && forall i :: 0 <= i < |w| ==> w[i] == Pair(fs[|fs| - 1].key, Some(fs[|fs| - 1].value))
  {
    RunSerialized(fs, UStart);
    CStrPlain(fs[|fs| - 1].key);
    CStrPlain(fs[|fs| - 1].value);
  }
}

=== FILE: util.dfy ===
/**
 * src/util.c: the string helpers of the first API generation, together with
 * the small pieces of libc (strncmp, strtok_r, sscanf "%02hhx", atoi) that
 * the rest of the model reads strings through.
 *
 * A C string is modelled by its content before the terminating NUL; where a
 * buffer may hold a NUL in the middle, `CStr` cuts it there.
 */
module Util {
  import opened Wrappers

  const INT_MAX: int := 0x7fff_ffff
  const INT_MIN: int := -0x8000_0000

  /** The C string a buffer holds: everything before its first NUL. */
  function CStr(s: string): (r: string)
    ensures |r| <= |s| && r == s[..|r|]
    ensures '\0' !in r
    ensures |r| < |s| ==> s[|r|] == '\0'
  {
    if |s| == 0 || s[0] == '\0' then [] else [s[0]] + CStr(s[1..])
  }

  /** libc `strlen` on a buffer whose first NUL is at index n. */
  method StrLen(a: array<char>, ghost n: nat) returns (len: nat)
    requires n < a.Length && a[n] == '\0' && '\0' !in a[..n]
    ensures len == n
  {
    len := 0;
    while a[len] != '\0'
      invariant len <= n
      invariant '\0' !in a[..len]
      decreases n - len
    {
      assert a[len] in a[..n];
      len := len + 1;
    }
  }

  /** A NUL at index k ends the C string there. */
  lemma {:induction false} CStrAt(s: string, k: nat)
    requires k < |s| && s[k] == '\0'
    ensures CStr(s) == CStr(s[..k])
  {
    if k > 0 && s[0] != '\0' {
      assert s[1..][..k - 1] == s[..k][1..];
      CStrAt(s[1..], k - 1);
    }
  }

  /** A string without NUL is its own C string. */
  lemma {:induction false} CStrPlain(t: string)
    requires '\0' !in t
    ensures CStr(t) == t
  {
    if |t| > 0 {
      assert '\0' !in t[1..] by { assert forall x :: x in t[1..] ==> x in t; }
      CStrPlain(t[1..]);
      assert t == [t[0]] + t[1..];
    }
  }

  predicate IsLetter(c: char) {
    ('A' <= c <= 'Z') || ('a' <= c <= 'z')
  }

  predicate IsDigit(c: char) {
    '0' <= c <= '9'
  }

  /** libc `strncmp(a, b, n) == 0` on strings that are at least n long. */
  function SameFirst(a: string, b: string, n: nat): (r: bool)
    requires n <= |a| && n <= |b|
    ensures r <==> a[..n] == b[..n]
  {
    if n == 0 then true
    else
      assert a[..n] == [a[0]] + a[1..][..n - 1];
      assert b[..n] == [b[0]] + b[1..][..n - 1];
      a[0] == b[0] && SameFirst(a[1..], b[1..], n - 1)
  }

  /** `startswith`: false for NULL arguments; otherwise `pre` is a prefix of `str`. */
  function StartsWith(str: Option<string>, pre: Option<string>): (r: bool)
    ensures r <==> str.Some? && pre.Some? && |pre.value| <= |str.value|
                   && str.value[..|pre.value|] == pre.value
  {
    if str.None? || pre.None? then false
    else if |pre.value| > |str.value| then false
    else SameFirst(pre.value, str.value, |pre.value|)
  }

  /** `endswith`: false for NULL arguments; otherwise `suf` is a suffix of `str`. */
  function EndsWith(str: Option<string>, suf: Option<string>): (r: bool)
    ensures r <==> str.Some? && suf.Some? && |suf.value| <= |str.value|
                   && str.value[|str.value| - |suf.value|..] == suf.value
  {
    if str.None? || suf.None? then false
    else if |suf.value| > |str.value| then false
    else
      var tail := str.value[|str.value| - |suf.value|..];
      SameFirst(tail, suf.value, |suf.value|)
  }

  function Pow10(k: nat): (r: nat)
    ensures r >= 1
  {
    if k == 0 then 1 else 10 * Pow10(k - 1)
  }

  /** The magnitude `digits` counts: |n|, with INT_MIN read as INT_MAX. */
  function Magnitude(n: int): nat {
    if n == INT_MIN then INT_MAX else if n < 0 then -n else n
  }

  /** `digits(n)`: the number of decimal digits of the magnitude of a 32-bit int. */
  function Digits(n: int): (r: nat)
    requires INT_MIN <= n <= INT_MAX
    ensures r >= 1 && Magnitude(n) < Pow10(r)
    ensures r > 1 ==> Pow10(r - 1) <= Magnitude(n)
    decreases n < 0, if n < 0 then 0 else n
  {
    if n < 0 then Digits(if n == INT_MIN then INT_MAX else -n)
    else if n < 10 then 1
    else Digits(n / 10) + 1
  }

  /** `join`: the two paths with one slash between them (`"%s/%s"`). */
  function Join(p1: string, p2: string): (r: string)
    ensures |r| == |p1| + 1 + |p2| && r[..|p1|] == p1 && r[|p1|] == '/' && r[|p1| + 1..] == p2
  {
    p1 + "/" + p2
  }

  /** `contains`: the character occurs before the string's terminator. */
  function Contains(str: string, c: char): (r: bool)
    ensures r <==> c in CStr(str)
  {
    if |str| == 0 || str[0] == '\0' then false
    else str[0] == c || Contains(str[1..], c)
  }

  /** The validity `validate` checks at one index. */
  predicate ValidAt(str: string, valids: string, end: char, i: int)
    requires 0 <= i < |str|
  {
    str[i] in valids || (end != '\0' && i == |str| - 1 && str[i] == end)
  }

  /**
   * `validate`: every character is one of `valids`, except that the last one
   * may instead be `end` when `end` is not NUL.
   */
  method Validate(str: string, valids: string, end: char) returns (r: bool)
    ensures r <==> forall i :: 0 <= i < |str| ==> ValidAt(str, valids, end, i)
  {
    var c := 0;
    while c < |str|
      invariant 0 <= c <= |str|
      invariant forall i :: 0 <= i < c ==> ValidAt(str, valids, end, i)
    {
      var pass := false;
      var v := 0;
      while v < |valids|
        invariant 0 <= v <= |valids|
        invariant pass <==> str[c] in valids[..v]
      {
        if str[c] == valids[v] {
          pass := true;
          break;
        }
        v := v + 1;
      }
      assert pass <==> str[c] in valids by {
        if !pass { assert valids[..v] == valids; }
      }
      if end != '\0' && c == |str| - 1 && str[c] == end {
        pass := true;
      }
      if !pass {
        assert !ValidAt(str, valids, end, c);
        return false;
      }
      c := c + 1;
    }
    return true;
  }

  // sscanf(p, "%02hhx", &val)

  predicate IsHex(c: char) {
    IsDigit(c) || ('a' <= c <= 'f') || ('A' <= c <= 'F')
  }

  function HexVal(c: char): (r: nat)
    requires IsHex(c)
    ensures r < 16
  {
    if IsDigit(c) then c as int - '0' as int
    else if 'a' <= c <= 'f' then c as int - 'a' as int + 10
    else c as int - 'A' as int + 10
  }

  /** `isspace` in the C locale: space, and tab through carriage return. */
  predicate IsSpace(c: char) {
    c == ' ' || 9 <= c as int <= 13
  }

  /** The byte a '-' makes of the magnitude v once it is stored in an `unsigned char`. */
  function Negated(v: nat): (r: nat)
    requires v < 256
    ensures r < 256 && (r + v) % 256 == 0
  {
    (256 - v) % 256
  }

  /**
   * What the conversion `%02hhx` of `sscanf` stores when it reads the C
   * string t (section 7.21.6.2 of ISO C11, as glibc implements it): white
   * space is skipped; the field is then at most two characters, an optional
   * sign taking one of them; the hex digits read give the value, negated
   * modulo 256 after a '-'. None when the field holds no digit (t empty, a
   * sign alone, or any other character): nothing is stored.
   */
  function ScanHexField(t: string): (r: Option<char>)
    ensures |t| >= 2 && IsHex(t[0]) && IsHex(t[1]) ==> r == Some((16 * HexVal(t[0]) + HexVal(t[1])) as char)
    ensures r.Some? ==> r.value as int < 256
    ensures t == [] ==> r.None?
    decreases |t|
  {
    if t == [] then None
    else if IsSpace(t[0]) then ScanHexField(t[1..])
    else if t[0] == '-' || t[0] == '+' then
      if |t| >= 2 && IsHex(t[1]) then
        Some((if t[0] == '-' then Negated(HexVal(t[1])) else HexVal(t[1])) as char)
      else None
    else if IsHex(t[0]) then
      Some((if |t| >= 2 && IsHex(t[1]) then 16 * HexVal(t[0]) + HexVal(t[1]) else HexVal(t[0])) as char)
    else None
  }

  /** The byte `val` holds after `sscanf(t, "%02hhx", &val)` when it held prev before. */
  function ScanHex(t: string, prev: char): (r: char)
    ensures |t| >= 2 && IsHex(t[0]) && IsHex(t[1]) ==> r as int == 16 * HexVal(t[0]) + HexVal(t[1])
    ensures ScanHexField(t).None? ==> r == prev
  {
    match ScanHexField(t)
    case Some(b) => b
    case None => prev
  }

  /** A hex digit followed by anything but a hex digit is read alone: "%4z" gives 4. */
  lemma ScanHexOneDigit(a: char, b: char, rest: string)
    requires IsHex(a) && !IsHex(b)
    ensures ScanHexField([a, b] + rest) == Some(HexVal(a) as char)
  {
    var t := [a, b] + rest;
    assert t[0] == a && t[1] == b;
    assert !IsSpace(a) && a != '-' && a != '+';
  }

  /** White space before the field is skipped: "% 41" gives 'A'. */
  lemma ScanHexSkipsSpace(sp: string, t: string)
    requires forall k :: 0 <= k < |sp| ==> IsSpace(sp[k])
    ensures ScanHexField(sp + t) == ScanHexField(t)
    decreases |sp|
  {
    if sp != [] {
      assert (sp + t)[0] == sp[0] && (sp + t)[1..] == sp[1..] + t;
      ScanHexSkipsSpace(sp[1..], t);
    } else {
      assert sp + t == t;
    }
  }

  /** A sign takes one of the two characters: "%-1" gives 0xFF, "%+12" gives 1. */
  lemma ScanHexSigned(sign: char, d: char, rest: string)
    requires (sign == '-' || sign == '+') && IsHex(d)
    ensures ScanHexField([sign, d] + rest) == Some((if sign == '-' then Negated(HexVal(d)) else HexVal(d)) as char)
  {
    var t := [sign, d] + rest;
    assert t[0] == sign && t[1] == d;
  }

  /** No digit in the field stores nothing: a '%' at the end, "%-z" or "%zz". */
  lemma ScanHexNoDigit(c: char, rest: string)
    requires !IsSpace(c) && !IsHex(c)
    requires (c == '-' || c == '+') ==> rest == [] || !IsHex(rest[0])
    ensures ScanHexField([c] + rest) == None
  {
    var t := [c] + rest;
    assert t[0] == c && t[1..] == rest;
  }

  /**
   * `sscanf(&a[i], "%02hhx", &val)`, `val` holding prev, where a[i..] holds
   * the C string t: it reads past the white space, then at most two
   * characters, and never past the NUL.
   */
  method ScanHexAt(a: array<char>, i: nat, prev: char, ghost t: string) returns (v: char)
    requires i + |t| < a.Length && a[i..i + |t|] == t && a[i + |t|] == '\0' && '\0' !in t
    ensures v == ScanHex(t, prev)
  {
    var j := i;
    while IsSpace(a[j])
      invariant i <= j <= i + |t|
      invariant ScanHexField(t) == ScanHexField(t[j - i..])
      decreases i + |t| - j
    {
      assert j < i + |t|;
      assert a[j] == a[i..i + |t|][j - i] == t[j - i];
      assert t[j - i..][0] == t[j - i] && t[j - i..][1..] == t[j - i + 1..];
      j := j + 1;
    }
    ghost var u := t[j - i..];
    assert j < i + |t| ==> a[j] == t[j - i] && u[0] == a[j];
    assert j < i + |t| - 1 ==> a[j + 1] == t[j - i + 1] && u[1] == a[j + 1];
    assert j == i + |t| ==> u == [];
    assert j == i + |t| - 1 ==> a[j + 1] == '\0' && |u| == 1;
    var c := a[j];
    if c == '-' || c == '+' {
      if IsHex(a[j + 1]) {
        var d := HexVal(a[j + 1]);
        v := (if c == '-' then Negated(d) else d) as char;
      } else {
        v := prev;
      }
    } else if IsHex(c) {
      if IsHex(a[j + 1]) {
        v := (16 * HexVal(c) + HexVal(a[j + 1])) as char;
      } else {
        v := HexVal(c) as char;
      }
    } else {
      v := prev;
    }
  }

  // urldecode

  /** From index i on, no `%` the decoder meets is closer than two characters to the end. */
  predicate CompleteFrom(s: string, i: nat)
    decreases |s| - i
  {
    if i >= |s| then true
    else if s[i] == '%' then i + 3 <= |s| && CompleteFrom(s, i + 3)
    else CompleteFrom(s, i + 1)
  }

  /** What `urldecode` writes for the C string s from index i on, `value` holding prev. */
  function UrlDecoded(s: string, i: nat, prev: char): (r: string)
    requires i <= |s| && CompleteFrom(s, i)
    ensures |r| <= |s| - i
    decreases |s| - i
  {
    if i == |s| then []
    else if s[i] == '+' then [' '] + UrlDecoded(s, i + 1, prev)
    else if s[i] == '%' then
      var v := ScanHex(s[i + 1..], prev);
      [v] + UrlDecoded(s, i + 3, v)
    else [s[i]] + UrlDecoded(s, i + 1, prev)
  }

  /**
   * `urldecode`: rewrites the NUL-terminated string held in a[..n] in place.
   * Its `value` starts uninitialised in C; the model starts it at NUL.
   */
  method UrlDecode(a: array<char>, n: nat)
    requires n < a.Length && a[n] == '\0' && '\0' !in a[..n]
    requires CompleteFrom(a[..n], 0)
    modifies a
    ensures var d := UrlDecoded(old(a[..n]), 0, '\0');
            |d| <= n && a[..|d|] == d && a[|d|] == '\0'
  {
    ghost var s := a[..n];
    ghost var whole := UrlDecoded(s, 0, '\0');
    var cur := 0;
    var step := 0;
    var value := '\0';
    while a[cur] != '\0'
      invariant 0 <= step <= cur <= n && |s| == n
      invariant forall k :: cur <= k < n ==> a[k] == s[k]
      invariant a[n] == '\0'
      invariant CompleteFrom(s, cur)
      invariant a[..step] + UrlDecoded(s, cur, value) == whole
      decreases n - cur
    {
      assert cur < n;
      var ch, adv;
      ghost var rest;
      ch, adv, value, rest := DecodeAt(a, cur, value, s);
      ghost var pre := a[..step];
      AppendOne(pre, ch, rest, whole);
      WriteAt(a, step, ch, cur + adv, s);
      cur := cur + adv;
      step := step + 1;
    }
    a[step] := '\0';
  }

  /** One character of the `urldecode` loop: what it writes, how far it reads, and the new `value`. */
  method DecodeAt(a: array<char>, cur: nat, value: char, ghost s: string)
    returns (ch: char, adv: nat, value': char, ghost rest: string)
    requires cur < |s| < a.Length && CompleteFrom(s, cur) && a[|s|] == '\0' && '\0' !in s
    requires forall k :: cur <= k < |s| ==> a[k] == s[k]
    ensures 1 <= adv && cur + adv <= |s| && CompleteFrom(s, cur + adv)
    ensures rest == UrlDecoded(s, cur + adv, value') && UrlDecoded(s, cur, value) == [ch] + rest
  {
    ch, adv, value' := a[cur], 1, value;
    if ch == '+' {
      ch := ' ';
    } else if ch == '%' {
      assert a[cur + 1..|s|] == s[cur + 1..];
      assert '\0' !in s[cur + 1..] by { assert forall x :: x in s[cur + 1..] ==> x in s; }
      value' := ScanHexAt(a, cur + 1, value, s[cur + 1..]);
      ch := value';
      adv := 3;
    }
    rest := UrlDecoded(s, cur + adv, value');
  }

  /** The write of the decoding loop: it lands behind the part still to be read. */
  method WriteAt(a: array<char>, step: nat, ch: char, ghost from: nat, ghost s: string)
    requires step < from <= |s| < a.Length
    requires forall k :: from <= k < |s| ==> a[k] == s[k]
    modifies a
    ensures forall k :: from <= k < |s| ==> a[k] == s[k]
    ensures a[..step + 1] == old(a[..step]) + [ch] && a[|s|] == old(a[|s|])
  {
    a[step] := ch;
  }

  lemma AppendAssoc<T>(a: seq<T>, b: seq<T>, c: seq<T>)
    ensures (a + b) + c == a + (b + c)
  {
  }

  /** A non-empty sequence is its front followed by its last element. */
  lemma SplitLast<T>(s: seq<T>)
    requires |s| > 0
    ensures s == s[..|s| - 1] + [s[|s| - 1]]
  {
  }

  /** The last element of a tail is the last element. */
  lemma LastOfTail<T>(s: seq<T>)
    requires |s| > 1
    ensures s[1..][|s| - 2] == s[|s| - 1]
  {
  }

  /** Moving one decoded character from the pending part to the written part. */
  lemma AppendOne(pre: string, ch: char, rest: string, whole: string)
    requires pre + ([ch] + rest) == whole
    ensures (pre + [ch]) + rest == whole
  {
    assert pre + ([ch] + rest) == (pre + [ch]) + rest;
  }

  /** The characters `stolower` maps: ASCII capitals, as tolower does in the C locale. */
  function Lower(c: char): char {
    if 'A' <= c <= 'Z' then (c as int + 32) as char else c
  }

  /** `stolower`: writes the lower-cased copy of src, NUL-terminated, into dst. */
  method StoLower(src: string, dst: array<char>)
    requires '\0' !in src && |src| < dst.Length
    modifies dst
    ensures |src| < dst.Length && dst[|src|] == '\0'
    ensures forall i :: 0 <= i < |src| ==> dst[i] == Lower(src[i])
    ensures forall i :: 0 <= i < |src| ==> !('A' <= dst[i] <= 'Z')
  {
    var i := 0;
    while i < |src|
      invariant 0 <= i <= |src|
      invariant forall j :: 0 <= j < i ==> dst[j] == Lower(src[j])
    {
      dst[i] := Lower(src[i]);
      i := i + 1;
    }
    dst[i] := '\0';
  }

  // strtok_r with a one-character delimiter set

  /** Length of the run of non-delimiter characters at the start of s. */
  function RunLen(s: string, d: char): (k: nat)
    ensures k <= |s| && d !in s[..k] && (k < |s| ==> s[k] == d)
  {
    if |s| == 0 || s[0] == d then 0 else 1 + RunLen(s[1..], d)
  }

  /**
   * The tokens successive `strtok_r(…, "d", &save)` calls return: the maximal
   * non-empty runs without d, in order.
   */
  function Tokens(s: string, d: char): (r: seq<string>)
    ensures forall i :: 0 <= i < |r| ==> |r[i]| > 0 && d !in r[i]
    decreases |s|
  {
    if |s| == 0 then []
    else if s[0] == d then Tokens(s[1..], d)
    else var k := RunLen(s, d); [s[..k]] + Tokens(s[k..], d)
  }

  function Count(s: string, c: char): nat {
    if |s| == 0 then 0 else (if s[0] == c then 1 else 0) + Count(s[1..], c)
  }

  /** A path written as a slash before every segment: ["a", "b"] is "/a/b". */
  function SlashPath(segs: seq<string>): string {
    if |segs| == 0 then [] else "/" + segs[0] + SlashPath(segs[1..])
  }

  // path_matches

  datatype Match = Matches | NoMatch | NullDeref

  /** Drops one trailing '/', as path_matches does to its copies. */
  function DropTrailingSlash(s: string): string {
    if |s| > 0 && s[|s| - 1] == '/' then s[..|s| - 1] else s
  }

  /** Segment i passes the comparison loop of `path_matches`. */
  predicate SegmentPasses(rs: seq<string>, ps: seq<string>, i: nat) {
    i < |rs| && i < |ps| && ((|rs[i]| > 0 && rs[i][0] == '*') || rs[i] == ps[i])
  }

  /** The first index from k on below sc whose segment fails, or sc when none does. */
  function FirstFailing(rs: seq<string>, ps: seq<string>, k: nat, sc: nat): (r: nat)
    requires k <= sc
    ensures k <= r <= sc
    ensures forall j :: k <= j < r ==> SegmentPasses(rs, ps, j)
    ensures r < sc ==> !SegmentPasses(rs, ps, r)
    decreases sc - k
  {
    if k == sc then sc
    else if !SegmentPasses(rs, ps, k) then k
    else FirstFailing(rs, ps, k + 1, sc)
  }

  /**
   * What `path_matches` decides, stated segment-wise: after the NULL, slash
   * and no-wildcard checks, the two paths (one trailing '/' dropped) need the
   * same number of slashes, the route of a lone star segment matches any one-segment path, and otherwise every
   * route token must be present, and start with '*' or equal the path token.
   * When both token lists run out at the first failing index the C code
   * dereferences NULL.
   */
  function PathMatchSpec(route: Option<string>, path: Option<string>): Match {
    if route.None? || path.None? then NoMatch
    else
      var rt, pt := route.value, path.value;
      if |rt| == 0 || rt[0] != '/' || |pt| == 0 || pt[0] != '/' then NoMatch
      else if '*' !in rt then (if rt == pt then Matches else NoMatch)
      else
        var r, p := DropTrailingSlash(rt), DropTrailingSlash(pt);
        var sc := Count(r, '/');
        if sc != Count(p, '/') then NoMatch
        else if sc == 1 && r == "/*" then Matches
        else
          var rs, ps := Tokens(r, '/'), Tokens(p, '/');
          var k := FirstFailing(rs, ps, 0, sc);
          if |rs| == 0 || |ps| == 0 then NoMatch
          else if k == sc then Matches
          else if k >= |rs| && k >= |ps| then NullDeref
          else NoMatch
  }

  /** `path_matches`: the counting loop, the tokenising and the comparison loop. */
  method PathMatches(route: Option<string>, path: Option<string>) returns (r: Match)
    ensures r == PathMatchSpec(route, path)
  {
    if route.None? || path.None? {
      return NoMatch;
    }
    var rt, pt := route.value, path.value;
    if |rt| == 0 || rt[0] != '/' || |pt| == 0 || pt[0] != '/' {
      return NoMatch;
    }
    var wildcard := false;
    var i := 0;
    while i < |rt|
      invariant 0 <= i <= |rt|
      invariant wildcard <==> '*' in rt[..i]
    {
      if rt[i] == '*' {
        wildcard := true;
      }
      assert rt[..i + 1] == rt[..i] + [rt[i]];
      i := i + 1;
    }
    assert rt[..i] == rt;
    if !wildcard {
      return if rt == pt then Matches else NoMatch;
    }
    var rc, pc := DropTrailingSlash(rt), DropTrailingSlash(pt);
    var sc := Count(rc, '/');
    if sc != Count(pc, '/') {
      return NoMatch;
    }
    if sc == 1 && rc == "/*" {
      return Matches;
    }
    var rs, ps := Tokens(rc, '/'), Tokens(pc, '/');
    if |rs| == 0 || |ps| == 0 {
      return NoMatch;
    }
    var k := 0;
    while k < sc
      invariant 0 <= k <= sc
      invariant FirstFailing(rs, ps, k, sc) == FirstFailing(rs, ps, 0, sc)
    {
      if k >= |rs| && k < |ps| {
        return NoMatch;
      }
      if k < |rs| && k >= |ps| {
        return NoMatch;
      }
      if k >= |rs| && k >= |ps| {
        return NullDeref;
      }
      if rs[k][0] != '*' && rs[k] != ps[k] {
        return NoMatch;
      }
      k := k + 1;
    }
    return Matches;
  }
}

/** Properties of `path_matches` on routes and paths written segment by segment. */
module PathMatchProps {
  import opened Wrappers
  import opened Util

  predicate IsSegment(s: string) {
    |s| > 0 && '/' !in s
  }

  predicate Segments(segs: seq<string>) {
    forall i :: 0 <= i < |segs| ==> IsSegment(segs[i])
  }

  /** A path as a client writes it: its segments, and optionally one trailing slash. */
  function Written(segs: seq<string>, trailing: bool): string {
    SlashPath(segs) + (if trailing then "/" else "")
  }

  lemma {:induction false} CountAppend(a: string, b: string, c: char)
    ensures Count(a + b, c) == Count(a, c) + Count(b, c)
  {
    if |a| == 0 {
      assert a + b == b;
    } else {
      assert (a + b)[1..] == a[1..] + b;
      CountAppend(a[1..], b, c);
    }
  }

  lemma {:induction false} RunLenAppend(w: string, t: string, d: char)
    requires d !in w && (|t| == 0 || t[0] == d)
    ensures RunLen(w + t, d) == |w|
  {
    if |w| == 0 {
      assert w + t == t;
    } else {
      assert (w + t)[1..] == w[1..] + t;
      RunLenAppend(w[1..], t, d);
    }
  }

  /** A segment-wise path is "/" followed by its first segment and the path of the rest. */
  lemma SlashPathUnfold(segs: seq<string>)
    requires |segs| > 0
    ensures SlashPath(segs) == "/" + (segs[0] + SlashPath(segs[1..]))
  {
  }

  /** A segment-wise path has one slash per segment. */
  lemma {:induction false} SlashPathCount(segs: seq<string>)
    requires Segments(segs)
    ensures Count(SlashPath(segs), '/') == |segs|
  {
    if |segs| > 0 {
      assert Segments(segs[1..]) && IsSegment(segs[0]);
      SlashPathCount(segs[1..]);
      SlashPathUnfold(segs);
      CountAppend("/", segs[0] + SlashPath(segs[1..]), '/');
      CountAppend(segs[0], SlashPath(segs[1..]), '/');
      CountAbsent(segs[0], '/');
    }
  }

  /** Splitting a segment-wise path at '/' gives back its segments. */
  lemma {:induction false} SlashPathTokens(segs: seq<string>)
    requires Segments(segs)
    ensures Tokens(SlashPath(segs), '/') == segs
  {
    if |segs| > 0 {
      var rest := SlashPath(segs[1..]);
      assert Segments(segs[1..]) && IsSegment(segs[0]);
      SlashPathTokens(segs[1..]);
      SlashPathStarts(segs[1..]);
      SlashPathUnfold(segs);
      TokensSkip(segs[0] + rest, '/');
      TokensRun(segs[0], rest, '/');
      assert [segs[0]] + segs[1..] == segs;
    }
  }

  /** A leading delimiter is skipped. */
  lemma TokensSkip(t: string, d: char)
    ensures Tokens([d] + t, d) == Tokens(t, d)
  {
    assert ([d] + t)[1..] == t;
  }

  /** A non-empty run w up to a delimiter (or the end) is the first token. */
  lemma TokensRun(w: string, t: string, d: char)
    requires |w| > 0 && d !in w && (|t| == 0 || t[0] == d)
    ensures Tokens(w + t, d) == [w] + Tokens(t, d)
  {
    RunLenAppend(w, t, d);
    assert (w + t)[0] == w[0];
    assert (w + t)[..|w|] == w && (w + t)[|w|..] == t;
  }

  /** A non-empty segment-wise path starts with '/' and does not end with one. */
  lemma {:induction false} SlashPathStarts(segs: seq<string>)
    requires Segments(segs)
    ensures |segs| > 0 ==> |SlashPath(segs)| > 0 && SlashPath(segs)[0] == '/'
                           && SlashPath(segs)[|SlashPath(segs)| - 1] != '/'
  {
    if |segs| > 0 {
      var rest := SlashPath(segs[1..]);
      var s := SlashPath(segs);
      assert Segments(segs[1..]) && IsSegment(segs[0]);
      SlashPathStarts(segs[1..]);
      SlashPathUnfold(segs);
      if |segs[1..]| == 0 {
        assert s[|s| - 1] == segs[0][|segs[0]| - 1];
      } else {
        assert s[|s| - 1] == rest[|rest| - 1];
      }
    }
  }

  lemma {:induction false} CountAbsent(s: string, c: char)
    requires c !in s
    ensures Count(s, c) == 0
  {
    if |s| > 0 {
      assert c !in s[1..] by { assert forall x :: x in s[1..] ==> x in s; }
      CountAbsent(s[1..], c);
    }
  }

  lemma WrittenShape(segs: seq<string>, trailing: bool)
    requires Segments(segs) && |segs| > 0
    ensures DropTrailingSlash(Written(segs, trailing)) == SlashPath(segs)
    ensures Written(segs, trailing)[0] == '/'
  {
    SlashPathStarts(segs);
    if !trailing {
      assert Written(segs, trailing) == SlashPath(segs);
    }
  }

  /**
   * For a route with a star in it, `path_matches` compares segment by
   * segment: it matches exactly when both have the same number of segments
   * and every route segment starts with '*' or equals the path's. A trailing
   * slash on either side is ignored, and such inputs never reach the NULL
   * dereference.
   */
  lemma PathMatchBySegments(rsegs: seq<string>, rt: bool, psegs: seq<string>, pt: bool)
    requires Segments(rsegs) && Segments(psegs) && |rsegs| > 0 && |psegs| > 0
    requires '*' in Written(rsegs, rt)
    ensures var m := PathMatchSpec(Some(Written(rsegs, rt)), Some(Written(psegs, pt)));
            m != NullDeref
            && (m == Matches <==>
                |rsegs| == |psegs|
                && forall i :: 0 <= i < |rsegs| ==> rsegs[i][0] == '*' || rsegs[i] == psegs[i])
  {
    SegmentsSpec(rsegs, rt, psegs, pt);
    var sc := |rsegs|;
    if |rsegs| == |psegs| {
      var k := FirstFailing(rsegs, psegs, 0, sc);
      if k < sc {
        assert !SegmentPasses(rsegs, psegs, k);
        assert !(rsegs[k][0] == '*' || rsegs[k] == psegs[k]);
      } else {
        forall i | 0 <= i < |rsegs|
          ensures rsegs[i][0] == '*' || rsegs[i] == psegs[i]
        {
          assert SegmentPasses(rsegs, psegs, i);
        }
      }
    }
  }

  /** What `path_matches` decides on segment-wise paths with a wildcard, in terms of the segments. */
  lemma SegmentsSpec(rsegs: seq<string>, rt: bool, psegs: seq<string>, pt: bool)
    requires Segments(rsegs) && Segments(psegs) && |rsegs| > 0 && |psegs| > 0
    requires '*' in Written(rsegs, rt)
    ensures PathMatchSpec(Some(Written(rsegs, rt)), Some(Written(psegs, pt)))
            == if |rsegs| != |psegs| then NoMatch
               else if FirstFailing(rsegs, psegs, 0, |rsegs|) == |rsegs| then Matches
               else if |rsegs| == 1 && SlashPath(rsegs) == "/*" then Matches
               else NoMatch
  {
    WrittenShape(rsegs, rt);
    WrittenShape(psegs, pt);
    SlashPathTokens(rsegs);
    SlashPathTokens(psegs);
    SlashPathCount(rsegs);
    SlashPathCount(psegs);
  }

  /**
   * A route and a path with an empty last segment make `path_matches` read
   * through NULL: a wildcard route and a path of one segment each, both
   * followed by "//", count two slashes but split into one token each, so the
   * comparison loop reads a second token that is not there.
   */
  lemma PathMatchEmptySegmentCrash(w: string, x: string)
    requires |w| > 0 && w[0] == '*' && '/' !in w
    requires |x| > 0 && '/' !in x
    ensures PathMatchSpec(Some("/" + w + "//"), Some("/" + x + "//")) == NullDeref
  {
    var rt, pt := "/" + w + "//", "/" + x + "//";
    assert rt[1] == '*' && rt[0] == '/' && pt[0] == '/';
    assert DropTrailingSlash(rt) == ['/'] + (w + ['/']) by {
      assert rt[..|rt| - 1] == ['/'] + (w + ['/']);
    }
    assert DropTrailingSlash(pt) == ['/'] + (x + ['/']) by {
      assert pt[..|pt| - 1] == ['/'] + (x + ['/']);
    }
    OneSegmentTokens(w);
    OneSegmentTokens(x);
    OneSegmentCount(w);
    OneSegmentCount(x);
    assert SegmentPasses([w], [x], 0);
  }

  /** "/w/" has two slashes. */
  lemma OneSegmentCount(w: string)
    requires '/' !in w
    ensures Count(['/'] + (w + ['/']), '/') == 2
  {
    CountAppend(['/'], w + ['/'], '/');
    CountAppend(w, ['/'], '/');
    CountAbsent(w, '/');
  }

  /** "/w/" splits into the one token w. */
  lemma OneSegmentTokens(w: string)
    requires |w| > 0 && '/' !in w
    ensures Tokens(['/'] + (w + ['/']), '/') == [w]
  {
    TokensSkip(w + ['/'], '/');
    TokensRun(w, ['/'], '/');
    TokensSkip([], '/');
    assert [] + [w] == [w] && ['/'] + [] == ['/'];
  }

  /**
   * `path_matches` with the NULL dereference removed: when both token lists
   * run out together every present segment has passed, so the paths match.
   */
  function PathMatchesFixed(route: Option<string>, path: Option<string>): (r: bool)
    ensures PathMatchSpec(route, path) != NullDeref ==> (r <==> PathMatchSpec(route, path) == Matches)
  {
    PathMatchSpec(route, path) != NoMatch
  }

  /** Where `path_matches` crashes, the fixed version reports a match. */
  lemma PathMatchesFixedEmptySegment(w: string, x: string)
    requires |w| > 0 && w[0] == '*' && '/' !in w
    requires |x| > 0 && '/' !in x
    ensures PathMatchesFixed(Some("/" + w + "//"), Some("/" + x + "//"))
  {
    PathMatchEmptySegmentCrash(w, x);
  }
}

=== FILE: wrappers.dfy ===
/** Failure-carrying results shared by every module of the model. */
module Wrappers {

  /** A C pointer that may be NULL: `None` is NULL. */
  datatype Option<+T> = None | Some(value: T)

  /** The value a C function returns together with the errno it sets on failure. */
  datatype Result<+T, +E> = Ok(value: T) | Err(error: E)
}
